=== FILE: README.md ===
# pagina-matematicas, modelled in Dafny

This project is a Dafny model of the computational core of *pagina-matematicas*.
That is an educational mathematics website: a chart generator for the math club,
interactive labs, a chatbot, a 3-D robot simulator, a mission landing page, and
serverless endpoints for the olympiad registration and site statistics.

Each component is written as immutable datatypes and pure functions. A click
handler, command or HTTP request becomes one `State × Input → State × Output`
transition. Properties are `ensures` clauses on one call, or lemmas relating
several calls.

| module | file | models |
|---|---|---|
| `VisualData` | visual_data.dfy | club/visualdata.py: parsing chart data and labels, per-chart validation, bin counts, the pie 1% filter, chart dispatch |
| `AlgebraExpr`, `Algebra`, `AlgebraDisplay` | algebra_expr.dfy, algebra.dfy, algebra_display.dfy | lab/javascript/algebra.js: linear expressions as term lists, equation parsing, balanced operations, the solved check, undo, printing |
| `Finance` | finance.dfy | lab/javascript/finanzas.js: input defaults, validation, simple and compound interest series, the table, CSV export |
| `Loan` | loan.dfy | materiales/materiales/loan.js: amortised payment, scenarios, inputs |
| `TrigExplorer` | trig_explorer.dfy | lab/javascript/geometria.js: angle normalisation, quadrants, special angles, keys, animation |
| `GeometryLab` | geometry_lab.dfy | lab/javascript/geometry-lab.js: polyhedron data, perimeter, drawing tools, undo |
| `Figures` | figures.dfy | lab/javascript/figuras.js: colour arithmetic and the figure table |
| `Chatbot` | chatbot.dfy | js/chatbot.js: keyword classification, math sanitiser, message flow, history |
| `RobotPhysics`, `Robot` | robot_physics.dfy, robot.dfy | stem/js/robotPhysics.js and stem/js/robot3d.js: the physics step, obstacles, robot commands, the command interpreter |
| `MissionPage` | mission_page.dfy | club/mision-matematica/script.js: particles, navbar, typewriter, theme |
| `RoleApi` | role_api.dfy | api/role.js: the one-vote-per-browser role poll |
| `OlympiadStore`, `RegisterApi`, `StatsApi`, `ParticipantsApi` | olympiad_store.dfy, register_api.dfy, stats_api.dfy, participants_api.dfy | api/register.js, api/stats.js, api/participants.js over one key-value store |
| `Migration` | migration.dfy | scripts/migrate-data.js: moving browser-stored data to the server |
| `Wrappers`, `Numeric`, `Text`, `Seqs` | wrappers.dfy, numeric.dfy, text.dfy, seqs.dfy | shared helpers: `Option`/`Result`, JavaScript number operations, strings, and order-preserving filters |

JavaScript and Python numbers are modelled as exact `real`s. Integer counters are
modelled as `int`. Strings are sequences of characters. Randomness, clocks,
generated ids and the plotting and 3-D libraries become parameters.

## Model

| member | source | states |
|---|---|---|
| VisualData.ProcessData | club/visualdata.py:55-106 | Blank text yields None. A result is in pair mode exactly when the text contains `;`. Pair results have equally long, non-empty x and y columns, and single results are non-empty. |
| VisualData.ProcessDataSeries | club/visualdata.py:90-102 | In single mode the result exists iff some comma token parses. Its values are exactly those of the parsable tokens. |
| VisualData.ProcessDataPairs | club/visualdata.py:69-88 | In pair mode the result exists iff some `;` piece yields a pair. At every index, x and y come from the same piece. |
| VisualData.SeriesValuesConcat | club/visualdata.py:92-96 | Parsing `a,b` gives the values of `a` followed by the values of `b`: order is kept and each token is judged alone. |
| VisualData.SeriesKeepsAllParsable | club/visualdata.py:92-96 | When every token parses, nothing is dropped. |
| VisualData.ProcessLabels | club/visualdata.py:109-115 | Blank text yields None. Otherwise the result is the stripped non-blank tokens in order, and at least one of them. |
| VisualData.LabelsStrippedNonEmpty | club/visualdata.py:114 | Every label is non-empty, already stripped, and the stripped form of some input token. |
| VisualData.ValidateData | club/visualdata.py:118-133 | Missing data fails and pair data passes. A single series passes iff it has at least 2 values (line, scatter), 1 (bar, pie) or 3 (histogram, box). |
| VisualData.ParsedDataValidForBarAndPie | club/visualdata.py:99-133 | Whatever parsing returns passes the validator for bar, pie and unlisted chart types. |
| VisualData.ValidateMonotone | club/visualdata.py:123-131 | A longer series never fails where a shorter one passes. |
| VisualData.SturgesBins | club/visualdata.py:291 | The histogram bin count `max(5, min(20, ceil(log2 n + 1)))` lies in [5, 20]. |
| VisualData.SturgesBinsEnds | club/visualdata.py:291 | The count is 5 exactly for n ≤ 16 and 20 exactly for n > 2^18. |
| VisualData.SturgesBinsMonotone | club/visualdata.py:291 | More data never gives fewer bins. |
| VisualData.BoxBins | club/visualdata.py:545 | `max(5, min(20, n // 3))` is 5 exactly below 18 values, 20 exactly from 60, and n/3 in between. |
| VisualData.SignificantMask | club/visualdata.py:438-439 | A slice is marked iff its magnitude is at least 1% of the total. |
| VisualData.PieSlices | club/visualdata.py:440 | The kept slices are exactly the values of at least 1% of the total, in input order: there is one slice per such value, and the value at position i is the slice after as many kept values as come before i. |
| VisualData.PieLabels | club/visualdata.py:443-447 | Without typed labels, the kept slices are named "Categoría 1..k". A typed label is kept exactly when its value is kept, at that slice's position. When there are at least as many labels as values, there is one label per slice. Labels beyond the values are dropped. |
| VisualData.PieNeverEmpty | club/visualdata.py:432-440 | With 1 to 100 non-negative values at least one slice survives the filter, because the largest is at least the average. |
| VisualData.ChartTableExact | club/visualdata.py:595-602 | The dispatch table holds exactly the six chart names, each naming its own renderer. |
| VisualData.GenerateVisualization | club/visualdata.py:568-622 | The type is lower-cased and stripped. A renderer is called iff the type is one of the six and the stripped data is non-empty, and a missing renderer means failure. |
| VisualData.GenerateSucceedsIff | club/visualdata.py:568-622 | Generation succeeds iff the type is known, the stripped data parses, and plotting completes. |
| AlgebraExpr.EvalLinear | lab/javascript/algebra.js:460-475 | The left-to-right evaluation of a side equals its summed coefficients times x plus its summed constants, at every x. |
| AlgebraExpr.EvalLinearFrom | lab/javascript/algebra.js:464-472 | The same linearity for the scan from any position on. |
| AlgebraExpr.NoXNoCoef | lab/javascript/algebra.js:466-468 | A side with no `x` contributes no coefficient. |
| AlgebraExpr.WellFormedConcat | lab/javascript/algebra.js:140-167 | Joining term lists keeps every `x` after its coefficient when the second list does not open with `x`. |
| AlgebraExpr.Simplify | lab/javascript/algebra.js:339-375 | The result always has one of the canonical shapes `[c, x]`, `[c, x, d]` or `[d]` with c, d nonzero, or `[0]`. |
| AlgebraExpr.CanonicalWellFormed | lab/javascript/algebra.js:361-374 | Every canonical side is well formed and holds one to three terms. |
| AlgebraExpr.CanonicalSums | lab/javascript/algebra.js:361-374 | The coefficient and the constant of a canonical side are read off its shape. |
| AlgebraExpr.SimplifyPreservesEval | lab/javascript/algebra.js:339-375 | Simplifying a side never changes its value at any x. |
| AlgebraExpr.SimplifyCanonical | lab/javascript/algebra.js:339-375 | A side already in canonical shape is left exactly as it is. |
| AlgebraExpr.SimplifyIdempotent | lab/javascript/algebra.js:339-375 | Simplifying twice gives the same side as simplifying once. |
| AlgebraExpr.FirstConstFrom | lab/javascript/algebra.js:317-322 | The index found is the first constant term at or after the start, or -1 exactly when there is none. |
| AlgebraExpr.AddTo | lab/javascript/algebra.js:313-329 | The first constant absorbs the value (same length) or the value is appended; well-formedness is kept. |
| AlgebraExpr.AddToEval | lab/javascript/algebra.js:313-329 | Adding v to a side adds exactly v to its value at every x. |
| AlgebraExpr.AppendConstCoef | lab/javascript/algebra.js:327 | Appending a constant leaves the coefficient sum unchanged. |
| AlgebraExpr.AppendConstConst | lab/javascript/algebra.js:327 | Appending a constant to a side without one adds it to the constant sum. |
| AlgebraExpr.UpdateConstCoef | lab/javascript/algebra.js:325 | Changing a constant term in place leaves the coefficient sum unchanged. |
| AlgebraExpr.UpdateConstConst | lab/javascript/algebra.js:325 | Changing a constant term in place shifts the constant sum by the same amount. |
| AlgebraExpr.Multiply | lab/javascript/algebra.js:331-337 | Every number is scaled by v and every `x` marker stays in place. |
| AlgebraExpr.MultiplyWellFormed | lab/javascript/algebra.js:331-337 | Scaling keeps every `x` after its coefficient. |
| AlgebraExpr.MultiplyEval | lab/javascript/algebra.js:331-337 | Scaling a side by v multiplies its value at every x by v. |
| AlgebraExpr.MultiplyCoef | lab/javascript/algebra.js:331-337 | Scaling multiplies the coefficient sum by v. |
| AlgebraExpr.MultiplyConst | lab/javascript/algebra.js:331-337 | Scaling multiplies the constant sum by v. |
| AlgebraExpr.MultiplyConstAt | lab/javascript/algebra.js:331-337 | Scaling keeps which terms are constants and scales each of them. |
| Algebra.Scan | lab/javascript/algebra.js:112-127 | Every run the character loop emits is non-empty and free of sign characters. |
| Algebra.StripSigns | lab/javascript/algebra.js:112-123 | The characters kept between sign characters contain no sign. |
| Algebra.TextsAppend | lab/javascript/algebra.js:112-127 | The text of a list of runs splits at any join point. |
| Algebra.ScanTexts | lab/javascript/algebra.js:112-127 | Scanning loses nothing but the sign characters: the runs spell out the side without its signs. |
| Algebra.InTexts | lab/javascript/algebra.js:112-127 | A character occurs in the runs' text exactly when it occurs in one of the runs. |
| Algebra.InStripSigns | lab/javascript/algebra.js:112-123 | A non-sign character survives sign removal exactly when it is in the side. |
| Algebra.ChunksContainX | lab/javascript/algebra.js:141 | Some run holds `x` exactly when the side does. |
| Algebra.ScanNoSigns | lab/javascript/algebra.js:112-127 | A stretch without signs becomes one run, with the sign pending before it. |
| Algebra.ScanAtSign | lab/javascript/algebra.js:115-120 | A sign character closes the pending run and sets the sign of the next one. |
| Algebra.LeadingMinus | lab/javascript/algebra.js:106-110 | A leading minus makes the first term negative. |
| Algebra.ParseTerm | lab/javascript/algebra.js:140-167 | A term that reads is well formed and starts with a number, and holds `x` exactly when its text does. Coefficients and constants are read with `parseFloat`, exponent part included. |
| Algebra.ReadConstantTerm | lab/javascript/algebra.js:158-166 | A run without `x` whose number reads is that signed constant. |
| Algebra.ReadCoefficientTerm | lab/javascript/algebra.js:141-157 | A run with `x` gives its signed coefficient (1 when only `x` is left) followed by `x`. |
| Algebra.ParseTerms | lab/javascript/algebra.js:101-138 | A side that reads is well formed and, when non-empty, starts with a number. |
| Algebra.ParseTermsCons | lab/javascript/algebra.js:101-138 | The terms of consecutive runs are concatenated in order. |
| Algebra.ParseTermsOk | lab/javascript/algebra.js:140-167 | A side reads exactly when every one of its runs reads. |
| Algebra.ParseTermsX | lab/javascript/algebra.js:140-167 | A side that reads holds `x` exactly when one of its runs does. |
| Algebra.ParseExpression | lab/javascript/algebra.js:101-138 | A side that reads is a non-empty well-formed term list, and holds `x` exactly when its text does. |
| Algebra.ParseOnlySigns | lab/javascript/algebra.js:132-135 | A side made only of sign characters reads as `[0]`. |
| Algebra.ParseEquation | lab/javascript/algebra.js:76-99 | Text without `=` is rejected for that reason, and text with an empty side for that one. An accepted equation is exactly the two parsed sides. When both sides parse, the equation is accepted iff one of them holds `x`, and otherwise rejected for the missing variable. |
| Algebra.ParseEquationNeedsX | lab/javascript/algebra.js:94-98 | An equation whose text has no `x` is always rejected. |
| Algebra.ParseEquationIgnoresRest | lab/javascript/algebra.js:84 | Text after a second `=` is ignored: only the first two pieces count. |
| Algebra.SidesIgnoreRest | lab/javascript/algebra.js:78-84 | The two sides cut from `a=b=c` are those cut from `a=b`. |
| Algebra.RemoveSpacesConcat | lab/javascript/algebra.js:78 | Removing whitespace distributes over concatenation. |
| Algebra.ParseEquationAsWrittenAgrees | lab/javascript/algebra.js:76-99 | The as-written parse, which writes the sides early, accepts and rejects the same texts with the same errors and the same equation when it accepts. |
| Algebra.Balance | lab/javascript/algebra.js:269-296 | After the operation both sides are in canonical simplified shape. |
| Algebra.MulCancel | lab/javascript/algebra.js:254-257 | A nonzero factor cancels: v·a = v·b exactly when a = b. |
| Algebra.BalancePreservesSolutions | lab/javascript/algebra.js:269-296 | Adding, subtracting, or multiplying or dividing by a nonzero value on both sides keeps exactly the same solutions. |
| Algebra.CheckIfSolved | lab/javascript/algebra.js:397-411 | A solution is reported exactly when one side is `±x` and the other a lone number. |
| Algebra.EvalUnitX | lab/javascript/algebra.js:401-403 | A side `±x` evaluates to ±y. |
| Algebra.EvalConstant | lab/javascript/algebra.js:402-404 | A lone number evaluates to itself at every x. |
| Algebra.CheckIfSolvedSound | lab/javascript/algebra.js:406-409 | The reported value solves the equation, and it is the equation's only solution. |
| Algebra.UnitSolution | lab/javascript/algebra.js:407 | With a = ±1, a·y = d holds exactly for y = d / a. |
| Algebra.Setup | lab/javascript/algebra.js:50-74 | The input is accepted exactly when its trimmed text parses. An accepted input becomes both the current and the original equation. The history then holds only the starting step for that text, and the shown solution is the one read off the new equation. A rejected input changes nothing. |
| Algebra.ApplyOperation | lab/javascript/algebra.js:247-311 | A non-numeric amount is rejected with its message. The step succeeds exactly for a numeric amount that is not a zero factor or divisor. On success the current equation is both sides balanced by the operation and amount. The history gains one entry for that operation and keeps the earlier entries, and the shown solution is read off the new equation. On failure nothing changes. |
| Algebra.EnterOperation | lab/javascript/algebra.js:40-45 | Before any operation, Enter adds. |
| Algebra.EnterRepeats | lab/javascript/algebra.js:40-45 | After a successful operation, Enter repeats that same operation. |
| Algebra.Undo | lab/javascript/algebra.js:484-499 | An empty history changes nothing. Otherwise the last entry goes, and the equation becomes the previous entry's or, failing that, the original. |
| Algebra.UndoAgreesWithOriginal | lab/javascript/algebra.js:484-499 | Once an equation was entered, the as-written undo and the corrected undo agree. |
| Algebra.VerifySolution | lab/javascript/algebra.js:433-458 | There is a verdict exactly when an equation was entered, and a true solution of it is confirmed. |
| Algebra.InitialConsistent | lab/javascript/algebra.js:8-18 | The page-load state is consistent: every stored equation has the solutions of the starting one. |
| Algebra.SetupConsistent | lab/javascript/algebra.js:50-74 | Entering an equation keeps the state consistent. |
| Algebra.ApplyConsistent | lab/javascript/algebra.js:247-311 | Applying an operation keeps the state consistent: the new equation still has the solutions of the starting one. |
| Algebra.CurrentEquivalent | lab/javascript/algebra.js:247-311 | In a consistent state the current equation has exactly the starting equation's solutions. |
| Algebra.UndoConsistent | lab/javascript/algebra.js:484-499 | Undo keeps the state consistent. |
| Algebra.UndoAfterApply | lab/javascript/algebra.js:484-499 | Undo right after a successful operation restores the equation, the history and the steps. |
| Algebra.ReportedSolutionVerifies | lab/javascript/algebra.js:397-458 | A solution shown in a consistent session is the unique solution of the entered equation, and the verify button confirms it. |
| Algebra.ReadDigit | lab/javascript/algebra.js:158-166 | A lone digit reads as that number. |
| Algebra.ParseThreeFive | lab/javascript/algebra.js:76-99 | `3=5` is rejected for lacking `x`, yet as written it leaves `3 = 5` in the current equation. |
| Algebra.SetupAsWrittenKeepsRejectedEquation | lab/javascript/algebra.js:58-73 | As written, the rejected `3=5` replaces the current equation and breaks consistency; the corrected setup leaves the state unchanged. |
| Algebra.UndoAsWrittenLosesEquation | lab/javascript/algebra.js:484-499 | An operation before any equation is entered, then undone, leaves no equation as written; the corrected undo returns to `2x+3=9`. |
| AlgebraDisplay.FormatNumber | lab/javascript/algebra.js:219-221 | A formatted number is never empty and never starts with a plus sign. |
| AlgebraDisplay.ExpressionToString | lab/javascript/algebra.js:223-245 | A printed side is never empty: nothing printed becomes `0`. |
| AlgebraDisplay.CoefficientPieceNoPlus | lab/javascript/algebra.js:213-217 | A coefficient followed by `x` never starts with a plus sign. |
| AlgebraDisplay.PiecesNoPlus | lab/javascript/algebra.js:227-241 | The printing loop adds a `+` only after something was printed. |
| AlgebraDisplay.NoLeadingPlus | lab/javascript/algebra.js:223-245 | A printed side never starts with a plus sign. |
| AlgebraDisplay.PiecesOfZeros | lab/javascript/algebra.js:233-238 | Zero constants print nothing. |
| AlgebraDisplay.PrintsZero | lab/javascript/algebra.js:243-244 | A side of zero constants prints as `0`. |
| AlgebraDisplay.PrintsUnitCoefficients | lab/javascript/algebra.js:213-217 | Coefficient 1 prints as `x` and -1 as `-x`. |
| AlgebraDisplay.Magnitude | lab/javascript/algebra.js:219-221 | The magnitude of an integer is its absolute value. |
| AlgebraDisplay.FormatNumberSigned | lab/javascript/algebra.js:219-221 | A nonzero integer prints as an optional minus sign followed by the digits of its magnitude. |
| AlgebraDisplay.CoefficientSigned | lab/javascript/algebra.js:213-217 | A nonzero integer coefficient with its `x` prints as its sign followed by the unsigned body. |
| AlgebraDisplay.SignedMagnitude | lab/javascript/algebra.js:219-221 | The sign and the magnitude put back together give the integer. |
| AlgebraDisplay.ReadConstant | lab/javascript/algebra.js:158-166 | A printed integer constant reads back as itself. |
| AlgebraDisplay.ReadCoefficient | lab/javascript/algebra.js:141-157 | A printed integer `x` term reads back as its coefficient and `x`. |
| AlgebraDisplay.RemoveX | lab/javascript/algebra.js:143 | Removing the first `x` from digits followed by `x` leaves the digits. |
| AlgebraDisplay.ChunksOfSigned | lab/javascript/algebra.js:106-127 | A signed run without signs is scanned as one run carrying that sign. |
| AlgebraDisplay.ChunksOfPair | lab/javascript/algebra.js:106-127 | Two signed runs joined by a sign character are scanned as two runs. |
| AlgebraDisplay.ReadBackPrinted | lab/javascript/algebra.js:223-245 | Reading back the printed text of a simplified side with integer numbers gives that side again. |
| AlgebraDisplay.ReadBackConstant | lab/javascript/algebra.js:223-245 | A printed nonzero integer reads back as itself. |
| AlgebraDisplay.ReadBackLinear | lab/javascript/algebra.js:223-245 | A printed `c·x` reads back as itself. |
| AlgebraDisplay.ReadBackAffine | lab/javascript/algebra.js:223-245 | A printed `c·x + d` reads back as itself. |
| Finance.OrDefault | lab/javascript/finanzas.js:50-52 | JavaScript's or-with-default on a number: a nonzero number is kept, and NaN or 0 falls back to the default. |
| Finance.ReadPrincipal | lab/javascript/finanzas.js:50 | The principal is never 0. It is the number `parseFloat` reads whenever that number is not 0, and 1000 otherwise. |
| Finance.ReadRate | lab/javascript/finanzas.js:51 | The rate is never 0. It is the percentage `parseFloat` reads, divided by 100, whenever that number is not 0, and 5 % otherwise. |
| Finance.ReadTime | lab/javascript/finanzas.js:52 | The time is never 0. It is the integer `parseInt` reads whenever that integer is not 0, and 10 years otherwise. |
| Finance.InputsNeverZero | lab/javascript/finanzas.js:50-52 | No input ever reads as zero. An unreadable principal, rate or time becomes 1000, 5 % or 10 years. |
| Finance.Validate | lab/javascript/finanzas.js:73-92 | The inputs pass exactly when the principal is positive, the rate non-negative and the time within 1..100. A non-positive principal is reported first, then a negative rate. |
| Finance.AmountsStartAtPrincipal | lab/javascript/finanzas.js:106-109 | Both formulas give the principal in year 0. |
| Finance.AmountsStep | lab/javascript/finanzas.js:106-109 | Each year, simple interest adds P·r and compound interest multiplies by 1 + r. |
| Finance.CompoundAtLeastSimple | lab/javascript/finanzas.js:106-109 | For non-negative principal and rate, compound interest is never below simple interest. |
| Finance.CompoundBeatsSimple | lab/javascript/finanzas.js:106-109 | From the second year on, a positive rate makes compound interest strictly larger. |
| Finance.Years | lab/javascript/finanzas.js:103-104 | The years are 0 to t, in order. |
| Finance.SimpleSeries | lab/javascript/finanzas.js:103-114 | Entry i is the simple amount after i years, for i = 0..t. |
| Finance.CompoundSeries | lab/javascript/finanzas.js:103-114 | Entry i is the compound amount after i years, for i = 0..t. |
| Finance.CalculateInterestData | lab/javascript/finanzas.js:94-115 | The loop fills the three series with time + 1 entries: the years and both amounts year by year. |
| Finance.CalculateInterest | lab/javascript/finanzas.js:47-71 | The inputs are stored with their defaults and then validated. A rejected input keeps the previous series; an accepted one makes the series describe the new inputs. |
| Finance.Reset | lab/javascript/finanzas.js:413-418 | Reset always succeeds, with principal 1000, rate 5 %, 10 years and series to match. |
| Finance.ReadResetFields | lab/javascript/finanzas.js:413-417 | The values that reset writes into the fields read back as 1000, 5 % and 10. |
| Finance.Results | lab/javascript/finanzas.js:206-241 | The final amounts are the formulas at the chosen time. For a non-negative principal and rate, the difference is non-negative and the compound gain is at least the simple gain. |
| Finance.DifferenceFavoursCompound | lab/javascript/finanzas.js:230-233 | After a successful calculation, the difference shown favours compound interest, as the caption claims. |
| Finance.TableStep | lab/javascript/finanzas.js:262 | Rows go one year at a time, or two years at a time. |
| Finance.TableIndices | lab/javascript/finanzas.js:262-264 | The table shows exactly the indices below n that are multiples of the step, in increasing order, starting with 0. |
| Finance.TableRow | lab/javascript/finanzas.js:265-269 | The difference is compound minus simple. The percentage is taken over a positive simple amount and is 0 otherwise. |
| Finance.CsvLines | lab/javascript/finanzas.js:398-401 | There is one CSV line per year, built from that year's entries. |
| Finance.CsvLineOneLine | lab/javascript/finanzas.js:400 | A CSV line holds no line break. |
| Finance.SplitRows | lab/javascript/finanzas.js:398-401 | Splitting the CSV body at line breaks gives back exactly its lines. |
| Finance.ExportLines | lab/javascript/finanzas.js:393-401 | The export is the header line, then exactly one line per year in order, then the empty piece after the final newline. |
| Finance.ExportCsv | lab/javascript/finanzas.js:393-401 | The export opens with the header and a line break, and every line, the last included, ends with a newline. |
| Finance.CsvDifference | lab/javascript/finanzas.js:399-400 | The difference column reads back within half a cent of compound minus simple. |
| Loan.PaymentAsWritten | materiales/materiales/loan.js:17-21 | The formula as written has no value (NaN) exactly when the rate is 0. Otherwise the payment times (q^n - 1) equals P·m·q^n, with q = 1 + m. |
| Loan.MonthlyPayment | materiales/materiales/loan.js:17-21 | For a nonzero rate this is the source's payment. For rate 0 it is the principal spread evenly over the months. |
| Loan.GrowthNotOne | materiales/materiales/loan.js:20 | For a nonzero monthly rate above -1, (1 + m)^n is not 1, so the formula's denominator is not zero. |
| Loan.BalanceClosedForm | materiales/materiales/loan.js:17-21 | The balance after k months of interest and payments has the closed form m·B_k = P·m·q^k - pay·(q^k - 1). |
| Loan.BalanceWithoutInterest | materiales/materiales/loan.js:17-21 | With no interest the balance falls by one payment a month. |
| Loan.PaymentEquation | materiales/materiales/loan.js:17-21 | For a nonzero rate the payment satisfies pay·(q^n - 1) = P·m·q^n. |
| Loan.PaymentAmortizes | materiales/materiales/loan.js:17-21 | Paying the monthly payment every month leaves a balance of exactly 0 at the end of the term, at any rate. |
| Loan.GrowthBound | materiales/materiales/loan.js:20 | q^n - 1 ≤ n·m·q^n for a non-negative monthly rate. |
| Loan.TotalAtLeastPrincipal | materiales/materiales/loan.js:23-25 | Over the whole term, a non-negative rate costs at least the principal. |
| Loan.TotalCost | materiales/materiales/loan.js:23-25 | A term of no years costs nothing, and the total of a positive payment over a positive term is positive. |
| Loan.PayAtLeast | materiales/materiales/loan.js:23-25 | The payment equation and the growth bound together give n·pay ≥ P. |
| Loan.Set | materiales/materiales/loan.js:33-36 | Setting a field changes that field and no other. |
| Loan.InputChange | materiales/materiales/loan.js:27-37 | A negative number is ignored. Anything else, including an empty field, is stored in the named field. |
| Loan.Scenarios | materiales/materiales/loan.js:49-63 | There are five scenarios in table order, at the base rate -1, -0.5, 0, +0.5 and +1, each with the chosen term. Each scenario's payment is the payment for its own rate over 12 months per year. Its total cost is that payment over the whole term, or absent when the payment is. |
| Loan.SubmitWith | materiales/materiales/loan.js:39-67 | A missing or zero price, rate or term sets the error message and keeps everything else. Otherwise the results are the five scenarios for the financed amount, the entered rate and the whole-year term, and the error is cleared. The form never changes. |
| Loan.Reset | materiales/materiales/loan.js:69-79 | Every field is empty, and there are no results and no error. |
| Loan.InitialValid | materiales/materiales/loan.js:6-15 | The empty form holds no negative number. |
| Loan.InputChangeKeepsValid | materiales/materiales/loan.js:27-37 | Typing never stores a negative number. |
| Loan.SubmittedPaymentsAmortize | materiales/materiales/loan.js:39-67 | In the corrected table, every scenario of a submitted form has a payment, and that payment pays the loan off at the scenario's rate. |
| Loan.ZeroRateScenarioAsWritten | materiales/materiales/loan.js:52-55 | As written, a base rate of 1 % puts a 0 % scenario first with a NaN payment; the corrected table has a payment there. |
| TrigExplorer.Normalize | lab/javascript/geometria.js:94 | With JavaScript's sign-of-dividend `%`, the normal form lies in [0, 360) and differs from the input by a whole number of turns. |
| TrigExplorer.NormalizeInRange | lab/javascript/geometria.js:94 | An angle already in [0, 360) is left as it is. |
| TrigExplorer.NormalizeIdempotent | lab/javascript/geometria.js:94 | Normalising twice gives the same angle as normalising once. |
| TrigExplorer.NormalizeTurns | lab/javascript/geometria.js:94 | Angles a whole number of turns apart have the same normal form. |
| TrigExplorer.QuadrantIndex | lab/javascript/geometria.js:203-207 | With JavaScript's `%`, the index lies in -3..3, and in 0..3 for a non-negative angle. |
| TrigExplorer.QuadrantColor | lab/javascript/geometria.js:203-207 | There is a colour exactly when the index is not negative. |
| TrigExplorer.QuadrantOfRange | lab/javascript/geometria.js:203-207 | On [0, 360) the index is the quarter of the circle the angle lies in, and 360 falls back into the first quarter. |
| TrigExplorer.QuadrantOfSmallNegative | lab/javascript/geometria.js:203-207 | An angle in [-90, 0) gives index -1, which has no colour. |
| TrigExplorer.SpecialAnglesSpaced | lab/javascript/geometria.js:14 | The listed special angles are at least 15 degrees apart. |
| TrigExplorer.FindSpecial | lab/javascript/geometria.js:301-310 | A listed angle within 0.5 degrees is found when there is one, and none is reported only when none is that close. |
| TrigExplorer.SpecialAngleUnique | lab/javascript/geometria.js:301-303 | No angle is within 0.5 degrees of two listed angles, so the match is unique. |
| TrigExplorer.SpecialAngleFindsItself | lab/javascript/geometria.js:301-303 | A listed angle, looked up exactly, is found as itself. |
| TrigExplorer.SpecialValuesListed | lab/javascript/geometria.js:344-366 | Exactly the listed angles have exact values in the table. |
| TrigExplorer.SpecialValuesSymmetric | lab/javascript/geometria.js:344-366 | The exact-value table agrees with sin(180 - a) = sin a and cos(360 - a) = cos a. |
| TrigExplorer.UpdateAngleAsWritten | lab/javascript/geometria.js:92-113 | As written, the stored angle is the normalised one, while the line and arc colours come from the raw degrees. |
| TrigExplorer.UpdateAngle | lab/javascript/geometria.js:92-113 | The stored angle is the normalised one. The line, arc and point share one colour, which always exists. The animation settings are kept. |
| TrigExplorer.UpdateAngleAgrees | lab/javascript/geometria.js:175-236 | For degrees in [0, 360) the as-written and corrected updates agree. |
| TrigExplorer.NegativeAngleLosesColour | lab/javascript/geometria.js:184-186 | As written, an angle in [-90, 0) gives the radius line no quadrant colour (the page leaves the previous one); the corrected update colours it. |
| TrigExplorer.ClampTyped | lab/javascript/geometria.js:43-44 | The typed value is clamped to [0, 360], with NaN and 0 giving 0; a value already in range is kept. |
| TrigExplorer.TypeAngle | lab/javascript/geometria.js:41-46 | Typing is ignored while animating, and otherwise shows the clamped value. |
| TrigExplorer.EnterAngle | lab/javascript/geometria.js:49-54 | Enter shows the clamped value even while animating. |
| TrigExplorer.ArrowTarget | lab/javascript/geometria.js:61-77 | The left and down arrows step 1 and 5 degrees down, floored at 0. The right and up arrows step 1 and 5 up, capped at 360. |
| TrigExplorer.PressKey | lab/javascript/geometria.js:58-84 | Keys act only while the modal is open and nothing is animating; other keys are ignored. Space starts the animation. |
| TrigExplorer.ArrowKeepsRange | lab/javascript/geometria.js:58-84 | Arrow keys keep the current angle in [0, 360). |
| TrigExplorer.ToggleAnimation | lab/javascript/geometria.js:430-472 | Toggling flips the animation flag and keeps the shown angle and the speed. Starting copies the shown angle into the animation's own angle. |
| TrigExplorer.SetAnimationSpeed | lab/javascript/geometria.js:474-476 | The speed is kept in [0.5, 10], and a speed already in range is taken as given. |
| TrigExplorer.NextFrameAngle | lab/javascript/geometria.js:442-447 | One step of the animation speed, and back to 0 on reaching a full turn. |
| TrigExplorer.AnimationFrame | lab/javascript/geometria.js:440-447 | A frame advances the animation's own angle by the speed, wraps it to 0 at a full turn, and shows it; the shown angle stays in [0, 360). |
| TrigExplorer.StartContinuesFromShownAngle | lab/javascript/geometria.js:440-447 | The first frame after starting continues from the angle shown when the animation started. |
| TrigExplorer.FrameOverwritesEnteredAngle | lab/javascript/geometria.js:49-54 | An angle entered, or an inverse function computed, while animating is shown, but the next frame goes on from the animation's own angle as if nothing had been entered. |
| TrigExplorer.GoToAngle | lab/javascript/geometria.js:478-482 | Jumping to an angle is ignored while animating, and otherwise sets that angle. |
| TrigExplorer.CalculateInverseTrig | lab/javascript/geometria.js:485-510 | An unknown name, or an arcsin or arccos argument outside [-1, 1], gives null and changes nothing. Arctan always answers, and any answer updates the angle to it. |
| GeometryLab.PolyhedronProperties | lab/javascript/geometry-lab.js:839-874 | A record exists exactly for the tetrahedron, octahedron, icosahedron and dodecahedron; any other type gives the empty record. |
| GeometryLab.PolyhedraAreConsistent | lab/javascript/geometry-lab.js:839-874 | Every listed solid satisfies Euler's V - E + F = 2, and faces times sides per face is twice the edges. |
| GeometryLab.PolyhedronDisplay | lab/javascript/geometry-lab.js:828-837 | A listed solid is displayed, with Euler characteristic `2`; an unknown type fails on its missing counts. |
| GeometryLab.FigureCounts | lab/javascript/geometry-lab.js:588-622 | The cube and the pyramid show their exact counts. The other shapes show the mesh's vertex count and no edges. |
| GeometryLab.CubeAndPyramidEuler | lab/javascript/geometry-lab.js:615-642 | The counts shown for the cube and the pyramid satisfy V - E + F = 2. |
| GeometryLab.PerimeterBySides | lab/javascript/geometry-lab.js:321-355 | A regular polygon's perimeter is its side count times the size. The 1.5s × s rectangle has 5s, and a circle of diameter s has πs. |
| GeometryLab.PerimeterScales | lab/javascript/geometry-lab.js:321-355 | Scaling a figure scales its perimeter by the same factor. |
| GeometryLab.SelectTool | lab/javascript/geometry-lab.js:968-971 | A tool counts as selected exactly when its name is non-empty. |
| GeometryLab.MouseDown | lab/javascript/geometry-lab.js:979-992 | Without a tool nothing happens. With one, a stroke starts at the point; the strokes are untouched. |
| GeometryLab.MouseMove | lab/javascript/geometry-lab.js:994-1006 | The stroke in progress gains the point when drawing with a tool; otherwise nothing changes. |
| GeometryLab.MouseUp | lab/javascript/geometry-lab.js:1008-1022 | Drawing ends. A pending stroke is pushed with its tool, points and the current style, and the count shown becomes the number of strokes; otherwise the strokes are kept. |
| GeometryLab.Undo | lab/javascript/geometry-lab.js:1066-1075 | Undo drops exactly the last stroke and updates the count; with no strokes nothing happens. |
| GeometryLab.Clear | lab/javascript/geometry-lab.js:1057-1064 | Clearing leaves no strokes and a count of 0. |
| GeometryLab.UndoAfterStroke | lab/javascript/geometry-lab.js:1008-1075 | Undo right after a stroke is stored removes exactly that stroke. |
| GeometryLab.StepKeepsConsistent | lab/javascript/geometry-lab.js:979-1075 | Every canvas event keeps the count shown equal to the number of strokes, and keeps a stroke in progress non-empty. |
| GeometryLab.Run | lab/javascript/geometry-lab.js:979-1075 | After any sequence of events the canvas is still consistent. |
| GeometryLab.EmptyCanvasConsistent | lab/javascript/geometry-lab.js:17 | The initial canvas is consistent. |
| GeometryLab.ToggleAnimation | lab/javascript/geometry-lab.js:680-681 | The animation flag flips. |
| GeometryLab.ToggleTwice | lab/javascript/geometry-lab.js:680-681 | Toggling twice restores the flag. |
| Figures.ColorValue | lab/javascript/figuras.js:348 | Six hexadecimal digits denote a value below 2^24. |
| Figures.Channels | lab/javascript/figuras.js:350-352 | The shifted and masked channels of a 24-bit value each lie in 0..255. |
| Figures.ColorChannels | lab/javascript/figuras.js:348-352 | A picker colour parses into three channels in 0..255. |
| Figures.ClampChannel | lab/javascript/figuras.js:353 | The lightening clamp keeps a channel in [0, 255]: values in range stay, anything below goes to 0, anything above goes to 255. |
| Figures.ClampChannelDown | lab/javascript/figuras.js:362 | The darkening clamp, written in the other order, is the same function as the lightening clamp. |
| Figures.Lighten | lab/javascript/figuras.js:347-354 | The result is again a `#rrggbb` colour whose channels are the input's raised by the rounded amount and clamped. |
| Figures.Darken | lab/javascript/figuras.js:356-363 | The result is again a `#rrggbb` colour whose channels are the input's lowered by the rounded amount and clamped. |
| Figures.EncodeLowerCase | lab/javascript/figuras.js:353 | Every hex digit produced is lower case, as `toString(16)` prints. |
| Figures.ChannelFormulas | lab/javascript/figuras.js:347-363 | For a non-negative amount, darkening lowers each channel by it, stopping at 0, and lightening raises each channel by it, stopping at 255. |
| Figures.Monotone | lab/javascript/figuras.js:347-363 | Darkening never raises a channel and lightening never lowers one. |
| Figures.EncodeRoundTrip | lab/javascript/figuras.js:348-353 | Reading back an encoded colour gives its value and its three channels. |
| Figures.Unpack | lab/javascript/figuras.js:350-352 | Shifting and masking a packed colour recovers each channel. |
| Figures.ShowHexDropTop | lab/javascript/figuras.js:353 | Dropping the leading digit (the `slice(1)` after adding 0x1000000) leaves the six-digit rendering. |
| Figures.ShowHexAddHigh | lab/javascript/figuras.js:353 | Adding a multiple of 16^w does not change the last w hex digits. |
| Figures.HexSixBound | lab/javascript/figuras.js:348 | Six hex digits denote less than 2^24. |
| Figures.Geometry3D | lab/javascript/figuras.js:252-269 | The cube, and any unknown figure, gets the 80×80×80 box. |
| Figures.PolyhedralGeometries | lab/javascript/figuras.js:252-269 | The pyramid is a four-sided cone, the prisms are three- and six-sided cylinders, and the cube is a box with equal sides. |
| Figures.PlaneFigureData | lab/javascript/figuras.js:406-413 | Every plane figure has a title other than `Figura` and two formulas. Every plane figure except the star lists area and perimeter. |
| Figures.SolidFigureData | lab/javascript/figuras.js:414-425 | Every solid has a title other than `Figura` and lists volume and surface. |
| Figures.FigureDataFor | lab/javascript/figuras.js:403-428 | An unknown figure gets the title `Figura` and no formulas. Every listed figure gets its own title and two formulas: area and perimeter for the plane figures other than the star, volume and surface for the solids. |
| Chatbot.FirstMatch | js/chatbot.js:1169-1277 | The group found is the first, in the source's order, whose keywords occur in the message. None is found exactly when no group's keyword occurs. |
| Chatbot.FirstMatchUnique | js/chatbot.js:1169-1277 | Only one group can be the first match, so the search always finds that one. |
| Chatbot.Sanitize | js/chatbot.js:1304-1306 | The cleaned text is no longer than the input and holds only digits, operators, dots, brackets and spaces. |
| Chatbot.SanitizeAppend | js/chatbot.js:1304-1306 | Cleaning works character by character, so it distributes over concatenation. |
| Chatbot.SanitizeKeepsClean | js/chatbot.js:1304-1306 | Text that is already clean passes unchanged. |
| Chatbot.SanitizeIdempotent | js/chatbot.js:1304-1306 | Cleaning twice gives the same text as cleaning once. |
| Chatbot.EvaluateBasicMath | js/chatbot.js:1303-1317 | Empty cleaned text is reported as empty. Cleaned text containing `..` or `**` is rejected. Anything else goes to the evaluator exactly as cleaned. |
| Chatbot.Classify | js/chatbot.js:1165-1301 | The first matching keyword group decides the answer. With no group, the arithmetic branch is taken exactly when the calculation test passes; after that come matrices, then logarithms, then the unknown-topic answer. |
| Chatbot.ClassifyFirstGroup | js/chatbot.js:1169-1277 | A message is answered by the first group whose keywords it holds. |
| Chatbot.CategoriesKnown | js/chatbot.js:1169-1277 | No keyword group leads to the unknown-topic answer. |
| Chatbot.ClassifyUnknown | js/chatbot.js:1300 | The unknown-topic answer comes exactly when no group, no calculation, no matrix word and no logarithm word applies. |
| Chatbot.ContainsPrefix | js/chatbot.js:1170 | A message containing a word contains each of that word's prefixes. |
| Chatbot.GreetingWins | js/chatbot.js:1170-1173 | Any message containing `hola` is answered as a greeting, whatever else it asks. |
| Chatbot.HipotenusaIsGreeting | js/chatbot.js:1170-1238 | `hipotenusa` is listed under trigonometry, but it contains `hi`, so every such message is answered as a greeting. |
| Chatbot.ComoFuncionaNeverHelp | js/chatbot.js:1229-1267 | `como funciona` is listed under help, but the calculus keyword `funcion` inside it is tried first, so the help answer never comes. |
| Chatbot.CalculationOnlyAfterGroups | js/chatbot.js:1279-1289 | The arithmetic branch is reached only when no keyword group matched, and it evaluates the cleaned message. |
| Chatbot.DisplayName | js/chatbot.js:1167 | An empty name is shown as `estudiante`, and any other name as itself. |
| Chatbot.ReplaceFirst | js/chatbot.js:1172 | With no occurrence the text is unchanged. Otherwise exactly the first occurrence is replaced and the rest is kept. |
| Chatbot.Respond | js/chatbot.js:1333-1337 | A category without responses gives the fallback sentence. An empty list gives nothing. Otherwise the answer is one of the category's responses with its first `{name}` filled in. |
| Chatbot.QuickActionCategory | js/chatbot.js:762-787 | Exactly the four quick actions have an answer; `about` asks for the creator category and the others for their own. |
| Chatbot.SplitFirst | js/chatbot.js:852 | The first word of a split is a prefix of the text. |
| Chatbot.NameStartsWithCapital | js/chatbot.js:849-854 | Text taken for a name starts, after trimming, with a capital letter, and mentions no math topic. |
| Chatbot.IsLikelyAName | js/chatbot.js:849-854 | Text taken for a name opens, after trimming, with a capital letter followed by a lower-case one. |
| Chatbot.SendMessage | js/chatbot.js:814-847 | Blank input, or input while a reply is pending, changes nothing. Otherwise the message is logged, the typing indicator comes up and the input is disabled. The name changes only from empty to a text that looks like a name, and exactly then the reply is the name greeting. |
| Chatbot.Deliver | js/chatbot.js:827-845 | The reply clears the typing indicator, re-enables the input and is logged after the history; the name is kept. |
| Chatbot.ExchangeLogsBoth | js/chatbot.js:814-847 | A full exchange logs the message and then the reply, and leaves the chat ready for the next message. |
| Chatbot.NoSendWhileTyping | js/chatbot.js:816 | While a reply is pending, a second message is ignored. |
| Chatbot.LoadHistory | js/chatbot.js:1348-1371 | Nothing stored, or storage that cannot be read, changes nothing. A session older than an hour is cleared and rewritten. Otherwise the saved name and history are restored, missing parts as empty. |
| Chatbot.SaveLoadWithinHour | js/chatbot.js:1339-1371 | Saving, then loading within the hour, restores the name and the history. |
| RobotPhysics.WrapRotation | stem/js/robotPhysics.js:309-310 | The tracked rotation lies in [0, 360) and differs from the sum by whole turns; a value already in range is kept. |
| RobotPhysics.WrapRotationIdempotent | stem/js/robotPhysics.js:309-310 | Wrapping twice gives the same rotation as wrapping once. |
| RobotPhysics.Enable | stem/js/robotPhysics.js:53-62 | Physics is on afterwards, a second enable changes nothing, and nothing but the flag changes. |
| RobotPhysics.Disable | stem/js/robotPhysics.js:64-79 | Physics is off afterwards. Disabling an enabled module stops the robot and puts it on the ground; disabling a disabled one changes nothing. |
| RobotPhysics.ApplyGravity | stem/js/robotPhysics.js:118-121 | Gravity changes only an airborne robot's vertical speed. |
| RobotPhysics.HandleGround | stem/js/robotPhysics.js:143-158 | A robot above the ground is airborne and nothing else changes. A robot falling through the ground lands on it, grounded with no vertical speed, and nothing else changes. A robot at or below the ground that is grounded or not falling is left as it is. |
| RobotPhysics.BounceAxis | stem/js/robotPhysics.js:204-212 | Past a wall, the coordinate is pinned to it and the speed turned inward at half; inside, nothing changes. |
| RobotPhysics.EnforceBoundaries | stem/js/robotPhysics.js:200-230 | For a non-negative boundary, the robot ends inside the square on both horizontal axes. The height and the vertical speed are untouched. |
| RobotPhysics.BounceHalvesInward | stem/js/robotPhysics.js:204-223 | A bounced speed points back inside at exactly half its size. |
| RobotPhysics.ApplyFriction | stem/js/robotPhysics.js:232-243 | Friction changes only the velocity. |
| RobotPhysics.FrictionSlows | stem/js/robotPhysics.js:232-243 | Friction factors in [0, 1] never speed the robot up along any axis. |
| RobotPhysics.TrackPosition | stem/js/robotPhysics.js:245-251 | The tracked grid position is each coordinate rounded half up. |
| RobotPhysics.Update | stem/js/robotPhysics.js:115-141 | A disabled module changes nothing. An enabled step keeps the robot inside the boundary and tracks its rounded position; the obstacles, mass and flag are kept. |
| RobotPhysics.GroundedStaysGrounded | stem/js/robotPhysics.js:115-158 | A robot at rest on the ground stays on the ground through a step. |
| RobotPhysics.Jump | stem/js/robotPhysics.js:254-275 | A jump is refused exactly when physics is off or the robot is airborne, and then nothing changes. A jump sets the vertical speed to 0.15 times the force and leaves the ground. |
| RobotPhysics.NoDoubleJump | stem/js/robotPhysics.js:264-266 | A second jump before landing is refused. |
| RobotPhysics.ApplyForce | stem/js/robotPhysics.js:277-282 | With physics on, the change of velocity times the mass is the force. With physics off, nothing changes. |
| RobotPhysics.MoveForward | stem/js/robotPhysics.js:285-298 | A push of 15 times the distance along the facing direction; it succeeds exactly when physics is on. |
| RobotPhysics.RotatePhysics | stem/js/robotPhysics.js:300-315 | With physics off there is no rotation. Otherwise the new tracked rotation is the sum, wrapped into [0, 360). |
| RobotPhysics.SetGravity | stem/js/robotPhysics.js:318-321 | Only the gravity changes, to the value given. |
| RobotPhysics.SetFriction | stem/js/robotPhysics.js:323-326 | Friction is clamped to [0, 1]: values in range are kept and values outside go to the nearer end. Nothing else changes. |
| RobotPhysics.SetMass | stem/js/robotPhysics.js:328-331 | The mass is at least 0.1, a value at least 0.1 is kept, and nothing else changes. |
| RobotPhysics.SetBoundarySize | stem/js/robotPhysics.js:333-336 | Only the boundary size changes. |
| RobotPhysics.AddObstacle | stem/js/robotPhysics.js:339-353 | The obstacle is appended, with size 1×1×1 and material `default` when not given. |
| RobotPhysics.FindObstacle | stem/js/robotPhysics.js:356 | The index found is that of the first obstacle with the id, and none is found only when no obstacle has it. |
| RobotPhysics.RemoveObstacle | stem/js/robotPhysics.js:355-364 | Removal succeeds exactly when some obstacle has the id. It then removes the first obstacle with that id and keeps the others in order; otherwise nothing changes. |
| RobotPhysics.AddThenRemove | stem/js/robotPhysics.js:339-364 | Removing an obstacle just added under a fresh id restores the previous state. |
| RobotPhysics.FindFirstObstacle | stem/js/robotPhysics.js:356 | The first obstacle with the id is the one the search finds. |
| RobotPhysics.ClearObstacles | stem/js/robotPhysics.js:366-372 | No obstacles remain, and nothing else changes. |
| RobotPhysics.Reset | stem/js/robotPhysics.js:408-421 | The robot is at rest on the ground at the origin, and its tracked position and rotation are zero. The rest of the physics state is kept. |
| RobotPhysics.Dispose | stem/js/robotPhysics.js:424-428 | The module ends disabled and without obstacles. A module that was on is first disabled: at rest on the ground, the horizontal position kept. One already off only loses its obstacles. |
| RobotPhysics.OperationsKeepValid | stem/js/robotPhysics.js:323-331 | Every operation keeps friction in [0, 1] and mass at least 0.1. |
| Robot.Initial | stem/js/robot3d.js:7-45 | A fresh robot is consistent, idle and has run no commands; it has a physics module exactly when the page loaded one. |
| Robot.TrackInArea | stem/js/robotPhysics.js:245-251 | Rounding a position inside the work area gives a grid cell inside it. |
| Robot.AnimateMovement | stem/js/robot3d.js:1421-1445 | A busy robot ignores the move. Otherwise the command is counted, even when the boundary refuses it. A refused move changes nothing else; an accepted one lands the robot on the target inside the area, with its grid position rounded. Consistency is kept. |
| Robot.AnimateRotation | stem/js/robot3d.js:2180-2192 | A busy robot ignores the turn. Otherwise the command is counted and the heading moves by the angle, kept in [0, 360). Consistency is kept. |
| Robot.Dance | stem/js/robot3d.js:1626-1720 | The dance is counted once and changes nothing else: its inner turns run while the robot is busy and are refused. |
| Robot.Wave | stem/js/robot3d.js:2266-2271 | The wave is counted once and changes nothing else. |
| Robot.Reset | stem/js/robot3d.js:2339-2350 | A busy robot ignores the reset. Otherwise the robot becomes busy with a reset, and the pose and command count stay as they are until the reset animation finishes. Consistency is kept. |
| Robot.FinishReset | stem/js/robot3d.js:2370-2377 | The end of a reset animation puts the robot at the origin facing 0 and makes it idle; with no reset running nothing changes. |
| Robot.ResetThenFinish | stem/js/robot3d.js:2339-2377 | A reset followed by the end of its animation changes only the pose, to the origin facing 0. |
| Robot.PhysicsPush | stem/js/robotPhysics.js:285-298 | A physics move changes only the velocity and counts nothing. |
| Robot.MoveForward | stem/js/robot3d.js:2144-2149 | With physics on the move is a push; otherwise it is an animated step along +z. |
| Robot.MoveBackward | stem/js/robot3d.js:2151-2156 | With physics on the move is a backward push; otherwise it is an animated step along -z. |
| Robot.MoveLeft | stem/js/robot3d.js:2158-2160 | Always an animated step along -x, even with physics on. |
| Robot.MoveRight | stem/js/robot3d.js:2162-2164 | Always an animated step along +x, even with physics on. |
| Robot.PhysicsTurn | stem/js/robotPhysics.js:300-315 | A physics turn changes only the heading, immediately and without counting; with the module off nothing changes. |
| Robot.RotateRight | stem/js/robot3d.js:2173-2178 | With physics on the turn is immediate; otherwise it is animated. Consistency is kept. |
| Robot.RotateLeft | stem/js/robot3d.js:2166-2171 | Turning left is turning right by the negated angle. |
| Robot.EnablePhysics | stem/js/robot3d.js:3178-3186 | Without a module nothing changes. With one, moves and turns go through it from then on. |
| Robot.DisablePhysics | stem/js/robot3d.js:3188-3199 | With a module, physics is off and moves are animated again; the horizontal position is kept. |
| Robot.Jump | stem/js/robot3d.js:3201-3208 | Without a module nothing changes; with one, the module's jump decides. |
| Robot.SetGravity | stem/js/robot3d.js:3210-3216 | With a module, its gravity becomes the value given. |
| Robot.AddObstacle | stem/js/robot3d.js:3226-3231 | With a module, one obstacle is appended and the others are kept. |
| Robot.UpdateTrail | stem/js/robot3d.js:1282-1290 | The current position is appended and the oldest point dropped beyond 50; the trail is always the last points, in order. |
| Robot.TrailFrame | stem/js/robot3d.js:1246 | A frame appends the body position to the trail and keeps consistency. |
| Robot.PhysicsFrame | stem/js/robot3d.js:2997-3011 | A physics frame never changes the command count or the heading, and keeps consistency. |
| Robot.StepDistance | stem/js/robot3d.js:2786-2795 | A missing or zero distance is one step, and any other distance is kept. |
| Robot.ExecuteMove | stem/js/robot3d.js:2783-2806 | A move fails exactly when the direction is not forward, backward, left or right. A move that succeeds keeps the robot consistent and its physics in step. |
| Robot.MoveAfterResetRefused | stem/js/robot3d.js:2826-2827 | A move queued right after a reset finds the robot still busy with the reset and is refused, leaving it mid-reset. |
| Robot.ExecuteAction | stem/js/robot3d.js:2818-2836 | An action fails exactly when it is not dance, wave, reset or stop. An action that succeeds keeps the robot consistent and its physics in step. |
| Robot.ExecuteEffect | stem/js/robot3d.js:2837-2891 | An effect never fails and keeps the robot consistent and its physics in step. Every effect other than enabling or disabling physics, a jump, gravity or adding an obstacle leaves the robot unchanged. |
| Robot.Execute | stem/js/robot3d.js:2781-2924 | A command fails exactly for an unknown direction, an unknown action or an unknown command type. A command that succeeds keeps the robot consistent and its physics in step. |
| Robot.ExecuteQueue | stem/js/robot3d.js:2743-2763 | The commands run in order. The run stops at the first one that throws, and that command's error is reported; completing everything means no error. |
| Robot.QueueIgnoresAfterError | stem/js/robot3d.js:2754-2759 | Nothing after a failing command runs. |
| Robot.QueueAppend | stem/js/robot3d.js:2749-2760 | A program that completes hands its final robot to the commands after it. |
| Robot.BusyRobotIgnoresAnimatedCommands | stem/js/robot3d.js:1421-1427 | While an animation runs, every animated command leaves the robot unchanged. |
| Robot.DirectionsWithoutPhysics | stem/js/robot3d.js:2784-2799 | With physics off, each direction moves along its own axis by the step distance, one unit when none is given. |
| Robot.RotateByAngle | stem/js/robot3d.js:2804-2813 | A positive angle turns right by it, and any other angle turns left by its size; either way the heading moves by exactly the angle, modulo 360. |
| Robot.RefusedMoveStays | stem/js/robot3d.js:1439-1445 | A move that would leave the area is counted, and the robot stays where it was. |
| Robot.TrailStaysBounded | stem/js/robot3d.js:1282-1290 | However many frames pass, the trail holds at most 50 points, and nothing is dropped before that. |
| MissionPage.PoolSize | club/mision-matematica/script.js:72-75 | The pool gets one particle for every whole 5500 pixels of canvas, capped at 220: never more than the cap or than the area pays for, and one more would exceed the area unless the cap was reached. |
| MissionPage.PoolSizeMonotone | club/mision-matematica/script.js:72-75 | A canvas with a larger area never gets fewer particles. |
| MissionPage.PickFrom | club/mision-matematica/script.js:51-57 | The running-share search always yields one of the four kinds. |
| MissionPage.PickKind | club/mision-matematica/script.js:44-57 | Any draw selects one of the four kinds. |
| MissionPage.PickKindShares | club/mision-matematica/script.js:44-57 | A draw in [0,1) selects white up to 0.70, green up to 0.90, orange up to 0.97 and gold above; each kind is chosen exactly on its interval. |
| MissionPage.Spread | club/mision-matematica/script.js:62-67 | A unit draw spread over [lo, hi] lands inside it. |
| MissionPage.CreateParticle | club/mision-matematica/script.js:43-70 | A new particle lies on the canvas and takes its colour and size range from the kind its draw selects. Its horizontal speed is in [-0.09, 0.09), its vertical drift in [-0.15, 0.03) (biased upward), and its opacity in [0.3, 1]. |
| MissionPage.WrapAxis | club/mision-matematica/script.js:81-88 | A move that stays within the extent is taken as is. Leaving past 0 reappears at the far edge, and leaving past the far edge reappears at 0. |
| MissionPage.StepParticle | club/mision-matematica/script.js:80-88 | After a frame every particle is on the canvas; only its position changes. |
| MissionPage.InteriorDrift | club/mision-matematica/script.js:81-88 | A particle whose move stays on the canvas simply drifts by its speed. |
| MissionPage.OnScroll | club/mision-matematica/script.js:212-228 | At the top of the page both classes go. Scrolling down shows the hiding class and scrolling up removes it; an unchanged position changes nothing. The last position is always recorded, and the two classes are never both set. |
| MissionPage.NeverBothClasses | club/mision-matematica/script.js:212-228 | Whatever the sequence of scroll positions, the navbar never carries both scroll classes. |
| MissionPage.Substring | club/mision-matematica/script.js:365 | In range, `substring(0, n)` is the first n characters. |
| MissionPage.Tick | club/mision-matematica/script.js:358-383 | The text shown is always a prefix of the current phrase. Typing advances the cursor, and at the end of the phrase it pauses 2800 ms and turns to deleting. Deleting moves the cursor back, and on clearing it moves to the next phrase (cyclically) after 400 ms. The cursor stays valid. |
| MissionPage.Ticks | club/mision-matematica/script.js:358-386 | Any number of ticks keeps the cursor valid. |
| MissionPage.TicksAdd | club/mision-matematica/script.js:358-386 | Ticking a then b times is ticking a + b times. |
| MissionPage.TypesToEnd | club/mision-matematica/script.js:372-380 | Typing from cursor c reaches the end of the phrase after exactly length - c ticks and turns to deleting. |
| MissionPage.DeletesToStart | club/mision-matematica/script.js:363-371 | Deleting from cursor c clears the phrase in c ticks and starts the next phrase at the first character. |
| MissionPage.PhraseCycle | club/mision-matematica/script.js:345-386 | Each phrase is typed and deleted in twice its length in ticks, and the typewriter then starts on the next phrase, wrapping after the fifth. |
| MissionPage.SetTheme | club/mision-matematica/script.js:537-541 | The theme shown and the theme stored are the one given. |
| MissionPage.LoadTheme | club/mision-matematica/script.js:543-546 | A saved theme, even an empty one, wins; otherwise the system preference decides between dark and light. |
| MissionPage.Toggle | club/mision-matematica/script.js:548-552 | Dark becomes light and anything else becomes dark; the new theme is stored. |
| MissionPage.ToggleTwice | club/mision-matematica/script.js:548-552 | Toggling twice from dark or light returns to it. |
| MissionPage.ToggleSurvivesReload | club/mision-matematica/script.js:543-552 | A toggled theme is restored on reload, whatever the system preference. |
| MissionPage.OnSystemChange | club/mision-matematica/script.js:563-567 | A system colour-scheme change is followed only while no non-empty preference is stored; then the new theme is shown and stored. |
| MissionPage.ToggleOutlivesSystemChange | club/mision-matematica/script.js:548-567 | After a toggle, no sequence of system changes alters the theme. |
| RoleApi.SkipSpaces | api/role.js:6 | `\s*` consumes exactly the run of whitespace: it stops at the end or at the first other character. |
| RoleApi.ValueEnd | api/role.js:6 | `[^;]+` runs exactly to the next `;` or the end. |
| RoleApi.Capture | api/role.js:6 | A captured value is non-empty and contains no `;`. |
| RoleApi.MatchAt | api/role.js:6 | A match at a position captures a non-empty value without `;`. |
| RoleApi.FirstMatch | api/role.js:6-7 | A match anywhere captures a non-empty value without `;`. |
| RoleApi.UidFromCookie | api/role.js:4-8 | The identifier read from a cookie header, when there is one, is non-empty and has no `;`; a missing header reads as empty. |
| RoleApi.FirstMatchIsLeftmost | api/role.js:6-7 | The search reports the leftmost match, and it finds nothing exactly when the pattern matches at no position. |
| RoleApi.UidAtStart | api/role.js:4-8 | A header that begins with `site_uid=v` yields v. |
| RoleApi.UidAfterOtherCookie | api/role.js:4-8 | In a header `other; site_uid=v`, v is found after the separator and its spaces. |
| RoleApi.FirstMatchSkips | api/role.js:6 | When no match exists before a position, the match at that position is the one reported. |
| RoleApi.CountsSumToVoters | api/role.js:14-31 | In a sound poll the four role counts add up to the number of voters. |
| RoleApi.Vote | api/role.js:37-79 | The checks run in order: no identifier gives 400 NO_UID; a missing or unknown role gives 400 INVALID_ROLE; a browser that already voted gives 409. The vote succeeds exactly when none of these applies. It then adds the browser to the voters and to that role's set, leaves the other roles alone, and returns the new counts. |
| RoleApi.AddVote | api/role.js:58-59 | The identifier joins the voters and the chosen role's set; the other role sets are unchanged. |
| RoleApi.AddVoteSound | api/role.js:52-59 | A new voter added to one role keeps every voter in exactly one role set. |
| RoleApi.Handle | api/role.js:10-98 | GET reports the counts and whether this browser voted, without writing. POST is the vote. DELETE empties all five sets. Any other method gets 405. |
| RoleApi.HandleKeepsSound | api/role.js:10-98 | Every request keeps each voter in exactly one role set. |
| RoleApi.PollStaysSound | api/role.js:10-98 | Any sequence of requests keeps the poll sound, so the role counts always add up to the voters. |
| RoleApi.OneVotePerUid | api/role.js:51-55 | A browser whose vote succeeded cannot vote again successfully, for any role. |
| OlympiadStore.Bump | api/register.js:141-142 | Bumping a counter raises it by one, where a missing counter reads as 0. It adds only that key, and the other stored counters keep their values. |
| OlympiadStore.BumpOthers | api/stats.js:177-199 | Bumping one counter leaves the reading of every other counter alone. |
| RegisterApi.OrDefault | api/register.js:68-71 | A present, non-empty field is kept; a missing or empty one becomes the fallback. |
| RegisterApi.PlainRun | api/register.js:45 | The scan accepts exactly the strings made only of the class `[^\s@]`. |
| RegisterApi.AllPlainSplit | api/register.js:45 | A string split at a dot is plain exactly when both of its sides are. |
| RegisterApi.CheckEmailSound | api/register.js:45-48 | Every address the scan accepts matches the email pattern. |
| RegisterApi.CheckEmailComplete | api/register.js:45-48 | Every address the email pattern matches is accepted by the scan. |
| RegisterApi.CheckEmailMatchesPattern | api/register.js:45-48 | The scan accepts exactly the addresses the pattern matches. |
| RegisterApi.NewParticipant | api/register.js:61-75 | The record carries the given id and instant and is active. Its email is lower-cased and trimmed, its name trimmed and its age truncated to an integer. Missing school, experience and motivation read "No especificado", and a missing role reads "estudiante". |
| RegisterApi.CounterOf | api/register.js:131-134 | A registration role feeds only one of the four statistics counters. |
| RegisterApi.UpdateStatistics | api/register.js:122-137 | The total goes up by one, and so does the counter of the role's plural name. The other role counters and every unrelated key keep their values. |
| RegisterApi.RoleCountersGrowTogether | api/register.js:128-136 | The four role counters together grow by one exactly when the role is one of the four registration roles; otherwise only the total moves. |
| RegisterApi.Handle | api/register.js:8-119 | OPTIONS gives 200 and any other method except POST gives 405. Then a missing required field, a malformed email, an age outside [10, 25] and an address already on file are refused in that order (400, 400, 400, 409). A new address gets 201 with the record stored under its id and its key, the id at the front of the list, and the statistics and today's counter updated. Any refusal leaves the store alone. |
| RegisterApi.RegisterKeepsTotal | api/register.js:78-90 | Every registration adds one id to the list and one to the total, so the two participant counts stay equal. |
| RegisterApi.SameEmailRejected | api/register.js:55-59 | Re-sending an address already on file, character for character, gets 409 and changes nothing. |
| RegisterApi.RegisterKeepsKeyed | api/register.js:62-90 | With the stored address as the key, every record stays filed under its own address. |
| RegisterApi.NoSecondAccount | api/register.js:55-75 | With the stored address as the key, a second spelling of a registered address (differing only in case or surrounding blanks) is never accepted again. |
| RegisterApi.RawKeyAdmitsCaseVariant | api/register.js:55-80 | With the key as sent, two spellings of one mailbox are both accepted. The store then holds two records with the same address, one of them not under its own address. |
| RegisterApi.CapitalisedAddressMatches | api/register.js:45 | "Ana@mail.com" passes the email pattern. |
| RegisterApi.LowerCaseAddressMatches | api/register.js:45 | "ana@mail.com" passes the email pattern. |
| RegisterApi.CaseVariantAddresses | api/register.js:56-65 | "Ana@mail.com" and "ana@mail.com" are different keys with the same stored address. |
| RegisterApi.SameAfterLowering | api/register.js:65 | Lower-casing maps strings that differ only in a first letter of the same lower case to the same string. |
| StatsApi.CountersOf | api/stats.js:151-170 | Each role's reported count is its stored counter, 0 when missing. |
| StatsApi.Summarize | api/stats.js:57-99 | The summary reports the number of listed participants, the visitor total, and today's visitors and registrations. The week's visitors are the sum of the daily counters over the week's days. It also reports each role's registration counter and each role's votes, with 0 for anything never written. |
| StatsApi.WeeklyOfNothing | api/stats.js:110-118 | With no daily counters the weekly sum is 0. |
| StatsApi.DefaultIsEmptySummary | api/stats.js:227-246 | The fallback summary is exactly the summary of a store nothing was ever written to. |
| StatsApi.Vote | api/stats.js:177-199 | A vote fails exactly for a role outside the four, with "Rol no válido", and writes nothing then. Otherwise it adds one to that role's vote counter and to its statistics counter, and nothing else changes. |
| StatsApi.IncrementVisitors | api/stats.js:202-224 | The total and today's counter go up by one, and nothing else changes. |
| StatsApi.VisitsCount | api/stats.js:202-224 | After n visits the total and today's counter have gone up by exactly n. |
| StatsApi.VisitAddsToWeek | api/stats.js:110-118 | A visit adds to the weekly sum once for every time today appears among the week's days. |
| StatsApi.VisitCountsOnce | api/stats.js:102-128 | When the week lists today once, a visit raises the total, today's figure and the week's figure by one each, and no other figure moves. |
| StatsApi.VoteShowsInSummary | api/stats.js:25-32 | A valid vote shows in the next summary: one more vote for that role and no change for the others. |
| StatsApi.Handle | api/stats.js:8-54 | OPTIONS and GET do not write, and any other method except POST gets 405. A POST is a vote when it names a role and increments visitors when asked; any other action gets 400. A vote for a known role adds one to that role's vote and registration counters. A visitor increment stores the bumped total and today's counter. A vote for an unknown role surfaces as 500. A 200 carries the summary of the resulting store, and any failure leaves the store alone. |
| StatsApi.HandleKeepsTotal | api/stats.js:8-54 | No stats request touches the participant list or the total, so the two participant counts stay equal. |
| StatsApi.SummarizeAsWritten | api/stats.js:57-99 | As written, before `site:statistics` exists the reply is the all-zero fallback. After that it is the intended summary, with the vote counters never written sent as null. |
| StatsApi.AsWrittenAgreesOnceWritten | api/stats.js:57-99 | Once `site:statistics` exists and every role has been voted for, the reply as written is the intended summary. |
| StatsApi.VisitorsHiddenBeforeFirstWrite | api/stats.js:65 | As written, visitors counted before the first vote or registration show as 0, where the intended summary shows them. |
| StatsApi.UnvotedRoleShowsNull | api/stats.js:156-167 | As written, a role nobody voted for is sent as null, where the intended summary shows 0. |
| StatsApi.IncrementCounterAsWritten | api/stats.js:208-215 | As written, a counter holding a number goes up by one, and a counter never written stays unwritten. |
| StatsApi.CounterNeverStarts | api/stats.js:208-215 | As written, a visitor counter never written stays unwritten, and shows 0, after any number of visits. |
| StatsApi.WrittenCounterCounts | api/stats.js:208-215 | As written, a counter holding a number counts every visit. |
| ParticipantsApi.Collect | api/participants.js:129-145 | The records of the listed ids, never more than there are ids, each stored under one of them; when every id has a record, all of them appear. |
| ParticipantsApi.PrependNewest | api/participants.js:148-150 | A record no older than the head of a newest-first list can go in front of it and the list stays newest first. |
| ParticipantsApi.Insert | api/participants.js:148-150 | Inserting into a newest-first list keeps it newest first and adds exactly the one record. |
| ParticipantsApi.SortNewestFirst | api/participants.js:148-150 | The sorted list is newest first and is a permutation of the input. |
| ParticipantsApi.SortKeepsOrderedList | api/participants.js:148-150 | A list that is already newest first is left as it is. |
| ParticipantsApi.InsertIsStable | api/participants.js:148-150 | Inserting a record puts it before the records registered at the same instant and keeps their order. |
| ParticipantsApi.SortIsStable | api/participants.js:148-150 | The sort is stable: records registered at the same instant keep their input order. |
| ParticipantsApi.FirstLetters | api/participants.js:163 | There is at most one letter per word. |
| ParticipantsApi.Initials | api/participants.js:163 | Initials are at most two characters. |
| ParticipantsApi.InitialsOfName | api/participants.js:163 | For a name of words separated by single spaces, the initials are the upper-cased first letters of its first one or two words. |
| ParticipantsApi.Project | api/participants.js:153-164 | The public record keeps the id and registration date and adds initials of at most two letters. |
| ParticipantsApi.ProjectionHidesPrivate | api/participants.js:153-164 | The public record does not depend on the email, motivation or status. |
| ParticipantsApi.ProjectionKeepsPublic | api/participants.js:153-164 | Two records with the same public record agree on every field except the email, motivation and status. |
| ParticipantsApi.Statistics | api/participants.js:203-237 | The total and the four role figures are the stored counters, and today's figure is today's registrations, 0 where nothing was written. |
| ParticipantsApi.EmptyStatisticsAreZero | api/participants.js:216-224 | A store nothing was written to reports the same zeros as the fallback. |
| ParticipantsApi.ProjectAll | api/participants.js:153-164 | Each record's public view, in the same order. |
| ParticipantsApi.ProjectSort | api/participants.js:148-164 | Sorting before taking public views gives the same multiset of views. |
| ParticipantsApi.Shown | api/participants.js:129-164 | The shown entries are at most one per listed id, newest first, and as a multiset exactly the public views of the collected records. |
| ParticipantsApi.ShownFromStore | api/participants.js:129-164 | Every shown entry is the public view of a record stored under a listed id. |
| ParticipantsApi.FromStore | api/participants.js:129-150 | A reordering of the collected records holds only records stored under a listed id. |
| ParticipantsApi.List | api/participants.js:115-180 | The listing shows at most one entry per listed id, newest first. Each entry is the public view of a record stored under a listed id, the entries are exactly the public views of the collected records, and the pagination reports one page of 100 holding them all. |
| ParticipantsApi.Handle | api/participants.js:106-190 | OPTIONS gives 200; a GET on the participants path gives 200 with the listing; anything else gives 405. |
| ParticipantsApi.AllRecordsListed | api/participants.js:129-150 | When every listed id has its record, the listing shows all of them. |
| Migration.ShouldRun | scripts/migrate-data.js:18-25 | The migration is offered exactly when the browser holds participants or statistics (a non-empty string) and no completion marker. |
| Migration.Payload | scripts/migrate-data.js:259-269 | The payload uses `fullName`, or else the older `name`. It passes the email, age and grade through, and fills school, category, experience, motivation and role with non-empty defaults. |
| Migration.PayloadComplete | scripts/migrate-data.js:259-269 | Because of the filled defaults, the server accepts a payload's required fields exactly when the stored entry has a name under either field, an email, a non-zero age and a grade. |
| Migration.PayloadDefaultsStored | scripts/migrate-data.js:259-269 | The server stores the migration's defaults, and an entry without a role registers as a student. |
| Migration.Tally | scripts/migrate-data.js:279-295 | Every participant is counted once, as a success or as an error. |
| Migration.TallyAppend | scripts/migrate-data.js:279-295 | Tallies add up over consecutive runs of participants. |
| Migration.TallyOne | scripts/migrate-data.js:283-294 | One outcome is a success exactly when it is a 2xx or a 409. |
| Migration.SecondAttemptCounts | scripts/migrate-data.js:283-290 | Migrating an entry the server already registered comes back as 409, changes nothing, and counts as a success. |
| Migration.Progress | scripts/migrate-data.js:298-299 | The bar stays in (0, 50] during the participant phase and reaches 50 exactly at the last participant. |
| Migration.ProgressIncreases | scripts/migrate-data.js:298-299 | Each participant moves the bar forward. |
| Migration.Repeat | scripts/migrate-data.js:321-336 | k requests for one role, all for that role. |
| Migration.RequestsFor | scripts/migrate-data.js:318-340 | Vote requests are sent only for listed roles. |
| Migration.VoteRequests | scripts/migrate-data.js:318-340 | Vote requests are sent only for the four roles. |
| Migration.OccurrencesAppend | scripts/migrate-data.js:320-340 | Request counts add up over consecutive runs of requests. |
| Migration.OccurrencesRepeat | scripts/migrate-data.js:321-336 | The repeated requests for a role count k for that role and none for any other. |
| Migration.RequestsForCount | scripts/migrate-data.js:320-340 | A role listed once gets exactly its positive stored count of requests, and none when that count is zero or negative. |
| Migration.RoleCountersOnce | scripts/migrate-data.js:318 | Each of the four roles is listed once. |
| Migration.VoteRequestCount | scripts/migrate-data.js:318-340 | Each of the four roles gets exactly its positive stored count of requests, and nothing is sent for any other key. |
| Migration.ReplayAdds | scripts/migrate-data.js:320-340 | Replaying the requests adds to each role's votes the number of requests for it. |
| Migration.ReplayVotes | scripts/migrate-data.js:320-340 | Replaying votes changes only the vote tallies, and the tally of a role with no request stays as it was. |
| Migration.ReplayRestoresVotes | scripts/migrate-data.js:305-349 | After the replay the server holds, for every role, its earlier votes plus the positive count the browser had stored. |
| Migration.Outcomes | scripts/migrate-data.js:254-271 | One answer per participant, in list order. |
| Migration.Run | scripts/migrate-data.js:202-238 | A run completes, setting the marker to its instant, exactly when both stored lists parse. Then the bar ends at 100 and the vote requests are those of the stored counts. Whenever the participant list parses, the successes and errors are the tally of the server's answers, one per participant. If a list fails to parse, the marker is unchanged and the bar is reset to 0. |
| Migration.CompletedRunNotRepeated | scripts/migrate-data.js:18-25 | Once a run completes, the migration is not offered again. |
| Text.ParseFloatAgreesOnLiterals | lab/javascript/algebra.js:161 | On a whole decimal literal, `parseFloat` gives the literal's exact value. |
| Text.ParseFloatScientific | lab/javascript/algebra.js:151 | `parseFloat` reads scientific notation: digits worth m, then `e` and a signed exponent k, give m · 10^k. |
| Text.ParseFloatShowNat | lab/javascript/finanzas.js:50 | `parseFloat` reads a printed natural number back exactly. |
| Text.ParseIntShowInt | lab/javascript/finanzas.js:52 | `parseInt` reads a printed integer back exactly, and stops at the first character that is not a digit; only an `x` right after a lone 0 would start a hexadecimal numeral instead. |
| Text.ParseInt | lab/javascript/finanzas.js:52 | `parseInt` reads a number only from text that holds a digit; anything else is NaN. |
| Text.ParseIntHex | lab/javascript/finanzas.js:52 | Without a radix, `parseInt` reads a `0x` numeral as hexadecimal. |
| Text.ParseShowInt | lab/javascript/algebra.js:220 | The text `toString` gives for an integer reads back as that integer. |
| Text.ShowIntChars | lab/javascript/algebra.js:220 | An integer prints with digits and a minus sign only. |
| Text.ShowFixed2 | lab/javascript/finanzas.js:400 | `toFixed(2)` gives at least four characters, the first a minus sign or a digit; exponent form from 10^21 on is not modelled (the Text.ShowFixed2 line under Left out). |
| Text.ShowFixed2Shape | lab/javascript/finanzas.js:400 | `toFixed(2)` starts with a minus sign exactly for a negative value and ends with a point and two digits, for values below 10^21 in size; the model extends this to every value (the Text.ShowFixed2 line under Left out). |
| Text.ReadFixed2 | lab/javascript/finanzas.js:400 | `toFixed(2)` of a value below 10^21 in size gives a decimal literal that reads back within 0.005 of the value; the model extends this to every value (the Text.ShowFixed2 line under Left out). |
| Text.ShowFixed2Chars | lab/javascript/finanzas.js:400 | `toFixed(2)` text of a value below 10^21 in size holds only digits, a minus sign and a decimal point, so it needs no quoting in CSV; the model extends this to every value (the Text.ShowFixed2 line under Left out). |
| Text.TrimEmptyIffBlank | js/chatbot.js:815 | `trim` gives the empty text exactly for blank text. |
| Text.Trim | js/chatbot.js:815 | The trimmed text neither starts nor ends with whitespace. |
| Text.TrimIsInfix | js/chatbot.js:815 | The trimmed text is the input with a blank prefix and a blank suffix removed. |
| Text.TrimIdempotent | api/register.js:64-65 | Trimming twice is trimming once. |
| Text.ToLower | js/chatbot.js:1166 | Lower-casing keeps the length and lower-cases each character in place. |
| Text.ToLowerIdempotent | js/chatbot.js:1166 | Lower-casing twice is lower-casing once. |
| Text.ToUpper | api/participants.js:163 | Upper-casing keeps the length and upper-cases each character in place. |
| Text.UpperTextRoundTrip | api/participants.js:163 | Upper-case text survives lower-casing then upper-casing. |
| Text.JoinSplit | js/chatbot.js:852 | Joining the pieces of `split` with the separator gives the text back. |
| Text.SplitJoin | js/chatbot.js:852 | Splitting pieces joined by a separator none of them holds gives the pieces back. |
| Text.HexRoundTrip | lab/javascript/figuras.js:347-352 | A number printed as `width` hexadecimal digits reads back as itself when it fits. |
| Numeric.Round | lab/javascript/figuras.js:348 | `Math.round` gives the integer within one half of the value, a half going up. |
| Numeric.JsRem360 | lab/javascript/geometria.js:94 | `a % 360` lies in [0, 360) for a non-negative angle and in (-360, 0] for a negative one, and differs from the angle by whole turns. |
| Numeric.JsRem360Negates | lab/javascript/geometria.js:94 | The remainder keeps the dividend's sign: negating the angle negates it. |
| Numeric.JsIntRem | lab/javascript/geometria.js:184 | On integers, `%` agrees with the mathematical remainder for a non-negative dividend and lies in (-n, 0] for a negative one. |
| Numeric.JsIntRemNegates | lab/javascript/geometria.js:184 | Negating the dividend negates the integer remainder. |

## Left out

- Rendering: matplotlib and seaborn plots, summary statistics, regression lines and density estimates in club/visualdata.py are floating-point library code. Whether plotting completes is a parameter `plotCompletes` of each renderer.
- Python `float()` is modelled by a decimal-literal reader (sign, digits, optional fraction). Exponents, `inf`, `nan` and underscores are not accepted by the model.
- JavaScript's `\s` and `trim`, and Python's `strip`, are approximated by `Text.IsSpace` (ASCII blanks and the no-break space); the other Unicode spaces are not modelled.
- Text.ToLower, Text.ToUpper: case mapping covers ASCII and the Spanish accented letters only, so `Chatbot.Classify`, the chart type in `VisualData.GenerateVisualization` and `ParticipantsApi.Initials` leave other Unicode letters in their case; Python's `lower` and JavaScript's `toLowerCase` map every letter.
- Text.ParseFloat: `Infinity`, which `parseFloat` reads as an infinite number, is NaN (None) here, because the model's numbers are exact reals. `Algebra.ParseTerm`, `Algebra.ApplyOperation` and `Finance.CalculateInterest` therefore treat it as unreadable.
- Text.ShowInt: integers from 10^21 on, which `toString` writes in exponent form, are written out in full.
- Text.ShowFixed2, Text.ReadFixed2, Text.ShowFixed2Chars, Text.ShowFixed2Shape: values of size 10^21 or more, for which `toFixed(2)` returns `toString`'s exponent form ("1e+21"), are written as plain decimals with two places, and no value overflows to "Infinity", because the model's numbers are exact reals. `Text.ReadFixed2`, `Text.ShowFixed2Chars` and `Text.ShowFixed2Shape` therefore hold for every value, where JavaScript keeps them only below 10^21. The callers inherit this: `Finance.ExportCsv` (and `Finance.CsvLine`, `Finance.CsvDifference`), whose compound amounts can pass 10^21 after `Finance.Validate` accepts a principal of 1e21 or a large rate, and `AlgebraDisplay.FormatNumber` for non-integer values.
- Number-to-text conversion of non-integer values (`toString`, `toFixed`, `Intl`) is a parameter `show`. Only integers and two-decimal amounts are printed by the model itself.
- Algebra: `resetEquation` is not a separate member; it is `Setup` on the default equation text. The DOM updates, step messages and balance-scale animation are left out.
- Finance: the chart drawing and the formatted currency strings are left out. Amounts are exact reals, so `toFixed(2)` rounds the exact value, and binary floating-point error is not modelled.
- TrigExplorer: `exportTrigData`, the sine and cosine values, and the canvas drawing use transcendental functions and are left out. Exact values are kept only for the special angles.
- GeometryLab: the 2D areas, the 3D volumes and surfaces (π, square roots), the analysis and export functions, and the Three.js scene are left out.
- Figures: the area and volume formulas (π, square roots) and the 3D meshes are left out. Only the colour arithmetic and the default cases are modelled.
- Chatbot: the evaluation of the cleaned expression through `Function` is a foreign call, and its result is a parameter. The value of `Math.random()` that picks a response is a parameter. `sendDoubtToTeacher`, the email link and the sparkle effects are left out.
- RobotPhysics: obstacle collision (it needs a square root) is left out. The frame-rate friction factors computed with `pow` are parameters. The forward direction derived from the robot's quaternion is a per-command parameter. `getPhysicsStats` and `isMoving` only report values and are left out.
- RobotPhysics: obstacle ids are random in the source and are parameters here. Rotation is tracked in degrees; the radian value given to Three.js is left out.
- Robot: the effect and environment commands other than the physics ones, and the wait command, only drive rendering or timers, so they succeed without changing the modelled state. The particle-trail cleanup in the rendering loop (robot3d.js:3259) is left out.
- Robot: every move or turn animation is one atomic step, so the frames between its start and its end are not modelled. A reset is two steps, `Robot.Reset` and `Robot.FinishReset`.
- Robot.ExecuteQueue: time does not pass between queued commands, so the end of a reset never falls between two of them; in the page a long enough `wait` lets it finish before the next command.
- MissionPage: the typewriter's `paused` flag is never set in the source and is left out. 2π is a parameter `tau`, and the random draws are parameters. Twinkle, cursor trail, tilt, counters and smooth scrolling are display effects and are left out.
- Key-value store: failed reads and writes (the 500 replies), the 30-day expiry of daily counters and the `lastUpdated`/`serverTime` timestamps are left out. In the store, a counter never written reads as 0: that is the intended reading. The reads in api/stats.js that apply `|| 0` to the promise instead of its value are modelled separately by `StatsApi.SummarizeAsWritten` and `StatsApi.IncrementCounterAsWritten` (see Findings).
- StatsApi.CountersOf: a role-vote counter never written counts 0, the intended reading; as written it is sent as null (`StatsApi.UnvotedRoleShowsNull`).
- StatsApi.Summarize: the intended summary; as written, a store without `site:statistics` gets the all-zero fallback (`StatsApi.SummarizeAsWritten`).
- StatsApi.IncrementVisitors: a counter never written counts from 0, the intended reading; as written it never starts (`StatsApi.CounterNeverStarts`).
- StatsApi.VisitCountsOnce: stated for the intended counters; as written, a visit to a fresh store raises nothing.
- StatsApi.Handle: replies with the intended summary and counts visits from a missing counter, as `StatsApi.Summarize` and `StatsApi.IncrementVisitors` do; the reply and counters as written are the members named in Findings.
- Concurrency: the check-then-write sequences in the role poll and registration are modelled one request at a time, so races between requests are not modelled.
- RegisterApi: the age is the number the client sent (`Option<real>`). An age sent as text is not modelled. The generated id, the current instant and today's date are parameters. The ISO registration date is an integer instant, which orders the same way.
- ParticipantsApi: a record that fails to load or parse is treated like a missing one and skipped.
- ParticipantsApi.Initials: upper-casing covers ASCII and the Spanish accented letters only, not every Unicode letter.
- Loan.SubmitWith: requires a form with no negative field and a whole-year term. The page's number inputs (minimum 0, step 1) keep the browser from submitting anything else, and a form that bypasses them is not modelled.
- Migration: stored vote counts are taken as integers, so fractional counts are not modelled. A list whose text does not parse as JSON is the only way a phase throws. The modal, the log, the buttons and the delete/export of the local data are left out.

## Findings

| source | as written | input that shows it | evidently intended | confidence | as-written member | corrected member |
|---|---|---|---|---|---|---|
| materiales/materiales/loan.js:17-21 | The payment divides `P·m` by `1 − (1+m)^(−n)`. At a 0% rate both are 0, and the five scenarios include base − 1 and base − 0.5. | APR 1 (or 0.5): the first (or second) scenario has rate 0, so its payment is 0/0 = NaN. | At a 0% rate the payment is the principal spread evenly, `P / n`. | not executed; high | Loan.PaymentAsWritten, Loan.ZeroRateScenarioAsWritten | Loan.MonthlyPayment, Loan.PaymentAmortizes, Loan.SubmittedPaymentsAmortize |
| api/register.js:56-80 | The duplicate check and the record key use the email exactly as sent, but the stored address is lower-cased and trimmed. | Register "Ana@mail.com", then "ana@mail.com": both get 201, giving two records for one mailbox. | One account per address, keyed by the normalised address. | not executed; high | RegisterApi.Handle (key policy RawEmail), RegisterApi.RawKeyAdmitsCaseVariant, RegisterApi.CaseVariantAddresses | RegisterApi.Handle (key policy StoredEmail), RegisterApi.NoSecondAccount, RegisterApi.RegisterKeepsKeyed |
| lab/javascript/algebra.js:88-98 | `parseEquation` writes both parsed sides into the current equation before rejecting an equation without `x`. | "3=5": the error is reported, but the page's equation is now 3 = 5, disagreeing with its original and history. | A rejected equation leaves the current equation alone. | not executed; high | Algebra.SetupAsWrittenKeepsRejectedEquation, Algebra.ParseThreeFive | Algebra.Setup, Algebra.SetupConsistent |
| lab/javascript/geometria.js:184-206 | The quadrant colour index is `Math.floor(degrees / 90) % 4` on the raw degrees. JavaScript's `%` keeps the sign, so a negative angle gives index −1, which names no colour: the assignment is ignored and the line keeps its previous colour. | Any degrees in [−90, 0), such as an inverse sine of a negative value before normalisation. | The quadrant of the normalised angle, always one of the four colours. | not executed; medium | TrigExplorer.UpdateAngleAsWritten, TrigExplorer.NegativeAngleLosesColour | TrigExplorer.UpdateAngle, TrigExplorer.UpdateAngleAgrees |
| lab/javascript/algebra.js:484-496 | Undoing the only operation copies `originalEquation`, which is still null when the operation was applied before any equation was set up. | Apply "+1" to the page's default equation, then undo: the equation becomes null. | Undo falls back to the equation the page started with. | not executed; low to medium (page markup outside these files may set up an equation on load) | Algebra.UndoAsWrittenLosesEquation | Algebra.Undo, Algebra.UndoConsistent |
| api/stats.js:65 | `Promise.all` gets `kv.get('site:statistics') \|\| {}`, and the default applies to the promise, which is never falsy. Before anything is written, `site:statistics` is null, reading `.estudiantes` from it throws, and the catch answers with the all-zero fallback. | Visitors arrive before the first vote or registration: the reply shows 0 visitors. | A missing object reads as `{}`, and the visitor counts show. | not executed; high | StatsApi.SummarizeAsWritten, StatsApi.VisitorsHiddenBeforeFirstWrite | StatsApi.Summarize, StatsApi.VisitCountsOnce |
| api/stats.js:156-167 | Each role-vote read applies `\|\| 0` to the promise, so a role nobody voted for reads null and `parseInt(null)` is NaN, sent as null. | One vote for "maestros" only: the reply's `roleVotes` shows null for the other three roles. | A role without votes shows 0. | not executed; high | StatsApi.SummarizeAsWritten, StatsApi.UnvotedRoleShowsNull | StatsApi.Summarize, StatsApi.VoteShowsInSummary |
| api/stats.js:208-215 | `incrementVisitors` reads both counters with `\|\| 0` on the promise. A counter never written gives `parseInt(null) + 1`, NaN, which is stored as null again, so a new day's counter never starts. | Any number of visits on a day whose counter does not exist yet: it stays null and today's figure stays 0. | A missing counter counts from 0. | not executed; medium (assumes the store client writes NaN as null, as JSON does) | StatsApi.IncrementCounterAsWritten, StatsApi.CounterNeverStarts | StatsApi.IncrementVisitors, StatsApi.VisitsCount |

=== FILE: algebra.dfy ===
/** The algebra balance: reading an equation such as `2x+3=9` into two term
    lists, applying the same operation to both sides, detecting the solved
    form `x = c`, and undoing operations. */
module Algebra {
  import opened Wrappers
  import opened AlgebraExpr
  import Text
  import Numeric
  import Seqs

  // ---------------------------------------------------------------------------
  // Reading one side
  // ---------------------------------------------------------------------------

  /** A run of characters between two sign characters, and whether a minus
      sign preceded it. */
  datatype Chunk = Chunk(negative: bool, text: string)

  datatype ParseError =
    | NoEqualsSign
    | EmptySide
    | NoVariable
    | InvalidCoefficient(coefficient: string)
    | InvalidConstant(constant: string)

  predicate IsSign(c: char) { c == '+' || c == '-' }

  predicate NoSigns(t: string)
  {
    forall i :: 0 <= i < |t| ==> !IsSign(t[i])
  }

  /** `sign * v` for a sign of 1 or -1. */
  function ApplySign(negative: bool, v: real): real { if negative then -v else v }

  /** The pending run becomes a chunk only when it is non-empty. */
  function Flush(negative: bool, current: string): seq<Chunk>
  {
    if current == [] then [] else [Chunk(negative, current)]
  }

  /** The character loop of `parseExpression`: every `+` or `-` closes the
      pending run and sets the sign of the next one. */
  function Scan(s: string, negative: bool, current: string): (r: seq<Chunk>)
    requires NoSigns(current)
    ensures forall k :: 0 <= k < |r| ==> r[k].text != [] && NoSigns(r[k].text)
    decreases |s|
  {
    if s == [] then Flush(negative, current)
    else if IsSign(s[0]) then Flush(negative, current) + Scan(s[1..], s[0] == '-', [])
    else Scan(s[1..], negative, current + [s[0]])
  }

  /** The runs of a side, scanned from the start with a positive sign. A
      leading sign needs no special case: it closes an empty run. */
  function Chunks(s: string): seq<Chunk>
  {
    Scan(s, false, [])
  }

  /** The characters of `s` other than the sign characters, in order. */
  function StripSigns(s: string): (r: string)
    ensures NoSigns(r)
  {
    if s == [] then []
    else (if IsSign(s[0]) then [] else [s[0]]) + StripSigns(s[1..])
  }

  function Texts(cs: seq<Chunk>): string
  {
    if cs == [] then [] else cs[0].text + Texts(cs[1..])
  }

  lemma {:induction false} TextsAppend(a: seq<Chunk>, b: seq<Chunk>)
    ensures Texts(a + b) == Texts(a) + Texts(b)
  {
    if a != [] {
      assert (a + b)[1..] == a[1..] + b;
      TextsAppend(a[1..], b);
    } else {
      assert a + b == b;
    }
  }

  /** Scanning loses nothing but the sign characters. */
  lemma {:induction false} ScanTexts(s: string, negative: bool, current: string)
    requires NoSigns(current)
    ensures Texts(Scan(s, negative, current)) == current + StripSigns(s)
    decreases |s|
  {
    if s == [] {
    } else if IsSign(s[0]) {
      ScanTexts(s[1..], s[0] == '-', []);
      TextsAppend(Flush(negative, current), Scan(s[1..], s[0] == '-', []));
    } else {
      ScanTexts(s[1..], negative, current + [s[0]]);
    }
  }

  lemma {:induction false} InTexts(cs: seq<Chunk>, c: char)
    ensures c in Texts(cs) <==> exists k :: 0 <= k < |cs| && c in cs[k].text
  {
    if cs != [] {
      InTexts(cs[1..], c);
      assert forall k :: 1 <= k < |cs| ==> cs[1..][k - 1] == cs[k];
    }
  }

  lemma {:induction false} InStripSigns(s: string, c: char)
    requires !IsSign(c)
    ensures c in StripSigns(s) <==> c in s
  {
    if s != [] {
      InStripSigns(s[1..], c);
      assert s == [s[0]] + s[1..];
    }
  }

  /** Some run contains `x` exactly when the side does. */
  lemma ChunksContainX(s: string)
    ensures (exists k :: 0 <= k < |Chunks(s)| && 'x' in Chunks(s)[k].text) <==> 'x' in s
  {
    ScanTexts(s, false, []);
    InTexts(Chunks(s), 'x');
    InStripSigns(s, 'x');
  }

  /** A run without sign characters is one chunk. */
  lemma {:induction false} ScanNoSigns(t: string, negative: bool, current: string)
    requires NoSigns(current) && NoSigns(t)
    ensures Scan(t, negative, current) == Flush(negative, current + t)
    decreases |t|
  {
    if t != [] {
      assert !IsSign(t[0]);
      ScanNoSigns(t[1..], negative, current + [t[0]]);
      assert current + [t[0]] + t[1..] == current + t;
    } else {
      assert current + t == current;
    }
  }

  /** A sign character after a sign-free run closes that run. */
  lemma {:induction false} ScanAtSign(a: string, op: char, b: string, negative: bool, current: string)
    requires NoSigns(current) && NoSigns(a) && IsSign(op)
    ensures Scan(a + [op] + b, negative, current) == Flush(negative, current + a) + Scan(b, op == '-', [])
    decreases |a|
  {
    var s := a + [op] + b;
    if a == [] {
      assert s[0] == op && s[1..] == b;
      assert current + a == current;
    } else {
      assert s[0] == a[0] && !IsSign(a[0]);
      assert s[1..] == a[1..] + [op] + b;
      ScanAtSign(a[1..], op, b, negative, current + [a[0]]);
      assert current + [a[0]] + a[1..] == current + a;
    }
  }

  /** A leading minus sign applies to the first term. */
  lemma LeadingMinus(t: string)
    requires NoSigns(t) && t != []
    ensures Chunks("-" + t) == [Chunk(true, t)]
  {
    assert "-" + t == [] + ['-'] + t;
    ScanAtSign([], '-', t, false, []);
    ScanNoSigns(t, true, []);
    assert [] + t == t;
  }

  /** `addTermToResult`: a run with `x` is a coefficient (the run with its
      first `x` removed: empty is 1, `-` is -1, otherwise `parseFloat`) followed
      by `x`; any other run is a constant read by `parseFloat`. */
  function ParseTerm(c: Chunk): (r: Result<Expr, ParseError>)
    ensures r.Ok? ==> WellFormed(r.value) && r.value != [] && r.value[0].Num?
    ensures r.Ok? ==> (X in r.value <==> 'x' in c.text)
  {
    if 'x' in c.text then
      var coeffText := Text.RemoveFirst(c.text, "x");
      var coeff :=
        if coeffText == "" || coeffText == "+" then Some(1.0)
        else if coeffText == "-" then Some(-1.0)
        else Text.ParseFloat(coeffText);
      if coeff.None? then Err(InvalidCoefficient(coeffText))
      else Ok([Num(ApplySign(c.negative, coeff.value)), X])
    else
      match Text.ParseFloat(c.text)
      case None => Err(InvalidConstant(c.text))
      case Some(v) => Ok([Num(ApplySign(c.negative, v))])
  }

  /** A run without `x` that `parseFloat` reads is a signed constant. */
  lemma ReadConstantTerm(c: Chunk)
    requires 'x' !in c.text && Text.ParseFloat(c.text).Some?
    ensures ParseTerm(c) == Ok([Num(ApplySign(c.negative, Text.ParseFloat(c.text).value))])
  {
  }

  /** A run `<digits>x`, or a bare `x`, is a coefficient and `x`. */
  lemma ReadCoefficientTerm(c: Chunk, coeffText: string)
    requires 'x' in c.text && Text.RemoveFirst(c.text, "x") == coeffText
    requires coeffText == "" || (Text.ParseFloat(coeffText).Some? && coeffText != "+" && coeffText != "-")
    ensures ParseTerm(c) == Ok([Num(ApplySign(c.negative, if coeffText == "" then 1.0 else Text.ParseFloat(coeffText).value)), X])
  {
  }

  /** The terms of all runs in order; the first run that does not read aborts
      the side. */
  function ParseTerms(cs: seq<Chunk>): (r: Result<Expr, ParseError>)
    ensures r.Ok? ==> WellFormed(r.value) && (r.value == [] || r.value[0].Num?)
  {
    if cs == [] then Ok([])
    else
      var head := ParseTerm(cs[0]);
      var rest := ParseTerms(cs[1..]);
      if head.Err? then Err(head.error)
      else if rest.Err? then Err(rest.error)
      else
        WellFormedConcat(head.value, rest.value);
        Ok(head.value + rest.value)
  }

  /** Two runs read one after the other. */
  lemma ParseTermsCons(c: Chunk, cs: seq<Chunk>)
    requires ParseTerm(c).Ok? && ParseTerms(cs).Ok?
    ensures ParseTerms([c] + cs) == Ok(ParseTerm(c).value + ParseTerms(cs).value)
  {
    assert ([c] + cs)[0] == c && ([c] + cs)[1..] == cs;
  }

  /** The side reads exactly when every run reads. */
  lemma {:induction false} ParseTermsOk(cs: seq<Chunk>)
    ensures ParseTerms(cs).Ok? <==> forall k :: 0 <= k < |cs| ==> ParseTerm(cs[k]).Ok?
  {
    if cs != [] {
      ParseTermsOk(cs[1..]);
      ParseTermsStep(cs);
      AllReadSplit(cs);
    }
  }

  lemma ParseTermsStep(cs: seq<Chunk>)
    requires cs != []
    ensures ParseTerms(cs).Ok? <==> ParseTerm(cs[0]).Ok? && ParseTerms(cs[1..]).Ok?
  {
  }

  lemma AllReadSplit(cs: seq<Chunk>)
    requires cs != []
    ensures (forall k :: 0 <= k < |cs| ==> ParseTerm(cs[k]).Ok?) <==>
      ParseTerm(cs[0]).Ok? && forall k :: 0 <= k < |cs[1..]| ==> ParseTerm(cs[1..][k]).Ok?
  {
    assert forall k :: 0 <= k < |cs[1..]| ==> cs[1..][k] == cs[k + 1];
  }

  /** A side that reads holds `x` exactly when some run does. */
  lemma {:induction false} ParseTermsX(cs: seq<Chunk>)
    ensures ParseTerms(cs).Ok? ==> (X in ParseTerms(cs).value <==> exists k :: 0 <= k < |cs| && 'x' in cs[k].text)
  {
    if cs != [] && ParseTerms(cs).Ok? {
      ParseTermsX(cs[1..]);
      var h := ParseTerm(cs[0]).value;
      var t := ParseTerms(cs[1..]).value;
      assert ParseTerms(cs).value == h + t;
      assert X in h + t <==> X in h || X in t;
      if X in t {
        var k :| 0 <= k < |cs[1..]| && 'x' in cs[1..][k].text;
        assert cs[k + 1] == cs[1..][k];
      }
      if exists k :: 0 <= k < |cs| && 'x' in cs[k].text {
        var k :| 0 <= k < |cs| && 'x' in cs[k].text;
        if k > 0 {
          assert cs[1..][k - 1] == cs[k];
        }
      }
    }
  }

  /** `parseExpression`: the terms of a side, or `[0]` when there are none. */
  function ParseExpression(s: string): (r: Result<Expr, ParseError>)
    ensures r.Ok? ==> WellFormed(r.value) && r.value != []
    ensures r.Ok? ==> (X in r.value <==> 'x' in s)
  {
    ChunksContainX(s);
    ParseTermsX(Chunks(s));
    var terms := ParseTerms(Chunks(s));
    if terms.Ok? && terms.value == [] then Ok([Num(0.0)]) else terms
  }

  /** A side with no characters other than signs reads as `[0]`. */
  lemma {:induction false} ParseOnlySigns(s: string)
    requires StripSigns(s) == []
    ensures ParseExpression(s) == Ok([Num(0.0)])
  {
    ScanTexts(s, false, []);
    EmptyTexts(Chunks(s));
  }

  /** Chunks are never empty, so chunks with no text at all are no chunks. */
  lemma EmptyTexts(cs: seq<Chunk>)
    requires forall k :: 0 <= k < |cs| ==> cs[k].text != []
    requires Texts(cs) == []
    ensures cs == []
  {
  }

  // ---------------------------------------------------------------------------
  // Reading an equation
  // ---------------------------------------------------------------------------

  datatype Equation = Equation(left: Expr, right: Expr)

  /** The equation shown before any is entered: 2x + 3 = 9. */
  const InitialEquation := Equation([Num(2.0), X, Num(3.0)], [Num(9.0)])

  predicate EquationWellFormed(eq: Equation)
  {
    WellFormed(eq.left) && WellFormed(eq.right)
  }

  /** The two sides as `parseEquation` cuts them: spaces removed, then the
      text before the first `=` and the text between the first and the second. */
  function Sides(text: string): (r: (string, string))
    requires '=' in Text.RemoveSpaces(text)
  {
    var parts := Text.Split(Text.RemoveSpaces(text), '=');
    (parts[0], parts[1])
  }

  /** `parseEquation` with its checks in source order: an `=` is required,
      both sides must be non-empty and read, and some side must hold `x`. */
  function ParseEquation(text: string): (r: Result<Equation, ParseError>)
    ensures '=' !in text ==> r == Err(NoEqualsSign)
    ensures '=' !in Text.RemoveSpaces(text) ==> r == Err(NoEqualsSign)
    ensures '=' in Text.RemoveSpaces(text) && (Sides(text).0 == [] || Sides(text).1 == []) ==> r == Err(EmptySide)
    ensures r.Ok? ==> EquationWellFormed(r.value) && r.value.left != [] && r.value.right != []
    ensures r.Ok? ==> X in r.value.left || X in r.value.right
    ensures r.Ok? ==>
      && '=' in Text.RemoveSpaces(text)
      && ParseExpression(Sides(text).0).Ok? && ParseExpression(Sides(text).1).Ok?
      && r.value == Equation(ParseExpression(Sides(text).0).value, ParseExpression(Sides(text).1).value)
    ensures
      && '=' in Text.RemoveSpaces(text) && Sides(text).0 != [] && Sides(text).1 != []
      && ParseExpression(Sides(text).0).Ok? && ParseExpression(Sides(text).1).Ok?
      ==>
      && (r.Ok? <==> 'x' in Sides(text).0 || 'x' in Sides(text).1)
      && (r.Err? ==> r.error == NoVariable)
  {
    var clean := Text.RemoveSpaces(text);
    if '=' !in clean then Err(NoEqualsSign)
    else
      var (left, right) := Sides(text);
      if left == [] || right == [] then Err(EmptySide)
      else
        match ParseExpression(left)
        case Err(e) => Err(e)
        case Ok(l) =>
          match ParseExpression(right)
          case Err(e) => Err(e)
          case Ok(r) =>
            if X !in l && X !in r then Err(NoVariable) else Ok(Equation(l, r))
  }

  /** Every character of a piece of a split occurs in the split text. */
  lemma SplitPieceIn(s: string, sep: char, k: nat, c: char)
    requires k < |Text.Split(s, sep)|
    ensures c in Text.Split(s, sep)[k] ==> c in s
  {
    var parts := Text.Split(s, sep);
    if c in parts[k] {
      Text.JoinSplit(s, sep);
      InJoin(parts, sep, k, c);
    }
  }

  lemma {:induction false} InJoin(parts: seq<string>, sep: char, k: nat, c: char)
    requires k < |parts| && c in parts[k]
    ensures c in Text.Join(parts, sep)
  {
    if |parts| > 1 {
      Text.JoinCons(parts[0], parts[1..], sep);
      if k > 0 {
        InJoin(parts[1..], sep, k - 1, c);
      }
    } else {
      assert Text.Join(parts, sep) == parts[0];
    }
  }

  /** An equation without `x` is rejected. */
  lemma ParseEquationNeedsX(text: string)
    requires 'x' !in text
    ensures ParseEquation(text).Err?
  {
    var clean := Text.RemoveSpaces(text);
    if '=' in clean {
      SplitPieceIn(clean, '=', 0, 'x');
      SplitPieceIn(clean, '=', 1, 'x');
    }
  }

  /** Text after a second `=` is ignored. */
  lemma ParseEquationIgnoresRest(a: string, b: string, c: string)
    requires '=' !in a && '=' !in b
    ensures ParseEquation(a + "=" + b + "=" + c) == ParseEquation(a + "=" + b)
  {
    SidesIgnoreRest(a, b, c);
  }

  lemma SidesIgnoreRest(a: string, b: string, c: string)
    requires '=' !in a && '=' !in b
    ensures '=' in Text.RemoveSpaces(a + "=" + b + "=" + c)
    ensures '=' in Text.RemoveSpaces(a + "=" + b)
    ensures Sides(a + "=" + b + "=" + c) == Sides(a + "=" + b)
  {
    var ra := Text.RemoveSpaces(a);
    var rb := Text.RemoveSpaces(b);
    var rc := Text.RemoveSpaces(c);
    CleanThree(a, b, c);
    CleanTwo(a, b);
    NoCharAfterRemoveSpaces(a, '=');
    NoCharAfterRemoveSpaces(b, '=');
    Text.SplitAtFirst(ra, '=', rb + ['='] + rc);
    Text.SplitAtFirst(rb, '=', rc);
    Text.SplitAtFirst(ra, '=', rb);
    assert Text.Split(rb, '=') == [rb];
  }

  lemma CleanTwo(a: string, b: string)
    ensures Text.RemoveSpaces(a + "=" + b) == Text.RemoveSpaces(a) + ['='] + Text.RemoveSpaces(b)
  {
    Seqs.ConcatAssoc(a, "=", b);
    RemoveSpacesConcat(a, "=" + b);
    RemoveSpacesConcat("=", b);
    assert Text.RemoveSpaces("=") == ['='];
    Seqs.ConcatAssoc(Text.RemoveSpaces(a), ['='], Text.RemoveSpaces(b));
  }

  lemma CleanThree(a: string, b: string, c: string)
    ensures Text.RemoveSpaces(a + "=" + b + "=" + c)
         == Text.RemoveSpaces(a) + ['='] + (Text.RemoveSpaces(b) + ['='] + Text.RemoveSpaces(c))
  {
    assert a + "=" + b + "=" + c == a + "=" + (b + "=" + c);
    CleanTwo(a, b + "=" + c);
    CleanTwo(b, c);
  }

  lemma {:induction false} RemoveSpacesConcat(a: string, b: string)
    ensures Text.RemoveSpaces(a + b) == Text.RemoveSpaces(a) + Text.RemoveSpaces(b)
  {
    if a != [] {
      assert (a + b)[0] == a[0] && (a + b)[1..] == a[1..] + b;
      RemoveSpacesConcat(a[1..], b);
    } else {
      assert a + b == b;
    }
  }

  lemma NoCharAfterRemoveSpaces(a: string, c: char)
    requires c !in a
    ensures c !in Text.RemoveSpaces(a)
  {
  }

  /** `parseEquation` as written: the left side is stored in the current
      equation as soon as it reads, and the right side as soon as it reads,
      before the remaining checks can still reject the input. */
  datatype Attempt = Attempt(equation: Equation, error: Option<ParseError>)

  function ParseEquationAsWritten(current: Equation, text: string): (r: Attempt)
  {
    var clean := Text.RemoveSpaces(text);
    if '=' !in clean then Attempt(current, Some(NoEqualsSign))
    else
      var (left, right) := Sides(text);
      if left == [] || right == [] then Attempt(current, Some(EmptySide))
      else
        match ParseExpression(left)
        case Err(e) => Attempt(current, Some(e))
        case Ok(l) =>
          var withLeft := current.(left := l);
          match ParseExpression(right)
          case Err(e) => Attempt(withLeft, Some(e))
          case Ok(r) =>
            var both := withLeft.(right := r);
            if X !in l && X !in r then Attempt(both, Some(NoVariable)) else Attempt(both, None)
  }

  /** The as-written parse accepts and rejects exactly the same inputs, with
      the same result when it accepts. */
  lemma ParseEquationAsWrittenAgrees(current: Equation, text: string)
    ensures ParseEquation(text).Ok? ==> ParseEquationAsWritten(current, text) == Attempt(ParseEquation(text).value, None)
    ensures ParseEquation(text).Err? ==> ParseEquationAsWritten(current, text).error == Some(ParseEquation(text).error)
  {
  }

  // ---------------------------------------------------------------------------
  // Meaning of an equation
  // ---------------------------------------------------------------------------

  /** y solves the equation. */
  predicate Holds(eq: Equation, y: real)
  {
    Eval(eq.left, y) == Eval(eq.right, y)
  }

  /** Two equations with the same solutions. */
  ghost predicate Equivalent(a: Equation, b: Equation)
  {
    forall y :: Holds(a, y) <==> Holds(b, y)
  }

  // ---------------------------------------------------------------------------
  // Balanced operations
  // ---------------------------------------------------------------------------

  datatype Operation = Add | Subtract | MultiplyBy | DivideBy

  /** A step of the list shown beside the balance. */
  datatype Step = InitialStep(equation: string) | OperationStep(operation: Operation, amount: real)

  /** One entry of the undo history: the operation and the equation it gave. */
  datatype HistoryEntry = HistoryEntry(operation: Operation, amount: real, equation: Equation)

  predicate Scales(op: Operation) { op == MultiplyBy || op == DivideBy }

  /** The same operation on both sides, then `simplifyExpression` on each. */
  function Balance(eq: Equation, op: Operation, v: real): (r: Equation)
    requires Scales(op) ==> v != 0.0
    ensures Canonical(r.left) && Canonical(r.right)
  {
    match op
    case Add => Equation(Simplify(AddTo(eq.left, v)), Simplify(AddTo(eq.right, v)))
    case Subtract => Equation(Simplify(AddTo(eq.left, -v)), Simplify(AddTo(eq.right, -v)))
    case MultiplyBy => Equation(Simplify(Multiply(eq.left, v)), Simplify(Multiply(eq.right, v)))
    case DivideBy => Equation(Simplify(Multiply(eq.left, 1.0 / v)), Simplify(Multiply(eq.right, 1.0 / v)))
  }

  /** A nonzero factor can be cancelled. */
  lemma MulCancel(v: real, a: real, b: real)
    requires v != 0.0
    ensures v * a == v * b <==> a == b
  {
    if v * a == v * b {
      assert v * (a - b) == 0.0;
      assert (v * (a - b)) / v == a - b;
    }
  }

  /** A balanced operation keeps exactly the solutions of a well-formed
      equation. */
  lemma BalancePreservesSolutions(eq: Equation, op: Operation, v: real)
    requires EquationWellFormed(eq)
    requires Scales(op) ==> v != 0.0
    ensures Equivalent(Balance(eq, op, v), eq)
  {
    forall y
      ensures Holds(Balance(eq, op, v), y) <==> Holds(eq, y)
    {
      match op
      case Add => ShiftKeepsSolution(eq, v, y);
      case Subtract => ShiftKeepsSolution(eq, -v, y);
      case MultiplyBy => ScaleKeepsSolution(eq, v, y);
      case DivideBy => ScaleKeepsSolution(eq, 1.0 / v, y);
    }
  }

  /** Adding the same amount to both sides keeps whether `y` solves it. */
  lemma ShiftKeepsSolution(eq: Equation, v: real, y: real)
    ensures Holds(Equation(Simplify(AddTo(eq.left, v)), Simplify(AddTo(eq.right, v))), y) <==> Holds(eq, y)
  {
    AddToEval(eq.left, v, y);
    AddToEval(eq.right, v, y);
    SimplifyPreservesEval(AddTo(eq.left, v), y);
    SimplifyPreservesEval(AddTo(eq.right, v), y);
  }

  /** Multiplying both sides by the same nonzero factor keeps whether `y`
      solves it. */
  lemma ScaleKeepsSolution(eq: Equation, w: real, y: real)
    requires EquationWellFormed(eq) && w != 0.0
    ensures Holds(Equation(Simplify(Multiply(eq.left, w)), Simplify(Multiply(eq.right, w))), y) <==> Holds(eq, y)
  {
    MultiplyEval(eq.left, w, y);
    MultiplyEval(eq.right, w, y);
    SimplifyPreservesEval(Multiply(eq.left, w), y);
    SimplifyPreservesEval(Multiply(eq.right, w), y);
    MulCancel(w, Eval(eq.left, y), Eval(eq.right, y));
  }

  // ---------------------------------------------------------------------------
  // Solved form
  // ---------------------------------------------------------------------------

  /** `x` or `-x` alone. */
  predicate IsUnitX(e: Expr)
  {
    e == [Num(1.0), X] || e == [Num(-1.0), X]
  }

  predicate IsConstant(e: Expr)
  {
    |e| == 1 && e[0].Num?
  }

  /** One side is `x` or `-x` and the other a lone number. */
  predicate SolvedForm(eq: Equation)
  {
    (IsUnitX(eq.left) && IsConstant(eq.right)) || (IsUnitX(eq.right) && IsConstant(eq.left))
  }

  /** `checkIfSolved`: the solution shown, if any. */
  function CheckIfSolved(eq: Equation): (r: Option<real>)
    ensures r.Some? <==> SolvedForm(eq)
  {
    var l := eq.left;
    var r := eq.right;
    var leftIsVariable := |l| == 2 && X in l && l[0].Num? && Numeric.Abs(l[0].value) == 1.0;
    var rightIsConstant := |r| == 1 && r[0].Num?;
    var rightIsVariable := |r| == 2 && X in r && r[0].Num? && Numeric.Abs(r[0].value) == 1.0;
    var leftIsConstant := |l| == 1 && l[0].Num?;
    if leftIsVariable && rightIsConstant then Some(r[0].value / l[0].value)
    else if rightIsVariable && leftIsConstant then Some(l[0].value / r[0].value)
    else None
  }

  lemma EvalUnitX(e: Expr, y: real)
    requires IsUnitX(e)
    ensures Eval(e, y) == e[0].value * y
  {
    assert EvalFrom(e, y, 2) == 0.0;
    assert EvalFrom(e, y, 1) == e[0].value * y;
  }

  lemma EvalConstant(e: Expr, y: real)
    requires IsConstant(e)
    ensures Eval(e, y) == e[0].value
  {
    assert EvalFrom(e, y, 1) == 0.0;
  }

  /** The reported value solves the equation and is its only solution. */
  lemma CheckIfSolvedSound(eq: Equation)
    requires CheckIfSolved(eq).Some?
    ensures Holds(eq, CheckIfSolved(eq).value)
    ensures forall y :: Holds(eq, y) ==> y == CheckIfSolved(eq).value
  {
    var (u, c) := if IsUnitX(eq.left) && IsConstant(eq.right) then (eq.left, eq.right) else (eq.right, eq.left);
    forall y
      ensures Holds(eq, y) <==> y == c[0].value / u[0].value
    {
      EvalUnitX(u, y);
      EvalConstant(c, y);
      UnitSolution(u[0].value, c[0].value, y);
    }
  }

  /** a·y = d with a = ±1 holds exactly for y = d / a. */
  lemma UnitSolution(a: real, d: real, y: real)
    requires a == 1.0 || a == -1.0
    ensures a * y == d <==> y == d / a
  {
  }

  // ---------------------------------------------------------------------------
  // The balance's state
  // ---------------------------------------------------------------------------

  /** What a user action reports: an error message, or the solution shown
      after a successful update (None when the equation is not solved). */
  datatype Feedback = Failed(message: string) | Updated(solution: Option<real>)

  datatype AlgebraState = AlgebraState(
    current: Equation,
    original: Option<Equation>,
    steps: seq<Step>,
    history: seq<HistoryEntry>,
    lastOperation: Option<Operation>)

  /** The state on page load: the built-in equation, nothing entered yet. */
  const InitialState := AlgebraState(InitialEquation, None, [], [], None)

  /** `setupEquation`: the trimmed input is read; on success it becomes both
      the current and the original equation, the steps restart and the
      history is cleared. */
  function Setup(s: AlgebraState, input: string): (r: (AlgebraState, Feedback))
    ensures r.1.Failed? ==> r.0 == s
    ensures r.1.Updated? ==> r.0.original == Some(r.0.current) && r.0.history == []
    ensures r.1.Updated? <==> ParseEquation(Text.Trim(input)).Ok?
    ensures r.1.Updated? ==>
      && r.0.current == ParseEquation(Text.Trim(input)).value
      && r.0.steps == [InitialStep(Text.Trim(input))]
      && r.1.solution == CheckIfSolved(r.0.current)
  {
    var equation := Text.Trim(input);
    if equation == [] then (s, Failed("Por favor ingrese una ecuación válida"))
    else
      match ParseEquation(equation)
      case Err(_) => (s, Failed("Formato de ecuación inválido. Use formato como: 2x+3=9, x-5=10, 3x=15"))
      case Ok(eq) =>
        (s.(current := eq, original := Some(eq), steps := [InitialStep(equation)], history := []),
         Updated(CheckIfSolved(eq)))
  }

  /** `setupEquation` as written: a rejected input can still have replaced
      one or both sides of the current equation. */
  function SetupAsWritten(s: AlgebraState, input: string): (r: (AlgebraState, Feedback))
  {
    var equation := Text.Trim(input);
    if equation == [] then (s, Failed("Por favor ingrese una ecuación válida"))
    else
      var attempt := ParseEquationAsWritten(s.current, equation);
      if attempt.error.Some? then
        (s.(current := attempt.equation), Failed("Formato de ecuación inválido. Use formato como: 2x+3=9, x-5=10, 3x=15"))
      else
        (s.(current := attempt.equation, original := Some(attempt.equation), steps := [InitialStep(equation)], history := []),
         Updated(CheckIfSolved(attempt.equation)))
  }

  /** `applyOperation`: the amount is read with `parseFloat`; a NaN amount or
      a zero factor or divisor is rejected; otherwise both sides change, are
      simplified, and the step and the history grow by one. */
  function ApplyOperation(s: AlgebraState, op: Operation, input: string): (r: (AlgebraState, Feedback))
    ensures Text.ParseFloat(input).None? ==> r == (s, Failed("Por favor ingrese un valor numérico válido"))
    ensures r.1.Failed? ==> r.0 == s
    ensures r.1.Updated? ==> r.0.lastOperation == Some(op) && r.0.original == s.original
    ensures r.1.Updated? ==> |r.0.history| == |s.history| + 1 && r.0.history[..|s.history|] == s.history
    ensures r.1.Updated? ==> r.0.history[|s.history|].equation == r.0.current
    ensures r.1.Updated? <==> Text.ParseFloat(input).Some? && (Scales(op) ==> Text.ParseFloat(input).value != 0.0)
    ensures r.1.Updated? ==>
      && r.0.current == Balance(s.current, op, Text.ParseFloat(input).value)
      && r.0.steps == s.steps + [OperationStep(op, Text.ParseFloat(input).value)]
      && r.1.solution == CheckIfSolved(r.0.current)
  {
    match Text.ParseFloat(input)
    case None => (s, Failed("Por favor ingrese un valor numérico válido"))
    case Some(v) =>
      if v == 0.0 && Scales(op) then (s, Failed("No se puede multiplicar o dividir por cero"))
      else
        var eq := Balance(s.current, op, v);
        (s.(current := eq,
            lastOperation := Some(op),
            steps := s.steps + [OperationStep(op, v)],
            history := s.history + [HistoryEntry(op, v, eq)]),
         Updated(CheckIfSolved(eq)))
  }

  /** The operation the Enter key applies: the last one used, else adding. */
  function EnterOperation(s: AlgebraState): (op: Operation)
    ensures s.lastOperation.None? ==> op == Add
  {
    s.lastOperation.GetOr(Add)
  }

  /** After a successful operation, Enter repeats it. */
  lemma EnterRepeats(s: AlgebraState, op: Operation, input: string)
    requires ApplyOperation(s, op, input).1.Updated?
    ensures EnterOperation(ApplyOperation(s, op, input).0) == op
  {
  }

  /** The equation a history leads back to: its last entry, or the original
      (the built-in equation when none was entered). */
  function Restore(history: seq<HistoryEntry>, original: Option<Equation>): Equation
  {
    if history == [] then original.GetOr(InitialEquation) else history[|history| - 1].equation
  }

  /** `undoLastOperation`: with an empty history nothing happens; otherwise
      the last step and history entry are dropped and the equation goes back
      to what the remaining history leads to. */
  function Undo(s: AlgebraState): (r: AlgebraState)
    ensures s.history == [] ==> r == s
    ensures s.history != [] ==> r.history == s.history[..|s.history| - 1]
    ensures s.history != [] ==> r.current == Restore(r.history, s.original) && r.original == s.original
  {
    if s.history == [] then s
    else
      var history := s.history[..|s.history| - 1];
      s.(history := history,
         steps := if s.steps == [] then [] else s.steps[..|s.steps| - 1],
         current := Restore(history, s.original))
  }

  /** The equation `undoLastOperation` as written leaves behind: None stands
      for the null copied from an original equation never entered. */
  function UndoAsWrittenEquation(s: AlgebraState): (r: Option<Equation>)
  {
    if s.history == [] then Some(s.current)
    else if |s.history| > 1 then Some(s.history[|s.history| - 2].equation)
    else s.original
  }

  /** Both undo versions agree whenever an original equation exists. */
  lemma UndoAgreesWithOriginal(s: AlgebraState)
    requires s.original.Some?
    ensures UndoAsWrittenEquation(s) == Some(Undo(s).current)
  {
  }

  /** `verifySolution`: whether the value satisfies the entered equation up
      to the source's tolerance; None when no equation was entered. */
  function VerifySolution(s: AlgebraState, v: real): (r: Option<bool>)
    ensures r.Some? <==> s.original.Some?
    ensures s.original.Some? && Holds(s.original.value, v) ==> r == Some(true)
  {
    match s.original
    case None => None
    case Some(eq) => Some(Numeric.Abs(Eval(eq.left, v) - Eval(eq.right, v)) < 0.0001)
  }

  // ---------------------------------------------------------------------------
  // Invariant
  // ---------------------------------------------------------------------------

  /** The equation the session started from. */
  function Base(s: AlgebraState): Equation
  {
    s.original.GetOr(InitialEquation)
  }

  /** Every stored equation is well formed and has the solutions of the one
      the session started from, and the current equation is the one the
      history leads back to. */
  ghost predicate Consistent(s: AlgebraState)
  {
    && EquationWellFormed(s.current)
    && EquationWellFormed(Base(s))
    && (forall k :: 0 <= k < |s.history| ==> EquationWellFormed(s.history[k].equation))
    && (forall k :: 0 <= k < |s.history| ==> Equivalent(s.history[k].equation, Base(s)))
    && s.current == Restore(s.history, s.original)
  }

  lemma InitialConsistent()
    ensures Consistent(InitialState)
  {
    assert WellFormed(InitialEquation.left);
  }

  lemma SetupConsistent(s: AlgebraState, input: string)
    requires Consistent(s)
    ensures Consistent(Setup(s, input).0)
  {
    if Setup(s, input).1.Updated? {
      FreshStateConsistent(Setup(s, input).0);
    }
  }

  /** A state whose history is empty and whose original is its well-formed
      current equation is consistent. */
  lemma FreshStateConsistent(t: AlgebraState)
    requires t.history == [] && t.original == Some(t.current) && EquationWellFormed(t.current)
    ensures Consistent(t)
  {
  }

  lemma {:induction false} ApplyConsistent(s: AlgebraState, op: Operation, input: string)
    requires Consistent(s)
    ensures Consistent(ApplyOperation(s, op, input).0)
  {
    var (t, f) := ApplyOperation(s, op, input);
    if f.Updated? {
      var v := Text.ParseFloat(input).value;
      BalancePreservesSolutions(s.current, op, v);
      CanonicalWellFormed(t.current.left);
      CanonicalWellFormed(t.current.right);
      CurrentEquivalent(s);
      forall k | 0 <= k < |t.history|
        ensures EquationWellFormed(t.history[k].equation)
        ensures Equivalent(t.history[k].equation, Base(t))
      {
        if k < |s.history| {
          assert t.history[k] == s.history[k];
        }
      }
    }
  }

  /** The current equation of a consistent state has the base's solutions. */
  lemma CurrentEquivalent(s: AlgebraState)
    requires Consistent(s)
    ensures Equivalent(s.current, Base(s))
  {
    if s.history != [] {
      assert s.current == s.history[|s.history| - 1].equation;
    }
  }

  lemma UndoConsistent(s: AlgebraState)
    requires Consistent(s)
    ensures Consistent(Undo(s))
  {
    if s.history != [] {
      var t := Undo(s);
      forall k | 0 <= k < |t.history|
        ensures t.history[k] == s.history[k]
      {
      }
    }
  }

  /** Undo right after a successful operation restores the equation, the
      history and the steps as they were. */
  lemma UndoAfterApply(s: AlgebraState, op: Operation, input: string)
    requires Consistent(s)
    requires ApplyOperation(s, op, input).1.Updated?
    ensures Undo(ApplyOperation(s, op, input).0).current == s.current
    ensures Undo(ApplyOperation(s, op, input).0).history == s.history
    ensures Undo(ApplyOperation(s, op, input).0).steps == s.steps
  {
    var t := ApplyOperation(s, op, input).0;
    assert t.history[..|t.history| - 1] == s.history;
    assert t.steps[..|t.steps| - 1] == s.steps;
  }

  /** A solution shown in a consistent session solves the entered equation,
      as the verify button then confirms, and is its only solution. */
  lemma ReportedSolutionVerifies(s: AlgebraState, v: real)
    requires Consistent(s)
    requires CheckIfSolved(s.current) == Some(v)
    ensures Holds(Base(s), v)
    ensures forall y :: Holds(Base(s), y) ==> y == v
    ensures s.original.Some? ==> VerifySolution(s, v) == Some(true)
  {
    CheckIfSolvedSound(s.current);
    CurrentEquivalent(s);
  }

  // ---------------------------------------------------------------------------
  // Discrepancies of the code as written
  // ---------------------------------------------------------------------------

  /** A lone digit reads as that number. */
  lemma ReadDigit(d: nat)
    requires d < 10
    ensures ParseExpression([Text.DigitChar(d)]) == Ok([Num(d as real)])
  {
    Text.ParseFloatShowNat(d);
    assert Text.ShowNat(d) == [Text.DigitChar(d)];
    ReadUnsignedConstant([Text.DigitChar(d)], d as real);
  }

  /** A side without signs or `x` that `parseFloat` reads is that constant. */
  lemma ReadUnsignedConstant(t: string, v: real)
    requires t != [] && NoSigns(t) && 'x' !in t && Text.ParseFloat(t) == Some(v)
    ensures ParseExpression(t) == Ok([Num(v)])
  {
    ScanNoSigns(t, false, []);
    assert [] + t == t;
    assert Chunks(t) == [Chunk(false, t)];
    ReadConstantTerm(Chunk(false, t));
    ParseSingleChunk(t, Chunk(false, t));
  }

  /** A side that is one run reads as that run's terms. */
  lemma ParseSingleChunk(s: string, c: Chunk)
    requires Chunks(s) == [c] && ParseTerm(c).Ok? && ParseTerm(c).value != []
    ensures ParseExpression(s) == ParseTerm(c)
  {
    ParseTermsCons(c, []);
    assert [c] + [] == [c];
    assert ParseTerm(c).value + [] == ParseTerm(c).value;
  }

  lemma SidesThreeFive()
    ensures '=' in Text.RemoveSpaces("3=5") && Sides("3=5").0 == "3" && Sides("3=5").1 == "5"
  {
    assert Text.RemoveSpaces("3=5") == "3=5";
    assert "3=5" == "3" + ['='] + "5";
    SidesAround("3=5", "3", "5");
  }

  /** Text whose only `=` stands between `a` and `b` has sides `a` and `b`. */
  lemma SidesAround(text: string, a: string, b: string)
    requires Text.RemoveSpaces(text) == a + ['='] + b && '=' !in a && '=' !in b
    ensures '=' in Text.RemoveSpaces(text) && Sides(text).0 == a && Sides(text).1 == b
  {
    assert (a + ['='] + b)[|a|] == '=';
    Text.SplitAtFirst(a, '=', b);
    assert Text.Split(b, '=') == [b];
  }

  lemma ParseThreeFive(current: Equation)
    ensures ParseEquation("3=5") == Err(NoVariable)
    ensures ParseEquationAsWritten(current, "3=5") == Attempt(Equation([Num(3.0)], [Num(5.0)]), Some(NoVariable))
  {
    ThreeFiveSides();
    NoVariableRejected(current, "3=5", [Num(3.0)], [Num(5.0)]);
  }

  lemma ThreeFiveSides()
    ensures '=' in Text.RemoveSpaces("3=5") && Sides("3=5").0 != [] && Sides("3=5").1 != []
    ensures ParseExpression(Sides("3=5").0) == Ok([Num(3.0)])
    ensures ParseExpression(Sides("3=5").1) == Ok([Num(5.0)])
  {
    SidesThreeFive();
    ReadDigitText(Sides("3=5").0, 3);
    ReadDigitText(Sides("3=5").1, 5);
  }

  lemma ReadDigitText(t: string, d: nat)
    requires d < 10 && t == [Text.DigitChar(d)]
    ensures ParseExpression(t) == Ok([Num(d as real)])
  {
    ReadDigit(d);
  }

  /** Two sides that read without `x` are rejected for lacking the variable;
      as written, both have already replaced the current equation. */
  lemma NoVariableRejected(current: Equation, text: string, l: seq<Term>, r: seq<Term>)
    requires '=' in Text.RemoveSpaces(text)
    requires Sides(text).0 != [] && Sides(text).1 != []
    requires ParseExpression(Sides(text).0) == Ok(l) && ParseExpression(Sides(text).1) == Ok(r)
    requires X !in l && X !in r
    ensures ParseEquation(text) == Err(NoVariable)
    ensures ParseEquationAsWritten(current, text) == Attempt(Equation(l, r), Some(NoVariable))
  {
  }

  /** Entering `3=5` is rejected for lacking `x`, but as written the
      rejected equation replaces the current one: the balance then works on
      `3 = 5` while its history and original still describe `2x+3=9`. */
  lemma SetupAsWrittenKeepsRejectedEquation()
    ensures Setup(InitialState, "3=5").0 == InitialState
    ensures Setup(InitialState, "3=5").1.Failed?
    ensures SetupAsWritten(InitialState, "3=5").1.Failed?
    ensures SetupAsWritten(InitialState, "3=5").0.current == Equation([Num(3.0)], [Num(5.0)])
    ensures !Consistent(SetupAsWritten(InitialState, "3=5").0)
  {
    TrimThreeFive();
    ParseThreeFive(InitialState.current);
    var after := SetupAsWritten(InitialState, "3=5").0;
    assert after == InitialState.(current := Equation([Num(3.0)], [Num(5.0)]));
    assert after.current != Restore(after.history, after.original);
  }

  lemma TrimThreeFive()
    ensures Text.Trim("3=5") == "3=5"
  {
    assert "3=5"[0] == '3' && "3=5"[2] == '5';
    Text.TrimUnpadded("3=5");
  }

  /** An operation applied before any equation is entered, then undone,
      leaves no equation at all as written, where the balance should return
      to the built-in `2x+3=9`. */
  lemma UndoAsWrittenLosesEquation()
    ensures ApplyOperation(InitialState, Add, "1").1.Updated?
    ensures UndoAsWrittenEquation(ApplyOperation(InitialState, Add, "1").0) == None
    ensures Undo(ApplyOperation(InitialState, Add, "1").0).current == InitialEquation
  {
    Text.ParseFloatShowNat(1);
    assert Text.ShowNat(1) == "1";
    var after := ApplyOperation(InitialState, Add, "1").0;
    assert |after.history| == 1 && after.original == None;
    assert Undo(after).history == [];
  }
}

=== FILE: algebra_display.dfy ===
/** How the algebra balance prints a side: `expressionToString` with its
    number formatting, and the fact that reading the printed text back gives
    the side again. */
module AlgebraDisplay {
  import opened Wrappers
  import opened AlgebraExpr
  import Algebra
  import Text
  import Numeric

  // ---------------------------------------------------------------------------
  // Numbers
  // ---------------------------------------------------------------------------


  /** `formatNumber`: integers as they are, anything else with two decimals. */
  function FormatNumber(v: real): (s: string)
    ensures s != [] && s[0] != '+'
  {
    if Text.IsInteger(v) then Text.ShowInt(v.Floor) else Text.ShowFixed2(v)
  }

  /** `String(v)` for a number: integers without decimals; how other values
      print is given by `show`. */
  function ShowNumber(v: real, show: real -> string): string
  {
    if Text.IsInteger(v) then Text.ShowInt(v.Floor) else show(v)
  }

  /** `formatCoefficient`: 1 prints as nothing and -1 as a minus sign. */
  function FormatCoefficient(c: real, show: real -> string): string
  {
    if c == 1.0 then "" else if c == -1.0 then "-" else ShowNumber(c, show)
  }

  /** `show` never prints a leading plus sign. */
  ghost predicate ShowsNoPlus(show: real -> string)
  {
    forall v :: show(v) == [] || show(v)[0] != '+'
  }

  // ---------------------------------------------------------------------------
  // Sides
  // ---------------------------------------------------------------------------

  /** The loop of `expressionToString` from position i with the text so far:
      each `x` adds its coefficient and `x`, each nonzero constant its value,
      with a `+` before a positive amount when something precedes it. */
  function Pieces(e: Expr, show: real -> string, i: nat, acc: string): string
    decreases |e| - i
  {
    if i >= |e| then acc
    else if e[i] == X then
      var coeff := CoefAt(e, i);
      Pieces(e, show, i + 1, acc + (if acc != [] && coeff > 0.0 then "+" else "") + FormatCoefficient(coeff, show) + "x")
    else if ConstAt(e, i) && e[i].value != 0.0 then
      var value := e[i].value;
      Pieces(e, show, i + 1, acc + (if acc != [] && value > 0.0 then "+" else "") + FormatNumber(value))
    else Pieces(e, show, i + 1, acc)
  }

  /** `expressionToString`: the printed side, `0` when nothing was printed. */
  function ExpressionToString(e: Expr, show: real -> string): (r: string)
    ensures r != []
  {
    var r := Pieces(e, show, 0, []);
    if r == [] then "0" else r
  }

  /** The coefficient text followed by `x` never starts with a plus sign. */
  lemma CoefficientPieceNoPlus(c: real, show: real -> string)
    requires ShowsNoPlus(show)
    ensures var p := FormatCoefficient(c, show) + "x"; p != [] && p[0] != '+'
  {
    var f := FormatCoefficient(c, show);
    if f != [] {
      assert (f + "x")[0] == f[0];
    }
  }

  lemma {:induction false} PiecesNoPlus(e: Expr, show: real -> string, i: nat, acc: string)
    requires ShowsNoPlus(show)
    requires acc == [] || acc[0] != '+'
    ensures var r := Pieces(e, show, i, acc); r == [] || r[0] != '+'
    decreases |e| - i
  {
    if i < |e| {
      if e[i] == X {
        var coeff := CoefAt(e, i);
        var p := FormatCoefficient(coeff, show) + "x";
        CoefficientPieceNoPlus(coeff, show);
        var next := acc + (if acc != [] && coeff > 0.0 then "+" else "") + FormatCoefficient(coeff, show) + "x";
        assert acc != [] ==> next[0] == acc[0];
        assert acc == [] ==> next == p;
        PiecesNoPlus(e, show, i + 1, next);
      } else if ConstAt(e, i) && e[i].value != 0.0 {
        var value := e[i].value;
        var next := acc + (if acc != [] && value > 0.0 then "+" else "") + FormatNumber(value);
        assert acc != [] ==> next[0] == acc[0];
        assert acc == [] ==> next == FormatNumber(value);
        PiecesNoPlus(e, show, i + 1, next);
      } else {
        PiecesNoPlus(e, show, i + 1, acc);
      }
    }
  }

  /** A printed side never starts with a plus sign. */
  lemma NoLeadingPlus(e: Expr, show: real -> string)
    requires ShowsNoPlus(show)
    ensures ExpressionToString(e, show)[0] != '+'
  {
    PiecesNoPlus(e, show, 0, []);
  }

  /** A side without `x` whose numbers are all zero prints as `0`. */
  lemma {:induction false} PiecesOfZeros(e: Expr, show: real -> string, i: nat)
    requires X !in e
    requires forall k :: 0 <= k < |e| ==> e[k] == Num(0.0)
    ensures Pieces(e, show, i, []) == []
    decreases |e| - i
  {
    if i < |e| {
      assert e[i] == Num(0.0);
      PiecesOfZeros(e, show, i + 1);
    }
  }

  lemma PrintsZero(e: Expr, show: real -> string)
    requires X !in e
    requires forall k :: 0 <= k < |e| ==> e[k] == Num(0.0)
    ensures ExpressionToString(e, show) == "0"
  {
    PiecesOfZeros(e, show, 0);
  }

  /** Coefficient 1 prints as `x` and -1 as `-x`. */
  lemma PrintsUnitCoefficients(show: real -> string)
    ensures ExpressionToString([Num(1.0), X], show) == "x"
    ensures ExpressionToString([Num(-1.0), X], show) == "-x"
  {
    var e1 := [Num(1.0), X];
    var e2 := [Num(-1.0), X];
    assert !ConstAt(e1, 0) && !ConstAt(e2, 0);
    assert Pieces(e1, show, 1, []) == Pieces(e1, show, 2, "x");
    assert Pieces(e2, show, 1, []) == Pieces(e2, show, 2, "-x");
  }

  // ---------------------------------------------------------------------------
  // Reading a printed side back
  // ---------------------------------------------------------------------------

  /** Every number of the side is an integer. */
  predicate IntegerValued(e: Expr)
  {
    forall k :: 0 <= k < |e| && e[k].Num? ==> Text.IsInteger(e[k].value)
  }

  /** |v| as a natural number, for an integer v. */
  function Magnitude(v: real): (m: nat)
    requires Text.IsInteger(v)
    ensures m as real == Numeric.Abs(v)
  {
    var k := v.Floor;
    if k < 0 then -k else k
  }

  /** A minus sign when `negative`, then the body. */
  function Signed(negative: bool, body: string): string
  {
    (if negative then "-" else "") + body
  }

  /** The text of an `x` term of magnitude m without its sign. */
  function CoefBody(m: nat): string
  {
    if m == 1 then "x" else Text.ShowNat(m) + "x"
  }

  lemma DigitsAreSignFree(n: nat)
    ensures Algebra.NoSigns(Text.ShowNat(n)) && 'x' !in Text.ShowNat(n)
  {
    var d := Text.ShowNat(n);
    assert forall i :: 0 <= i < |d| ==> Text.IsDigit(d[i]);
  }

  lemma CoefBodySignFree(m: nat)
    ensures Algebra.NoSigns(CoefBody(m)) && CoefBody(m) != []
  {
    DigitsAreSignFree(m);
  }

  lemma FormatNumberSigned(d: real)
    requires Text.IsInteger(d) && d != 0.0
    ensures FormatNumber(d) == Signed(d < 0.0, Text.ShowNat(Magnitude(d)))
  {
  }

  lemma CoefficientSigned(c: real, show: real -> string)
    requires Text.IsInteger(c) && c != 0.0
    ensures FormatCoefficient(c, show) + "x" == Signed(c < 0.0, CoefBody(Magnitude(c)))
  {
    if c < 0.0 && c != -1.0 {
      assert Text.ShowInt(c.Floor) == "-" + Text.ShowNat(Magnitude(c));
      assert "-" + Text.ShowNat(Magnitude(c)) + "x" == "-" + (Text.ShowNat(Magnitude(c)) + "x");
    }
  }

  lemma SignedMagnitude(v: real)
    requires Text.IsInteger(v)
    ensures Algebra.ApplySign(v < 0.0, Magnitude(v) as real) == v
  {
  }

  /** A printed integer constant reads back as itself. */
  lemma ReadConstant(d: real)
    requires Text.IsInteger(d)
    ensures Algebra.ParseTerm(Algebra.Chunk(d < 0.0, Text.ShowNat(Magnitude(d)))) == Ok([Num(d)])
  {
    ReadDigits(d < 0.0, Magnitude(d));
    SignedMagnitude(d);
  }

  lemma ReadDigits(negative: bool, m: nat)
    ensures Algebra.ParseTerm(Algebra.Chunk(negative, Text.ShowNat(m))) == Ok([Num(Algebra.ApplySign(negative, m as real))])
  {
    DigitsAreSignFree(m);
    Text.ParseFloatShowNat(m);
    Algebra.ReadConstantTerm(Algebra.Chunk(negative, Text.ShowNat(m)));
  }

  /** A printed `x` term reads back as its coefficient and `x`. */
  lemma ReadCoefficient(c: real)
    requires Text.IsInteger(c) && c != 0.0
    ensures Algebra.ParseTerm(Algebra.Chunk(c < 0.0, CoefBody(Magnitude(c)))) == Ok([Num(c), X])
  {
    ReadCoefBody(c < 0.0, Magnitude(c));
    SignedMagnitude(c);
  }

  lemma ReadCoefBody(negative: bool, m: nat)
    requires m >= 1
    ensures Algebra.ParseTerm(Algebra.Chunk(negative, CoefBody(m))) == Ok([Num(Algebra.ApplySign(negative, m as real)), X])
  {
    var body := CoefBody(m);
    if m == 1 {
      Text.FindFirstOccurrence(body, "x", 0);
      assert Text.RemoveFirst(body, "x") == "";
      Algebra.ReadCoefficientTerm(Algebra.Chunk(negative, body), "");
    } else {
      var digits := Text.ShowNat(m);
      RemoveX(digits);
      assert Text.IsDigit(digits[0]);
      Text.ParseFloatShowNat(m);
      Algebra.ReadCoefficientTerm(Algebra.Chunk(negative, body), digits);
    }
  }

  /** Removing the first `x` from digits followed by `x` leaves the digits. */
  lemma RemoveX(digits: string)
    requires Text.AllDigits(digits)
    ensures Text.RemoveFirst(digits + "x", "x") == digits
  {
    var body := digits + "x";
    assert Text.OccursAt("x", body, |digits|) by {
      assert body[|digits|..|digits| + 1] == "x";
    }
    forall i | 0 <= i < |digits|
      ensures !Text.OccursAt("x", body, i)
    {
      assert body[i..i + 1] == [digits[i]];
    }
    Text.FindFirstOccurrence(body, "x", |digits|);
    assert body[..|digits|] + body[|digits| + 1..] == digits;
  }

  /** A signed sign-free body is one chunk carrying the sign. */
  lemma ChunksOfSigned(negative: bool, body: string)
    requires Algebra.NoSigns(body) && body != []
    ensures Algebra.Chunks(Signed(negative, body)) == [Algebra.Chunk(negative, body)]
  {
    if negative {
      Algebra.LeadingMinus(body);
    } else {
      assert Signed(negative, body) == body;
      Algebra.ScanNoSigns(body, false, []);
      assert [] + body == body;
    }
  }

  /** Two signed bodies joined by a sign character are two chunks. */
  lemma ChunksOfPair(negative: bool, b1: string, op: char, b2: string)
    requires Algebra.NoSigns(b1) && b1 != [] && Algebra.NoSigns(b2) && b2 != [] && Algebra.IsSign(op)
    ensures Algebra.Chunks(Signed(negative, b1) + [op] + b2)
         == [Algebra.Chunk(negative, b1), Algebra.Chunk(op == '-', b2)]
  {
    if negative {
      var rest := b1 + [op] + b2;
      assert Signed(negative, b1) + [op] + b2 == [] + ['-'] + rest;
      Algebra.ScanAtSign([], '-', rest, false, []);
      assert Algebra.Flush(false, [] + []) == [];
      Algebra.ScanAtSign(b1, op, b2, true, []);
    } else {
      assert Signed(negative, b1) + [op] + b2 == b1 + [op] + b2;
      Algebra.ScanAtSign(b1, op, b2, false, []);
    }
    assert [] + b1 == b1;
    Algebra.ScanNoSigns(b2, op == '-', []);
    assert [] + b2 == b2;
  }

  /** Reading back the printed text of a canonical side with integer
      numbers gives the side itself. */
  lemma ReadBackPrinted(e: Expr, show: real -> string)
    requires Canonical(e) && IntegerValued(e)
    ensures Algebra.ParseExpression(ExpressionToString(e, show)) == Ok(e)
  {
    if e == [Num(0.0)] {
      assert Pieces(e, show, 0, []) == Pieces(e, show, 1, []) == [];
      assert ExpressionToString(e, show) == [Text.DigitChar(0)];
      Algebra.ReadDigit(0);
    } else if |e| == 1 {
      assert e == [Num(e[0].value)];
      ReadBackConstant(e[0].value, show);
    } else if |e| == 2 {
      assert e == [Num(e[0].value), X];
      ReadBackLinear(e[0].value, show);
    } else {
      assert e == [Num(e[0].value), X, Num(e[2].value)];
      ReadBackAffine(e[0].value, e[2].value, show);
    }
  }

  lemma ReadBackConstant(d: real, show: real -> string)
    requires Text.IsInteger(d) && d != 0.0
    ensures Algebra.ParseExpression(ExpressionToString([Num(d)], show)) == Ok([Num(d)])
  {
    PrintedConstant(d, show);
    DigitsAreSignFree(Magnitude(d));
    ChunksOfSigned(d < 0.0, Text.ShowNat(Magnitude(d)));
    ReadConstant(d);
    ReadSingle(Algebra.Chunk(d < 0.0, Text.ShowNat(Magnitude(d))), [Num(d)]);
  }

  /** The printed text of a lone constant is its signed digits. */
  lemma PrintedConstant(d: real, show: real -> string)
    requires Text.IsInteger(d) && d != 0.0
    ensures ExpressionToString([Num(d)], show) == Signed(d < 0.0, Text.ShowNat(Magnitude(d)))
  {
    FormatNumberSigned(d);
    assert Pieces([Num(d)], show, 0, []) == Pieces([Num(d)], show, 1, [] + "" + FormatNumber(d));
  }

  /** The printed `x` term of a canonical side that starts with c·x. */
  lemma PrintedCoefficient(e: Expr, show: real -> string)
    requires |e| >= 2 && e[0].Num? && e[1] == X
    ensures Pieces(e, show, 0, []) == Pieces(e, show, 2, FormatCoefficient(e[0].value, show) + "x")
  {
    assert !ConstAt(e, 0);
    assert [] + "" + FormatCoefficient(e[0].value, show) + "x" == FormatCoefficient(e[0].value, show) + "x";
  }

  lemma ReadBackLinear(c: real, show: real -> string)
    requires Text.IsInteger(c) && c != 0.0
    ensures Algebra.ParseExpression(ExpressionToString([Num(c), X], show)) == Ok([Num(c), X])
  {
    var body := CoefBody(Magnitude(c));
    PrintedLinear(c, show);
    CoefBodySignFree(Magnitude(c));
    ChunksOfSigned(c < 0.0, body);
    ReadCoefficient(c);
    ReadSingle(Algebra.Chunk(c < 0.0, body), [Num(c), X]);
  }

  /** The printed text of c·x is the signed coefficient body. */
  lemma PrintedLinear(c: real, show: real -> string)
    requires Text.IsInteger(c) && c != 0.0
    ensures ExpressionToString([Num(c), X], show) == Signed(c < 0.0, CoefBody(Magnitude(c)))
  {
    PrintedCoefficient([Num(c), X], show);
    CoefficientSigned(c, show);
  }

  /** One run that reads gives its terms. */
  lemma ReadSingle(c1: Algebra.Chunk, t1: Expr)
    requires Algebra.ParseTerm(c1) == Ok(t1)
    ensures Algebra.ParseTerms([c1]) == Ok(t1)
  {
    Algebra.ParseTermsCons(c1, []);
    assert [c1] + [] == [c1];
    assert t1 + [] == t1;
  }

  lemma ReadBackAffine(c: real, d: real, show: real -> string)
    requires Text.IsInteger(c) && c != 0.0 && Text.IsInteger(d) && d != 0.0
    ensures Algebra.ParseExpression(ExpressionToString([Num(c), X, Num(d)], show)) == Ok([Num(c), X, Num(d)])
  {
    var body := CoefBody(Magnitude(c));
    var digits := Text.ShowNat(Magnitude(d));
    var op := if d > 0.0 then '+' else '-';
    PrintedAffine(c, d, show);
    CoefBodySignFree(Magnitude(c));
    DigitsAreSignFree(Magnitude(d));
    ChunksOfPair(c < 0.0, body, op, digits);
    ReadTwoChunks(c, d, body, digits, op);
  }

  /** The printed text of c·x + d: the signed coefficient, the sign of d,
      and the digits of |d|. */
  lemma PrintedAffine(c: real, d: real, show: real -> string)
    requires Text.IsInteger(c) && c != 0.0 && Text.IsInteger(d) && d != 0.0
    ensures ExpressionToString([Num(c), X, Num(d)], show)
         == Signed(c < 0.0, CoefBody(Magnitude(c))) + [if d > 0.0 then '+' else '-'] + Text.ShowNat(Magnitude(d))
  {
    var e := [Num(c), X, Num(d)];
    var piece := FormatCoefficient(c, show) + "x";
    var sign := if d > 0.0 then "+" else "";
    PrintedCoefficient(e, show);
    assert ConstAt(e, 2);
    assert Pieces(e, show, 2, piece) == piece + sign + FormatNumber(d);
    CoefficientSigned(c, show);
    SignAndDigits(piece, d);
  }

  /** A non-zero integer constant after a non-empty first piece prints as its
      sign and its digits. */
  lemma SignAndDigits(piece: string, d: real)
    requires Text.IsInteger(d) && d != 0.0
    ensures piece + (if d > 0.0 then "+" else "") + FormatNumber(d)
         == piece + [if d > 0.0 then '+' else '-'] + Text.ShowNat(Magnitude(d))
  {
    FormatNumberSigned(d);
    var digits := Text.ShowNat(Magnitude(d));
    if d < 0.0 {
      assert piece + "" + ("-" + digits) == piece + ['-'] + digits;
    }
  }

  lemma ReadTwoChunks(c: real, d: real, body: string, digits: string, op: char)
    requires Text.IsInteger(c) && c != 0.0 && Text.IsInteger(d) && d != 0.0
    requires body == CoefBody(Magnitude(c)) && digits == Text.ShowNat(Magnitude(d))
    requires op == if d > 0.0 then '+' else '-'
    ensures Algebra.ParseTerms([Algebra.Chunk(c < 0.0, body), Algebra.Chunk(op == '-', digits)])
         == Ok([Num(c), X, Num(d)])
  {
    ReadCoefficient(c);
    ReadConstant(d);
    assert (op == '-') == (d < 0.0);
    ReadAffinePair(Algebra.Chunk(c < 0.0, body), Algebra.Chunk(op == '-', digits), c, d);
  }

  /** A run that reads as c·x followed by one that reads as d. */
  lemma ReadAffinePair(c1: Algebra.Chunk, c2: Algebra.Chunk, c: real, d: real)
    requires Algebra.ParseTerm(c1) == Ok([Num(c), X]) && Algebra.ParseTerm(c2) == Ok([Num(d)])
    ensures Algebra.ParseTerms([c1, c2]) == Ok([Num(c), X, Num(d)])
  {
    ReadPair(c1, c2, [Num(c), X], [Num(d)]);
    assert [Num(c), X] + [Num(d)] == [Num(c), X, Num(d)];
  }

  /** Two runs that each read give their terms one after the other. */
  lemma ReadPair(c1: Algebra.Chunk, c2: Algebra.Chunk, t1: Expr, t2: Expr)
    requires Algebra.ParseTerm(c1) == Ok(t1) && Algebra.ParseTerm(c2) == Ok(t2)
    ensures Algebra.ParseTerms([c1, c2]) == Ok(t1 + t2)
  {
    Algebra.ParseTermsCons(c2, []);
    assert [c2] + [] == [c2];
    Algebra.ParseTermsCons(c1, [c2]);
    assert [c1] + [c2] == [c1, c2];
    assert t2 + [] == t2;
  }
}

=== FILE: algebra_expr.dfy ===
/** The term lists of the algebra balance: a side of an equation is a list of
    numbers and `x` markers, where a number directly before an `x` is that
    variable's coefficient and any other number is a constant. This module
    gives their value, their canonical simplification and the two balanced
    edits (adding a constant, scaling every number). */
module AlgebraExpr {

  datatype Term = Num(value: real) | X

  type Expr = seq<Term>

  /** Every `x` directly follows its numeric coefficient. */
  predicate WellFormed(e: Expr)
  {
    forall i :: 0 <= i < |e| && e[i] == X ==> i > 0 && e[i - 1].Num?
  }

  /** Joining two well-formed lists keeps every `x` after its coefficient
      when the second list does not start with `x`. */
  lemma WellFormedConcat(a: Expr, b: Expr)
    requires WellFormed(a) && WellFormed(b) && (b == [] || b[0].Num?)
    ensures WellFormed(a + b)
  {
    var c := a + b;
    forall i | 0 <= i < |c| && c[i] == X
      ensures i > 0 && c[i - 1].Num?
    {
      if i >= |a| {
        assert b[i - |a|] == X;
      }
    }
  }

  /** The coefficient read for an `x` at position i: the number before it, or
      1 for an `x` in first position. */
  function CoefAt(e: Expr, i: nat): real
    requires i < |e|
  {
    if i > 0 && e[i - 1].Num? then e[i - 1].value else 1.0
  }

  /** A number not followed by `x` is a constant term. */
  predicate ConstAt(e: Expr, i: nat)
    requires i < |e|
  {
    e[i].Num? && (i == |e| - 1 || e[i + 1] != X)
  }

  /** The sum of the coefficients of the `x` terms from position i on. */
  function CoefFrom(e: Expr, i: nat): real
    decreases |e| - i
  {
    if i >= |e| then 0.0
    else (if e[i] == X then CoefAt(e, i) else 0.0) + CoefFrom(e, i + 1)
  }

  /** The sum of the constant terms from position i on. */
  function ConstFrom(e: Expr, i: nat): real
    decreases |e| - i
  {
    if i >= |e| then 0.0
    else (if ConstAt(e, i) then e[i].value else 0.0) + ConstFrom(e, i + 1)
  }

  function Coef(e: Expr): real { CoefFrom(e, 0) }
  function Const(e: Expr): real { ConstFrom(e, 0) }

  /** `evaluateExpression`: the value of the side at x, scanning left to right. */
  function EvalFrom(e: Expr, x: real, i: nat): real
    decreases |e| - i
  {
    if i >= |e| then 0.0
    else (if e[i] == X then CoefAt(e, i) * x else if ConstAt(e, i) then e[i].value else 0.0)
         + EvalFrom(e, x, i + 1)
  }

  function Eval(e: Expr, x: real): real { EvalFrom(e, x, 0) }

  /** Every side is a linear function of x: its coefficient sum times x plus
      its constant sum. */
  lemma {:induction false} EvalLinearFrom(e: Expr, x: real, i: nat)
    ensures EvalFrom(e, x, i) == CoefFrom(e, i) * x + ConstFrom(e, i)
    decreases |e| - i
  {
    if i < |e| {
      EvalLinearFrom(e, x, i + 1);
      var c := if e[i] == X then CoefAt(e, i) else 0.0;
      assert (c + CoefFrom(e, i + 1)) * x == c * x + CoefFrom(e, i + 1) * x;
    }
  }

  lemma EvalLinear(e: Expr, x: real)
    ensures Eval(e, x) == Coef(e) * x + Const(e)
  {
    EvalLinearFrom(e, x, 0);
  }

  /** A list without `x` has no coefficient. */
  lemma {:induction false} NoXNoCoef(e: Expr, i: nat)
    requires X !in e
    ensures CoefFrom(e, i) == 0.0
    decreases |e| - i
  {
    if i < |e| {
      assert e[i] != X;
      NoXNoCoef(e, i + 1);
    }
  }

  // ---------------------------------------------------------------------------
  // Canonical form
  // ---------------------------------------------------------------------------

  /** The shapes simplification produces: `[c, x]`, `[c, x, d]`, `[d]` with
      nonzero c and d, or `[0]`. */
  predicate Canonical(e: Expr)
  {
    || e == [Num(0.0)]
    || (|e| == 1 && e[0].Num? && e[0].value != 0.0)
    || (|e| == 2 && e[0].Num? && e[0].value != 0.0 && e[1] == X)
    || (|e| == 3 && e[0].Num? && e[0].value != 0.0 && e[1] == X && e[2].Num? && e[2].value != 0.0)
  }

  lemma CanonicalWellFormed(e: Expr)
    requires Canonical(e)
    ensures WellFormed(e) && 1 <= |e| <= 3
  {
  }

  /** The coefficient and constant of a canonical side can be read off its
      shape. */
  lemma CanonicalSums(e: Expr)
    requires Canonical(e)
    ensures Coef(e) == (if |e| >= 2 then e[0].value else 0.0)
    ensures Const(e) == (if |e| == 1 then e[0].value else if |e| == 3 then e[2].value else 0.0)
  {
    assert CoefFrom(e, |e|) == 0.0 && ConstFrom(e, |e|) == 0.0;
    if |e| >= 2 {
      assert CoefFrom(e, 1) == e[0].value + CoefFrom(e, 2);
      assert ConstFrom(e, 0) == ConstFrom(e, 1) == ConstFrom(e, 2);
    }
    if |e| == 3 {
      assert CoefFrom(e, 2) == CoefFrom(e, 3);
      assert ConstFrom(e, 2) == e[2].value + ConstFrom(e, 3);
    }
  }

  /** `simplifyExpression`: one `[c, x]` term for the summed coefficients when
      there is an `x` and c is nonzero, then the summed constant when nonzero,
      and `[0]` when nothing is left. */
  function Simplify(e: Expr): (r: Expr)
    ensures Canonical(r)
  {
    var c := Coef(e);
    var d := Const(e);
    var head := if X in e && c != 0.0 then [Num(c), X] else [];
    var tail := if d != 0.0 then [Num(d)] else [];
    if head + tail == [] then [Num(0.0)] else head + tail
  }

  /** Simplification keeps the value of the side at every x. */
  lemma SimplifyPreservesEval(e: Expr, x: real)
    ensures Eval(Simplify(e), x) == Eval(e, x)
  {
    EvalLinear(e, x);
    EvalLinear(Simplify(e), x);
    if X !in e {
      NoXNoCoef(e, 0);
    }
    var r := Simplify(e);
    CanonicalSums(r);
  }

  /** A canonical side is its own simplification. */
  lemma SimplifyCanonical(e: Expr)
    requires Canonical(e)
    ensures Simplify(e) == e
  {
    CanonicalSums(e);
  }

  /** Simplifying twice changes nothing more. */
  lemma SimplifyIdempotent(e: Expr)
    ensures Simplify(Simplify(e)) == Simplify(e)
  {
    SimplifyCanonical(Simplify(e));
  }

  // ---------------------------------------------------------------------------
  // Balanced edits
  // ---------------------------------------------------------------------------

  /** Position of the first constant term at or after i, if any. */
  function FirstConstFrom(e: Expr, i: nat): (r: int)
    ensures r == -1 || (i <= r < |e| && ConstAt(e, r))
    ensures r == -1 ==> forall k :: i <= k < |e| ==> !ConstAt(e, k)
    ensures r != -1 ==> forall k :: i <= k < r ==> !ConstAt(e, k)
    decreases |e| - i
  {
    if i >= |e| then -1
    else if ConstAt(e, i) then i
    else FirstConstFrom(e, i + 1)
  }

  /** `addToExpression`: the first constant term absorbs v, or v is appended
      as a new constant. */
  function AddTo(e: Expr, v: real): (r: Expr)
    ensures WellFormed(e) ==> WellFormed(r)
    ensures |r| == |e| || r == e + [Num(v)]
  {
    var k := FirstConstFrom(e, 0);
    if k == -1 then e + [Num(v)]
    else e[k := Num(e[k].value + v)]
  }

  /** Adding v to a side adds v to its value at every x. */
  lemma AddToEval(e: Expr, v: real, x: real)
    ensures Eval(AddTo(e, v), x) == Eval(e, x) + v
  {
    var k := FirstConstFrom(e, 0);
    EvalLinear(e, x);
    EvalLinear(AddTo(e, v), x);
    if k == -1 {
      AppendConstCoef(e, v, 0);
      AppendConstConst(e, v, 0);
    } else {
      UpdateConstCoef(e, k, v, 0);
      UpdateConstConst(e, k, v, 0);
    }
  }

  lemma {:induction false} AppendConstCoef(e: Expr, v: real, i: nat)
    ensures CoefFrom(e + [Num(v)], i) == CoefFrom(e, i)
    decreases |e| + 1 - i
  {
    var f := e + [Num(v)];
    if i < |e| {
      AppendConstCoef(e, v, i + 1);
      assert f[i] == e[i];
      assert i > 0 ==> f[i - 1] == e[i - 1];
    } else if i == |e| {
      assert f[i] != X;
    }
  }

  lemma {:induction false} AppendConstConst(e: Expr, v: real, i: nat)
    requires forall k :: i <= k < |e| ==> !ConstAt(e, k)
    ensures ConstFrom(e + [Num(v)], i) == ConstFrom(e, i) + (if i <= |e| then v else 0.0)
    decreases |e| + 1 - i
  {
    var f := e + [Num(v)];
    if i < |e| {
      AppendConstConst(e, v, i + 1);
      assert f[i] == e[i];
      if i + 1 < |e| {
        assert f[i + 1] == e[i + 1];
      }
      assert ConstAt(f, i) == ConstAt(e, i);
    } else if i == |e| {
      assert ConstAt(f, i);
    }
  }

  lemma {:induction false} UpdateConstCoef(e: Expr, k: nat, v: real, i: nat)
    requires k < |e| && ConstAt(e, k)
    ensures CoefFrom(e[k := Num(e[k].value + v)], i) == CoefFrom(e, i)
    decreases |e| - i
  {
    var f := e[k := Num(e[k].value + v)];
    if i < |e| {
      UpdateConstCoef(e, k, v, i + 1);
      assert (f[i] == X) == (e[i] == X);
      if e[i] == X {
        assert i - 1 != k;
      }
    }
  }

  lemma {:induction false} UpdateConstConst(e: Expr, k: nat, v: real, i: nat)
    requires k < |e| && ConstAt(e, k)
    ensures ConstFrom(e[k := Num(e[k].value + v)], i) == ConstFrom(e, i) + (if i <= k then v else 0.0)
    decreases |e| - i
  {
    var f := e[k := Num(e[k].value + v)];
    if i < |e| {
      UpdateConstConst(e, k, v, i + 1);
      assert ConstAt(f, i) == ConstAt(e, i);
    }
  }

  /** One number scaled by v; an `x` marker stays. */
  function ScaleTerm(t: Term, v: real): Term
  {
    if t.Num? then Num(t.value * v) else X
  }

  /** `multiplyExpression`: every number, coefficient or constant, is scaled. */
  function Multiply(e: Expr, v: real): (r: Expr)
    ensures |r| == |e|
    ensures forall i :: 0 <= i < |e| ==> r[i] == ScaleTerm(e[i], v)
  {
    seq(|e|, i requires 0 <= i < |e| => ScaleTerm(e[i], v))
  }

  lemma MultiplyWellFormed(e: Expr, v: real)
    requires WellFormed(e)
    ensures WellFormed(Multiply(e, v))
  {
  }

  /** Scaling a well-formed side by v scales its value at every x by v. */
  lemma MultiplyEval(e: Expr, v: real, x: real)
    requires WellFormed(e)
    ensures Eval(Multiply(e, v), x) == v * Eval(e, x)
  {
    EvalLinear(e, x);
    EvalLinear(Multiply(e, v), x);
    MultiplyCoef(e, v, 0);
    MultiplyConst(e, v, 0);
    assert (v * Coef(e)) * x == v * (Coef(e) * x);
  }

  lemma {:induction false} MultiplyCoef(e: Expr, v: real, i: nat)
    requires WellFormed(e)
    ensures CoefFrom(Multiply(e, v), i) == v * CoefFrom(e, i)
    decreases |e| - i
  {
    if i < |e| {
      MultiplyCoef(e, v, i + 1);
      var m := Multiply(e, v);
      if e[i] == X {
        assert m[i - 1] == ScaleTerm(e[i - 1], v);
        ScaleSum(v, CoefAt(e, i), CoefFrom(e, i + 1));
      }
    }
  }

  lemma {:induction false} MultiplyConst(e: Expr, v: real, i: nat)
    ensures ConstFrom(Multiply(e, v), i) == v * ConstFrom(e, i)
    decreases |e| - i
  {
    if i < |e| {
      MultiplyConst(e, v, i + 1);
      var m := Multiply(e, v);
      MultiplyConstAt(e, v, i);
      var c := ConstFrom(e, i + 1);
      if ConstAt(e, i) {
        ScaleSum(v, e[i].value, c);
      }
    }
  }

  lemma MultiplyConstAt(e: Expr, v: real, i: nat)
    requires i < |e|
    ensures ConstAt(Multiply(e, v), i) == ConstAt(e, i)
    ensures ConstAt(e, i) ==> Multiply(e, v)[i].value == e[i].value * v
  {
    var m := Multiply(e, v);
    assert m[i] == ScaleTerm(e[i], v);
    if i + 1 < |e| {
      assert m[i + 1] == ScaleTerm(e[i + 1], v);
    }
  }

  lemma ScaleSum(v: real, a: real, b: real)
    ensures v * (a + b) == a * v + v * b
  {
  }
}

=== FILE: chatbot.dfy ===
/** MathBot, the site's keyword chatbot: name detection, the ordered keyword
    routing of a message to a response category, the arithmetic sanitiser,
    the send/reply cycle of the chat window and the one-hour session expiry
    of the saved conversation. */
module Chatbot {
  import opened Wrappers
  import Text
  import Seqs

  // ---------------------------------------------------------------------------
  // Keyword groups
  // ---------------------------------------------------------------------------

  /** A response category and the keywords that select it. */
  datatype Group = Group(category: string, keywords: seq<string>)

  /** The keyword groups in the order `generateResponse` tries them. */
  const Groups: seq<Group> := [
    Group("greetings", ["hola", "hi", "hello", "buenos", "buenas"]),
    Group("about_creator", ["quien te creo", "quien te hizo", "creador", "profesor guerrero", "yonatan", "quien eres"]),
    Group("duda", ["duda", "no entiendo", "ayudame", "confused"]),
    Group("tarea", ["tarea", "homework", "ejercicio", "problema"]),
    Group("stem", ["stem", "robotica", "programacion", "ingenieria", "ciencia de datos"]),
    Group("olimpiadas", ["olimpiada", "competencia", "concurso", "torneo"]),
    Group("algebra", ["algebra", "álgebra", "ecuacion", "ecuación", "variable", "sistema", "factorizar", "polinomio"]),
    Group("geometria", ["geometría", "geometria", "triángulo", "triangulo", "círculo", "circulo", "área", "area",
                        "perímetro", "perimetro", "volumen", "rectángulo", "cuadrado", "polígono"]),
    Group("calculo", ["cálculo", "calculo", "derivada", "integral", "límite", "limite", "diferencial", "función", "funcion"]),
    Group("trigonometria", ["trigonometría", "trigonometria", "seno", "coseno", "tangente", "ángulo", "angulo",
                            "hipotenusa", "sin", "cos", "tan"]),
    Group("estadistica", ["estadística", "estadistica", "probabilidad", "media", "mediana", "moda"]),
    Group("recursos", ["recurso", "pagina", "página", "web", "sitio", "enlace"]),
    Group("formulas", ["formula", "fórmula", "ecuacion cuadratica", "pitagoras", "teorema"]),
    Group("ayuda", ["ayuda", "help", "que puedes hacer", "que sabes", "como funciona"]),
    Group("goodbye", ["adios", "adiós", "chao", "bye", "hasta luego", "nos vemos", "gracias"])
  ]

  const GreetingsGroup: nat := 0
  const CalculusGroup: nat := 8
  const TrigonometryGroup: nat := 9
  const AlgebraGroup: nat := 6
  const FormulasGroup: nat := 12
  const HelpGroup: nat := 13

  /** Group `i` is the first, from `from` on, whose keywords occur in `text`. */
  predicate IsFirstMatch(groups: seq<Group>, text: string, from: nat, i: nat)
  {
    from <= i < |groups| && Text.ContainsAny(text, groups[i].keywords)
    && forall j :: from <= j < i ==> !Text.ContainsAny(text, groups[j].keywords)
  }

  /** The chain of `if (...includes...) return` tests. */
  function FirstMatch(groups: seq<Group>, text: string, from: nat): (r: Option<nat>)
    ensures r.Some? ==> IsFirstMatch(groups, text, from, r.value)
    ensures r.None? <==> forall j :: from <= j < |groups| ==> !Text.ContainsAny(text, groups[j].keywords)
    decreases |groups| - from
  {
    if from >= |groups| then None
    else if Text.ContainsAny(text, groups[from].keywords) then Some(from)
    else FirstMatch(groups, text, from + 1)
  }

  /** There is only one first match, so the search finds it. */
  lemma {:induction false} FirstMatchUnique(groups: seq<Group>, text: string, from: nat, i: nat)
    requires IsFirstMatch(groups, text, from, i)
    ensures FirstMatch(groups, text, from) == Some(i)
    decreases i - from
  {
    if from < i {
      assert !Text.ContainsAny(text, groups[from].keywords);
      FirstMatchUnique(groups, text, from + 1, i);
    }
  }

  // ---------------------------------------------------------------------------
  // Arithmetic
  // ---------------------------------------------------------------------------

  /** The characters the sanitiser keeps. */
  predicate IsMathChar(c: char)
  {
    Text.IsDigit(c) || c == '+' || c == '-' || c == '*' || c == '/' || c == '.' || c == '(' || c == ')' || c == ' '
  }

  /** `replace(/[^0-9+\-*\/.() ]/g, '')`; the following removal of letters
      finds nothing left to remove. */
  function Sanitize(s: string): (r: string)
    ensures |r| <= |s|
    ensures forall i :: 0 <= i < |r| ==> IsMathChar(r[i])
  {
    if s == [] then []
    else (if IsMathChar(s[0]) then [s[0]] else []) + Sanitize(s[1..])
  }

  /** Sanitising works character by character. */
  lemma {:induction false} SanitizeAppend(a: string, b: string)
    ensures Sanitize(a + b) == Sanitize(a) + Sanitize(b)
  {
    if a != [] {
      assert (a + b)[1..] == a[1..] + b;
      SanitizeAppend(a[1..], b);
    } else {
      assert a + b == b;
    }
  }

  /** Text that is already clean passes unchanged; in particular sanitising
      twice is sanitising once. */
  lemma {:induction false} SanitizeKeepsClean(s: string)
    requires forall i :: 0 <= i < |s| ==> IsMathChar(s[i])
    ensures Sanitize(s) == s
  {
    if s != [] {
      SanitizeKeepsClean(s[1..]);
    }
  }

  lemma SanitizeIdempotent(s: string)
    ensures Sanitize(Sanitize(s)) == Sanitize(s)
  {
    SanitizeKeepsClean(Sanitize(s));
  }

  /** The arithmetic reply before the expression is evaluated: the two
      rejections, or the cleaned expression that is handed to the evaluator. */
  datatype MathOutcome = EmptyExpression | InvalidExpression | Evaluate(cleaned: string)

  function MathMessage(o: MathOutcome): string
  {
    match o
    case EmptyExpression => "Error: Expresión vacía"
    case InvalidExpression => "Error: Expresión no válida"
    case Evaluate(_) => ""
  }

  /** `evaluateBasicMath` up to the evaluation itself. */
  function EvaluateBasicMath(expression: string): (o: MathOutcome)
    ensures o == EmptyExpression <==> Sanitize(expression) == []
    ensures o == InvalidExpression <==>
      Sanitize(expression) != [] && (Text.Contains(Sanitize(expression), "..") || Text.Contains(Sanitize(expression), "**"))
    ensures o.Evaluate? ==>
      o.cleaned == Sanitize(expression) && !Text.Contains(o.cleaned, "..") && !Text.Contains(o.cleaned, "**")
  {
    var cleaned := Sanitize(expression);
    if cleaned == [] then EmptyExpression
    else if Text.Contains(cleaned, "..") || Text.Contains(cleaned, "**") then InvalidExpression
    else Evaluate(cleaned)
  }

  /** `/[\+\-\*\/\(\)\d\s]+/.test(message)`: some operator, digit or
      whitespace character occurs. */
  predicate HasCalcChar(message: string)
  {
    exists i :: 0 <= i < |message| && (Text.IsDigit(message[i]) || Text.IsSpace(message[i]) || message[i] in "+-*/()")
  }

  const CalcWords: seq<string> := ["+", "-", "*", "/", "calcular", "cuanto es"]

  predicate CalcTrigger(message: string, lower: string)
  {
    HasCalcChar(message) && Text.ContainsAny(lower, CalcWords)
  }

  // ---------------------------------------------------------------------------
  // Routing
  // ---------------------------------------------------------------------------

  /** What `generateResponse` answers with: a canned response of a category,
      an arithmetic result, or one of the two inline topic answers. */
  datatype Reply = Canned(category: string) | Calculation(outcome: MathOutcome) | Matrices | Logarithms

  const MatrixWords: seq<string> := ["matrices", "determinante"]
  const LogarithmWords: seq<string> := ["logaritmo", "exponencial"]

  function Classify(message: string): (r: Reply)
    ensures var lower := Text.ToLower(message); var first := FirstMatch(Groups, lower, 0);
      && (first.Some? ==> r == Canned(Groups[first.value].category))
      && (r.Calculation? <==> first.None? && CalcTrigger(message, lower))
      && (r.Calculation? ==> r.outcome == EvaluateBasicMath(message))
      && (first.None? && !CalcTrigger(message, lower) ==>
            r == (if Text.ContainsAny(lower, MatrixWords) then Matrices
                  else if Text.ContainsAny(lower, LogarithmWords) then Logarithms
                  else Canned("unknown")))
  {
    var lower := Text.ToLower(message);
    var first := FirstMatch(Groups, lower, 0);
    if first.Some? then Canned(Groups[first.value].category)
    else if CalcTrigger(message, lower) then Calculation(EvaluateBasicMath(message))
    else if Text.ContainsAny(lower, MatrixWords) then Matrices
    else if Text.ContainsAny(lower, LogarithmWords) then Logarithms
    else Canned("unknown")
  }

  /** The message is answered by the first group whose keywords it holds. */
  lemma ClassifyFirstGroup(message: string, i: nat)
    requires IsFirstMatch(Groups, Text.ToLower(message), 0, i)
    ensures Classify(message) == Canned(Groups[i].category)
  {
    FirstMatchUnique(Groups, Text.ToLower(message), 0, i);
  }

  lemma CategoriesKnown()
    ensures forall j :: 0 <= j < |Groups| ==> Groups[j].category != "unknown"
  {
  }

  /** The unknown-topic answer comes exactly when nothing else applies. */
  lemma ClassifyUnknown(message: string)
    ensures var lower := Text.ToLower(message);
      Classify(message) == Canned("unknown") <==>
        (forall j :: 0 <= j < |Groups| ==> !Text.ContainsAny(lower, Groups[j].keywords))
        && !CalcTrigger(message, lower) && !Text.ContainsAny(lower, MatrixWords)
        && !Text.ContainsAny(lower, LogarithmWords)
  {
    var lower := Text.ToLower(message);
    var first := FirstMatch(Groups, lower, 0);
    if first.Some? {
      var k := first.value;
      CategoriesKnown();
    }
  }

  /** An occurrence of a word is an occurrence of each of its prefixes. */
  lemma ContainsPrefix(s: string, word: string, prefix: string)
    requires Text.Contains(s, word) && prefix <= word
    ensures Text.Contains(s, prefix)
  {
    var i :| 0 <= i <= |s| && Text.OccursAt(word, s, i);
    OccursInside(s, word, i, 0, prefix);
  }

  /** A piece of an occurring word occurs at the matching offset. */
  lemma OccursInside(s: string, word: string, i: nat, off: nat, piece: string)
    requires Text.OccursAt(word, s, i)
    requires off + |piece| <= |word| && word[off..off + |piece|] == piece
    ensures Text.OccursAt(piece, s, i + off)
  {
    forall k | 0 <= k < |piece|
      ensures s[i + off..i + off + |piece|][k] == piece[k]
    {
      assert piece[k] == word[off..off + |piece|][k] == word[off + k];
      assert word[off + k] == s[i..i + |word|][off + k];
    }
    assert s[i + off..i + off + |piece|] == piece;
  }

  /** A search for a word whose first letter is absent finds nothing. */
  lemma FirstLetterAbsent(s: string, word: string)
    requires |word| > 0 && word[0] !in s
    ensures Text.Find(s, word, 0).None?
  {
  }

  lemma ContainsKeyword(s: string, words: seq<string>, k: nat)
    requires k < |words| && Text.Contains(s, words[k])
    ensures Text.ContainsAny(s, words)
  {
  }

  /** Any message containing "hola" is answered as a greeting, whatever else
      it asks. */
  lemma GreetingWins(message: string)
    requires Text.Contains(Text.ToLower(message), "hola")
    ensures Classify(message) == Canned("greetings")
  {
    var lower := Text.ToLower(message);
    ContainsKeyword(lower, Groups[0].keywords, 0);
    assert IsFirstMatch(Groups, lower, 0, 0);
  }

  /** "hipotenusa" is listed under trigonometry, but every message holding it
      also holds "hi" and is answered as a greeting. */
  lemma HipotenusaIsGreeting(message: string)
    requires Text.Contains(Text.ToLower(message), "hipotenusa")
    ensures Classify(message) == Canned("greetings")
  {
    var lower := Text.ToLower(message);
    ContainsPrefix(lower, "hipotenusa", "hi");
    ContainsKeyword(lower, Groups[0].keywords, 1);
    assert IsFirstMatch(Groups, lower, 0, 0);
  }

  /** "como funciona" is listed under help, but the calculus keyword
      "funcion" inside it is tried first, so such a message never gets the
      help answer. */
  lemma ComoFuncionaNeverHelp(message: string)
    requires Text.Contains(Text.ToLower(message), "como funciona")
    ensures Classify(message) != Canned("ayuda")
  {
    var lower := Text.ToLower(message);
    var i :| 0 <= i <= |lower| && Text.OccursAt("como funciona", lower, i);
    OccursInside(lower, "como funciona", i, 5, "funcion");
    ContainsKeyword(lower, Groups[CalculusGroup].keywords, 8);
    var first := FirstMatch(Groups, lower, 0);
    assert first.Some? && first.value <= CalculusGroup;
    ClassifyFirstGroup(message, first.value);
    NotHelpBeforeCalculus(first.value);
  }

  lemma NotHelpBeforeCalculus(k: nat)
    requires k <= CalculusGroup
    ensures Groups[k].category != "ayuda"
  {
    assert Groups[k].category in ["greetings", "about_creator", "duda", "tarea", "stem", "olimpiadas",
                                  "algebra", "geometria", "calculo"];
  }

  /** The arithmetic branch is reached only when no keyword group matched. */
  lemma CalculationOnlyAfterGroups(message: string)
    requires Classify(message).Calculation?
    ensures forall j :: 0 <= j < |Groups| ==> !Text.ContainsAny(Text.ToLower(message), Groups[j].keywords)
    ensures Classify(message).outcome == EvaluateBasicMath(message)
  {
  }

  // ---------------------------------------------------------------------------
  // Canned responses
  // ---------------------------------------------------------------------------

  const Fallback := "Lo siento, no tengo una respuesta para eso."
  const Placeholder := "{name}"

  /** `studentName || 'estudiante'`. */
  function DisplayName(studentName: string): (r: string)
    ensures studentName == "" ==> r == "estudiante"
    ensures studentName != "" ==> r == studentName
  {
    if studentName == "" then "estudiante" else studentName
  }

  /** `s.replace(sub, with)` with a string pattern: the first occurrence only. */
  function ReplaceFirst(s: string, sub: string, with: string): (r: string)
    ensures Text.Find(s, sub, 0).None? ==> r == s
    ensures Text.Find(s, sub, 0).Some? ==> |r| == |s| - |sub| + |with|
    ensures Text.Find(s, sub, 0).Some? ==> var i := Text.Find(s, sub, 0).value;
      r[..i] == s[..i] && r[i..i + |with|] == with && r[i + |with|..] == s[i + |sub|..]
  {
    match Text.Find(s, sub, 0)
    case None => s
    case Some(i) =>
      var r := s[..i] + with + s[i + |sub|..];
      assert r[..i] == s[..i];
      assert r[i..i + |with|] == with;
      r
  }

  /** `getRandomResponse(category).replace('{name}', name)`, with `u` the value
      of `Math.random()`: a category without responses gives the fallback
      sentence, and an empty list yields `undefined`, on which `replace`
      throws (None). */
  function Respond(responses: map<string, seq<string>>, category: string, u: real, name: string): (r: Option<string>)
    requires 0.0 <= u < 1.0
    ensures category !in responses ==> r == Some(Fallback)
    ensures category in responses ==> (r.None? <==> responses[category] == [])
    ensures category in responses && responses[category] != [] ==>
      exists k :: 0 <= k < |responses[category]| && r == Some(ReplaceFirst(responses[category][k], Placeholder, name))
  {
    if category !in responses then
      FirstLetterAbsent(Fallback, Placeholder);
      Some(ReplaceFirst(Fallback, Placeholder, name))
    else
      var list := responses[category];
      if list == [] then None
      else
        var k := (u * |list| as real).Floor;
        assert 0 <= k < |list| by {
          assert 0.0 <= u * |list| as real < |list| as real;
        }
        Some(ReplaceFirst(list[k], Placeholder, name))
  }

  /** The category a quick-action button asks for; any other action leaves
      the reply empty. */
  function QuickActionCategory(action: string): (r: Option<string>)
    ensures r.Some? <==> action in {"ayuda", "recursos", "formulas", "about"}
    ensures action == "about" ==> r == Some("about_creator")
    ensures r.Some? && action != "about" ==> r == Some(action)
  {
    if action == "ayuda" || action == "recursos" || action == "formulas" then Some(action)
    else if action == "about" then Some("about_creator")
    else None
  }

  // ---------------------------------------------------------------------------
  // Name detection
  // ---------------------------------------------------------------------------

  const MathTopics: seq<string> := [
    "álgebra", "algebra", "geometría", "geometria", "cálculo", "calculo",
    "trigonometría", "trigonometria", "estadística", "estadistica",
    "probabilidad", "ecuación", "ecuacion", "función", "funcion"
  ]

  /** `/^[A-ZÁÉÍÓÚÑ][a-záéíóúñ]{1,15}$/`. */
  predicate NamePattern(w: string)
  {
    2 <= |w| <= 16 && Text.IsSpanishUpper(w[0]) && forall i :: 1 <= i < |w| ==> Text.IsSpanishLower(w[i])
  }

  /** `isLikelyAName`: at most two space-separated words, the first shaped
      like a capitalised name, and no math topic anywhere in the text. */
  predicate IsLikelyAName(text: string)
    ensures IsLikelyAName(text) ==>
      && 2 <= |Text.Trim(text)|
      && Text.IsSpanishUpper(Text.Trim(text)[0])
      && Text.IsSpanishLower(Text.Trim(text)[1])
  {
    SplitFirst(Text.Trim(text), ' ');
    var words := Text.Split(Text.Trim(text), ' ');
    |words| <= 2 && NamePattern(words[0]) && !Text.ContainsAny(Text.ToLower(text), MathTopics)
  }

  /** The first piece of a split is the text up to the first separator. */
  lemma SplitFirst(s: string, sep: char)
    ensures Text.Split(s, sep)[0] <= s
  {
    if sep in s {
      assert Text.Split(s, sep)[0] == s[..Text.IndexOf(s, sep)];
    }
  }

  /** A text taken for a name starts, after trimming, with a capital letter,
      and mentions no math topic. */
  lemma NameStartsWithCapital(text: string)
    requires IsLikelyAName(text)
    ensures Text.Trim(text) != [] && Text.IsSpanishUpper(Text.Trim(text)[0])
    ensures forall k :: 0 <= k < |MathTopics| ==> !Text.Contains(Text.ToLower(text), MathTopics[k])
  {
    SplitFirst(Text.Trim(text), ' ');
    var w := Text.Split(Text.Trim(text), ' ')[0];
    assert w[0] == Text.Trim(text)[0];
  }

  // ---------------------------------------------------------------------------
  // The chat window
  // ---------------------------------------------------------------------------

  datatype Sender = User | Bot | System

  datatype Entry = Entry(text: string, sender: Sender)

  /** What the chat keeps: the captured name ("" when none), the history,
      whether the typing indicator is up, and whether the input accepts text. */
  datatype ChatState = ChatState(studentName: string, history: seq<Entry>, isTyping: bool, inputEnabled: bool)

  const InitialChat := ChatState("", [], false, true)

  /** The reply scheduled by `sendMessage`: a greeting for a newly captured
      name, or the routed answer to the message. */
  datatype Pending = GreetByName | Answer(message: string)

  /** The immediate part of `sendMessage`; the reply itself arrives later. */
  function SendMessage(s: ChatState, input: string): (r: (ChatState, Option<Pending>))
    ensures var message := Text.Trim(input);
      message == [] || s.isTyping ==> r == (s, None)
    ensures var message := Text.Trim(input);
      message != [] && !s.isTyping ==>
        r.1.Some? && r.0.isTyping && !r.0.inputEnabled && r.0.history == s.history + [Entry(message, User)]
    ensures r.0.studentName != s.studentName ==> s.studentName == "" && IsLikelyAName(Text.Trim(input))
                                                 && r.0.studentName == Text.Trim(input)
    ensures r.1 == Some(GreetByName) <==> r.0.studentName != s.studentName
  {
    var message := Text.Trim(input);
    if message == [] || s.isTyping then (s, None)
    else
      var logged := s.(history := s.history + [Entry(message, User)], inputEnabled := false, isTyping := true);
      if s.studentName == "" && IsLikelyAName(message) then
        (logged.(studentName := message), Some(GreetByName))
      else
        (logged, Some(Answer(message)))
  }

  /** What the scheduled reply says, before the canned text is chosen. */
  function PendingReply(s: ChatState, p: Pending): Reply
  {
    match p
    case GreetByName => Canned("nameRequest")
    case Answer(message) => Classify(message)
  }

  /** The timer firing: the typing indicator goes away, the reply text is
      logged and the input is enabled again. */
  function Deliver(s: ChatState, text: string): (r: ChatState)
    ensures !r.isTyping && r.inputEnabled
    ensures r.history == s.history + [Entry(text, Bot)]
    ensures r.studentName == s.studentName
  {
    s.(isTyping := false, inputEnabled := true, history := s.history + [Entry(text, Bot)])
  }

  /** A full exchange logs the message and then the reply, and leaves the
      chat ready for the next message. */
  lemma ExchangeLogsBoth(s: ChatState, input: string, text: string)
    requires Text.Trim(input) != [] && !s.isTyping
    ensures var t := SendMessage(s, input).0;
      Deliver(t, text).history == s.history + [Entry(Text.Trim(input), User), Entry(text, Bot)]
      && !Deliver(t, text).isTyping && Deliver(t, text).inputEnabled
  {
    var t := SendMessage(s, input).0;
    assert t.history == s.history + [Entry(Text.Trim(input), User)];
    assert Deliver(t, text).history == t.history + [Entry(text, Bot)];
    Seqs.AppendPair(s.history, Entry(Text.Trim(input), User), Entry(text, Bot));
  }

  /** While a reply is pending, nothing more can be sent. */
  lemma NoSendWhileTyping(s: ChatState, first: string, second: string)
    requires Text.Trim(first) != [] && !s.isTyping
    ensures var t := SendMessage(s, first).0; SendMessage(t, second) == (t, None)
  {
  }

  // ---------------------------------------------------------------------------
  // Saved conversation
  // ---------------------------------------------------------------------------

  /** The record kept in local storage; a missing or unreadable field is None. */
  datatype SavedChat = SavedChat(studentName: Option<string>, history: Option<seq<Entry>>, lastActiveMs: Option<int>)

  datatype Stored = NothingStored | Unreadable | Stored(chat: SavedChat)

  const HourMs: int := 60 * 60 * 1000

  /** The saved session is older than an hour. An unreadable date compares
      as NaN and never counts as expired. */
  predicate Expired(chat: SavedChat, nowMs: int)
  {
    chat.lastActiveMs.Some? && nowMs - chat.lastActiveMs.value > HourMs
  }

  /** `loadConversationHistory`: the chat state after loading, and whether
      the storage is rewritten. */
  function LoadHistory(s: ChatState, stored: Stored, nowMs: int): (r: (ChatState, bool))
    ensures !stored.Stored? ==> r == (s, false)
    ensures stored.Stored? && Expired(stored.chat, nowMs) ==> r.0.studentName == "" && r.0.history == [] && r.1
    ensures stored.Stored? && !Expired(stored.chat, nowMs) ==>
      r.0.studentName == stored.chat.studentName.GetOr("") && r.0.history == stored.chat.history.GetOr([]) && !r.1
  {
    match stored
    case NothingStored => (s, false)
    case Unreadable => (s, false)
    case Stored(chat) =>
      var restored := s.(studentName := chat.studentName.GetOr(""), history := chat.history.GetOr([]));
      if Expired(chat, nowMs) then (restored.(studentName := "", history := []), true)
      else (restored, false)
  }

  /** Saving and loading within the hour restores the name and history. */
  lemma SaveLoadWithinHour(s: ChatState, savedAtMs: int, nowMs: int)
    requires nowMs - savedAtMs <= HourMs
    ensures var loaded := LoadHistory(InitialChat, Stored(SavedChat(Some(s.studentName), Some(s.history), Some(savedAtMs))), nowMs).0;
      loaded.studentName == s.studentName && loaded.history == s.history
  {
  }
}

=== FILE: figures.dfy ===
/** The figure explorer's colour utilities and its figure tables: lightening
    and darkening a `#rrggbb` colour channel by channel, the 3D geometry
    chosen for each figure name, and the title/formula record shown for it. */
module Figures {
  import opened Wrappers
  import Numeric
  import Text

  // ---------------------------------------------------------------------------
  // Colours
  // ---------------------------------------------------------------------------

  /** The value of a colour picker: `#` and six hexadecimal digits. */
  predicate IsHexColor(color: string)
  {
    |color| == 7 && color[0] == '#' && Text.AllHex(color[1..])
  }

  /** `parseInt(color.replace("#", ""), 16)`. */
  function ColorValue(color: string): (n: nat)
    requires IsHexColor(color)
    ensures n < 0x1000000
  {
    HexSixBound(color[1..]);
    Text.HexValue(color[1..])
  }

  datatype Rgb = Rgb(r: int, g: int, b: int)

  predicate ValidRgb(c: Rgb)
  {
    0 <= c.r <= 255 && 0 <= c.g <= 255 && 0 <= c.b <= 255
  }

  /** `num >> 16`, `num >> 8 & 0xFF` and `num & 0xFF` for a 24-bit value. */
  function Channels(num: nat): (c: Rgb)
    requires num < 0x1000000
    ensures ValidRgb(c)
  {
    Rgb(num / 0x10000, num / 0x100 % 0x100, num % 0x100)
  }

  /** The colour as it is parsed channel by channel. */
  function ColorChannels(color: string): (c: Rgb)
    requires IsHexColor(color)
    ensures ValidRgb(c)
  {
    Channels(ColorValue(color))
  }

  /** The amount a percentage moves each channel, `Math.round(2.55 * percent)`. */
  function Amount(percent: real): int
  {
    Numeric.Round(2.55 * percent)
  }

  /** Both functions pin a channel to [0,255]: anything below 1 (lighten) or
      below 0 (darken) becomes 0, anything from 255 up becomes 255. */
  function ClampChannel(x: int): (r: int)
    ensures 0 <= r <= 255
    ensures 0 <= x <= 255 ==> r == x
    ensures x < 0 ==> r == 0
    ensures x > 255 ==> r == 255
  {
    if x < 255 then (if x < 1 then 0 else x) else 255
  }

  /** The darkening clamp, written in the other order. */
  function ClampChannelDown(x: int): (r: int)
    ensures r == ClampChannel(x)
  {
    if x > 255 then 255 else if x < 0 then 0 else x
  }

  /** `0x1000000 + R * 0x10000 + G * 0x100 + B`, printed in hex, without its
      leading 1, after a `#`. */
  function Encode(c: Rgb): (s: string)
    requires ValidRgb(c)
  {
    var v := 0x1000000 + c.r * 0x10000 + c.g * 0x100 + c.b;
    "#" + Text.ShowHex(v, 7)[1..]
  }

  function LightenRgb(c: Rgb, amt: int): Rgb
  {
    Rgb(ClampChannel(c.r + amt), ClampChannel(c.g + amt), ClampChannel(c.b + amt))
  }

  function DarkenRgb(c: Rgb, amt: int): Rgb
  {
    Rgb(ClampChannelDown(c.r - amt), ClampChannelDown(c.g - amt), ClampChannelDown(c.b - amt))
  }

  /** `lightenColor`. */
  function Lighten(color: string, percent: real): (s: string)
    requires IsHexColor(color)
    ensures IsHexColor(s)
    ensures ColorChannels(s) == LightenRgb(ColorChannels(color), Amount(percent))
  {
    var c := LightenRgb(ColorChannels(color), Amount(percent));
    EncodeRoundTrip(c);
    Encode(c)
  }

  /** `darkenColor`. */
  function Darken(color: string, percent: real): (s: string)
    requires IsHexColor(color)
    ensures IsHexColor(s)
    ensures ColorChannels(s) == DarkenRgb(ColorChannels(color), Amount(percent))
  {
    var c := DarkenRgb(ColorChannels(color), Amount(percent));
    EncodeRoundTrip(c);
    Encode(c)
  }

  /** Every digit of a produced colour is lower-case, as `toString(16)` prints. */
  lemma EncodeLowerCase(c: Rgb)
    requires ValidRgb(c)
    ensures forall i :: 1 <= i < |Encode(c)| ==> !('A' <= Encode(c)[i] <= 'F')
  {
    EncodeDigits(c);
    var h := Text.ShowHex(c.r * 0x10000 + c.g * 0x100 + c.b, 6);
    assert forall i :: 1 <= i < |Encode(c)| ==> Encode(c)[i] == h[i - 1];
  }

  /** Darkening by a non-negative amount lowers each channel by it, stopping
      at 0; lightening raises it, stopping at 255. */
  lemma ChannelFormulas(color: string, percent: real)
    requires IsHexColor(color) && Amount(percent) >= 0
    ensures var c := ColorChannels(color); var amt := Amount(percent);
      var d := ColorChannels(Darken(color, percent));
      d == Rgb(Floor0(c.r - amt), Floor0(c.g - amt), Floor0(c.b - amt))
    ensures var c := ColorChannels(color); var amt := Amount(percent);
      var l := ColorChannels(Lighten(color, percent));
      l == Rgb(Cap255(c.r + amt), Cap255(c.g + amt), Cap255(c.b + amt))
  {
  }

  function Floor0(x: int): int { if x < 0 then 0 else x }

  function Cap255(x: int): int { if x > 255 then 255 else x }

  /** Darkening never raises a channel and lightening never lowers one. */
  lemma Monotone(color: string, percent: real)
    requires IsHexColor(color) && Amount(percent) >= 0
    ensures var c := ColorChannels(color); var d := ColorChannels(Darken(color, percent));
      d.r <= c.r && d.g <= c.g && d.b <= c.b
    ensures var c := ColorChannels(color); var l := ColorChannels(Lighten(color, percent));
      l.r >= c.r && l.g >= c.g && l.b >= c.b
  {
  }

  // ---------------------------------------------------------------------------
  // Hex encoding proofs
  // ---------------------------------------------------------------------------

  /** Reading back an encoded colour gives its channels. */
  lemma EncodeRoundTrip(c: Rgb)
    requires ValidRgb(c)
    ensures IsHexColor(Encode(c))
    ensures ColorValue(Encode(c)) == c.r * 0x10000 + c.g * 0x100 + c.b
    ensures ColorChannels(Encode(c)) == c
  {
    EncodeDigits(c);
    PowTwoValues();
    Text.HexRoundTrip(c.r * 0x10000 + c.g * 0x100 + c.b, 6);
    HexColorOf(Encode(c), Text.ShowHex(c.r * 0x10000 + c.g * 0x100 + c.b, 6));
    assert ColorValue(Encode(c)) == c.r * 0x10000 + c.g * 0x100 + c.b;
    ChannelsOfPacked(c);
  }

  lemma ChannelsOfPacked(c: Rgb)
    requires ValidRgb(c)
    ensures c.r * 0x10000 + c.g * 0x100 + c.b < 0x1000000
    ensures Channels(c.r * 0x10000 + c.g * 0x100 + c.b) == c
  {
    Unpack(c.r, c.g, c.b);
  }

  /** The produced colour is `#` and the six hex digits of the packed channels. */
  lemma EncodeDigits(c: Rgb)
    requires ValidRgb(c)
    ensures Encode(c) == "#" + Text.ShowHex(c.r * 0x10000 + c.g * 0x100 + c.b, 6)
  {
    PackedDigits(c, c.r * 0x10000 + c.g * 0x100 + c.b);
  }

  /** `EncodeDigits` for the packed value `n` of the channels. */
  lemma PackedDigits(c: Rgb, n: nat)
    requires ValidRgb(c) && n == c.r * 0x10000 + c.g * 0x100 + c.b
    ensures Encode(c) == "#" + Text.ShowHex(n, 6)
  {
    assert Encode(c) == "#" + Text.ShowHex(0x1000000 + n, 7)[1..];
    DropLeadingOne(n);
  }

  /** Seven hex digits of 0x1000000 + n, less the leading 1, are the six of n. */
  lemma DropLeadingOne(n: nat)
    ensures Text.ShowHex(0x1000000 + n, 7)[1..] == Text.ShowHex(n, 6)
  {
    PowTwoValues();
    ShowHexDropTop(0x1000000 + n, 6);
    ShowHexAddHigh(n, 1, 6);
    assert 0x1000000 + n == n + Numeric.PowTwo(4 * 6) * 1;
  }

  lemma HexColorOf(color: string, h: string)
    requires |h| == 6 && Text.AllHex(h) && color == "#" + h
    ensures IsHexColor(color) && ColorValue(color) == Text.HexValue(h)
  {
    assert color[1..] == h;
  }

  lemma Unpack(r: int, g: int, b: int)
    requires 0 <= r <= 255 && 0 <= g <= 255 && 0 <= b <= 255
    ensures var n := r * 0x10000 + g * 0x100 + b;
      n / 0x10000 == r && n / 0x100 % 0x100 == g && n % 0x100 == b
  {
    var n := r * 0x10000 + g * 0x100 + b;
    var low := g * 0x100 + b;
    assert 0 <= low < 0x10000;
    assert n == r * 0x10000 + low;
    assert n / 0x100 == r * 0x100 + g;
  }

  lemma PowTwoValues()
    ensures Numeric.PowTwo(24) == 0x1000000
  {
    assert Numeric.PowTwo(8) == 256 by {
      assert Numeric.PowTwo(4) == 16;
    }
    assert Numeric.PowTwo(16) == 65536 by {
      assert Numeric.PowTwo(12) == 4096;
    }
    assert Numeric.PowTwo(20) == 0x100000;
  }

  /** Dropping the top digit of a (w+1)-digit rendering leaves the w-digit one. */
  lemma {:induction false} ShowHexDropTop(n: nat, w: nat)
    ensures Text.ShowHex(n, w + 1)[1..] == Text.ShowHex(n, w)
  {
    if w > 0 {
      ShowHexDropTop(n / 16, w - 1);
      var s := Text.ShowHex(n / 16, w);
      assert Text.ShowHex(n, w + 1) == s + [Text.HexDigitChar(n % 16)];
      assert (s + [Text.HexDigitChar(n % 16)])[1..] == s[1..] + [Text.HexDigitChar(n % 16)];
    }
  }

  /** Adding a multiple of 16^w does not change the last w digits. */
  lemma {:induction false} ShowHexAddHigh(n: nat, m: nat, w: nat)
    ensures Text.ShowHex(n + Numeric.PowTwo(4 * w) * m, w) == Text.ShowHex(n, w)
  {
    if w > 0 {
      var x := Numeric.PowTwo(4 * (w - 1)) * m;
      Text.PowTwoStep(w - 1);
      assert 4 * w == 4 * ((w - 1) + 1);
      assert Numeric.PowTwo(4 * w) * m == 16 * x;
      assert (n + 16 * x) / 16 == n / 16 + x;
      assert (n + 16 * x) % 16 == n % 16;
      ShowHexAddHigh(n / 16, m, w - 1);
    }
  }

  /** Six hex digits denote less than 2^24. */
  lemma HexSixBound(s: string)
    requires Text.AllHex(s) && |s| == 6
    ensures Text.HexValue(s) < 0x1000000
  {
    HexBound(s);
    PowTwoValues();
  }

  lemma {:induction false} HexBound(s: string)
    requires Text.AllHex(s)
    ensures Text.HexValue(s) < Numeric.PowTwo(4 * |s|)
  {
    if s != [] {
      HexBound(s[..|s| - 1]);
      Text.PowTwoStep(|s| - 1);
    }
  }

  // ---------------------------------------------------------------------------
  // Figure tables
  // ---------------------------------------------------------------------------

  /** The three.js geometry built for a figure, with its dimensions. */
  datatype Geometry =
    | Sphere(radius: real, widthSegments: nat, heightSegments: nat)
    | Box(width: real, height: real, depth: real)
    | Cylinder(radiusTop: real, radiusBottom: real, height: real, radialSegments: nat)
    | Cone(radius: real, height: real, radialSegments: nat)
    | Torus(radius: real, tube: real, radialSegments: nat, tubularSegments: nat)
    | Tetrahedron(radius: real)
    | Octahedron(radius: real)
    | Dodecahedron(radius: real)
    | Icosahedron(radius: real)

  /** The base size of every 3D geometry. */
  const BaseSize: real := 80.0

  /** `get3DGeometry`: an unknown figure falls back to the cube's box. */
  function Geometry3D(figure: string): (g: Geometry)
    ensures figure !in Figures3D ==> g == Box(BaseSize, BaseSize, BaseSize)
    ensures figure == "cube" ==> g == Box(BaseSize, BaseSize, BaseSize)
  {
    var size := BaseSize;
    if figure == "sphere" then Sphere(size * 0.8, 32, 16)
    else if figure == "cube" then Box(size, size, size)
    else if figure == "cylinder" then Cylinder(size * 0.6, size * 0.6, size * 1.5, 32)
    else if figure == "cone" then Cone(size * 0.7, size * 1.5, 32)
    else if figure == "torus" then Torus(size * 0.7, size * 0.25, 16, 100)
    else if figure == "tetrahedron" then Tetrahedron(size)
    else if figure == "octahedron" then Octahedron(size)
    else if figure == "dodecahedron" then Dodecahedron(size)
    else if figure == "icosahedron" then Icosahedron(size)
    else if figure == "pyramid" then Cone(size, size * 1.2, 4)
    else if figure == "triangular-prism" then Cylinder(size * 0.8, size * 0.8, size * 1.2, 3)
    else if figure == "hexagonal-prism" then Cylinder(size * 0.8, size * 0.8, size * 1.5, 6)
    else Box(size, size, size)
  }

  const Figures3D: set<string> := {"sphere", "cube", "cylinder", "cone", "torus", "tetrahedron", "octahedron",
                                    "dodecahedron", "icosahedron", "pyramid", "triangular-prism", "hexagonal-prism"}

  /** The pyramid is a square-based cone and the prisms are cylinders with
      three and six sides; every figure except the sphere, the cone, the
      cylinder and the torus has flat faces (few radial segments). */
  lemma PolyhedralGeometries()
    ensures Geometry3D("pyramid").Cone? && Geometry3D("pyramid").radialSegments == 4
    ensures Geometry3D("triangular-prism").Cylinder? && Geometry3D("triangular-prism").radialSegments == 3
    ensures Geometry3D("hexagonal-prism").Cylinder? && Geometry3D("hexagonal-prism").radialSegments == 6
    ensures var b := Geometry3D("cube"); b.Box? && b.width == b.height == b.depth == BaseSize
  {
  }

  /** The record shown in the information panel: a title and the labels of
      the two formulas listed under it (none for an unknown figure, whose
      formula text is empty). */
  datatype FigureData = FigureData(name: string, formulas: seq<string>)

  const AreaPerimeter: seq<string> := ["Área", "Perímetro"]
  const VolumeSurface: seq<string> := ["Volumen", "Superficie"]

  /** The entry of `getFigureData`'s table for a plane figure. */
  function PlaneFigureData(figure: string): (d: FigureData)
    requires figure in Figures2D
    ensures |d.formulas| == 2 && d.name != "Figura"
    ensures figure != "star" ==> d.formulas == AreaPerimeter
  {
    if figure == "circle" then FigureData("Círculo", AreaPerimeter)
    else if figure == "triangle" then FigureData("Triángulo Equilátero", AreaPerimeter)
    else if figure == "square" then FigureData("Cuadrado", AreaPerimeter)
    else if figure == "rectangle" then FigureData("Rectángulo", AreaPerimeter)
    else if figure == "pentagon" then FigureData("Pentágono Regular", AreaPerimeter)
    else if figure == "hexagon" then FigureData("Hexágono Regular", AreaPerimeter)
    else if figure == "octagon" then FigureData("Octágono Regular", AreaPerimeter)
    else FigureData("Estrella de 5 Puntas", ["Relación áurea", "Ángulo interno"])
  }

  /** The entry of `getFigureData`'s table for a solid. */
  function SolidFigureData(figure: string): (d: FigureData)
    requires figure in Figures3D
    ensures d.formulas == VolumeSurface && d.name != "Figura"
  {
    if figure == "sphere" then FigureData("Esfera", VolumeSurface)
    else if figure == "cube" then FigureData("Cubo", VolumeSurface)
    else if figure == "cylinder" then FigureData("Cilindro", VolumeSurface)
    else if figure == "cone" then FigureData("Cono", VolumeSurface)
    else if figure == "triangular-prism" then FigureData("Prisma Triangular", VolumeSurface)
    else if figure == "hexagonal-prism" then FigureData("Prisma Hexagonal", VolumeSurface)
    else if figure == "pyramid" then FigureData("Pirámide Cuadrada", VolumeSurface)
    else if figure == "torus" then FigureData("Toro", VolumeSurface)
    else if figure == "tetrahedron" then FigureData("Tetraedro Regular", VolumeSurface)
    else if figure == "octahedron" then FigureData("Octaedro Regular", VolumeSurface)
    else if figure == "dodecahedron" then FigureData("Dodecaedro Regular", VolumeSurface)
    else FigureData("Icosaedro Regular", VolumeSurface)
  }

  /** `getFigureData`: a table lookup over the plane figures and the solids
      (no name is in both); unknown figures get the generic title and no
      formulas. */
  function FigureDataFor(figure: string): (d: FigureData)
    ensures figure !in Figures2D + Figures3D ==> d == FigureData("Figura", [])
    ensures figure in Figures2D + Figures3D ==> |d.formulas| == 2 && d.name != "Figura"
    ensures figure in Figures2D - {"star"} ==> d.formulas == AreaPerimeter
    ensures figure in Figures3D ==> d.formulas == VolumeSurface
  {
    if figure in Figures2D then
      assert figure !in Figures3D;
      PlaneFigureData(figure)
    else if figure in Figures3D then SolidFigureData(figure)
    else FigureData("Figura", [])
  }

  const Figures2D: set<string> := {"circle", "triangle", "square", "rectangle", "pentagon", "hexagon", "octagon", "star"}
}

=== FILE: finance.dfy ===
/** The personal-finance simulator: reading the three inputs with their
    defaults, validating them, the simple and compound interest series, the
    comparison table and the CSV export. */
module Finance {
  import opened Wrappers
  import Numeric
  import Text
  import Seqs

  // ---------------------------------------------------------------------------
  // Inputs
  // ---------------------------------------------------------------------------

  /** JavaScript's `x || d` on a number: NaN (None) and 0 fall back to `d`. */
  function OrDefault(x: Option<real>, d: real): (r: real)
    ensures x.Some? && x.value != 0.0 ==> r == x.value
    ensures x.None? || x.value == 0.0 ==> r == d
  {
    if x.Some? && x.value != 0.0 then x.value else d
  }

  /** The principal field: its value, or 1000 when it is empty, not a number or 0. */
  function ReadPrincipal(text: string): (p: real)
    ensures p != 0.0
    ensures p == 1000.0 || Text.ParseFloat(text) == Some(p)
    ensures Text.ParseFloat(text).Some? && Text.ParseFloat(text).value != 0.0 ==> p == Text.ParseFloat(text).value
  {
    OrDefault(Text.ParseFloat(text), 1000.0)
  }

  /** The rate field is a percentage; 0 % and a non-number both become 5 %. */
  function ReadRate(text: string): (r: real)
    ensures r != 0.0
    ensures r == 0.05 || Text.ParseFloat(text) == Some(r * 100.0)
    ensures Text.ParseFloat(text).Some? && Text.ParseFloat(text).value != 0.0 ==> r == Text.ParseFloat(text).value / 100.0
  {
    var percent := Text.ParseFloat(text);
    OrDefault(if percent.Some? then Some(percent.value / 100.0) else None, 0.05)
  }

  /** The time field in whole years (`parseInt`), 10 when absent or 0. */
  function ReadTime(text: string): (t: int)
    ensures t != 0
    ensures t == 10 || Text.ParseInt(text) == Some(t)
    ensures Text.ParseInt(text).Some? && Text.ParseInt(text).value != 0 ==> t == Text.ParseInt(text).value
  {
    var t := Text.ParseInt(text);
    if t.Some? && t.value != 0 then t.value else 10
  }

  /** The inputs never read as zero: each zero or missing value takes its default. */
  lemma InputsNeverZero(principal: string, rate: string, time: string)
    ensures ReadPrincipal(principal) != 0.0
    ensures ReadRate(rate) != 0.0
    ensures ReadTime(time) != 0
    ensures Text.ParseFloat(principal).None? ==> ReadPrincipal(principal) == 1000.0
    ensures Text.ParseFloat(rate).None? ==> ReadRate(rate) == 0.05
    ensures Text.ParseInt(time).None? ==> ReadTime(time) == 10
  {
  }

  // ---------------------------------------------------------------------------
  // Validation
  // ---------------------------------------------------------------------------

  datatype InputError = NonPositivePrincipal | NegativeRate | TimeOutOfRange

  function ErrorMessage(e: InputError): string
  {
    match e
    case NonPositivePrincipal => "El monto inicial debe ser mayor que 0"
    case NegativeRate => "La tasa de interés no puede ser negativa"
    case TimeOutOfRange => "El tiempo debe estar entre 1 y 100 años"
  }

  /** `validateInputs`: the first failed check, principal first, then rate, then time. */
  function Validate(principal: real, rate: real, time: int): (r: Option<InputError>)
    ensures r.None? <==> principal > 0.0 && rate >= 0.0 && 0 < time <= 100
    ensures r == Some(NonPositivePrincipal) <==> principal <= 0.0
    ensures r == Some(NegativeRate) <==> principal > 0.0 && rate < 0.0
  {
    if principal <= 0.0 then Some(NonPositivePrincipal)
    else if rate < 0.0 then Some(NegativeRate)
    else if time <= 0 || time > 100 then Some(TimeOutOfRange)
    else None
  }

  // ---------------------------------------------------------------------------
  // The two formulas
  // ---------------------------------------------------------------------------

  /** A = P(1 + r t). */
  function SimpleAmount(p: real, r: real, t: nat): real
  {
    p * (1.0 + r * t as real)
  }

  /** A = P(1 + r)^t. */
  function CompoundAmount(p: real, r: real, t: nat): real
  {
    p * Numeric.Pow(1.0 + r, t)
  }

  /** Both formulas start at the principal. */
  lemma AmountsStartAtPrincipal(p: real, r: real)
    ensures SimpleAmount(p, r, 0) == p && CompoundAmount(p, r, 0) == p
  {
  }

  /** Simple interest grows by the same amount P r every year, compound
      interest by the same factor 1 + r. */
  lemma AmountsStep(p: real, r: real, t: nat)
    ensures SimpleAmount(p, r, t + 1) == SimpleAmount(p, r, t) + p * r
    ensures CompoundAmount(p, r, t + 1) == CompoundAmount(p, r, t) * (1.0 + r)
  {
    assert p * (1.0 + r * (t + 1) as real) == p * (1.0 + r * t as real) + p * r;
    assert p * ((1.0 + r) * Numeric.Pow(1.0 + r, t)) == p * Numeric.Pow(1.0 + r, t) * (1.0 + r);
  }

  /** Compound interest never yields less than simple interest: Bernoulli's
      inequality scaled by a non-negative principal. */
  lemma CompoundAtLeastSimple(p: real, r: real, t: nat)
    requires p >= 0.0 && r >= 0.0
    ensures CompoundAmount(p, r, t) >= SimpleAmount(p, r, t)
  {
    Numeric.Bernoulli(r, t);
    Numeric.MulLeftMonotone(p, 1.0 + t as real * r, Numeric.Pow(1.0 + r, t));
  }

  /** From the second year on, a positive rate makes compound interest
      strictly better. */
  lemma CompoundBeatsSimple(p: real, r: real, t: nat)
    requires p > 0.0 && r > 0.0 && t >= 2
    ensures CompoundAmount(p, r, t) > SimpleAmount(p, r, t)
  {
    Numeric.BernoulliStrict(r, t);
    Numeric.MulLeftStrict(p, 1.0 + t as real * r, Numeric.Pow(1.0 + r, t));
  }

  // ---------------------------------------------------------------------------
  // The series
  // ---------------------------------------------------------------------------

  function Years(t: nat): (ys: seq<int>)
    ensures |ys| == t + 1
    ensures forall i :: 0 <= i < |ys| ==> ys[i] == i
  {
    seq(t + 1, i requires 0 <= i < t + 1 => i)
  }

  function SimpleSeries(p: real, r: real, t: nat): (xs: seq<real>)
    ensures |xs| == t + 1
    ensures forall i :: 0 <= i < |xs| ==> xs[i] == SimpleAmount(p, r, i)
  {
    seq(t + 1, i requires 0 <= i < t + 1 => SimpleAmount(p, r, i))
  }

  function CompoundSeries(p: real, r: real, t: nat): (xs: seq<real>)
    ensures |xs| == t + 1
    ensures forall i :: 0 <= i < |xs| ==> xs[i] == CompoundAmount(p, r, i)
  {
    seq(t + 1, i requires 0 <= i < t + 1 => CompoundAmount(p, r, i))
  }

  /** `calculateInterestData`: one entry per year from 0 to `time`, pushed in
      order. */
  method CalculateInterestData(p: real, r: real, time: nat)
    returns (years: seq<int>, simple: seq<real>, compound: seq<real>)
    ensures |years| == |simple| == |compound| == time + 1
    ensures years == Years(time) && simple == SimpleSeries(p, r, time) && compound == CompoundSeries(p, r, time)
  {
    years, simple, compound := [], [], [];
    var t := 0;
    while t <= time
      invariant 0 <= t <= time + 1
      invariant years == Years(time)[..t]
      invariant simple == SimpleSeries(p, r, time)[..t]
      invariant compound == CompoundSeries(p, r, time)[..t]
    {
      assert Years(time)[..t + 1] == Years(time)[..t] + [t];
      assert SimpleSeries(p, r, time)[..t + 1] == SimpleSeries(p, r, time)[..t] + [SimpleAmount(p, r, t)];
      assert CompoundSeries(p, r, time)[..t + 1] == CompoundSeries(p, r, time)[..t] + [CompoundAmount(p, r, t)];
      years := years + [t];
      simple := simple + [SimpleAmount(p, r, t)];
      compound := compound + [CompoundAmount(p, r, t)];
      t := t + 1;
    }
    assert Years(time)[..time + 1] == Years(time);
    assert SimpleSeries(p, r, time)[..time + 1] == SimpleSeries(p, r, time);
    assert CompoundSeries(p, r, time)[..time + 1] == CompoundSeries(p, r, time);
  }

  // ---------------------------------------------------------------------------
  // The page state
  // ---------------------------------------------------------------------------

  datatype FinanceState = FinanceState(
    principal: real, rate: real, time: int,
    years: seq<int>, simpleData: seq<real>, compoundData: seq<real>)

  const InitialState := FinanceState(1000.0, 0.05, 10, [], [], [])

  /** The series describe the stored inputs. */
  predicate SeriesCurrent(s: FinanceState)
  {
    s.time >= 0
    && s.years == Years(s.time)
    && s.simpleData == SimpleSeries(s.principal, s.rate, s.time)
    && s.compoundData == CompoundSeries(s.principal, s.rate, s.time)
  }

  /** `calculateInterest`: the three values are read and stored first; when one
      fails validation the error is reported and the series stay as they
      were, otherwise the series are recomputed. */
  function CalculateInterest(s: FinanceState, principalText: string, rateText: string, timeText: string)
    : (r: (FinanceState, Option<InputError>))
    ensures r.0.principal == ReadPrincipal(principalText)
    ensures r.0.rate == ReadRate(rateText)
    ensures r.0.time == ReadTime(timeText)
    ensures r.1 == Validate(r.0.principal, r.0.rate, r.0.time)
    ensures r.1.Some? ==> r.0.years == s.years && r.0.simpleData == s.simpleData && r.0.compoundData == s.compoundData
    ensures r.1.None? ==> SeriesCurrent(r.0) && 0 < r.0.time <= 100
  {
    var principal := ReadPrincipal(principalText);
    var rate := ReadRate(rateText);
    var time := ReadTime(timeText);
    var stored := s.(principal := principal, rate := rate, time := time);
    var error := Validate(principal, rate, time);
    if error.Some? then (stored, error)
    else
      (stored.(years := Years(time),
               simpleData := SimpleSeries(principal, rate, time),
               compoundData := CompoundSeries(principal, rate, time)), None)
  }

  /** `reset`: the fields are set to 1000, 5 and 10 and the page recomputes,
      which always succeeds with the default inputs. */
  function Reset(s: FinanceState): (r: (FinanceState, Option<InputError>))
    ensures r.1.None?
    ensures r.0.principal == 1000.0 && r.0.rate == 0.05 && r.0.time == 10
    ensures SeriesCurrent(r.0)
  {
    ReadResetFields();
    CalculateInterest(s, Text.ShowNat(1000), Text.ShowNat(5), Text.ShowNat(10))
  }

  lemma ReadResetFields()
    ensures ReadPrincipal(Text.ShowNat(1000)) == 1000.0
    ensures ReadRate(Text.ShowNat(5)) == 0.05
    ensures ReadTime(Text.ShowNat(10)) == 10
  {
    Text.ParseFloatShowNat(1000);
    Text.ParseFloatShowNat(5);
    var ten := Text.ShowNat(10);
    assert Text.ShowInt(10) + [] == ten;
    Text.ParseIntShowInt(10, []);
  }

  // ---------------------------------------------------------------------------
  // Results, table and export
  // ---------------------------------------------------------------------------

  datatype Summary = Summary(finalSimple: real, finalCompound: real, difference: real,
                             simpleGain: real, compoundGain: real)

  /** `displayResults`: the last entries of both series, their difference and
      the gains over the principal. */
  function Results(s: FinanceState): (r: Summary)
    requires SeriesCurrent(s)
    ensures r.finalSimple == SimpleAmount(s.principal, s.rate, s.time)
    ensures r.finalCompound == CompoundAmount(s.principal, s.rate, s.time)
    ensures r.difference == r.finalCompound - r.finalSimple
    ensures s.principal >= 0.0 && s.rate >= 0.0 ==> r.difference >= 0.0 && r.compoundGain >= r.simpleGain
  {
    var finalSimple := s.simpleData[s.time];
    var finalCompound := s.compoundData[s.time];
    var summary := Summary(finalSimple, finalCompound, finalCompound - finalSimple,
                           finalSimple - s.principal, finalCompound - s.principal);
    if s.principal >= 0.0 && s.rate >= 0.0 then
      CompoundAtLeastSimple(s.principal, s.rate, s.time);
      summary
    else summary
  }

  /** After a successful calculation the difference shown is in favour of
      compound interest, as the page's caption says. */
  lemma DifferenceFavoursCompound(s: FinanceState, principal: string, rate: string, time: string)
    requires CalculateInterest(s, principal, rate, time).1.None?
    ensures Results(CalculateInterest(s, principal, rate, time).0).difference >= 0.0
  {
  }

  /** Rows shown: every year when there are at most 20 entries, every second
      year otherwise. */
  function TableStep(entries: nat): (step: nat)
    ensures step == 1 || step == 2
  {
    if entries > 20 then 2 else 1
  }

  /** The indices visited by the table loop `for (i = 0; i < n; i += step)`. */
  method TableIndices(n: nat) returns (rows: seq<nat>)
    ensures forall i: int :: i in rows <==> 0 <= i < n && i % TableStep(n) == 0
    ensures forall j, k :: 0 <= j < k < |rows| ==> rows[j] < rows[k]
    ensures n > 0 ==> |rows| > 0 && rows[0] == 0
  {
    var step := TableStep(n);
    rows := [];
    var i := 0;
    while i < n
      invariant i % step == 0
      invariant forall x: int :: x in rows <==> 0 <= x < i && x < n && x % step == 0
      invariant forall j, k :: 0 <= j < k < |rows| ==> rows[j] < rows[k]
      invariant forall j :: 0 <= j < |rows| ==> rows[j] < i
      invariant i > 0 ==> |rows| > 0 && rows[0] == 0
      decreases n - i
    {
      rows := rows + [i];
      i := i + step;
    }
  }

  datatype Row = Row(year: int, simple: real, compound: real, difference: real, percent: real)

  /** One table row: the percentage is taken over the simple amount, and is 0
      when that amount is not positive. */
  function TableRow(year: int, simple: real, compound: real): (r: Row)
    ensures r.difference == compound - simple
    ensures r.difference >= 0.0 ==> r.percent >= 0.0
    ensures simple > 0.0 ==> r.percent * simple == r.difference * 100.0
    ensures simple <= 0.0 ==> r.percent == 0.0
  {
    var difference := compound - simple;
    Row(year, simple, compound, difference, if simple > 0.0 then difference / simple * 100.0 else 0.0)
  }

  const CsvHeader := "Año" + "," + "Interés Simple" + "," + "Interés Compuesto" + "," + "Diferencia"

  /** One CSV line: the year and the three amounts with two decimals. */
  function CsvLine(year: int, simple: real, compound: real): string
  {
    Text.ShowInt(year) + "," + Text.ShowFixed2(simple) + "," + Text.ShowFixed2(compound)
      + "," + Text.ShowFixed2(compound - simple)
  }

  /** The body of `exportData`: one line, ending in a newline, per entry. */
  function CsvRows(years: seq<int>, simple: seq<real>, compound: seq<real>): (r: string)
    requires |years| == |simple| == |compound|
    ensures r == [] <==> years == []
    ensures r != [] ==> r[|r| - 1] == '\n'
  {
    if years == [] then []
    else CsvLine(years[0], simple[0], compound[0]) + "\n" + CsvRows(years[1..], simple[1..], compound[1..])
  }

  function ExportCsv(s: FinanceState): (r: string)
    requires |s.years| == |s.simpleData| == |s.compoundData|
    ensures |r| > |CsvHeader| && r[..|CsvHeader|] == CsvHeader && r[|CsvHeader|] == '\n'
    ensures r[|r| - 1] == '\n'
  {
    CsvHeader + "\n" + CsvRows(s.years, s.simpleData, s.compoundData)
  }

  function CsvLines(years: seq<int>, simple: seq<real>, compound: seq<real>): (ls: seq<string>)
    requires |years| == |simple| == |compound|
    ensures |ls| == |years|
    ensures forall i :: 0 <= i < |ls| ==> ls[i] == CsvLine(years[i], simple[i], compound[i])
  {
    seq(|years|, i requires 0 <= i < |years| => CsvLine(years[i], simple[i], compound[i]))
  }

  lemma CsvLineOneLine(year: int, simple: real, compound: real)
    ensures '\n' !in CsvLine(year, simple, compound)
  {
    Text.ShowIntChars(year);
    Text.ShowFixed2Chars(simple);
    Text.ShowFixed2Chars(compound);
    Text.ShowFixed2Chars(compound - simple);
    NumeralNoBreak(Text.ShowInt(year));
    NumeralNoBreak(Text.ShowFixed2(simple));
    NumeralNoBreak(Text.ShowFixed2(compound));
    NumeralNoBreak(Text.ShowFixed2(compound - simple));
  }

  lemma NumeralNoBreak(s: string)
    requires Text.NumeralChars(s)
    ensures '\n' !in s && ',' !in s
  {
  }

  lemma {:induction false} SplitRows(years: seq<int>, simple: seq<real>, compound: seq<real>)
    requires |years| == |simple| == |compound|
    ensures Text.Split(CsvRows(years, simple, compound), '\n') == CsvLines(years, simple, compound) + [""]
  {
    if years != [] {
      SplitFirstRow(years, simple, compound);
      SplitRows(years[1..], simple[1..], compound[1..]);
      CsvLinesCons(years, simple, compound);
      Seqs.ConcatAssoc([CsvLine(years[0], simple[0], compound[0])],
                       CsvLines(years[1..], simple[1..], compound[1..]), [""]);
    }
  }

  /** The first row is the first piece of the split; the rest split alone. */
  lemma SplitFirstRow(years: seq<int>, simple: seq<real>, compound: seq<real>)
    requires |years| == |simple| == |compound| && years != []
    ensures Text.Split(CsvRows(years, simple, compound), '\n')
         == [CsvLine(years[0], simple[0], compound[0])] + Text.Split(CsvRows(years[1..], simple[1..], compound[1..]), '\n')
  {
    var line := CsvLine(years[0], simple[0], compound[0]);
    var rest := CsvRows(years[1..], simple[1..], compound[1..]);
    CsvLineOneLine(years[0], simple[0], compound[0]);
    assert CsvRows(years, simple, compound) == line + "\n" + rest;
    Text.SplitAtFirst(line, '\n', rest);
  }

  /** The lines of a non-empty table: its first line, then the rest's. */
  lemma CsvLinesCons(years: seq<int>, simple: seq<real>, compound: seq<real>)
    requires |years| == |simple| == |compound| && years != []
    ensures CsvLines(years, simple, compound)
         == [CsvLine(years[0], simple[0], compound[0])] + CsvLines(years[1..], simple[1..], compound[1..])
  {
  }

  /** The export has the header line, then exactly one line per year (and the
      empty piece after the final newline). */
  lemma ExportLines(s: FinanceState)
    requires |s.years| == |s.simpleData| == |s.compoundData|
    ensures var pieces := Text.Split(ExportCsv(s), '\n');
      |pieces| == |s.years| + 2 && pieces[0] == CsvHeader && pieces[|pieces| - 1] == ""
      && forall i :: 0 <= i < |s.years| ==> pieces[i + 1] == CsvLine(s.years[i], s.simpleData[i], s.compoundData[i])
  {
    HeaderOneLine();
    Text.SplitAtFirst(CsvHeader, '\n', CsvRows(s.years, s.simpleData, s.compoundData));
    SplitRows(s.years, s.simpleData, s.compoundData);
    Seqs.ConcatAssoc([CsvHeader], CsvLines(s.years, s.simpleData, s.compoundData), [""]);
    FramedLines(Text.Split(ExportCsv(s), '\n'), CsvLines(s.years, s.simpleData, s.compoundData));
  }

  lemma HeaderOneLine()
    ensures '\n' !in CsvHeader
  {
    assert '\n' !in "Interés Compuesto";
    assert '\n' !in "Interés Simple";
    assert '\n' !in "Diferencia";
  }

  /** The pieces of header, lines and a final empty piece, by position. */
  lemma FramedLines(pieces: seq<string>, ls: seq<string>)
    requires pieces == [CsvHeader] + ls + [""]
    ensures |pieces| == |ls| + 2 && pieces[0] == CsvHeader && pieces[|pieces| - 1] == ""
    ensures forall i :: 0 <= i < |ls| ==> pieces[i + 1] == ls[i]
  {
  }

  /** The difference column of a line reads back within half a cent of
      compound minus simple. */
  lemma CsvDifference(year: int, simple: real, compound: real)
    ensures Text.ParseDecimal(Text.ShowFixed2(compound - simple)).Some?
    ensures Numeric.Abs(Text.ParseDecimal(Text.ShowFixed2(compound - simple)).value - (compound - simple)) <= 0.005
  {
    Text.ReadFixed2(compound - simple);
  }
}

=== FILE: geometry_lab.dfy ===
/** The geometry laboratory: the regular polyhedra table with its Euler
    characteristic, the vertex/edge/face counts of the 3D figures, the 2D
    perimeters, the freehand-drawing undo stack and the animation toggle. */
module GeometryLab {
  import opened Wrappers
  import Text

  // ---------------------------------------------------------------------------
  // Regular polyhedra
  // ---------------------------------------------------------------------------

  datatype Polyhedron = Polyhedron(name: string, vertices: int, edges: int, faces: int, faceType: string)

  /** `getPolyhedronProperties`: the four solids the page offers; any other
      type gives the empty record (None). */
  function PolyhedronProperties(kind: string): (r: Option<Polyhedron>)
    ensures r.Some? <==> kind in {"tetrahedron", "octahedron", "icosahedron", "dodecahedron"}
  {
    if kind == "tetrahedron" then Some(Polyhedron("Tetraedro", 4, 6, 4, "Triángulos"))
    else if kind == "octahedron" then Some(Polyhedron("Octaedro", 6, 12, 8, "Triángulos"))
    else if kind == "icosahedron" then Some(Polyhedron("Icosaedro", 12, 30, 20, "Triángulos"))
    else if kind == "dodecahedron" then Some(Polyhedron("Dodecaedro", 20, 30, 12, "Pentágonos"))
    else None
  }

  function EulerCharacteristic(p: Polyhedron): int
  {
    p.vertices - p.edges + p.faces
  }

  /** Sides of one face, read from the face type. */
  function SidesPerFace(faceType: string): nat
  {
    if faceType == "Triángulos" then 3 else if faceType == "Pentágonos" then 5 else 0
  }

  /** Every listed solid satisfies Euler's formula V - E + F = 2, and its
      counts fit together: each edge borders two faces. */
  lemma PolyhedraAreConsistent(kind: string)
    requires PolyhedronProperties(kind).Some?
    ensures EulerCharacteristic(PolyhedronProperties(kind).value) == 2
    ensures var p := PolyhedronProperties(kind).value;
      p.faces * SidesPerFace(p.faceType) == 2 * p.edges
  {
  }

  datatype PolyhedronView = PolyhedronView(name: string, vertices: string, edges: string,
                                           faces: string, euler: string, faceType: string)

  /** `updatePolyhedronProperties`: the texts shown for a listed solid. For an
      unknown type reading the missing counts throws (None). */
  function PolyhedronDisplay(kind: string): (r: Option<PolyhedronView>)
    ensures r.Some? <==> PolyhedronProperties(kind).Some?
    ensures r.Some? ==> r.value.euler == Text.ShowInt(2)
  {
    match PolyhedronProperties(kind)
    case None => None
    case Some(p) =>
      PolyhedraAreConsistent(kind);
      Some(PolyhedronView(p.name, Text.ShowInt(p.vertices), Text.ShowInt(p.edges), Text.ShowInt(p.faces),
                          Text.ShowInt(EulerCharacteristic(p)), p.faceType))
  }

  // ---------------------------------------------------------------------------
  // 3D figures
  // ---------------------------------------------------------------------------

  datatype Counts = Counts(vertices: int, edges: int, faces: real)

  /** The counts `update3DProperties` shows: the mesh's own vertex count and a
      third of its index count as faces, edges 0, except that the cube and the
      pyramid use their exact counts. */
  function FigureCounts(shape: string, meshVertices: int, meshIndices: Option<int>): (c: Counts)
    ensures shape == "cube" ==> c == Counts(8, 12, 6.0)
    ensures shape == "pyramid" ==> c == Counts(5, 8, 5.0)
    ensures shape !in {"cube", "pyramid"} ==> c.edges == 0 && c.vertices == meshVertices
  {
    var faces := if meshIndices.Some? then meshIndices.value as real / 3.0 else 0.0;
    if shape == "cube" then Counts(8, 12, 6.0)
    else if shape == "pyramid" then Counts(5, 8, 5.0)
    else Counts(meshVertices, 0, faces)
  }

  /** The cube and the pyramid also have Euler characteristic 2. */
  lemma CubeAndPyramidEuler(meshVertices: int, meshIndices: Option<int>)
    ensures var c := FigureCounts("cube", meshVertices, meshIndices);
      c.vertices as real - c.edges as real + c.faces == 2.0
    ensures var c := FigureCounts("pyramid", meshVertices, meshIndices);
      c.vertices as real - c.edges as real + c.faces == 2.0
  {
  }

  // ---------------------------------------------------------------------------
  // 2D figures
  // ---------------------------------------------------------------------------

  /** `updateProperties2D`'s perimeter for a figure of the given size; `pi`
      stands for `Math.PI`; an unknown figure keeps the initial 0. */
  function Perimeter(shape: string, size: real, pi: real): real
  {
    if shape == "circle" then 2.0 * pi * (size / 2.0)
    else if shape == "square" then 4.0 * size
    else if shape == "triangle" then 3.0 * size
    else if shape == "rectangle" then 2.0 * (size * 1.5 + size)
    else if shape == "pentagon" then 5.0 * size
    else if shape == "hexagon" then 6.0 * size
    else 0.0
  }

  /** The number of equal sides of each regular polygon. */
  function RegularSides(shape: string): nat
  {
    if shape == "square" then 4
    else if shape == "triangle" then 3
    else if shape == "pentagon" then 5
    else if shape == "hexagon" then 6
    else 0
  }

  /** A regular polygon's perimeter is its side count times the side; the
      rectangle (1.5 s by s) has 5 s; a circle of diameter s has pi s. */
  lemma PerimeterBySides(shape: string, size: real, pi: real)
    ensures RegularSides(shape) > 0 ==> Perimeter(shape, size, pi) == RegularSides(shape) as real * size
    ensures Perimeter("rectangle", size, pi) == 5.0 * size
    ensures Perimeter("circle", size, pi) == pi * size
  {
  }

  /** Scaling a figure scales its perimeter by the same factor. */
  lemma PerimeterScales(shape: string, size: real, pi: real, k: real)
    ensures Perimeter(shape, k * size, pi) == k * Perimeter(shape, size, pi)
  {
    if shape == "circle" {
      assert 2.0 * pi * (k * size / 2.0) == k * (2.0 * pi * (size / 2.0));
    } else if shape == "rectangle" {
      assert 2.0 * (k * size * 1.5 + k * size) == k * (2.0 * (size * 1.5 + size));
    }
  }

  // ---------------------------------------------------------------------------
  // Freehand drawing with undo
  // ---------------------------------------------------------------------------

  datatype Point = Point(x: real, y: real)

  datatype Style = Style(lineWidth: Option<int>, opacity: Option<real>, color: string)

  datatype Stroke = Stroke(tool: Option<string>, path: seq<Point>, style: Style)

  /** The canvas state: the tool (none until one is picked), whether a stroke
      is in progress and its points, the undo stack, and the element count on
      display. */
  datatype Canvas = Canvas(selectedTool: Option<string>, isDrawing: bool, currentPath: seq<Point>,
                           undoStack: seq<Stroke>, shownElements: nat)

  const EmptyCanvas := Canvas(None, false, [], [], 0)

  /** The display shows the size of the undo stack. */
  predicate CountShown(c: Canvas)
  {
    c.shownElements == |c.undoStack|
  }

  /** A tool counts as selected when it is set and not the empty string. */
  predicate HasTool(c: Canvas)
  {
    c.selectedTool.Some? && c.selectedTool.value != ""
  }

  function SelectTool(c: Canvas, tool: string): (r: Canvas)
    ensures HasTool(r) <==> tool != ""
  {
    c.(selectedTool := Some(tool))
  }

  /** Mouse down starts a stroke at the point, when a tool is selected. */
  function MouseDown(c: Canvas, p: Point): (r: Canvas)
    ensures !HasTool(c) ==> r == c
    ensures HasTool(c) ==> r.isDrawing && r.currentPath == [p]
    ensures r.undoStack == c.undoStack && r.shownElements == c.shownElements
  {
    if !HasTool(c) then c else c.(isDrawing := true, currentPath := [p])
  }

  /** Mouse move extends the stroke in progress. */
  function MouseMove(c: Canvas, p: Point): (r: Canvas)
    ensures !c.isDrawing || !HasTool(c) ==> r == c
    ensures c.isDrawing && HasTool(c) ==> r.currentPath == c.currentPath + [p]
    ensures r.undoStack == c.undoStack && r.shownElements == c.shownElements
  {
    if !c.isDrawing || !HasTool(c) then c else c.(currentPath := c.currentPath + [p])
  }

  /** A stroke is stored on mouse up exactly when one is in progress with at
      least one point. */
  predicate StrokePending(c: Canvas)
  {
    c.isDrawing && |c.currentPath| > 0
  }

  /** Mouse up stores the stroke in progress, if any, and ends drawing; the
      style is read from the style controls at that moment. */
  function MouseUp(c: Canvas, style: Style): (r: Canvas)
    ensures !r.isDrawing && r.currentPath == []
    ensures StrokePending(c) ==> r.undoStack == c.undoStack + [Stroke(c.selectedTool, c.currentPath, style)]
    ensures StrokePending(c) ==> r.shownElements == |r.undoStack|
    ensures !StrokePending(c) ==> r.undoStack == c.undoStack && r.shownElements == c.shownElements
  {
    var stored := if StrokePending(c) then
        var stack := c.undoStack + [Stroke(c.selectedTool, c.currentPath, style)];
        c.(undoStack := stack, shownElements := |stack|)
      else c;
    stored.(isDrawing := false, currentPath := [])
  }

  /** `undoCustom`: drops the last stroke; nothing to undo is a no-op. */
  function Undo(c: Canvas): (r: Canvas)
    ensures c.undoStack == [] ==> r == c
    ensures c.undoStack != [] ==> r.undoStack == c.undoStack[..|c.undoStack| - 1] && r.shownElements == |r.undoStack|
    ensures r.isDrawing == c.isDrawing && r.currentPath == c.currentPath
  {
    if c.undoStack == [] then c
    else
      var stack := c.undoStack[..|c.undoStack| - 1];
      c.(undoStack := stack, shownElements := |stack|)
  }

  /** `clearCustom`: no strokes left. */
  function Clear(c: Canvas): (r: Canvas)
    ensures r.undoStack == [] && r.shownElements == 0
    ensures r.isDrawing == c.isDrawing && r.currentPath == c.currentPath
  {
    c.(undoStack := [], shownElements := 0)
  }

  /** Undo right after a stroke is stored removes exactly that stroke. */
  lemma UndoAfterStroke(c: Canvas, style: Style)
    requires StrokePending(c) && CountShown(c)
    ensures Undo(MouseUp(c, style)).undoStack == c.undoStack
    ensures CountShown(Undo(MouseUp(c, style)))
  {
    var stack := MouseUp(c, style).undoStack;
    assert stack[..|stack| - 1] == c.undoStack;
  }

  datatype CanvasEvent =
    | Select(tool: string)
    | Down(p: Point)
    | Move(q: Point)
    | Up(style: Style)
    | UndoPressed
    | ClearPressed

  function Step(c: Canvas, e: CanvasEvent): Canvas
  {
    match e
    case Select(tool) => SelectTool(c, tool)
    case Down(p) => MouseDown(c, p)
    case Move(q) => MouseMove(c, q)
    case Up(style) => MouseUp(c, style)
    case UndoPressed => Undo(c)
    case ClearPressed => Clear(c)
  }

  /** The shown count starts at the number of strokes, every event keeps it
      there, and a stroke in progress always holds at least its first point. */
  predicate Consistent(c: Canvas)
  {
    CountShown(c) && (c.isDrawing ==> |c.currentPath| > 0)
  }

  lemma StepKeepsConsistent(c: Canvas, e: CanvasEvent)
    requires Consistent(c)
    ensures Consistent(Step(c, e))
  {
  }

  /** The canvas after a sequence of events, starting from a consistent one,
      is consistent: the element count shown is the number of strokes. */
  function Run(c: Canvas, events: seq<CanvasEvent>): (r: Canvas)
    requires Consistent(c)
    ensures Consistent(r)
    decreases |events|
  {
    if events == [] then c
    else
      StepKeepsConsistent(c, events[0]);
      Run(Step(c, events[0]), events[1..])
  }

  lemma EmptyCanvasConsistent()
    ensures Consistent(EmptyCanvas)
  {
  }

  // ---------------------------------------------------------------------------
  // 3D animation
  // ---------------------------------------------------------------------------

  /** `toggle3DAnimation`. */
  function ToggleAnimation(isAnimating: bool): (r: bool)
    ensures r != isAnimating
  {
    !isAnimating
  }

  lemma ToggleTwice(isAnimating: bool)
    ensures ToggleAnimation(ToggleAnimation(isAnimating)) == isAnimating
  {
  }
}

=== FILE: loan.dfy ===
/** The vehicle loan calculator: the form state, the amortised monthly
    payment, the total cost and the table of five rate scenarios. */
module Loan {
  import opened Wrappers
  import Numeric

  // ---------------------------------------------------------------------------
  // The payment formula
  // ---------------------------------------------------------------------------

  /** The monthly rate of an annual percentage rate. */
  function MonthlyRate(annualRate: real): real
  {
    annualRate / 100.0 / 12.0
  }

  /** `calculateMonthlyPayment` as written: P m / (1 - (1 + m)^(-n)). With a
      zero rate this is 0 / 0, which JavaScript evaluates to NaN (None). */
  function PaymentAsWritten(principal: real, annualRate: real, months: nat): (r: Option<real>)
    requires months >= 1 && annualRate > -1200.0
    ensures r.None? <==> annualRate == 0.0
    ensures r.Some? ==> var m := MonthlyRate(annualRate); var g := Numeric.Pow(1.0 + m, months);
      r.value * (g - 1.0) == principal * m * g
  {
    var m := MonthlyRate(annualRate);
    var growth := Numeric.Pow(1.0 + m, months);
    Numeric.PowPositive(1.0 + m, months);
    GrowthNotOne(m, months);
    if m == 0.0 then None
    else
      var pay := principal * m / (1.0 - 1.0 / growth);
      PaymentTimesGrowth(principal * m, growth, pay);
      Some(pay)
  }

  /** The payment with the zero-rate case taken as its limit: the principal
      spread evenly over the months. */
  function MonthlyPayment(principal: real, annualRate: real, months: nat): (r: real)
    requires months >= 1 && annualRate > -1200.0
    ensures annualRate != 0.0 ==> Some(r) == PaymentAsWritten(principal, annualRate, months)
    ensures annualRate == 0.0 ==> r * months as real == principal
  {
    var written := PaymentAsWritten(principal, annualRate, months);
    if written.Some? then written.value else principal / months as real
  }

  /** (1 + m)^n differs from 1 for a non-zero m above -1 and n >= 1, so the
      denominator of the formula is not zero. */
  lemma GrowthNotOne(m: real, n: nat)
    requires n >= 1 && m > -1.0
    ensures m != 0.0 ==> Numeric.Pow(1.0 + m, n) != 1.0
  {
    if m > 0.0 {
      Numeric.PowAboveOne(1.0 + m, n);
    } else if m < 0.0 {
      Numeric.PowBelowOne(1.0 + m, n);
    }
  }

  /** `calculateTotalLoanCost`: every monthly payment over the whole term. */
  function TotalCost(payment: real, years: real): (t: real)
    ensures years == 0.0 ==> t == 0.0
    ensures payment >= 0.0 && years >= 0.0 ==> t >= 0.0
    ensures payment > 0.0 && years > 0.0 ==> t > 0.0
  {
    payment * years * 12.0
  }

  // ---------------------------------------------------------------------------
  // Amortisation: the partner of the formula
  // ---------------------------------------------------------------------------

  /** The balance owed after k months: each month adds interest at rate m and
      subtracts one payment. */
  function Balance(principal: real, m: real, payment: real, k: nat): real
  {
    if k == 0 then principal else Balance(principal, m, payment, k - 1) * (1.0 + m) - payment
  }

  /** m B_k = P m q^k - pay (q^k - 1), with q = 1 + m. */
  lemma {:induction false} BalanceClosedForm(principal: real, m: real, payment: real, k: nat)
    ensures m * Balance(principal, m, payment, k)
      == principal * m * Numeric.Pow(1.0 + m, k) - payment * (Numeric.Pow(1.0 + m, k) - 1.0)
  {
    if k == 0 {
      ClosedFormStart(principal, m, payment, Balance(principal, m, payment, 0), Numeric.Pow(1.0 + m, 0));
    } else {
      BalanceClosedForm(principal, m, payment, k - 1);
      ClosedFormStep(principal, m, payment, Balance(principal, m, payment, k - 1), Numeric.Pow(1.0 + m, k - 1),
                     Balance(principal, m, payment, k), Numeric.Pow(1.0 + m, k));
    }
  }

  /** The closed form before any payment: the principal itself. */
  lemma ClosedFormStart(principal: real, m: real, payment: real, b: real, p: real)
    requires b == principal && p == 1.0
    ensures m * b == principal * m * p - payment * (p - 1.0)
  {
  }

  /** One month of the closed form: from balance b and growth p to the next
      balance bk and growth pk. */
  lemma ClosedFormStep(principal: real, m: real, payment: real, b: real, p: real, bk: real, pk: real)
    requires m * b == principal * m * p - payment * (p - 1.0)
    requires bk == b * (1.0 + m) - payment && pk == (1.0 + m) * p
    ensures m * bk == principal * m * pk - payment * (pk - 1.0)
  {
    assert m * bk == (1.0 + m) * (m * b) - m * payment;
  }

  /** With no interest the balance falls by one payment a month. */
  lemma {:induction false} BalanceWithoutInterest(principal: real, payment: real, k: nat)
    ensures Balance(principal, 0.0, payment, k) == principal - k as real * payment
  {
    if k > 0 {
      BalanceWithoutInterest(principal, payment, k - 1);
    }
  }

  /** For a non-zero rate the payment times (q^n - 1) is P m q^n. */
  lemma PaymentEquation(principal: real, annualRate: real, months: nat)
    requires months >= 1 && annualRate > -1200.0 && annualRate != 0.0
    ensures var m := MonthlyRate(annualRate);
      var g := Numeric.Pow(1.0 + m, months);
      MonthlyPayment(principal, annualRate, months) * (g - 1.0) == principal * m * g
  {
  }

  /** The monthly payment pays the loan off exactly at the end of the term. */
  lemma PaymentAmortizes(principal: real, annualRate: real, months: nat)
    requires months >= 1 && annualRate > -1200.0
    ensures Balance(principal, MonthlyRate(annualRate), MonthlyPayment(principal, annualRate, months), months) == 0.0
  {
    var m := MonthlyRate(annualRate);
    var pay := MonthlyPayment(principal, annualRate, months);
    if annualRate == 0.0 {
      BalanceWithoutInterest(principal, pay, months);
    } else {
      PaymentEquation(principal, annualRate, months);
      BalanceClosedForm(principal, m, pay, months);
      ZeroProduct(m, Balance(principal, m, pay, months));
    }
  }

  lemma ZeroProduct(m: real, b: real)
    requires m != 0.0 && m * b == 0.0
    ensures b == 0.0
  {
  }

  lemma PaymentTimesGrowth(a: real, g: real, pay: real)
    requires g > 0.0 && g != 1.0 && pay == a / (1.0 - 1.0 / g)
    ensures pay * (g - 1.0) == a * g
  {
    var d := 1.0 - 1.0 / g;
    assert d * g == g - 1.0;
    assert pay * d == a;
    assert pay * (g - 1.0) == pay * d * g;
  }

  /** q^n - 1 <= n m q^n for a non-negative monthly rate m, with q = 1 + m. */
  lemma {:induction false} GrowthBound(m: real, n: nat)
    requires m >= 0.0
    ensures Numeric.Pow(1.0 + m, n) - 1.0 <= n as real * m * Numeric.Pow(1.0 + m, n)
  {
    if n > 0 {
      GrowthBound(m, n - 1);
      var p := Numeric.Pow(1.0 + m, n - 1);
      var g := Numeric.Pow(1.0 + m, n);
      Numeric.PowAtLeastOne(1.0 + m, n - 1);
      assert g == p + m * p;
      GrowthStep(m, (n - 1) as real, p, g);
    }
  }

  lemma GrowthStep(m: real, k: real, p: real, g: real)
    requires m >= 0.0 && k >= 0.0 && p >= 1.0 && g == p + m * p
    requires p - 1.0 <= k * m * p
    ensures g - 1.0 <= (k + 1.0) * m * g
  {
    assert g - 1.0 <= (k + 1.0) * (m * p);
    Numeric.MulLeftMonotone(m, 0.0, p);
    Numeric.MulLeftMonotone((k + 1.0) * m, p, g);
    assert (k + 1.0) * (m * p) == (k + 1.0) * m * p;
  }

  /** Over the whole term a non-negative rate costs at least the principal. */
  lemma TotalAtLeastPrincipal(principal: real, annualRate: real, years: nat)
    requires years >= 1 && annualRate >= 0.0 && principal >= 0.0
    ensures TotalCost(MonthlyPayment(principal, annualRate, 12 * years), years as real) >= principal
  {
    var n := 12 * years;
    var m := MonthlyRate(annualRate);
    var pay := MonthlyPayment(principal, annualRate, n);
    assert TotalCost(pay, years as real) == pay * n as real;
    if annualRate > 0.0 {
      var g := Numeric.Pow(1.0 + m, n);
      Numeric.PowAboveOne(1.0 + m, n);
      PaymentEquation(principal, annualRate, n);
      GrowthBound(m, n);
      PayAtLeast(principal, m, g, pay, n as real);
    }
  }

  /** From pay (g - 1) = P m g and g - 1 <= n m g: n pay >= P. */
  lemma PayAtLeast(principal: real, m: real, g: real, pay: real, n: real)
    requires m > 0.0 && g > 1.0 && principal >= 0.0 && n >= 1.0
    requires pay * (g - 1.0) == principal * m * g && g - 1.0 <= n * m * g
    ensures pay * n >= principal
  {
    Numeric.ProductPositive(m, g);
    assert pay >= 0.0 by {
      if pay < 0.0 {
        Numeric.MulLeftStrict(g - 1.0, pay, 0.0);
        Numeric.MulLeftMonotone(principal, 0.0, m * g);
        assert false;
      }
    }
    Numeric.MulLeftMonotone(pay, g - 1.0, n * m * g);
    assert (pay * n) * (m * g) >= principal * (m * g);
    if pay * n < principal {
      Numeric.MulLeftStrict(m * g, pay * n, principal);
      assert false;
    }
  }

  // ---------------------------------------------------------------------------
  // The form
  // ---------------------------------------------------------------------------

  /** A number field: empty, or the `Number` of what was typed. */
  datatype Field = Empty | Value(value: real)

  /** JavaScript truthiness of a field: non-empty and not zero. */
  predicate Filled(f: Field)
  {
    f.Value? && f.value != 0.0
  }

  /** `field || 0`. */
  function OrZero(f: Field): real
  {
    if Filled(f) then f.value else 0.0
  }

  datatype FieldName = VehiclePrice | DownPayment | InterestRate | LoanTerm | AdditionalCosts

  datatype Form = Form(vehiclePrice: Field, downPayment: Field, interestRate: Field,
                       loanTerm: Field, additionalCosts: Field)

  const EmptyForm := Form(Empty, Empty, Empty, Empty, Empty)

  function Get(form: Form, name: FieldName): Field
  {
    match name
    case VehiclePrice => form.vehiclePrice
    case DownPayment => form.downPayment
    case InterestRate => form.interestRate
    case LoanTerm => form.loanTerm
    case AdditionalCosts => form.additionalCosts
  }

  function Set(form: Form, name: FieldName, f: Field): (r: Form)
    ensures Get(r, name) == f
    ensures forall other :: other != name ==> Get(r, other) == Get(form, other)
  {
    match name
    case VehiclePrice => form.(vehiclePrice := f)
    case DownPayment => form.(downPayment := f)
    case InterestRate => form.(interestRate := f)
    case LoanTerm => form.(loanTerm := f)
    case AdditionalCosts => form.(additionalCosts := f)
  }

  /** No field holds a negative number, and the term is a whole number of
      years (the term input has the default step of 1, so the browser does not
      submit a fractional term). */
  predicate FormValid(form: Form)
  {
    (forall name :: Get(form, name).Value? ==> Get(form, name).value >= 0.0)
    && (form.loanTerm.Value? ==> form.loanTerm.value == form.loanTerm.value.Floor as real)
  }

  datatype Scenario = Scenario(apr: real, monthlyPayment: Option<real>, totalCost: Option<real>, term: real)

  datatype LoanState = LoanState(form: Form, results: Option<seq<Scenario>>, error: string)

  const InitialState := LoanState(EmptyForm, None, "")

  const MissingFields := "Por favor complete todos los campos requeridos"

  /** `handleInputChange`: a negative number is ignored, anything else is
      stored in the named field. */
  function InputChange(s: LoanState, name: FieldName, f: Field): (r: LoanState)
    ensures f.Value? && f.value < 0.0 ==> r == s
    ensures !(f.Value? && f.value < 0.0) ==> r == s.(form := Set(s.form, name, f))
  {
    if f.Value? && f.value < 0.0 then s else s.(form := Set(s.form, name, f))
  }

  /** The amount financed: price minus the down payment plus the extra costs,
      an empty extra field counting as 0. */
  function Principal(form: Form): real
    requires Filled(form.vehiclePrice)
  {
    form.vehiclePrice.value - OrZero(form.downPayment) + OrZero(form.additionalCosts)
  }

  /** The five rate adjustments, in table order. */
  const Adjustments: seq<real> := [-1.0, -0.5, 0.0, 0.5, 1.0]

  /** The scenarios for a base rate, computed with a payment function. */
  function Scenarios(principal: real, baseRate: real, years: nat,
                     payment: (real, real, nat) -> Option<real>): (r: seq<Scenario>)
    ensures |r| == |Adjustments|
    ensures forall i :: 0 <= i < |r| ==> r[i].apr == baseRate + Adjustments[i] && r[i].term == years as real
    ensures forall i :: 0 <= i < |r| ==> r[i].monthlyPayment == payment(principal, r[i].apr, 12 * years)
    ensures forall i :: 0 <= i < |r| ==>
      r[i].totalCost == (if r[i].monthlyPayment.Some? then Some(TotalCost(r[i].monthlyPayment.value, years as real)) else None)
  {
    seq(|Adjustments|, i requires 0 <= i < |Adjustments| =>
      var rate := baseRate + Adjustments[i];
      var pay := payment(principal, rate, 12 * years);
      Scenario(rate, pay, if pay.Some? then Some(TotalCost(pay.value, years as real)) else None, years as real))
  }

  /** The corrected payment, as a total function for `Scenarios`. */
  function Corrected(principal: real, annualRate: real, months: nat): Option<real>
  {
    if months >= 1 && annualRate > -1200.0 then Some(MonthlyPayment(principal, annualRate, months)) else None
  }

  /** The payment as written, as a total function for `Scenarios`. */
  function AsWritten(principal: real, annualRate: real, months: nat): Option<real>
  {
    if months >= 1 && annualRate > -1200.0 then PaymentAsWritten(principal, annualRate, months) else None
  }

  /** `handleSubmit` with a payment function: a missing or zero price, rate or
      term sets the error and keeps the results; otherwise the five scenarios
      replace the results and the error is cleared. */
  function SubmitWith(s: LoanState, payment: (real, real, nat) -> Option<real>): (r: LoanState)
    requires FormValid(s.form)
    ensures r.form == s.form
    ensures !(Filled(s.form.vehiclePrice) && Filled(s.form.interestRate) && Filled(s.form.loanTerm))
      ==> r == s.(error := MissingFields)
    ensures Filled(s.form.vehiclePrice) && Filled(s.form.interestRate) && Filled(s.form.loanTerm)
      ==> r.error == "" && r.results.Some? && |r.results.value| == 5
    ensures Filled(s.form.vehiclePrice) && Filled(s.form.interestRate) && Filled(s.form.loanTerm)
      ==> s.form.loanTerm.value >= 0.0
          && r == s.(results := Some(Scenarios(Principal(s.form), s.form.interestRate.value,
                                               s.form.loanTerm.value.Floor, payment)), error := "")
  {
    var form := s.form;
    if !(Filled(form.vehiclePrice) && Filled(form.interestRate) && Filled(form.loanTerm)) then
      s.(error := MissingFields)
    else
      assert Get(form, LoanTerm).value >= 0.0;
      var years: nat := form.loanTerm.value.Floor;
      s.(results := Some(Scenarios(Principal(form), form.interestRate.value, years, payment)), error := "")
  }

  /** `handleSubmit` with the zero-rate payment taken as its limit. */
  function Submit(s: LoanState): LoanState
    requires FormValid(s.form)
  {
    SubmitWith(s, Corrected)
  }

  /** `handleSubmit` as written. */
  function SubmitAsWritten(s: LoanState): LoanState
    requires FormValid(s.form)
  {
    SubmitWith(s, AsWritten)
  }

  /** `handleReset`: every field empty, no results, no error. */
  function Reset(s: LoanState): (r: LoanState)
    ensures forall name :: Get(r.form, name) == Empty
    ensures r.results.None? && r.error == ""
  {
    InitialState
  }

  // ---------------------------------------------------------------------------
  // Properties of the form
  // ---------------------------------------------------------------------------

  lemma InitialValid()
    ensures FormValid(InitialState.form)
  {
  }

  /** Typing keeps the form valid, provided a typed term is whole. */
  lemma InputChangeKeepsValid(s: LoanState, name: FieldName, f: Field)
    requires FormValid(s.form)
    requires name == LoanTerm && f.Value? ==> f.value == f.value.Floor as real
    ensures FormValid(InputChange(s, name, f).form)
  {
    var r := InputChange(s, name, f);
    forall other | Get(r.form, other).Value?
      ensures Get(r.form, other).value >= 0.0
    {
      if other != name {
        assert Get(r.form, other) == Get(s.form, other);
      }
    }
  }

  /** Every scenario of a submitted form has a payment, and it amortises the
      principal at the scenario's rate. */
  lemma SubmittedPaymentsAmortize(s: LoanState, i: nat)
    requires FormValid(s.form)
    requires Filled(s.form.vehiclePrice) && Filled(s.form.interestRate) && Filled(s.form.loanTerm)
    requires i < 5
    ensures var sc := Submit(s).results.value[i];
      sc.monthlyPayment.Some?
      && Balance(Principal(s.form), MonthlyRate(sc.apr), sc.monthlyPayment.value, 12 * s.form.loanTerm.value.Floor) == 0.0
  {
    var form := s.form;
    assert Get(form, LoanTerm).value >= 0.0 && Get(form, InterestRate).value >= 0.0;
    var years: nat := form.loanTerm.value.Floor;
    var sc := Submit(s).results.value[i];
    assert sc.apr == form.interestRate.value + Adjustments[i];
    assert sc.apr > -1200.0;
    PaymentAmortizes(Principal(form), sc.apr, 12 * years);
  }

  /** As written, a base rate of 1 % puts a 0 % scenario first, and its payment
      is NaN; the corrected table has a payment there. */
  lemma ZeroRateScenarioAsWritten(s: LoanState)
    requires FormValid(s.form)
    requires Filled(s.form.vehiclePrice) && s.form.interestRate == Value(1.0) && Filled(s.form.loanTerm)
    ensures SubmitAsWritten(s).results.value[0].apr == 0.0
    ensures SubmitAsWritten(s).results.value[0].monthlyPayment.None?
    ensures Submit(s).results.value[0].monthlyPayment.Some?
  {
    assert Get(s.form, LoanTerm).value >= 0.0;
    var years: nat := s.form.loanTerm.value.Floor;
    assert years >= 1;
  }
}

=== FILE: migration.dfy ===
/** The one-off migration of browser-stored olympiad data to the server: when
    it runs, the registration payload built from each stored participant, the
    success/error tally, the progress figure, the replay of stored role votes,
    and the completion marker. */
module Migration {
  import opened Wrappers
  import opened OlympiadStore
  import RegisterApi
  import StatsApi

  // ---------------------------------------------------------------------------
  // When the migration runs
  // ---------------------------------------------------------------------------

  /** `(hasLocalParticipants || hasLocalStats) && !migrationCompleted` over
      the three stored strings, evaluated with JavaScript's value semantics:
      `||` yields its first truthy operand, or else its last. */
  function ShouldRun(participants: Option<string>, stats: Option<string>, completed: Option<string>): (b: bool)
    ensures b <==> (Present(participants) || Present(stats)) && !Present(completed)
  {
    var either := if Present(participants) then participants else stats;
    Present(either) && !Present(completed)
  }

  // ---------------------------------------------------------------------------
  // The registration payload
  // ---------------------------------------------------------------------------

  /** A participant as the old pages stored it in the browser; older entries
      have `name` instead of `fullName`. */
  datatype LocalParticipant = LocalParticipant(
    fullName: Option<string>,
    name: Option<string>,
    email: Option<string>,
    age: Option<real>,
    grade: Option<string>,
    school: Option<string>,
    category: Option<string>,
    experience: Option<string>,
    motivation: Option<string>,
    role: Option<string>)

  /** The body sent to the registration endpoint. */
  function Payload(p: LocalParticipant): (f: RegisterApi.Form)
    ensures Present(p.fullName) ==> f.fullName == p.fullName
    ensures !Present(p.fullName) ==> f.fullName == p.name
    ensures f.email == p.email && f.age == p.age && f.grade == p.grade
    ensures Present(f.school) && Present(f.category) && Present(f.experience)
    ensures Present(f.motivation) && Present(f.role)
  {
    RegisterApi.Form(
      if Present(p.fullName) then p.fullName else p.name,
      p.email, p.age, p.grade,
      Some(RegisterApi.OrDefault(p.school, "No especificado")),
      Some(RegisterApi.OrDefault(p.category, "novato")),
      Some(RegisterApi.OrDefault(p.experience, "No especificado")),
      Some(RegisterApi.OrDefault(p.motivation, "No especificado")),
      Some(RegisterApi.OrDefault(p.role, "estudiante")))
  }

  /** The category default means a payload is complete exactly when the
      stored entry has a name under either field, an email, a non-zero age
      and a grade. */
  lemma PayloadComplete(p: LocalParticipant)
    ensures RegisterApi.Complete(Payload(p)) <==>
      (Present(p.fullName) || Present(p.name)) && Present(p.email)
      && p.age.Some? && p.age.value != 0.0 && Present(p.grade)
  {
  }

  /** The server stores what the migration filled in: its defaults and the
      server's agree, and a stored entry without a role registers as a
      student. */
  lemma PayloadDefaultsStored(p: LocalParticipant, stamp: RegisterApi.Stamp)
    requires RegisterApi.Complete(Payload(p))
    ensures var q := RegisterApi.NewParticipant(Payload(p), stamp);
            && q.school == RegisterApi.OrDefault(p.school, "No especificado")
            && q.category == RegisterApi.OrDefault(p.category, "novato")
            && q.experience == RegisterApi.OrDefault(p.experience, "No especificado")
            && q.motivation == RegisterApi.OrDefault(p.motivation, "No especificado")
            && q.role == RegisterApi.OrDefault(p.role, "estudiante")
            && (!Present(p.role) ==> RegisterApi.CounterOf(q.role) == Some("estudiantes"))
  {
  }

  // ---------------------------------------------------------------------------
  // The tally
  // ---------------------------------------------------------------------------

  /** What came back for one participant: a response with its status, or a
      failed request. */
  datatype Outcome = Answered(status: nat) | Unreachable

  /** A 2xx response, or 409 (already registered), counts as migrated. */
  predicate Migrated(o: Outcome)
  {
    o.Answered? && ((200 <= o.status < 300) || o.status == 409)
  }

  /** Successes and errors over the outcomes, in order. */
  function Tally(outcomes: seq<Outcome>): (r: (nat, nat))
    ensures r.0 + r.1 == |outcomes|
  {
    if outcomes == [] then (0, 0)
    else
      var rest := Tally(outcomes[1..]);
      if Migrated(outcomes[0]) then (rest.0 + 1, rest.1) else (rest.0, rest.1 + 1)
  }

  /** Tallies add up over consecutive runs of participants. */
  lemma {:induction false} TallyAppend(xs: seq<Outcome>, ys: seq<Outcome>)
    ensures Tally(xs + ys).0 == Tally(xs).0 + Tally(ys).0
    ensures Tally(xs + ys).1 == Tally(xs).1 + Tally(ys).1
  {
    if xs != [] {
      assert (xs + ys)[0] == xs[0];
      assert (xs + ys)[1..] == xs[1..] + ys;
      TallyAppend(xs[1..], ys);
    } else {
      assert xs + ys == ys;
    }
  }

  /** A single outcome is a success exactly when it counts as migrated. */
  lemma TallyOne(o: Outcome)
    ensures Tally([o]) == (if Migrated(o) then (1, 0) else (0, 1))
  {
    assert [o][1..] == [];
  }

  /** A participant the server already registered comes back as 409 on a
      second attempt, which the tally counts as a success: migrating the
      same entry twice is harmless. */
  lemma SecondAttemptCounts(s: Store, p: LocalParticipant, one: RegisterApi.Stamp, two: RegisterApi.Stamp)
    requires RegisterApi.Handle(RegisterApi.StoredEmail, s, RegisterApi.Request("POST", Payload(p)), one).1.status == 201
    ensures var after := RegisterApi.Handle(RegisterApi.StoredEmail, s, RegisterApi.Request("POST", Payload(p)), one).0;
            var again := RegisterApi.Handle(RegisterApi.StoredEmail, after, RegisterApi.Request("POST", Payload(p)), two);
            again.1.status == 409 && again.0 == after && Migrated(Answered(again.1.status))
  {
  }

  // ---------------------------------------------------------------------------
  // Progress
  // ---------------------------------------------------------------------------

  /** The bar after participant `i` of `n`: the first half of the bar is
      spread evenly over the participants. */
  function Progress(i: nat, n: nat): (r: real)
    requires i < n
    ensures 0.0 < r <= 50.0
    ensures r == 50.0 <==> i + 1 == n
  {
    var r := ((i + 1) as real / n as real) * 50.0;
    assert (i + 1) as real <= n as real;
    r
  }

  /** Each participant moves the bar forward. */
  lemma ProgressIncreases(i: nat, j: nat, n: nat)
    requires i < j < n
    ensures Progress(i, n) < Progress(j, n)
  {
    var a := (i + 1) as real / n as real;
    var b := (j + 1) as real / n as real;
    assert a < b;
  }

  // ---------------------------------------------------------------------------
  // Replaying the role votes
  // ---------------------------------------------------------------------------

  /** `k` copies of a role name. */
  function Repeat(role: string, k: nat): (r: seq<string>)
    ensures |r| == k
    ensures forall x :: x in r ==> x == role
  {
    if k == 0 then [] else [role] + Repeat(role, k - 1)
  }

  /** The vote requests sent for the given roles, in order: one per stored
      vote for every role whose stored count is positive. */
  function RequestsFor(roles: seq<string>, stats: map<string, int>): (r: seq<string>)
    ensures forall x :: x in r ==> x in roles
  {
    if roles == [] then []
    else
      var k := Get(stats, roles[0]);
      (if k > 0 then Repeat(roles[0], k) else []) + RequestsFor(roles[1..], stats)
  }

  /** The replay over the four role counters; any other stored key is ignored. */
  function VoteRequests(stats: map<string, int>): (r: seq<string>)
    ensures forall x :: x in r ==> x in RoleCounters
  {
    RequestsFor(RoleCounters, stats)
  }

  lemma {:induction false} OccurrencesAppend(xs: seq<string>, ys: seq<string>, x: string)
    ensures Occurrences(xs + ys, x) == Occurrences(xs, x) + Occurrences(ys, x)
  {
    if xs != [] {
      assert (xs + ys)[0] == xs[0];
      assert (xs + ys)[1..] == xs[1..] + ys;
      OccurrencesAppend(xs[1..], ys, x);
    } else {
      assert xs + ys == ys;
    }
  }

  lemma {:induction false} OccurrencesRepeat(role: string, k: nat, x: string)
    ensures Occurrences(Repeat(role, k), x) == if x == role then k else 0
  {
    if k > 0 {
      OccurrencesRepeat(role, k - 1, x);
      assert ([role] + Repeat(role, k - 1))[1..] == Repeat(role, k - 1);
    }
  }

  /** A role listed once gets exactly as many requests as its positive
      stored count, and none when the count is zero or negative. */
  lemma {:induction false} RequestsForCount(roles: seq<string>, stats: map<string, int>, x: string)
    requires Occurrences(roles, x) <= 1
    ensures Occurrences(RequestsFor(roles, stats), x) ==
      if Occurrences(roles, x) == 1 && Get(stats, x) > 0 then Get(stats, x) else 0
  {
    if roles != [] {
      var k := Get(stats, roles[0]);
      var head := if k > 0 then Repeat(roles[0], k) else [];
      OccurrencesAppend(head, RequestsFor(roles[1..], stats), x);
      if k > 0 {
        OccurrencesRepeat(roles[0], k, x);
      }
      RequestsForCount(roles[1..], stats, x);
    }
  }

  /** Each of the four role names is listed once. */
  lemma RoleCountersOnce(role: string)
    ensures Occurrences(RoleCounters, role) == if role in RoleCounters then 1 else 0
  {
    var d: seq<string> := ["otros"];
    var c: seq<string> := ["padres"] + d;
    var b: seq<string> := ["maestros"] + c;
    var a: seq<string> := ["estudiantes"] + b;
    assert a == RoleCounters;
    assert d[1..] == [] && c[1..] == d && b[1..] == c && a[1..] == b;
    assert Occurrences(d, role) == if role == "otros" then 1 else 0;
    assert Occurrences(c, role) == (if role == "padres" then 1 else 0) + Occurrences(d, role);
    assert Occurrences(b, role) == (if role == "maestros" then 1 else 0) + Occurrences(c, role);
    assert Occurrences(a, role) == (if role == "estudiantes" then 1 else 0) + Occurrences(b, role);
    assert role in a <==> role == "estudiantes" || role == "maestros" || role == "padres" || role == "otros";
  }

  /** For each of the four roles, exactly its positive stored count of
      requests is sent; nothing is sent for any other key. */
  lemma VoteRequestCount(stats: map<string, int>, role: string)
    ensures role in RoleCounters ==>
      Occurrences(VoteRequests(stats), role) == (if Get(stats, role) > 0 then Get(stats, role) else 0)
    ensures role !in RoleCounters ==> Occurrences(VoteRequests(stats), role) == 0
  {
    RoleCountersOnce(role);
    RequestsForCount(RoleCounters, stats, role);
  }

  /** The server side of the replay: each request is a vote. */
  function ReplayVotes(s: Store, requests: seq<string>): (r: Store)
    requires forall x :: x in requests ==> x in RoleCounters
    ensures r.(roleVotes := s.roleVotes, statistics := s.statistics) == s
    ensures forall k :: k !in requests ==> Get(r.roleVotes, k) == Get(s.roleVotes, k)
    decreases |requests|
  {
    if requests == [] then s
    else ReplayVotes(StatsApi.Vote(s, requests[0]).value, requests[1..])
  }

  lemma {:induction false} ReplayAdds(s: Store, requests: seq<string>, role: string)
    requires forall x :: x in requests ==> x in RoleCounters
    ensures Get(ReplayVotes(s, requests).roleVotes, role) == Get(s.roleVotes, role) + Occurrences(requests, role)
    decreases |requests|
  {
    if requests != [] {
      ReplayAdds(StatsApi.Vote(s, requests[0]).value, requests[1..], role);
    }
  }

  /** After the replay the server holds, for every role, its earlier vote
      count plus the positive count stored in the browser. */
  lemma ReplayRestoresVotes(s: Store, stats: map<string, int>, role: string)
    requires role in RoleCounters
    ensures Get(ReplayVotes(s, VoteRequests(stats)).roleVotes, role)
            == Get(s.roleVotes, role) + (if Get(stats, role) > 0 then Get(stats, role) else 0)
  {
    ReplayAdds(s, VoteRequests(stats), role);
    VoteRequestCount(stats, role);
  }

  // ---------------------------------------------------------------------------
  // A whole run
  // ---------------------------------------------------------------------------

  /** How a run ends: the completion marker, the tally, where the bar stands
      and the vote requests sent. */
  datatype Report = Report(completed: Option<string>, successes: nat, errors: nat, progress: real, votes: seq<string>)

  /** What the server answered for each participant, in list order. */
  function Outcomes(ps: seq<(LocalParticipant, Outcome)>): (r: seq<Outcome>)
    ensures |r| == |ps| && forall k :: 0 <= k < |ps| ==> r[k] == ps[k].1
  {
    seq(|ps|, k requires 0 <= k < |ps| => ps[k].1)
  }

  /** `startMigration`. Each stored list arrives parsed, or `None` when its
      text is not valid JSON, which makes its phase throw; each participant
      comes paired with what the server answered for it. */
  function Run(completed: Option<string>, participants: Option<seq<(LocalParticipant, Outcome)>>,
               stats: Option<map<string, int>>, now: string): (r: Report)
    ensures r.completed == Some(now) <==> (participants.Some? && stats.Some?) || completed == Some(now)
    ensures participants.None? || stats.None? ==> r.completed == completed && r.progress == 0.0
    ensures participants.Some? && stats.Some? ==>
      r.progress == 100.0 && r.successes + r.errors == |participants.value|
      && r.votes == VoteRequests(stats.value)
    ensures participants.Some? ==>
      r.successes == Tally(Outcomes(participants.value)).0 && r.errors == Tally(Outcomes(participants.value)).1
  {
    if participants.None? then Report(completed, 0, 0, 0.0, [])
    else
      var tally := Tally(Outcomes(participants.value));
      if stats.None? then Report(completed, tally.0, tally.1, 0.0, [])
      else Report(Some(now), tally.0, tally.1, 100.0, VoteRequests(stats.value))
  }

  /** Once a run completes, the migration is not offered again. */
  lemma CompletedRunNotRepeated(participants: Option<string>, stats: Option<string>, completed: Option<string>,
                                parsed: Option<seq<(LocalParticipant, Outcome)>>, votes: Option<map<string, int>>, now: string)
    requires now != ""
    requires parsed.Some? && votes.Some?
    ensures !ShouldRun(participants, stats, Run(completed, parsed, votes, now).completed)
  {
  }
}

=== FILE: mission_page.dfy ===
/** The club's landing page: the starry background's particle pool and
    motion, the navbar that hides while scrolling down, the hero
    typewriter, and the light/dark theme. */
module MissionPage {
  import opened Wrappers
  import Numeric

  // ---------------------------------------------------------------------------
  // Particle background
  // ---------------------------------------------------------------------------

  /** Canvas pixels per particle, and the pool's cap. */
  const PixelsPerParticle := 5500
  const MaxParticles := 220

  /** `initParticlePool`: one particle per 5500 pixels, at most 220. */
  function PoolSize(width: nat, height: nat): (n: nat)
    ensures n <= MaxParticles
    ensures n * PixelsPerParticle <= width * height
    ensures n < MaxParticles ==> width * height < (n + 1) * PixelsPerParticle
  {
    var byArea := width * height / PixelsPerParticle;
    if byArea < MaxParticles then byArea else MaxParticles
  }

  /** A larger canvas never gets fewer particles. */
  lemma PoolSizeMonotone(w1: nat, h1: nat, w2: nat, h2: nat)
    requires w1 * h1 <= w2 * h2
    ensures PoolSize(w1, h1) <= PoolSize(w2, h2)
  {
  }

  /** A kind of star: colour, share of the pool, and size range. */
  datatype Kind = Kind(color: string, prob: real, minSize: real, maxSize: real)

  const Kinds: seq<Kind> := [
    Kind("#ffffff", 0.70, 0.3, 1.8),
    Kind("#00ff88", 0.20, 0.5, 2.5),
    Kind("#ff6b2c", 0.07, 0.5, 2.0),
    Kind("#ffd700", 0.03, 0.5, 2.0)
  ]

  /** The first kind, from `i` on, whose running share reaches `u`; the
      white star when none does. */
  function PickFrom(u: real, i: nat, cumulative: real): (k: nat)
    requires i <= |Kinds|
    ensures k < |Kinds|
    decreases |Kinds| - i
  {
    if i == |Kinds| then 0
    else if u <= cumulative + Kinds[i].prob then i
    else PickFrom(u, i + 1, cumulative + Kinds[i].prob)
  }

  /** The kind a draw `u` in [0,1) selects. */
  function PickKind(u: real): (k: nat)
    ensures k < |Kinds|
  {
    PickFrom(u, 0, 0.0)
  }

  /** The kinds take their stated shares of [0,1): 70% white, 20% green,
      7% orange, 3% gold. */
  lemma PickKindShares(u: real)
    requires 0.0 <= u < 1.0
    ensures u <= 0.70 <==> PickKind(u) == 0
    ensures 0.70 < u <= 0.90 <==> PickKind(u) == 1
    ensures 0.90 < u <= 0.97 <==> PickKind(u) == 2
    ensures 0.97 < u <==> PickKind(u) == 3
  {
  }

  datatype Particle = Particle(
    x: real, y: real, size: real, speedX: real, speedY: real,
    opacity: real, color: string, phase: real, phaseSpeed: real)

  /** The nine random draws a new particle consumes, each in [0,1). */
  datatype Draws = Draws(kind: real, x: real, y: real, size: real, speedX: real,
                         speedY: real, opacity: real, phase: real, phaseSpeed: real)

  predicate UnitDraws(d: Draws)
  {
    0.0 <= d.kind < 1.0 && 0.0 <= d.x < 1.0 && 0.0 <= d.y < 1.0 && 0.0 <= d.size < 1.0
    && 0.0 <= d.speedX < 1.0 && 0.0 <= d.speedY < 1.0 && 0.0 <= d.opacity < 1.0
    && 0.0 <= d.phase < 1.0 && 0.0 <= d.phaseSpeed < 1.0
  }

  /** `lo + u * (hi - lo)`: a draw in [0,1) spread over [lo, hi]. */
  function Spread(u: real, lo: real, hi: real): (r: real)
    requires 0.0 <= u < 1.0 && lo <= hi
    ensures lo <= r <= hi
  {
    SpreadBetween(u, lo, hi);
    lo + (hi - lo) * u
  }

  /** A fraction u in [0,1] of the way from lo to hi lies between them. */
  lemma SpreadBetween(u: real, lo: real, hi: real)
    requires 0.0 <= u <= 1.0 && lo <= hi
    ensures lo <= lo + (hi - lo) * u <= hi
  {
    var w := hi - lo;
    Numeric.MulLeftMonotone(w, 0.0, u);
    Numeric.MulLeftMonotone(w, u, 1.0);
    assert w * 0.0 == 0.0 && w * 1.0 == w;
  }

  /** `createParticle`; `tau` stands for 2π. */
  function CreateParticle(width: nat, height: nat, d: Draws, tau: real): (p: Particle)
    requires UnitDraws(d)
    ensures 0.0 <= p.x <= width as real && 0.0 <= p.y <= height as real
    ensures p.color == Kinds[PickKind(d.kind)].color
    ensures Kinds[PickKind(d.kind)].minSize <= p.size <= Kinds[PickKind(d.kind)].maxSize
    ensures -0.09 <= p.speedX < 0.09 && -0.15 <= p.speedY < 0.03
    ensures 0.3 <= p.opacity <= 1.0
  {
    var kind := Kinds[PickKind(d.kind)];
    Particle(Spread(d.x, 0.0, width as real), Spread(d.y, 0.0, height as real),
             Spread(d.size, kind.minSize, kind.maxSize),
             (d.speedX - 0.5) * 0.18, (d.speedY - 0.5) * 0.18 - 0.06,
             Spread(d.opacity, 0.3, 1.0), kind.color, d.phase * tau, 0.005 + d.phaseSpeed * 0.025)
  }

  /** One frame's move on one axis: past an edge the particle reappears at
      the opposite edge. */
  function WrapAxis(c: real, speed: real, extent: real): (r: real)
    requires extent >= 0.0
    ensures 0.0 <= r <= extent
    ensures 0.0 <= c + speed <= extent ==> r == c + speed
    ensures c + speed < 0.0 ==> r == extent
    ensures c + speed > extent ==> r == 0.0
  {
    var moved := c + speed;
    var r1 := if moved < 0.0 then extent else moved;
    if r1 > extent then 0.0 else r1
  }

  /** The frame update of `draw`: every particle stays on the canvas. */
  function StepParticle(p: Particle, width: nat, height: nat): (q: Particle)
    ensures 0.0 <= q.x <= width as real && 0.0 <= q.y <= height as real
    ensures q == p.(x := q.x, y := q.y)
  {
    p.(x := WrapAxis(p.x, p.speedX, width as real), y := WrapAxis(p.y, p.speedY, height as real))
  }

  /** A particle strictly inside the canvas and slow enough to stay inside
      simply drifts by its speed. */
  lemma InteriorDrift(p: Particle, width: nat, height: nat)
    requires 0.0 <= p.x + p.speedX <= width as real && 0.0 <= p.y + p.speedY <= height as real
    ensures StepParticle(p, width, height) == p.(x := p.x + p.speedX, y := p.y + p.speedY)
  {
  }

  // ---------------------------------------------------------------------------
  // Navbar
  // ---------------------------------------------------------------------------

  /** The navbar's scroll classes and the last scroll position seen. */
  datatype Navbar = Navbar(lastScroll: real, scrollUp: bool, scrollDown: bool)

  const InitialNavbar := Navbar(0.0, false, false)

  /** The scroll listener. */
  function OnScroll(n: Navbar, current: real): (m: Navbar)
    ensures m.lastScroll == current
    ensures current <= 0.0 ==> !m.scrollUp && !m.scrollDown
    ensures !(n.scrollUp && n.scrollDown) ==> !(m.scrollUp && m.scrollDown)
    ensures current > 0.0 && current > n.lastScroll ==> m.scrollDown
    ensures current > 0.0 && current < n.lastScroll ==> !m.scrollDown
    ensures current > 0.0 && current == n.lastScroll ==> m == n
  {
    if current <= 0.0 then Navbar(current, false, false)
    else if current > n.lastScroll && !n.scrollDown then
      // replace('scroll-up', 'scroll-down') || add('scroll-down')
      Navbar(current, false, true)
    else if current < n.lastScroll && n.scrollDown then
      Navbar(current, true, false)
    else n.(lastScroll := current)
  }

  /** The navbar after a sequence of scroll events. */
  function ScrollAll(n: Navbar, positions: seq<real>): Navbar
    decreases |positions|
  {
    if positions == [] then n else ScrollAll(OnScroll(n, positions[0]), positions[1..])
  }

  /** However the page is scrolled, the navbar never carries both classes. */
  lemma {:induction false} NeverBothClasses(n: Navbar, positions: seq<real>)
    requires !(n.scrollUp && n.scrollDown)
    ensures var m := ScrollAll(n, positions); !(m.scrollUp && m.scrollDown)
    decreases |positions|
  {
    if positions != [] {
      NeverBothClasses(OnScroll(n, positions[0]), positions[1..]);
    }
  }

  // ---------------------------------------------------------------------------
  // Typewriter
  // ---------------------------------------------------------------------------

  const Phrases: seq<string> := [
    "Fomentar la excelencia matemática y el pensamiento crítico",
    "Preparando líderes en carreras STEM",
    "Donde los números cobran vida",
    "Tu aventura matemática comienza aquí",
    "Competencias · Investigación · Colaboración"
  ]

  datatype Typewriter = Typewriter(phraseIdx: nat, charIdx: int, deleting: bool)

  const InitialTypewriter := Typewriter(0, 0, false)

  /** The phrase being typed. */
  function Current(t: Typewriter): string
    requires t.phraseIdx < |Phrases|
  {
    Phrases[t.phraseIdx]
  }

  /** What the tick loop keeps: the cursor inside the current phrase, short
      of its end while typing and past its start while deleting. */
  predicate Valid(t: Typewriter)
  {
    t.phraseIdx < |Phrases| && 0 <= t.charIdx <= |Current(t)|
    && (t.deleting ==> t.charIdx >= 1)
    && (!t.deleting ==> t.charIdx < |Current(t)|)
  }

  /** JavaScript's `s.substring(0, n)`: a negative end is 0, a long one the
      length. */
  function Substring(s: string, n: int): (r: string)
    ensures 0 <= n <= |s| ==> r == s[..n]
  {
    if n <= 0 then "" else if n >= |s| then s else s[..n]
  }

  /** One `tick`: the new state, the text shown, and the delay in
      milliseconds before the next tick. */
  function Tick(t: Typewriter): (r: (Typewriter, string, nat))
    requires Valid(t)
    ensures Valid(r.0)
    ensures r.1 == Current(r.0)[..r.0.charIdx]
    ensures !t.deleting ==> r.0.phraseIdx == t.phraseIdx && r.0.charIdx == t.charIdx + 1
    ensures t.deleting && t.charIdx > 1 ==> r.0 == t.(charIdx := t.charIdx - 1)
    ensures t.deleting && t.charIdx == 1 ==>
      r.0 == Typewriter((t.phraseIdx + 1) % |Phrases|, 0, false) && r.2 == 400
    ensures !t.deleting && t.charIdx + 1 == |Current(t)| ==> r.0.deleting && r.2 == 2800
  {
    var current := Current(t);
    if t.deleting then
      var c := t.charIdx - 1;
      var shown := Substring(current, c);
      if c <= 0 then (Typewriter((t.phraseIdx + 1) % |Phrases|, c, false), shown, 400)
      else (t.(charIdx := c), shown, 28)
    else
      var c := t.charIdx + 1;
      var shown := Substring(current, c);
      if c >= |current| then (t.(charIdx := c, deleting := true), shown, 2800)
      else (t.(charIdx := c), shown, 65)
  }

  /** The state after `n` ticks. */
  function Ticks(t: Typewriter, n: nat): (r: Typewriter)
    requires Valid(t)
    ensures Valid(r)
    decreases n
  {
    if n == 0 then t else Ticks(Tick(t).0, n - 1)
  }

  lemma {:induction false} TicksAdd(t: Typewriter, a: nat, b: nat)
    requires Valid(t)
    ensures Ticks(t, a + b) == Ticks(Ticks(t, a), b)
    decreases a
  {
    if a > 0 {
      TicksAdd(Tick(t).0, a - 1, b);
    }
  }

  /** Typing from cursor `c` reaches the end of the phrase and turns to
      deleting. */
  lemma {:induction false} TypesToEnd(i: nat, c: nat)
    requires i < |Phrases| && c < |Phrases[i]|
    ensures Ticks(Typewriter(i, c, false), |Phrases[i]| - c) == Typewriter(i, |Phrases[i]|, true)
    decreases |Phrases[i]| - c
  {
    if c + 1 < |Phrases[i]| {
      TypesToEnd(i, c + 1);
    }
  }

  /** Deleting from cursor `c` clears the phrase and starts the next one. */
  lemma {:induction false} DeletesToStart(i: nat, c: nat)
    requires i < |Phrases| && 1 <= c <= |Phrases[i]|
    ensures Ticks(Typewriter(i, c, true), c) == Typewriter((i + 1) % |Phrases|, 0, false)
    decreases c
  {
    if c > 1 {
      DeletesToStart(i, c - 1);
    }
  }

  /** A full cycle: typing and deleting phrase `i` takes twice its length in
      ticks and leaves the cursor at the start of the next phrase. */
  lemma PhraseCycle(i: nat)
    requires i < |Phrases|
    ensures Ticks(Typewriter(i, 0, false), 2 * |Phrases[i]|) == Typewriter((i + 1) % |Phrases|, 0, false)
  {
    var n := |Phrases[i]|;
    TicksAdd(Typewriter(i, 0, false), n, n);
    TypesToEnd(i, 0);
    DeletesToStart(i, n);
  }

  // ---------------------------------------------------------------------------
  // Theme
  // ---------------------------------------------------------------------------

  /** The page's `data-theme` attribute and the stored preference. */
  datatype Theme = Theme(attribute: string, stored: Option<string>)

  /** `setTheme`: shown and stored together. */
  function SetTheme(theme: string): (t: Theme)
    ensures t.attribute == theme && t.stored == Some(theme)
  {
    Theme(theme, Some(theme))
  }

  /** On load: the saved theme when there is one (`??` keeps even an empty
      string), otherwise the system preference. */
  function LoadTheme(saved: Option<string>, prefersDark: bool): (t: Theme)
    ensures saved.Some? ==> t == SetTheme(saved.value)
    ensures saved.None? ==> t == SetTheme(if prefersDark then "dark" else "light")
  {
    SetTheme(saved.GetOr(if prefersDark then "dark" else "light"))
  }

  /** The toggle button: dark becomes light, anything else dark. */
  function Toggle(t: Theme): (r: Theme)
    ensures r.attribute == "light" <==> t.attribute == "dark"
    ensures r.attribute == "dark" <==> t.attribute != "dark"
    ensures r.stored == Some(r.attribute)
  {
    SetTheme(if t.attribute == "dark" then "light" else "dark")
  }

  /** The system colour-scheme listener: it follows the system only while
      no non-empty preference is stored (an empty string is falsy). */
  function OnSystemChange(t: Theme, matchesDark: bool): (r: Theme)
    ensures t.stored.Some? && t.stored.value != "" ==> r == t
    ensures t.stored.None? || t.stored == Some("") ==>
      r.attribute == (if matchesDark then "dark" else "light") && r.stored == Some(r.attribute)
  {
    if t.stored.Some? && t.stored.value != "" then t
    else SetTheme(if matchesDark then "dark" else "light")
  }

  /** Toggling twice from either theme returns to it. */
  lemma ToggleTwice(t: Theme)
    requires t.attribute in {"dark", "light"}
    ensures Toggle(Toggle(t)).attribute == t.attribute
  {
  }

  /** A toggled theme survives a reload, whatever the system preference. */
  lemma ToggleSurvivesReload(t: Theme, prefersDark: bool)
    ensures LoadTheme(Toggle(t).stored, prefersDark) == Toggle(t)
  {
  }

  /** Once the toggle has stored a choice, later system changes leave it. */
  lemma {:induction false} ToggleOutlivesSystemChange(t: Theme, changes: seq<bool>)
    ensures SystemChanges(Toggle(t), changes) == Toggle(t)
  {
    if changes != [] {
      ToggleOutlivesSystemChange(t, changes[..|changes| - 1]);
    }
  }

  /** The theme after a run of system colour-scheme changes. */
  function SystemChanges(t: Theme, changes: seq<bool>): Theme
  {
    if changes == [] then t
    else OnSystemChange(SystemChanges(t, changes[..|changes| - 1]), changes[|changes| - 1])
  }
}

=== FILE: numeric.dfy ===
/** Exact real and integer arithmetic standing in for the JavaScript `Math` and
    `%` operations the modelled code uses. */
module Numeric {

  function Min(a: real, b: real): real { if a <= b then a else b }
  function Max(a: real, b: real): real { if a >= b then a else b }

  /** `Math.max(lo, Math.min(hi, x))`. */
  function Clamp(x: real, lo: real, hi: real): (r: real)
    requires lo <= hi
    ensures lo <= r <= hi
    ensures lo <= x <= hi ==> r == x
    ensures x < lo ==> r == lo
    ensures x > hi ==> r == hi
  {
    Max(lo, Min(hi, x))
  }

  function Abs(x: real): real { if x < 0.0 then -x else x }

  /** `Math.trunc`: rounds toward zero. */
  function Trunc(x: real): (r: int)
    ensures x >= 0.0 ==> r as real <= x < r as real + 1.0
    ensures x < 0.0 ==> r as real - 1.0 < x <= r as real
  {
    if x >= 0.0 then x.Floor else -((-x).Floor)
  }

  /** k whole turns, in degrees. */
  function Turns(k: int): real
  {
    360.0 * k as real
  }

  /** JavaScript's `a % 360` on numbers: the remainder takes the sign of `a`. */
  function JsRem360(a: real): (r: real)
    ensures a >= 0.0 ==> 0.0 <= r < 360.0
    ensures a < 0.0 ==> -360.0 < r <= 0.0
    ensures a - r == 360.0 * Trunc(a / 360.0) as real
  {
    a - 360.0 * Trunc(a / 360.0) as real
  }

  /** JavaScript's `a % n` on integers (truncating division). */
  function JsIntRem(a: int, n: int): (r: int)
    requires n > 0
    ensures a >= 0 ==> 0 <= r < n && r == a % n
    ensures a < 0 ==> -n < r <= 0
  {
    if a >= 0 then a % n else -((-a) % n)
  }

  /** Truncation is odd: it rounds both signs toward zero alike. */
  lemma TruncNegates(x: real)
    ensures Trunc(-x) == -Trunc(x)
  {
  }

  /** JavaScript's `%` keeps the sign of the dividend: negating the angle
      negates the remainder. */
  lemma JsRem360Negates(a: real)
    ensures JsRem360(-a) == -JsRem360(a)
  {
    assert -a / 360.0 == -(a / 360.0);
    TruncNegates(a / 360.0);
  }

  /** The same for the integer remainder. */
  lemma JsIntRemNegates(a: int, n: int)
    requires n > 0
    ensures JsIntRem(-a, n) == -JsIntRem(a, n)
  {
  }

  /** `Math.round`: halves round toward positive infinity. */
  function Round(x: real): (r: int)
    ensures x - 0.5 < r as real <= x + 0.5
  {
    (x + 0.5).Floor
  }

  /** `b` raised to a natural power. */
  function Pow(b: real, n: nat): real
  {
    if n == 0 then 1.0 else b * Pow(b, n - 1)
  }

  lemma {:induction false} PowPositive(b: real, n: nat)
    requires b > 0.0
    ensures Pow(b, n) > 0.0
  {
    if n > 0 {
      PowPositive(b, n - 1);
    }
  }

  lemma {:induction false} PowAtLeastOne(b: real, n: nat)
    requires b >= 1.0
    ensures Pow(b, n) >= 1.0
  {
    if n > 0 {
      PowAtLeastOne(b, n - 1);
    }
  }

  /** A base above 1 raised to a positive power stays above 1. */
  lemma {:induction false} PowAboveOne(b: real, n: nat)
    requires b > 1.0 && n >= 1
    ensures Pow(b, n) > 1.0
  {
    PowAtLeastOne(b, n - 1);
    MulLeftStrict(Pow(b, n - 1), 1.0, b);
  }

  /** A base strictly between 0 and 1 raised to a positive power stays in (0, 1). */
  lemma {:induction false} PowBelowOne(b: real, n: nat)
    requires 0.0 < b < 1.0 && n >= 1
    ensures 0.0 < Pow(b, n) < 1.0
  {
    PowPositive(b, n);
    if n > 1 {
      PowBelowOne(b, n - 1);
      MulLeftStrict(b, Pow(b, n - 1), 1.0);
    }
  }

  /** Multiplying both sides of `a <= b` by a non-negative `c` keeps the order. */
  lemma MulLeftMonotone(c: real, a: real, b: real)
    requires c >= 0.0 && a <= b
    ensures c * a <= c * b
  {
    assert c * b - c * a == c * (b - a);
  }

  lemma MulLeftStrict(c: real, a: real, b: real)
    requires c > 0.0 && a < b
    ensures c * a < c * b
  {
    assert c * b - c * a == c * (b - a);
  }

  lemma ProductPositive(a: real, b: real)
    requires a > 0.0 && b > 0.0
    ensures a * b > 0.0
  {
    MulLeftStrict(a, 0.0, b);
  }

  /** Bernoulli's inequality: (1 + r)^n >= 1 + n·r for r >= -1. */
  lemma {:induction false} Bernoulli(r: real, n: nat)
    requires r >= -1.0
    ensures Pow(1.0 + r, n) >= 1.0 + n as real * r
  {
    if n > 0 {
      Bernoulli(r, n - 1);
      var p := Pow(1.0 + r, n - 1);
      assert p >= 1.0 + (n - 1) as real * r;
      assert Pow(1.0 + r, n) == (1.0 + r) * p;
      MulLeftMonotone(1.0 + r, 1.0 + (n - 1) as real * r, p);
      assert (1.0 + r) * (1.0 + (n - 1) as real * r) == 1.0 + n as real * r + (n - 1) as real * r * r;
      assert (n - 1) as real * r * r >= 0.0;
    }
  }

  /** Bernoulli's inequality is strict for a positive r and n >= 2. */
  lemma {:induction false} BernoulliStrict(r: real, n: nat)
    requires r > 0.0 && n >= 2
    ensures Pow(1.0 + r, n) > 1.0 + n as real * r
  {
    var k := (n - 1) as real;
    Bernoulli(r, n - 1);
    var p := Pow(1.0 + r, n - 1);
    assert Pow(1.0 + r, n) == (1.0 + r) * p;
    MulLeftMonotone(1.0 + r, 1.0 + k * r, p);
    StrictStep(Pow(1.0 + r, n), k, r);
  }

  /** The inductive step of the strict inequality: (1 + r)(1 + k r) exceeds 1 + (k + 1) r. */
  lemma StrictStep(a: real, k: real, r: real)
    requires k >= 1.0 && r > 0.0 && a >= (1.0 + r) * (1.0 + k * r)
    ensures a > 1.0 + (k + 1.0) * r
  {
    ProductPositive(k, r);
    ProductPositive(k * r, r);
    assert (1.0 + r) * (1.0 + k * r) == 1.0 + (k + 1.0) * r + k * r * r;
  }

  /** The smallest k with 2^k >= n: the integer value of ceil(log2(n)) for n >= 1. */
  function CeilLog2(n: nat): (k: nat)
    requires n >= 1
    ensures PowTwo(k) >= n
    ensures k > 0 ==> PowTwo(k - 1) < n
  {
    if n == 1 then 0 else CeilLog2((n + 1) / 2) + 1
  }

  function PowTwo(k: nat): (p: nat)
    ensures p >= 1
  {
    if k == 0 then 1 else 2 * PowTwo(k - 1)
  }

  lemma {:induction false} PowTwoMonotone(j: nat, k: nat)
    requires j <= k
    ensures PowTwo(j) <= PowTwo(k)
    decreases k
  {
    if j < k {
      PowTwoMonotone(j, k - 1);
    }
  }

  /** CeilLog2 is the least exponent whose power of two reaches n. */
  lemma CeilLog2Least(n: nat, j: nat)
    requires n >= 1 && PowTwo(j) >= n
    ensures CeilLog2(n) <= j
  {
    if CeilLog2(n) > j {
      PowTwoMonotone(j, CeilLog2(n) - 1);
      assert false;
    }
  }

  lemma CeilLog2Monotone(n: nat, m: nat)
    requires 1 <= n <= m
    ensures CeilLog2(n) <= CeilLog2(m)
  {
    CeilLog2Least(n, CeilLog2(m));
  }
}

=== FILE: olympiad_store.dfy ===
/** The key-value store behind the olympiad endpoints (`/api/register`,
    `/api/stats`, `/api/participants`): participant records under their email
    and their id, the list of ids, the `site:statistics` object, the role vote
    and visitor counters, and the per-day counters. */
module OlympiadStore {
  import opened Wrappers

  /** A stored participant. The registration instant is kept as a number
      (milliseconds since the epoch) rather than as its ISO text, which
      orders the same way. */
  datatype Participant = Participant(
    id: string,
    fullName: string,
    email: string,
    age: int,
    grade: string,
    school: string,
    category: string,
    experience: string,
    motivation: string,
    role: string,
    registeredAt: int,
    status: string)

  /** The counters are maps from key to value; a key that was never written
      reads as 0, which is what the handlers' `(await kv.get(k)) || 0`
      defaults give. The `/api/stats` reads that apply `|| 0` to the promise
      instead are followed as written by `StatsApi.SummarizeAsWritten` and
      `StatsApi.IncrementCounterAsWritten`. */
  datatype Store = Store(
    statistics: map<string, int>,
    roleVotes: map<string, int>,
    visitorsTotal: int,
    visitorsDaily: map<string, int>,
    registrationsDaily: map<string, int>,
    participantIds: seq<string>,
    byEmail: map<string, Participant>,
    byId: map<string, Participant>)

  const Empty := Store(map[], map[], 0, map[], map[], [], map[], map[])

  /** The four role counters of `site:statistics` and of the role votes. */
  const RoleCounters: seq<string> := ["estudiantes", "maestros", "padres", "otros"]
  const TotalKey := "totalParticipants"

  /** A string field of a request body that JavaScript treats as true:
      present and non-empty. */
  predicate Present(s: Option<string>)
  {
    s.Some? && s.value != ""
  }

  /** A counter read with `(await kv.get(k)) || 0`. */
  function Get(m: map<string, int>, k: string): int
  {
    if k in m then m[k] else 0
  }

  /** `m[k] = (m[k] || 0) + 1`. */
  function Bump(m: map<string, int>, k: string): (r: map<string, int>)
    ensures Get(r, k) == Get(m, k) + 1
    ensures r.Keys == m.Keys + {k}
    ensures forall j :: j in m && j != k ==> r[j] == m[j]
  {
    m[k := Get(m, k) + 1]
  }

  /** Bumping one counter leaves every other counter's reading alone. */
  lemma BumpOthers(m: map<string, int>, k: string, j: string)
    requires j != k
    ensures Get(Bump(m, k), j) == Get(m, j)
  {
  }

  /** How many times a key occurs in a list of keys. */
  function Occurrences(xs: seq<string>, x: string): nat
  {
    if xs == [] then 0 else (if xs[0] == x then 1 else 0) + Occurrences(xs[1..], x)
  }

  /** The total participant counter agrees with the length of the id list:
      the `/api/stats` summary reads the one and the `/api/participants`
      summary the other. */
  predicate TotalMatchesList(s: Store)
  {
    Get(s.statistics, TotalKey) == |s.participantIds|
  }
}

=== FILE: participants_api.dfy ===
/** The public participant list (`/api/participants`): records collected by
    id, newest first, with private fields removed and initials added, plus
    the registration counters. */
module ParticipantsApi {
  import Text
  import Seqs
  import opened OlympiadStore

  // ---------------------------------------------------------------------------
  // Collecting and ordering
  // ---------------------------------------------------------------------------

  /** The records of the listed ids, in list order; an id without a record is
      skipped. */
  function Collect(ids: seq<string>, byId: map<string, Participant>): (r: seq<Participant>)
    ensures |r| <= |ids|
    ensures forall p :: p in r ==> exists k :: 0 <= k < |ids| && ids[k] in byId && byId[ids[k]] == p
    ensures (forall k :: 0 <= k < |ids| ==> ids[k] in byId) ==> |r| == |ids|
  {
    if ids == [] then []
    else
      var rest := Collect(ids[1..], byId);
      assert forall k :: 0 <= k < |ids| - 1 ==> ids[1..][k] == ids[k + 1];
      (if ids[0] in byId then [byId[ids[0]]] else []) + rest
  }

  /** Newest registration first. */
  predicate NewestFirst(xs: seq<Participant>)
  {
    forall i, j :: 0 <= i < j < |xs| ==> xs[i].registeredAt >= xs[j].registeredAt
  }

  /** A record no older than the head of a newest-first list can go in
      front of it. */
  lemma PrependNewest(a: Participant, rest: seq<Participant>)
    requires NewestFirst(rest)
    requires rest != [] ==> rest[0].registeredAt <= a.registeredAt
    ensures NewestFirst([a] + rest)
  {
    forall i, j | 0 <= i < j < |[a] + rest|
      ensures ([a] + rest)[i].registeredAt >= ([a] + rest)[j].registeredAt
    {
      assert ([a] + rest)[j] == rest[j - 1];
      if i > 0 {
        assert ([a] + rest)[i] == rest[i - 1];
      }
    }
  }

  /** Places `p` before the first record that is not newer than it. */
  function Insert(p: Participant, xs: seq<Participant>): (r: seq<Participant>)
    requires NewestFirst(xs)
    ensures NewestFirst(r)
    ensures multiset(r) == multiset(xs) + multiset{p}
    ensures r != [] && (r[0] == p || (xs != [] && r[0] == xs[0]))
    ensures xs != [] && xs[0].registeredAt <= p.registeredAt ==> r == [p] + xs
  {
    if xs == [] then [p]
    else if xs[0].registeredAt <= p.registeredAt then
      PrependNewest(p, xs);
      [p] + xs
    else
      assert xs == [xs[0]] + xs[1..];
      var rest := Insert(p, xs[1..]);
      assert xs[1..] != [] ==> xs[1..][0] == xs[1];
      PrependNewest(xs[0], rest);
      [xs[0]] + rest
  }

  /** The comparator `new Date(b.registrationDate) - new Date(a.registrationDate)`:
      an insertion sort that orders the records newest first. */
  function SortNewestFirst(xs: seq<Participant>): (r: seq<Participant>)
    ensures NewestFirst(r)
    ensures multiset(r) == multiset(xs)
  {
    if xs == [] then []
    else
      assert xs == [xs[0]] + xs[1..];
      Insert(xs[0], SortNewestFirst(xs[1..]))
  }

  /** A list that is already newest first is left as it is. */
  lemma {:induction false} SortKeepsOrderedList(xs: seq<Participant>)
    requires NewestFirst(xs)
    ensures SortNewestFirst(xs) == xs
  {
    if xs != [] {
      SortKeepsOrderedList(xs[1..]);
      if |xs| > 1 {
        assert xs[1..][0] == xs[1];
      }
    }
  }

  /** The records registered at instant `t`, in list order. */
  function WithInstant(xs: seq<Participant>, t: int): seq<Participant>
  {
    if xs == [] then []
    else (if xs[0].registeredAt == t then [xs[0]] else []) + WithInstant(xs[1..], t)
  }

  lemma WithInstantCons(a: Participant, rest: seq<Participant>, t: int)
    ensures WithInstant([a] + rest, t) == (if a.registeredAt == t then [a] else []) + WithInstant(rest, t)
  {
    Seqs.ConsParts(a, rest);
  }

  /** Inserting `p` puts it ahead of every record registered at the same
      instant and leaves their order alone. */
  lemma {:induction false} InsertIsStable(p: Participant, xs: seq<Participant>, t: int)
    requires NewestFirst(xs)
    ensures WithInstant(Insert(p, xs), t) == (if p.registeredAt == t then [p] else []) + WithInstant(xs, t)
  {
    if xs == [] || xs[0].registeredAt <= p.registeredAt {
      InsertFront(p, xs);
      WithInstantCons(p, xs, t);
    } else {
      InsertBehind(p, xs);
      InsertIsStable(p, xs[1..], t);
      StableStep(p, Insert(p, xs[1..]), xs, t);
    }
  }

  /** A record no older than the head goes in front. */
  lemma InsertFront(p: Participant, xs: seq<Participant>)
    requires NewestFirst(xs) && (xs == [] || xs[0].registeredAt <= p.registeredAt)
    ensures Insert(p, xs) == [p] + xs
  {
    if xs == [] {
      Seqs.AppendEmpty([p]);
    }
  }

  /** A record older than the head goes somewhere behind it. */
  lemma InsertBehind(p: Participant, xs: seq<Participant>)
    requires NewestFirst(xs) && xs != [] && xs[0].registeredAt > p.registeredAt
    ensures NewestFirst(xs[1..])
    ensures Insert(p, xs) == [xs[0]] + Insert(p, xs[1..])
  {
  }

  /** A record strictly newer than `p` stays ahead of it without changing
      the records at `p`'s instant. */
  lemma StableStep(p: Participant, rest: seq<Participant>, xs: seq<Participant>, t: int)
    requires xs != [] && xs[0].registeredAt > p.registeredAt
    requires WithInstant(rest, t) == (if p.registeredAt == t then [p] else []) + WithInstant(xs[1..], t)
    ensures WithInstant([xs[0]] + rest, t) == (if p.registeredAt == t then [p] else []) + WithInstant(xs, t)
  {
    WithInstantCons(xs[0], rest, t);
    var w := WithInstant(xs[1..], t);
    if p.registeredAt == t {
      assert xs[0].registeredAt != t;
      assert WithInstant([xs[0]] + rest, t) == [] + WithInstant(rest, t);
      assert WithInstant(xs, t) == [] + w;
    } else {
      assert WithInstant(rest, t) == [] + w;
      assert [] + w == w;
    }
  }

  /** The sort is stable: records registered at the same instant keep the
      order they had in the list of ids. */
  lemma {:induction false} SortIsStable(xs: seq<Participant>, t: int)
    ensures WithInstant(SortNewestFirst(xs), t) == WithInstant(xs, t)
  {
    if xs != [] {
      SortIsStable(xs[1..], t);
      InsertIsStable(xs[0], SortNewestFirst(xs[1..]), t);
    }
  }

  // ---------------------------------------------------------------------------
  // The public record
  // ---------------------------------------------------------------------------

  /** The first character of every non-empty word; an empty word (two spaces
      in a row) contributes nothing, as `undefined` does in `join('')`. */
  function FirstLetters(words: seq<string>): (r: string)
    ensures |r| <= |words|
  {
    if words == [] then []
    else (if words[0] == [] then [] else [words[0][0]]) + FirstLetters(words[1..])
  }

  /** The first letters of the space-separated words, at most two, upper-cased. */
  function Initials(fullName: string): (r: string)
    ensures |r| <= 2
  {
    var letters := FirstLetters(Text.Split(fullName, ' '));
    Text.ToUpper(if |letters| <= 2 then letters else letters[..2])
  }

  /** Words that are all non-empty give one letter each: their first. */
  lemma {:induction false} LettersOfWords(words: seq<string>)
    requires forall k :: 0 <= k < |words| ==> words[k] != []
    ensures |FirstLetters(words)| == |words|
    ensures forall k :: 0 <= k < |words| ==> FirstLetters(words)[k] == words[k][0]
  {
    if words != [] {
      LettersOfWords(words[1..]);
      assert forall k :: 0 <= k < |words| - 1 ==> words[1..][k] == words[k + 1];
    }
  }

  /** The initials depend on the name only through its first letters. */
  lemma InitialsOfLetters(name: string, letters: string)
    requires FirstLetters(Text.Split(name, ' ')) == letters
    ensures |letters| <= 2 ==> Initials(name) == Text.ToUpper(letters)
    ensures |letters| > 2 ==> Initials(name) == Text.ToUpper(letters[..2])
  {
  }

  /** A name that splits into non-empty words has the upper-cased first
      letters of its first one or two words as initials. */
  lemma InitialsOfWords(name: string, words: seq<string>)
    requires Text.Split(name, ' ') == words && |words| >= 1
    requires forall k :: 0 <= k < |words| ==> words[k] != []
    ensures |words| == 1 ==> Initials(name) == Text.ToUpper([words[0][0]])
    ensures |words| >= 2 ==> Initials(name) == Text.ToUpper([words[0][0], words[1][0]])
  {
    LettersOfWords(words);
    InitialsOfLetters(name, FirstLetters(words));
    if |words| == 1 {
      assert FirstLetters(words) == [words[0][0]];
    } else if |words| == 2 {
      assert FirstLetters(words) == [words[0][0], words[1][0]];
    } else {
      assert FirstLetters(words)[..2] == [words[0][0], words[1][0]];
    }
  }

  /** For a name written as words separated by single spaces, the initials
      are the upper-cased first letters of its first one or two words. */
  lemma InitialsOfName(words: seq<string>)
    requires |words| >= 1
    requires forall k :: 0 <= k < |words| ==> words[k] != [] && ' ' !in words[k]
    ensures |words| == 1 ==> Initials(Text.Join(words, ' ')) == Text.ToUpper([words[0][0]])
    ensures |words| >= 2 ==> Initials(Text.Join(words, ' ')) == Text.ToUpper([words[0][0], words[1][0]])
  {
    Text.SplitJoin(words, ' ');
    InitialsOfWords(Text.Join(words, ' '), words);
  }

  /** What the list shows of a participant: no email, motivation or status. */
  datatype PublicParticipant = PublicParticipant(
    id: string,
    fullName: string,
    age: int,
    grade: string,
    school: string,
    category: string,
    experience: string,
    registeredAt: int,
    role: string,
    initials: string)

  function Project(p: Participant): (r: PublicParticipant)
    ensures r.id == p.id && r.registeredAt == p.registeredAt && |r.initials| <= 2
  {
    PublicParticipant(p.id, p.fullName, p.age, p.grade, p.school, p.category,
                      p.experience, p.registeredAt, p.role, Initials(p.fullName))
  }

  /** The projection does not depend on the private fields: two records that
      differ only in email, motivation or status look the same. */
  lemma ProjectionHidesPrivate(p: Participant, email: string, motivation: string, status: string)
    ensures Project(p.(email := email, motivation := motivation, status := status)) == Project(p)
  {
  }

  /** The projection keeps what the list shows: records with the same
      projection agree on every public field. */
  lemma ProjectionKeepsPublic(p: Participant, q: Participant)
    requires Project(p) == Project(q)
    ensures p.(email := q.email, motivation := q.motivation, status := q.status) == q
  {
  }

  // ---------------------------------------------------------------------------
  // Counters and the response
  // ---------------------------------------------------------------------------

  datatype Pagination = Pagination(total: nat, page: nat, limit: nat, totalPages: nat, hasNext: bool, hasPrev: bool)

  /** `getStatistics`: the `site:statistics` counters and today's
      registrations, 0 where nothing was written. */
  datatype Counts = Counts(total: int, estudiantes: int, maestros: int, padres: int, otros: int, today: int)

  function Statistics(s: Store, today: string): (c: Counts)
    ensures c.total == Get(s.statistics, TotalKey)
    ensures c.today == Get(s.registrationsDaily, today)
    ensures c.estudiantes == Get(s.statistics, "estudiantes") && c.maestros == Get(s.statistics, "maestros")
    ensures c.padres == Get(s.statistics, "padres") && c.otros == Get(s.statistics, "otros")
  {
    Counts(Get(s.statistics, TotalKey), Get(s.statistics, "estudiantes"),
           Get(s.statistics, "maestros"), Get(s.statistics, "padres"),
           Get(s.statistics, "otros"), Get(s.registrationsDaily, today))
  }

  /** Nothing written means every counter reads 0, the same figures as the
      fallback for a failed read. */
  lemma EmptyStatisticsAreZero(today: string)
    ensures Statistics(Empty, today) == Counts(0, 0, 0, 0, 0, 0)
  {
  }

  datatype Body =
    | NoBody
    | Listing(participants: seq<PublicParticipant>, pagination: Pagination, statistics: Counts)
    | Problem(message: string)

  datatype Response = Response(status: nat, body: Body)

  /** The public view of each record, in order. */
  function ProjectAll(xs: seq<Participant>): (r: seq<PublicParticipant>)
    ensures |r| == |xs|
    ensures forall k :: 0 <= k < |xs| ==> r[k] == Project(xs[k])
  {
    if xs == [] then [] else [Project(xs[0])] + ProjectAll(xs[1..])
  }

  lemma ProjectAllCons(a: Participant, rest: seq<Participant>)
    ensures ProjectAll([a] + rest) == [Project(a)] + ProjectAll(rest)
  {
    Seqs.ConsParts(a, rest);
  }

  /** Projecting after inserting a record adds that record's projection. */
  lemma {:induction false} ProjectInsert(p: Participant, xs: seq<Participant>)
    requires NewestFirst(xs)
    ensures multiset(ProjectAll(Insert(p, xs))) == multiset(ProjectAll(xs)) + multiset{Project(p)}
  {
    if xs == [] {
      ProjectAllCons(p, []);
    } else if xs[0].registeredAt <= p.registeredAt {
      ProjectAllCons(p, xs);
    } else {
      InsertBehind(p, xs);
      ProjectInsert(p, xs[1..]);
      ProjectStep(p, Insert(p, xs[1..]), xs);
    }
  }

  lemma ProjectStep(p: Participant, rest: seq<Participant>, xs: seq<Participant>)
    requires xs != []
    requires multiset(ProjectAll(rest)) == multiset(ProjectAll(xs[1..])) + multiset{Project(p)}
    ensures multiset(ProjectAll([xs[0]] + rest)) == multiset(ProjectAll(xs)) + multiset{Project(p)}
  {
    ProjectAllCons(xs[0], rest);
    ProjectAllCons(xs[0], xs[1..]);
    Seqs.HeadTail(xs);
    Seqs.ConsMultiset(Project(xs[0]), ProjectAll(rest), ProjectAll(xs[1..]), Project(p));
  }

  /** Sorting does not change which public records are shown, only their
      order. */
  lemma {:induction false} ProjectSort(xs: seq<Participant>)
    ensures multiset(ProjectAll(SortNewestFirst(xs))) == multiset(ProjectAll(xs))
  {
    if xs != [] {
      ProjectSort(xs[1..]);
      ProjectInsert(xs[0], SortNewestFirst(xs[1..]));
      assert ProjectAll(xs) == [Project(xs[0])] + ProjectAll(xs[1..]);
    }
  }

  /** `x` is the record stored under one of the listed ids. */
  predicate StoredUnderListedId(s: Store, x: Participant)
  {
    exists id :: id in s.participantIds && id in s.byId && s.byId[id] == x
  }

  /** A reordering of the collected records holds only records stored under
      a listed id. */
  lemma FromStore(s: Store, xs: seq<Participant>)
    requires multiset(xs) == multiset(Collect(s.participantIds, s.byId))
    ensures forall k :: 0 <= k < |xs| ==> StoredUnderListedId(s, xs[k])
  {
    var collected := Collect(s.participantIds, s.byId);
    forall k | 0 <= k < |xs|
      ensures StoredUnderListedId(s, xs[k])
    {
      assert xs[k] in multiset(collected);
      assert xs[k] in collected;
      var i :| 0 <= i < |s.participantIds| && s.participantIds[i] in s.byId
               && s.byId[s.participantIds[i]] == xs[k];
      assert s.participantIds[i] in s.participantIds;
    }
  }

  /** The public records of the listed ids, newest first. */
  function Shown(s: Store): (r: seq<PublicParticipant>)
    ensures |r| <= |s.participantIds|
    ensures forall i, j :: 0 <= i < j < |r| ==> r[i].registeredAt >= r[j].registeredAt
    ensures multiset(r) == multiset(ProjectAll(Collect(s.participantIds, s.byId)))
  {
    var collected := Collect(s.participantIds, s.byId);
    var sorted := SortNewestFirst(collected);
    assert |sorted| == |collected| by {
      assert |multiset(sorted)| == |multiset(collected)|;
    }
    ProjectSort(collected);
    ProjectAll(sorted)
  }

  /** Every shown record is the public view of a record stored under a
      listed id. */
  lemma ShownFromStore(s: Store)
    ensures forall k :: 0 <= k < |Shown(s)| ==> ShowsStored(s, Shown(s)[k])
  {
    var sorted := SortNewestFirst(Collect(s.participantIds, s.byId));
    ShownIsSortedProjection(s);
    FromStore(s, sorted);
    ProjectedFromStore(s, sorted);
  }

  lemma ShownIsSortedProjection(s: Store)
    ensures Shown(s) == ProjectAll(SortNewestFirst(Collect(s.participantIds, s.byId)))
  {
  }

  /** `v` is the public view of a record stored under a listed id. */
  predicate ShowsStored(s: Store, v: PublicParticipant)
  {
    exists id :: id in s.participantIds && id in s.byId && Project(s.byId[id]) == v
  }

  /** The projections of records stored under listed ids are public views of
      such records. */
  lemma ProjectedFromStore(s: Store, xs: seq<Participant>)
    requires forall k :: 0 <= k < |xs| ==> StoredUnderListedId(s, xs[k])
    ensures forall k :: 0 <= k < |ProjectAll(xs)| ==> ShowsStored(s, ProjectAll(xs)[k])
  {
    forall k | 0 <= k < |ProjectAll(xs)|
      ensures ShowsStored(s, ProjectAll(xs)[k])
    {
      assert StoredUnderListedId(s, xs[k]);
      var id :| id in s.participantIds && id in s.byId && s.byId[id] == xs[k];
      assert Project(s.byId[id]) == ProjectAll(xs)[k];
    }
  }

  function List(s: Store, today: string): (b: Body)
    ensures b.Listing?
    ensures |b.participants| <= |s.participantIds|
    ensures b.pagination == Pagination(|b.participants|, 1, 100, 1, false, false)
    ensures forall i, j :: 0 <= i < j < |b.participants| ==>
      b.participants[i].registeredAt >= b.participants[j].registeredAt
    ensures forall k :: 0 <= k < |b.participants| ==>
      exists id :: id in s.participantIds && id in s.byId && Project(s.byId[id]) == b.participants[k]
    ensures multiset(b.participants) == multiset(ProjectAll(Collect(s.participantIds, s.byId)))
  {
    ShownFromStore(s);
    var shown := Shown(s);
    Listing(shown, Pagination(|shown|, 1, 100, 1, false, false), Statistics(s, today))
  }

  function Handle(s: Store, verb: string, url: string, today: string): (r: Response)
    ensures verb == "OPTIONS" ==> r == Response(200, NoBody)
    ensures r.status == 200 <==> verb == "OPTIONS" || (verb == "GET" && Text.Contains(url, "/api/participants"))
    ensures verb != "OPTIONS" && r.status == 200 ==> r.body == List(s, today)
    ensures r.status != 200 ==> r == Response(405, Problem("Método no permitido"))
  {
    if verb == "OPTIONS" then Response(200, NoBody)
    else if Text.Contains(url, "/api/participants") && verb == "GET" then Response(200, List(s, today))
    else Response(405, Problem("Método no permitido"))
  }

  /** When every listed id has its record, the list shows all of them. */
  lemma AllRecordsListed(s: Store, today: string)
    requires forall k :: 0 <= k < |s.participantIds| ==> s.participantIds[k] in s.byId
    ensures |List(s, today).participants| == |s.participantIds|
  {
    var collected := Collect(s.participantIds, s.byId);
    assert |SortNewestFirst(collected)| == |collected| by {
      assert |multiset(SortNewestFirst(collected))| == |multiset(collected)|;
    }
  }
}

=== FILE: register_api.dfy ===
/** Olympiad registration (`/api/register`): the validation chain, the stored
    participant record, and the statistics update that follows a successful
    registration. */
module RegisterApi {
  import opened Wrappers
  import Numeric
  import Text
  import opened OlympiadStore

  // ---------------------------------------------------------------------------
  // The request
  // ---------------------------------------------------------------------------

  /** The JSON body. `None` is a field the body leaves out; the age is the
      number the client sent. */
  datatype Form = Form(
    fullName: Option<string>,
    email: Option<string>,
    age: Option<real>,
    grade: Option<string>,
    school: Option<string>,
    category: Option<string>,
    experience: Option<string>,
    motivation: Option<string>,
    role: Option<string>)

  datatype Request = Request(verb: string, form: Form)

  /** What the handler takes from its environment: the generated participant
      id, the current instant and today's date. */
  datatype Stamp = Stamp(id: string, now: int, today: string)

  datatype Body =
    | NoBody
    | Problem(message: string)
    | Registered(id: string, fullName: string, category: string, registeredAt: int)

  datatype Response = Response(status: nat, body: Body)

  /** `value || fallback`. */
  function OrDefault(s: Option<string>, fallback: string): (r: string)
    ensures Present(s) ==> r == s.value
    ensures !Present(s) ==> r == fallback
  {
    if s.Some? && s.value != "" then s.value else fallback
  }

  /** All five required fields are truthy (an age of 0 is not). */
  predicate Complete(f: Form)
  {
    Present(f.fullName) && Present(f.email) && f.age.Some? && f.age.value != 0.0
    && Present(f.grade) && Present(f.category)
  }

  // ---------------------------------------------------------------------------
  // The email pattern ^[^\s@]+@[^\s@]+\.[^\s@]+$
  // ---------------------------------------------------------------------------

  /** A character of the class `[^\s@]`. */
  predicate Plain(c: char)
  {
    !Text.IsSpace(c) && c != '@'
  }

  predicate AllPlain(s: string)
  {
    forall k :: 0 <= k < |s| ==> Plain(s[k])
  }

  /** The pattern as written: three non-empty runs of plain characters, the
      first two separated by `@` and the last two by a dot. */
  predicate MatchesEmailPattern(s: string)
  {
    exists i, j :: 0 < i && i + 1 < j && j + 1 < |s| && s[i] == '@' && s[j] == '.'
                   && AllPlain(s[..i]) && AllPlain(s[i + 1..j]) && AllPlain(s[j + 1..])
  }

  /** Plainness scanned character by character. */
  function PlainRun(s: string): (b: bool)
    ensures b <==> AllPlain(s)
  {
    if s == [] then true else Plain(s[0]) && PlainRun(s[1..])
  }

  /** The check as a scan: a single `@` that is not first, no whitespace, and
      a dot strictly inside the part after the `@`. */
  function CheckEmail(s: string): bool
  {
    '@' in s &&
    var i := Text.IndexOf(s, '@');
    var rest := s[i + 1..];
    i > 0 && PlainRun(s[..i]) && PlainRun(rest) && |rest| >= 3 && '.' in rest[1..|rest| - 1]
  }

  lemma AllPlainSplit(s: string, j: nat)
    requires j < |s| && s[j] == '.'
    ensures AllPlain(s) <==> AllPlain(s[..j]) && AllPlain(s[j + 1..])
  {
    if AllPlain(s[..j]) && AllPlain(s[j + 1..]) {
      forall k | 0 <= k < |s|
        ensures Plain(s[k])
      {
        if k < j {
          assert s[k] == s[..j][k];
        } else if k > j {
          assert s[k] == s[j + 1..][k - j - 1];
        }
      }
    }
    if AllPlain(s) {
      assert forall k :: 0 <= k < j ==> s[..j][k] == s[k];
      assert forall k :: j + 1 <= k < |s| ==> s[j + 1..][k - j - 1] == s[k];
    }
  }

  /** A string the scan accepts matches the pattern. */
  lemma CheckEmailSound(s: string)
    requires CheckEmail(s)
    ensures MatchesEmailPattern(s)
  {
    var i := Text.IndexOf(s, '@');
    var rest := s[i + 1..];
    var inner := rest[1..|rest| - 1];
    var d := Text.IndexOf(inner, '.');
    var j := i + 2 + d;
    assert rest[d + 1] == inner[d] == '.';
    assert s[j] == '.';
    AllPlainSplit(rest, d + 1);
    assert rest[..d + 1] == s[i + 1..j];
    assert rest[d + 2..] == s[j + 1..];
  }

  /** A string the pattern matches passes the scan. */
  lemma CheckEmailComplete(s: string, i: nat, j: nat)
    requires 0 < i && i + 1 < j && j + 1 < |s| && s[i] == '@' && s[j] == '.'
    requires AllPlain(s[..i]) && AllPlain(s[i + 1..j]) && AllPlain(s[j + 1..])
    ensures CheckEmail(s)
  {
    assert s[i] in s;
    assert Text.IndexOf(s, '@') == i;
    var rest := s[i + 1..];
    assert rest[j - i - 1] == '.';
    assert rest[..j - i - 1] == s[i + 1..j];
    assert rest[j - i..] == s[j + 1..];
    AllPlainSplit(rest, j - i - 1);
    assert rest[1..|rest| - 1][j - i - 2] == '.';
  }

  /** The scan accepts exactly the strings the pattern matches. */
  lemma CheckEmailMatchesPattern(s: string)
    ensures CheckEmail(s) <==> MatchesEmailPattern(s)
  {
    if CheckEmail(s) {
      CheckEmailSound(s);
    }
    if MatchesEmailPattern(s) {
      var i, j :| 0 < i && i + 1 < j && j + 1 < |s| && s[i] == '@' && s[j] == '.'
                  && AllPlain(s[..i]) && AllPlain(s[i + 1..j]) && AllPlain(s[j + 1..]);
      CheckEmailComplete(s, i, j);
    }
  }

  // ---------------------------------------------------------------------------
  // The stored record and the statistics
  // ---------------------------------------------------------------------------

  /** The stored email: `email.toLowerCase().trim()`. */
  function Normalize(email: string): string
  {
    Text.Trim(Text.ToLower(email))
  }

  function NewParticipant(f: Form, stamp: Stamp): (p: Participant)
    requires Complete(f)
    ensures p.id == stamp.id && p.registeredAt == stamp.now && p.status == "active"
    ensures p.email == Normalize(f.email.value)
    ensures p.fullName == Text.Trim(f.fullName.value)
    ensures p.age == Numeric.Trunc(f.age.value)
    ensures p.grade == f.grade.value && p.category == f.category.value
    ensures p.school == OrDefault(f.school, "No especificado")
    ensures p.experience == OrDefault(f.experience, "No especificado")
    ensures p.motivation == OrDefault(f.motivation, "No especificado")
    ensures f.role.None? ==> p.role == "estudiante"
    ensures f.role.Some? ==> p.role == f.role.value
  {
    Participant(stamp.id, Text.Trim(f.fullName.value), Normalize(f.email.value),
                Numeric.Trunc(f.age.value), f.grade.value,
                OrDefault(f.school, "No especificado"), f.category.value,
                OrDefault(f.experience, "No especificado"),
                OrDefault(f.motivation, "No especificado"),
                f.role.GetOr("estudiante"), stamp.now, "active")
  }

  /** The statistics counter a registration role feeds: the singular role
      names map to the plural counters. */
  function CounterOf(role: string): (c: Option<string>)
    ensures c.Some? ==> c.value in RoleCounters
  {
    if role == "estudiante" then Some("estudiantes")
    else if role == "maestro" then Some("maestros")
    else if role == "padre" then Some("padres")
    else if role == "otros" then Some("otros")
    else None
  }

  /** The `site:statistics` rewrite: the total and the role's own counter go
      up by one; the other role counters and every other key keep their
      value. */
  function UpdateStatistics(stats: map<string, int>, role: string): (r: map<string, int>)
    ensures Get(r, TotalKey) == Get(stats, TotalKey) + 1
    ensures forall c :: c in RoleCounters ==>
      Get(r, c) == Get(stats, c) + (if CounterOf(role) == Some(c) then 1 else 0)
    ensures forall k :: k !in RoleCounters && k != TotalKey ==>
      (k in r <==> k in stats) && (k in stats ==> r[k] == stats[k])
  {
    var e := Get(stats, "estudiantes");
    var m := Get(stats, "maestros");
    var p := Get(stats, "padres");
    var o := Get(stats, "otros");
    stats[TotalKey := Get(stats, TotalKey) + 1]
         ["estudiantes" := if role == "estudiante" then e + 1 else e]
         ["maestros" := if role == "maestro" then m + 1 else m]
         ["padres" := if role == "padre" then p + 1 else p]
         ["otros" := if role == "otros" then o + 1 else o]
  }

  /** The four role counters together grow by one exactly when the role is
      one of the four registration roles. */
  lemma RoleCountersGrowTogether(stats: map<string, int>, role: string)
    ensures var r := UpdateStatistics(stats, role);
      Get(r, "estudiantes") + Get(r, "maestros") + Get(r, "padres") + Get(r, "otros")
      == Get(stats, "estudiantes") + Get(stats, "maestros") + Get(stats, "padres") + Get(stats, "otros")
         + (if CounterOf(role).Some? then 1 else 0)
  {
    var r := UpdateStatistics(stats, role);
    assert "estudiantes" in RoleCounters && "maestros" in RoleCounters;
    assert "padres" in RoleCounters && "otros" in RoleCounters;
  }

  // ---------------------------------------------------------------------------
  // The handler
  // ---------------------------------------------------------------------------

  /** The key the duplicate check reads and the record is written under. The
      handler as written uses the email exactly as sent; the corrected one
      uses the stored, normalised address. */
  datatype KeyPolicy = RawEmail | StoredEmail

  function KeyOf(policy: KeyPolicy, email: string): string
  {
    match policy
    case RawEmail => email
    case StoredEmail => Normalize(email)
  }

  /** Everything but the duplicate check passes. */
  predicate Acceptable(f: Form)
  {
    Complete(f) && MatchesEmailPattern(f.email.value)
    && 10.0 <= f.age.value <= 25.0
  }

  function Handle(policy: KeyPolicy, s: Store, req: Request, stamp: Stamp): (r: (Store, Response))
    ensures req.verb == "OPTIONS" ==> r == (s, Response(200, NoBody))
    ensures req.verb != "OPTIONS" && req.verb != "POST" ==>
      r == (s, Response(405, Problem("Método no permitido")))
    ensures req.verb == "POST" && !Complete(req.form) ==>
      r == (s, Response(400, Problem("Campos requeridos faltantes")))
    ensures req.verb == "POST" && Complete(req.form) && !MatchesEmailPattern(req.form.email.value) ==>
      r == (s, Response(400, Problem("Formato de email inválido")))
    ensures req.verb == "POST" && Complete(req.form) && MatchesEmailPattern(req.form.email.value)
            && !(10.0 <= req.form.age.value <= 25.0) ==>
      r == (s, Response(400, Problem("La edad debe estar entre 10 y 25 años")))
    ensures r.1.status == 409 <==>
      req.verb == "POST" && Acceptable(req.form) && KeyOf(policy, req.form.email.value) in s.byEmail
    ensures r.1.status == 201 <==>
      req.verb == "POST" && Acceptable(req.form) && KeyOf(policy, req.form.email.value) !in s.byEmail
    ensures r.1.status != 201 ==> r.0 == s
    ensures r.1.status == 201 ==>
      var p := NewParticipant(req.form, stamp);
      && r.0.participantIds == [stamp.id] + s.participantIds
      && r.0.byId == s.byId[stamp.id := p]
      && r.0.byEmail == s.byEmail[KeyOf(policy, req.form.email.value) := p]
      && r.0.statistics == UpdateStatistics(s.statistics, p.role)
      && Get(r.0.registrationsDaily, stamp.today) == Get(s.registrationsDaily, stamp.today) + 1
      && r.1 == Response(201, Registered(stamp.id, p.fullName, p.category, stamp.now))
  {
    var f := req.form;
    if req.verb == "OPTIONS" then (s, Response(200, NoBody))
    else if req.verb != "POST" then (s, Response(405, Problem("Método no permitido")))
    else if !Complete(f) then (s, Response(400, Problem("Campos requeridos faltantes")))
    else
      CheckEmailMatchesPattern(f.email.value);
      if !CheckEmail(f.email.value) then (s, Response(400, Problem("Formato de email inválido")))
      else if f.age.value < 10.0 || f.age.value > 25.0 then
        (s, Response(400, Problem("La edad debe estar entre 10 y 25 años")))
      else
        var key := KeyOf(policy, f.email.value);
        if key in s.byEmail then (s, Response(409, Problem("El correo electrónico ya está registrado")))
        else
          var p := NewParticipant(f, stamp);
          var s' := s.(byEmail := s.byEmail[key := p],
                       participantIds := [p.id] + s.participantIds,
                       byId := s.byId[p.id := p],
                       statistics := UpdateStatistics(s.statistics, p.role),
                       registrationsDaily := Bump(s.registrationsDaily, stamp.today));
          (s', Response(201, Registered(p.id, p.fullName, p.category, p.registeredAt)))
  }

  // ---------------------------------------------------------------------------
  // Properties of the handler
  // ---------------------------------------------------------------------------

  /** Every registration adds one id and one to the total, under either key
      policy, so the two participant counts the site reports stay equal. */
  lemma RegisterKeepsTotal(policy: KeyPolicy, s: Store, req: Request, stamp: Stamp)
    requires TotalMatchesList(s)
    ensures TotalMatchesList(Handle(policy, s, req, stamp).0)
  {
  }

  /** Re-sending an address that is already stored, character for character,
      is refused with 409 and changes nothing. */
  lemma SameEmailRejected(policy: KeyPolicy, s: Store, req: Request, stamp: Stamp)
    requires req.verb == "POST" && Acceptable(req.form)
    requires KeyOf(policy, req.form.email.value) in s.byEmail
    ensures Handle(policy, s, req, stamp) == (s, Response(409, Problem("El correo electrónico ya está registrado")))
  {
  }

  /** Every record stored by email sits under its own stored address. */
  predicate KeyedByAddress(s: Store)
  {
    forall k :: k in s.byEmail ==> s.byEmail[k].email == k
  }

  /** With the normalised key, registering keeps every record under its own
      address. */
  lemma RegisterKeepsKeyed(s: Store, req: Request, stamp: Stamp)
    requires KeyedByAddress(s)
    ensures KeyedByAddress(Handle(StoredEmail, s, req, stamp).0)
  {
  }

  /** With the normalised key, once an address is registered no spelling of
      it that differs only in case or surrounding blanks is accepted again:
      a request that passes validation gets 409 and nothing else gets 201. */
  lemma NoSecondAccount(s: Store, first: Request, second: Request, one: Stamp, two: Stamp)
    requires Handle(StoredEmail, s, first, one).1.status == 201
    requires Complete(second.form) && Normalize(second.form.email.value) == Normalize(first.form.email.value)
    ensures Handle(StoredEmail, Handle(StoredEmail, s, first, one).0, second, two).1.status != 201
    ensures second.verb == "POST" && Acceptable(second.form) ==>
      Handle(StoredEmail, Handle(StoredEmail, s, first, one).0, second, two).1.status == 409
  {
  }

  /** With the key as sent, two spellings of one mailbox are both accepted:
      both requests get 201, the store then holds two records with the same
      address under different keys, and one of them is not under its own
      address. */
  lemma RawKeyAdmitsCaseVariant(s: Store, f1: Form, f2: Form, one: Stamp, two: Stamp)
    requires Acceptable(f1) && Acceptable(f2)
    requires f1.email.value != f2.email.value
    requires Normalize(f1.email.value) == Normalize(f2.email.value)
    requires f1.email.value !in s.byEmail && f2.email.value !in s.byEmail
    ensures var r1 := Handle(RawEmail, s, Request("POST", f1), one);
            var r2 := Handle(RawEmail, r1.0, Request("POST", f2), two);
            && r1.1.status == 201 && r2.1.status == 201
            && r2.0.byEmail[f1.email.value].email == r2.0.byEmail[f2.email.value].email
            && !KeyedByAddress(r2.0)
  {
    var a, b := f1.email.value, f2.email.value;
    var r1 := Handle(RawEmail, s, Request("POST", f1), one);
    var r2 := Handle(RawEmail, r1.0, Request("POST", f2), two);
    assert r2.0.byEmail[a].email == Normalize(a);
    assert r2.0.byEmail[b].email == Normalize(b);
  }

  /** Three non-empty plain runs joined by `@` and a dot pass the pattern. */
  lemma PatternFromParts(s: string, user: string, host: string, tld: string)
    requires s == user + "@" + host + "." + tld
    requires user != [] && host != [] && tld != []
    requires AllPlain(user) && AllPlain(host) && AllPlain(tld)
    ensures MatchesEmailPattern(s)
  {
    var i := |user|;
    var j := |user| + 1 + |host|;
    assert s == (user + "@") + (host + ".") + tld;
    assert s[..i] == user;
    assert s[i + 1..j] == host;
    assert s[j + 1..] == tld;
    assert s[i] == '@' && s[j] == '.';
  }

  /** Characters from `A` to `z` (letters among them) are neither
      whitespace nor `@`. */
  lemma LettersArePlain(s: string)
    requires forall k :: 0 <= k < |s| ==> 'A' <= s[k] <= 'z'
    ensures AllPlain(s)
  {
  }

  /** "Ana@mail.com" passes the pattern. */
  lemma CapitalisedAddressMatches()
    ensures MatchesEmailPattern("Ana@mail.com")
  {
    LettersArePlain("Ana");
    LettersArePlain("mail");
    LettersArePlain("com");
    PatternFromParts("Ana@mail.com", "Ana", "mail", "com");
  }

  /** "ana@mail.com" passes the pattern. */
  lemma LowerCaseAddressMatches()
    ensures MatchesEmailPattern("ana@mail.com")
  {
    LettersArePlain("ana");
    LettersArePlain("mail");
    LettersArePlain("com");
    PatternFromParts("ana@mail.com", "ana", "mail", "com");
  }

  /** Two spellings of one mailbox: different keys, one stored address. */
  lemma CaseVariantAddresses()
    ensures "Ana@mail.com" != "ana@mail.com"
    ensures Normalize("Ana@mail.com") == Normalize("ana@mail.com")
  {
    var upper := "Ana@mail.com";
    var lower := "ana@mail.com";
    assert upper[0] != lower[0];
    assert upper[1..] == lower[1..];
    SameAfterLowering(upper, lower);
  }

  /** Strings that differ only in a first letter lowering to the same
      character lower to the same string. */
  lemma SameAfterLowering(x: string, y: string)
    requires |x| > 0 && |y| > 0 && x[1..] == y[1..]
    requires Text.LowerChar(x[0]) == Text.LowerChar(y[0])
    ensures Text.ToLower(x) == Text.ToLower(y)
  {
  }
}

=== FILE: robot.dfy ===
/** The programmable 3D robot: its tracked grid position and rotation, the
    command counter, the busy flag that makes every animated command
    refuse to start while another runs, the movement trail, the wrappers
    that hand moves to the physics module when it is on, and the command
    interpreter with its queue that stops at the first error.

    Every animated command is one atomic step: the state it leaves is the
    state at the end of its animation. The exception is `reset`, whose
    promise settles before its animation ends: it leaves the robot busy, and
    the end of the animation is a step of its own. */
module Robot {
  import opened Wrappers
  import Numeric
  import RobotPhysics
  import Seqs

  type Vec3 = RobotPhysics.Vec3
  type Tracked = RobotPhysics.Tracked
  type Physics = RobotPhysics.Physics

  /** Half the side of the square work area, for moves and for the
      physics boundary. */
  const Limit := 15.0

  /** The longest trail kept. */
  const TrailLength := 50

  datatype Robot = Robot(
    body: Vec3,                // the 3D model's position
    tracked: Tracked,          // the integer grid position shown to the student
    rotation: real,            // the tracked heading, in degrees
    commandCount: nat,
    isAnimating: bool,
    resetting: bool,           // a reset animation is still running
    trail: seq<Vec3>,
    physicsEnabled: bool,
    physics: Option<Physics>)  // None when the physics module is not loaded

  /** A fresh robot at the origin; the physics module exists only when the
      page loaded it. */
  function Initial(physicsLoaded: bool): (r: Robot)
    ensures Consistent(r) && !r.isAnimating && r.commandCount == 0
    ensures r.physics.Some? <==> physicsLoaded
  {
    Robot(RobotPhysics.Zero, RobotPhysics.Tracked(0, 0), 0.0, 0, false, false, [], false,
          if physicsLoaded then Some(RobotPhysics.Initial) else None)
  }

  predicate InArea(v: Vec3)
  {
    -Limit <= v.x <= Limit && -Limit <= v.z <= Limit
  }

  predicate OnGrid(t: Tracked)
  {
    -15 <= t.x <= 15 && -15 <= t.z <= 15
  }

  /** The physics module agrees with the robot's flag, keeps its parameters
      in range and its boundary at the work area's edge. */
  predicate PhysicsInSync(r: Robot)
  {
    match r.physics
    case None => !r.physicsEnabled
    case Some(p) => RobotPhysics.Valid(p) && p.enabled == r.physicsEnabled && p.boundarySize == Limit
  }

  /** What every command keeps: heading in [0,360), the trail at most 50
      points, body and grid position inside the work area, physics in sync. */
  predicate Consistent(r: Robot)
  {
    0.0 <= r.rotation < 360.0 && |r.trail| <= TrailLength
    && (r.resetting ==> r.isAnimating)
    && InArea(r.body) && OnGrid(r.tracked) && PhysicsInSync(r)
  }

  /** Rounding a coordinate inside the area gives a grid cell inside it. */
  lemma TrackInArea(v: Vec3)
    requires InArea(v)
    ensures OnGrid(RobotPhysics.TrackPosition(v))
  {
  }

  // ---------------------------------------------------------------------------
  // Animated commands
  // ---------------------------------------------------------------------------

  /** Whether a move to `target` leaves the work area. */
  predicate OutOfArea(target: Vec3)
  {
    Numeric.Abs(target.x) > Limit || Numeric.Abs(target.z) > Limit
  }

  /** `animateMovement(dx, dy, dz)`: counted even when the boundary refuses
      it; an accepted move puts the robot on the target and the grid
      position on its rounding. */
  function AnimateMovement(r: Robot, delta: Vec3): (m: Robot)
    ensures r.isAnimating ==> m == r
    ensures !r.isAnimating ==> m.commandCount == r.commandCount + 1 && !m.isAnimating
    ensures !r.isAnimating && OutOfArea(RobotPhysics.Add(r.body, delta)) ==>
      m == r.(commandCount := r.commandCount + 1)
    ensures !r.isAnimating && !OutOfArea(RobotPhysics.Add(r.body, delta)) ==>
      m == r.(commandCount := m.commandCount, body := m.body, tracked := m.tracked)
      && m.body == RobotPhysics.Add(r.body, delta) && InArea(m.body)
      && m.tracked == RobotPhysics.TrackPosition(m.body)
    ensures Consistent(r) ==> Consistent(m)
  {
    if r.isAnimating then r
    else
      var target := RobotPhysics.Add(r.body, delta);
      var counted := r.(commandCount := r.commandCount + 1);
      if OutOfArea(target) then counted
      else counted.(body := target, tracked := RobotPhysics.TrackPosition(target))
  }

  /** `animateRotation(degrees)`: counted, and the heading becomes
      `(rotation + degrees) mod 360`. */
  function AnimateRotation(r: Robot, degrees: real): (m: Robot)
    ensures r.isAnimating ==> m == r
    ensures !r.isAnimating ==> m == r.(commandCount := r.commandCount + 1, rotation := m.rotation)
    ensures !r.isAnimating ==>
      0.0 <= m.rotation < 360.0 && exists k: int :: r.rotation + degrees - m.rotation == Numeric.Turns(k)
    ensures Consistent(r) ==> Consistent(m)
  {
    if r.isAnimating then r
    else r.(commandCount := r.commandCount + 1, rotation := RobotPhysics.WrapRotation(r.rotation + degrees))
  }

  /** `performDance`: counted once. The turns inside the dance go through
      `animateRotation` while the dance itself holds the busy flag, so they
      are refused and the heading does not change. */
  function Dance(r: Robot): (m: Robot)
    ensures r.isAnimating ==> m == r
    ensures !r.isAnimating ==> m == r.(commandCount := r.commandCount + 1)
  {
    if r.isAnimating then r
    else
      var busy := r.(isAnimating := true, commandCount := r.commandCount + 1);
      var turned := AnimateRotation(AnimateRotation(AnimateRotation(busy, 90.0), 180.0), 360.0);
      turned.(isAnimating := false)
  }

  /** `performWave`: counted once, nothing else changes. */
  function Wave(r: Robot): (m: Robot)
    ensures r.isAnimating ==> m == r
    ensures !r.isAnimating ==> m.commandCount == r.commandCount + 1 && m == r.(commandCount := m.commandCount)
  {
    if r.isAnimating then r else r.(commandCount := r.commandCount + 1)
  }

  /** `reset` as its caller sees it: a busy robot ignores it; otherwise the
      robot turns busy and its two-second return animation starts. The
      promise settles after the teleport effect, before that animation ends,
      so the pose is still the old one. Not counted. */
  function Reset(r: Robot): (m: Robot)
    ensures r.isAnimating ==> m == r
    ensures !r.isAnimating ==> m.isAnimating && m.resetting && m == r.(isAnimating := true, resetting := true)
    ensures m.body == r.body && m.tracked == r.tracked && m.rotation == r.rotation && m.commandCount == r.commandCount
    ensures Consistent(r) ==> Consistent(m)
  {
    if r.isAnimating then r
    else r.(isAnimating := true, resetting := true)
  }

  /** The last frame of the reset animation: back at the origin facing 0,
      and free for the next command. Without a running reset nothing
      happens. */
  function FinishReset(r: Robot): (m: Robot)
    ensures !r.resetting ==> m == r
    ensures r.resetting ==>
      && m.tracked == RobotPhysics.Tracked(0, 0) && m.rotation == 0.0 && m.body == RobotPhysics.Zero
      && !m.isAnimating && !m.resetting
      && m == r.(body := m.body, tracked := m.tracked, rotation := m.rotation, isAnimating := false, resetting := false)
    ensures Consistent(r) ==> Consistent(m)
  {
    if !r.resetting then r
    else r.(body := RobotPhysics.Zero, tracked := RobotPhysics.Tracked(0, 0), rotation := 0.0,
            isAnimating := false, resetting := false)
  }

  /** A reset followed by the end of its animation puts a free robot back at
      the origin facing 0 and changes nothing else. */
  lemma ResetThenFinish(r: Robot)
    requires Consistent(r) && !r.isAnimating
    ensures FinishReset(Reset(r)) == r.(body := RobotPhysics.Zero, tracked := RobotPhysics.Tracked(0, 0), rotation := 0.0)
  {
  }

  // ---------------------------------------------------------------------------
  // Move and rotate wrappers
  // ---------------------------------------------------------------------------

  /** Whether moves forward and backward and turns go to the physics module. */
  predicate UsesPhysics(r: Robot)
  {
    r.physics.Some? && r.physicsEnabled
  }

  predicate PhysicsValid(r: Robot)
  {
    r.physics.Some? ==> RobotPhysics.Valid(r.physics.value)
  }

  /** A push along the robot's facing direction `forward`: only the
      velocity changes, and nothing is counted. */
  function PhysicsPush(r: Robot, distance: real, forward: Vec3): (m: Robot)
    requires UsesPhysics(r) && PhysicsValid(r)
    ensures m == r.(physics := m.physics) && m.physics.Some?
    ensures m.physics.value == r.physics.value.(velocity := m.physics.value.velocity)
    ensures Consistent(r) ==> Consistent(m)
  {
    r.(physics := Some(RobotPhysics.MoveForward(r.physics.value, distance, forward).0))
  }

  /** `moveForward(d)`. */
  function MoveForward(r: Robot, distance: real, forward: Vec3): (m: Robot)
    requires PhysicsValid(r)
    ensures !UsesPhysics(r) ==> m == AnimateMovement(r, RobotPhysics.Vec3(0.0, 0.0, distance))
    ensures UsesPhysics(r) ==> m == PhysicsPush(r, distance, forward)
    ensures Consistent(r) ==> Consistent(m)
  {
    if UsesPhysics(r) then PhysicsPush(r, distance, forward)
    else AnimateMovement(r, RobotPhysics.Vec3(0.0, 0.0, distance))
  }

  /** `moveBackward(d)`. */
  function MoveBackward(r: Robot, distance: real, forward: Vec3): (m: Robot)
    requires PhysicsValid(r)
    ensures !UsesPhysics(r) ==> m == AnimateMovement(r, RobotPhysics.Vec3(0.0, 0.0, -distance))
    ensures UsesPhysics(r) ==> m == PhysicsPush(r, -distance, forward)
    ensures Consistent(r) ==> Consistent(m)
  {
    MoveForward(r, -distance, forward)
  }

  /** `moveLeft(d)`: always animated, even with physics on. */
  function MoveLeft(r: Robot, distance: real): (m: Robot)
    ensures m == AnimateMovement(r, RobotPhysics.Vec3(-distance, 0.0, 0.0))
  {
    AnimateMovement(r, RobotPhysics.Vec3(-distance, 0.0, 0.0))
  }

  /** `moveRight(d)`: always animated, even with physics on. */
  function MoveRight(r: Robot, distance: real): (m: Robot)
    ensures m == AnimateMovement(r, RobotPhysics.Vec3(distance, 0.0, 0.0))
  {
    AnimateMovement(r, RobotPhysics.Vec3(distance, 0.0, 0.0))
  }

  /** A turn through the physics module: immediate, not counted, and not
      stopped by the busy flag; refused when the module itself is off. */
  function PhysicsTurn(r: Robot, degrees: real): (m: Robot)
    requires UsesPhysics(r)
    ensures m == r.(rotation := m.rotation)
    ensures !r.physics.value.enabled ==> m == r
    ensures r.physics.value.enabled ==>
      0.0 <= m.rotation < 360.0 && exists k: int :: r.rotation + degrees - m.rotation == Numeric.Turns(k)
  {
    match RobotPhysics.RotatePhysics(r.physics.value, r.rotation, degrees)
    case None => r
    case Some(heading) => r.(rotation := heading)
  }

  /** `rotateRight(deg)`. */
  function RotateRight(r: Robot, degrees: real): (m: Robot)
    ensures UsesPhysics(r) ==> m == PhysicsTurn(r, degrees)
    ensures !UsesPhysics(r) ==> m == AnimateRotation(r, degrees)
    ensures Consistent(r) ==> Consistent(m)
  {
    if UsesPhysics(r) then PhysicsTurn(r, degrees) else AnimateRotation(r, degrees)
  }

  /** `rotateLeft(deg)`. */
  function RotateLeft(r: Robot, degrees: real): (m: Robot)
    ensures m == RotateRight(r, -degrees)
  {
    if UsesPhysics(r) then PhysicsTurn(r, -degrees) else AnimateRotation(r, -degrees)
  }

  // ---------------------------------------------------------------------------
  // Physics wrappers
  // ---------------------------------------------------------------------------

  /** `enablePhysics`: only when the module is loaded. */
  function EnablePhysics(r: Robot): (m: Robot)
    ensures r.physics.None? ==> m == r
    ensures r.physics.Some? ==> UsesPhysics(m) && m.physics.value.enabled
    ensures Consistent(r) ==> Consistent(m)
  {
    match r.physics
    case None => r
    case Some(p) => r.(physics := Some(RobotPhysics.Enable(p)), physicsEnabled := true)
  }

  /** `disablePhysics`: the module stops the robot and sets it on the
      ground. */
  function DisablePhysics(r: Robot): (m: Robot)
    ensures r.physics.None? ==> m == r
    ensures r.physics.Some? ==> m.physics.Some? && !UsesPhysics(m) && !m.physics.value.enabled
    ensures m.body.x == r.body.x && m.body.z == r.body.z
    ensures Consistent(r) ==> Consistent(m)
  {
    match r.physics
    case None => r
    case Some(p) =>
      var (q, position) := RobotPhysics.Disable(p, r.body);
      r.(physics := Some(q), physicsEnabled := false, body := position)
  }

  function Jump(r: Robot, force: real): (m: Robot)
    ensures r.physics.None? ==> m == r
    ensures r.physics.Some? ==> m == r.(physics := Some(RobotPhysics.Jump(r.physics.value, force).0))
    ensures Consistent(r) ==> Consistent(m)
  {
    match r.physics
    case None => r
    case Some(p) => r.(physics := Some(RobotPhysics.Jump(p, force).0))
  }

  function SetGravity(r: Robot, g: real): (m: Robot)
    ensures r.physics.None? ==> m == r
    ensures r.physics.Some? ==> m.physics.Some? && m.physics.value.gravity == g
    ensures Consistent(r) ==> Consistent(m)
  {
    match r.physics
    case None => r
    case Some(p) => r.(physics := Some(RobotPhysics.SetGravity(p, g)))
  }

  /** `addObstacle(type, position)` with default size and material; `id` is
      the random identifier it draws. */
  function AddObstacle(r: Robot, id: string, kind: string, position: Vec3): (m: Robot)
    ensures r.physics.None? ==> m == r
    ensures r.physics.Some? ==>
      m.physics.Some? && |m.physics.value.obstacles| == |r.physics.value.obstacles| + 1
      && m.physics.value.obstacles[..|r.physics.value.obstacles|] == r.physics.value.obstacles
    ensures Consistent(r) ==> Consistent(m)
  {
    match r.physics
    case None => r
    case Some(p) => r.(physics := Some(RobotPhysics.AddObstacle(p, id, kind, position, None, None)))
  }

  // ---------------------------------------------------------------------------
  // Frames
  // ---------------------------------------------------------------------------

  /** `updateRobotTrail`: append the current position, dropping the oldest
      point beyond 50. */
  function UpdateTrail(trail: seq<Vec3>, point: Vec3): (t: seq<Vec3>)
    requires |trail| <= TrailLength
    ensures |trail| < TrailLength ==> |t| == |trail| + 1
    ensures |trail| == TrailLength ==> |t| == TrailLength
    ensures t[|t| - 1] == point
    ensures t == (trail + [point])[|trail| + 1 - |t|..]
  {
    var longer := trail + [point];
    if |longer| > TrailLength then longer[1..] else longer
  }

  /** One animation frame's trail update. */
  function TrailFrame(r: Robot): (m: Robot)
    requires |r.trail| <= TrailLength
    ensures m == r.(trail := UpdateTrail(r.trail, r.body))
    ensures Consistent(r) ==> Consistent(m)
  {
    r.(trail := UpdateTrail(r.trail, r.body))
  }

  /** One frame of the physics loop; `groundFactor` and `airFactor` are the
      frame's friction factors. */
  function PhysicsFrame(r: Robot, dt: real, groundFactor: real, airFactor: real): (m: Robot)
    ensures r.physics.None? ==> m == r
    ensures r.physics.Some? ==> m.commandCount == r.commandCount && m.rotation == r.rotation
    ensures Consistent(r) ==> Consistent(m)
  {
    match r.physics
    case None => r
    case Some(p) =>
      var (q, position, tracked) := RobotPhysics.Update(p, r.body, r.tracked, dt, groundFactor, airFactor);
      r.(physics := Some(q), body := position, tracked := tracked)
  }

  // ---------------------------------------------------------------------------
  // Command interpreter
  // ---------------------------------------------------------------------------

  /** A command of a student's program. `distance` is absent when the block
      gave none; an empty `obstacleType` is a missing one. */
  datatype Command =
    | Move(direction: string, distance: Option<real>)
    | Rotate(angle: real)
    | Action(action: string)
    | Effect(effect: string, value: Option<real>, obstacleType: string, position: Option<Vec3>)
    | Environment
    | Wait
    | Unknown(kind: string)

  /** What a command draws from the page besides the robot: the facing
      direction for a physics push and the random identifier of a new
      obstacle. */
  datatype Context = Context(forward: Vec3, obstacleId: string)

  /** `distance || 1`: a missing or zero distance means one step. */
  function StepDistance(distance: Option<real>): (d: real)
    ensures d != 0.0
    ensures distance.Some? && distance.value != 0.0 ==> d == distance.value
    ensures distance.None? || distance.value == 0.0 ==> d == 1.0
  {
    match distance
    case Some(v) => if v != 0.0 then v else 1.0
    case None => 1.0
  }

  /** A `move` command: the four directions, anything else throws. */
  function ExecuteMove(r: Robot, direction: string, distance: Option<real>, ctx: Context): (res: Result<Robot, string>)
    requires PhysicsValid(r)
    ensures res.Err? <==> direction !in {"forward", "backward", "left", "right"}
    ensures res.Ok? ==> PhysicsValid(res.value)
    ensures res.Ok? && Consistent(r) ==> Consistent(res.value)
  {
    var d := StepDistance(distance);
    if direction == "forward" then Ok(MoveForward(r, d, ctx.forward))
    else if direction == "backward" then Ok(MoveBackward(r, d, ctx.forward))
    else if direction == "left" then Ok(MoveLeft(r, d))
    else if direction == "right" then Ok(MoveRight(r, d))
    else Err("Dirección de movimiento desconocida: " + direction)
  }

  /** An `action` command: the four actions, anything else throws. */
  function ExecuteAction(r: Robot, action: string): (res: Result<Robot, string>)
    requires PhysicsValid(r)
    ensures res.Err? <==> action !in {"dance", "wave", "reset", "stop"}
    ensures res.Ok? ==> PhysicsValid(res.value)
    ensures res.Ok? && Consistent(r) ==> Consistent(res.value)
  {
    if action == "dance" then Ok(Dance(r))
    else if action == "wave" then Ok(Wave(r))
    else if action == "reset" then Ok(Reset(r))
    else if action == "stop" then Ok(r)
    else Err("Acción desconocida: " + action)
  }

  /** An `effect` command: unknown effects and ones missing their argument
      leave the robot as it is. */
  function ExecuteEffect(r: Robot, effect: string, value: Option<real>, obstacleType: string,
                         position: Option<Vec3>, ctx: Context): (next: Robot)
    requires PhysicsValid(r)
    ensures PhysicsValid(next)
    ensures Consistent(r) ==> Consistent(next)
    ensures effect !in {"enablePhysics", "disablePhysics", "jump", "gravity", "addObstacle"} ==> next == r
  {
    if effect == "enablePhysics" then EnablePhysics(r)
    else if effect == "disablePhysics" then DisablePhysics(r)
    else if effect == "jump" then Jump(r, 50.0)
    else if effect == "gravity" && value.Some? then SetGravity(r, value.value)
    else if effect == "addObstacle" && obstacleType != "" && position.Some? then
      AddObstacle(r, ctx.obstacleId, obstacleType, position.value)
    else r
  }

  /** `executeCommand`: the robot after the command, or the message it
      throws. */
  function Execute(r: Robot, c: Command, ctx: Context): (res: Result<Robot, string>)
    requires PhysicsValid(r)
    ensures res.Err? <==>
      (c.Move? && c.direction !in {"forward", "backward", "left", "right"})
      || (c.Action? && c.action !in {"dance", "wave", "reset", "stop"})
      || c.Unknown?
    ensures res.Ok? ==> PhysicsValid(res.value)
    ensures res.Ok? && Consistent(r) ==> Consistent(res.value)
  {
    match c
    case Move(direction, distance) => ExecuteMove(r, direction, distance, ctx)
    case Rotate(angle) =>
      if angle > 0.0 then Ok(RotateRight(r, angle)) else Ok(RotateLeft(r, Numeric.Abs(angle)))
    case Action(action) => ExecuteAction(r, action)
    case Effect(effect, value, obstacleType, position) =>
      Ok(ExecuteEffect(r, effect, value, obstacleType, position, ctx))
    case Environment => Ok(r)
    case Wait => Ok(r)
    case Unknown(kind) => Err("Tipo de comando desconocido: " + kind)
  }

  /** How a queued program ended: the robot, how many commands completed,
      and the error that stopped it, if any. */
  datatype QueueOutcome = QueueOutcome(robot: Robot, completed: nat, error: Option<string>)

  /** `executeCommandQueue`: runs the commands in order and stops at the
      first one that throws. */
  function ExecuteQueue(r: Robot, program: seq<(Command, Context)>): (o: QueueOutcome)
    requires PhysicsValid(r)
    ensures o.completed <= |program|
    ensures o.error.None? <==> o.completed == |program|
    ensures PhysicsValid(o.robot)
    ensures o.error.Some? ==>
      Execute(o.robot, program[o.completed].0, program[o.completed].1) == Err(o.error.value)
    ensures Consistent(r) ==> Consistent(o.robot)
    decreases |program|
  {
    if program == [] then QueueOutcome(r, 0, None)
    else
      match Execute(r, program[0].0, program[0].1)
      case Err(e) => QueueOutcome(r, 0, Some(e))
      case Ok(next) =>
        var rest := ExecuteQueue(next, program[1..]);
        QueueOutcome(rest.robot, rest.completed + 1, rest.error)
  }

  /** Nothing after a failing command runs: appending more commands to a
      program that stops with an error changes nothing. */
  lemma {:induction false} QueueIgnoresAfterError(r: Robot, program: seq<(Command, Context)>, more: seq<(Command, Context)>)
    requires PhysicsValid(r) && ExecuteQueue(r, program).error.Some?
    ensures ExecuteQueue(r, program + more) == ExecuteQueue(r, program)
    decreases |program|
  {
    assert program != [];
    assert (program + more)[0] == program[0];
    match Execute(r, program[0].0, program[0].1)
    case Err(_) =>
    case Ok(next) =>
      assert (program + more)[1..] == program[1..] + more;
      QueueIgnoresAfterError(next, program[1..], more);
  }

  /** A program that completes hands its final robot to whatever follows. */
  lemma {:induction false} QueueAppend(r: Robot, program: seq<(Command, Context)>, more: seq<(Command, Context)>)
    requires PhysicsValid(r) && ExecuteQueue(r, program).error.None?
    ensures var first := ExecuteQueue(r, program);
      var rest := ExecuteQueue(first.robot, more);
      ExecuteQueue(r, program + more) == QueueOutcome(rest.robot, |program| + rest.completed, rest.error)
    decreases |program|
  {
    if program == [] {
      assert program + more == more;
    } else {
      assert (program + more)[0] == program[0];
      match Execute(r, program[0].0, program[0].1)
      case Err(_) =>
      case Ok(next) =>
        assert (program + more)[1..] == program[1..] + more;
        QueueAppend(next, program[1..], more);
    }
  }

  // ---------------------------------------------------------------------------
  // Properties
  // ---------------------------------------------------------------------------

  /** While an animation runs, the animated commands change nothing. */
  lemma BusyRobotIgnoresAnimatedCommands(r: Robot, d: real, degrees: real, forward: Vec3)
    requires r.isAnimating && PhysicsValid(r)
    ensures MoveLeft(r, d) == r && MoveRight(r, d) == r
    ensures !UsesPhysics(r) ==> MoveForward(r, d, forward) == r && MoveBackward(r, d, forward) == r
    ensures !UsesPhysics(r) ==> RotateRight(r, degrees) == r && RotateLeft(r, degrees) == r
    ensures Dance(r) == r && Wave(r) == r && Reset(r) == r
  {
  }

  /** In a program, a move right after a reset is refused: the reset
      animation still holds the busy flag, so the robot neither moves nor
      counts the move, and it is not yet back at the origin. */
  lemma MoveAfterResetRefused(r: Robot, distance: Option<real>, c1: Context, c2: Context)
    requires PhysicsValid(r) && !r.isAnimating && !UsesPhysics(r)
    ensures ExecuteQueue(r, [(Action("reset"), c1), (Move("forward", distance), c2)])
            == QueueOutcome(r.(isAnimating := true, resetting := true), 2, None)
  {
    var program := [(Action("reset"), c1), (Move("forward", distance), c2)];
    var busy := r.(isAnimating := true, resetting := true);
    assert Execute(r, program[0].0, program[0].1) == Ok(busy);
    assert Execute(busy, program[1].0, program[1].1) == Ok(busy);
    assert program[1..] == [program[1]];
    assert program[1..][1..] == [];
    assert ExecuteQueue(busy, program[1..]) == QueueOutcome(busy, 1, None) by {
      assert ExecuteQueue(busy, program[1..][1..]) == QueueOutcome(busy, 0, None);
    }
  }

  /** With physics off, each direction moves along its own axis by the step
      distance, one unit when none is given. */
  lemma DirectionsWithoutPhysics(r: Robot, distance: Option<real>, ctx: Context)
    requires PhysicsValid(r) && !UsesPhysics(r)
    ensures var d := StepDistance(distance);
      && Execute(r, Move("forward", distance), ctx) == Ok(AnimateMovement(r, RobotPhysics.Vec3(0.0, 0.0, d)))
      && Execute(r, Move("backward", distance), ctx) == Ok(AnimateMovement(r, RobotPhysics.Vec3(0.0, 0.0, -d)))
      && Execute(r, Move("left", distance), ctx) == Ok(AnimateMovement(r, RobotPhysics.Vec3(-d, 0.0, 0.0)))
      && Execute(r, Move("right", distance), ctx) == Ok(AnimateMovement(r, RobotPhysics.Vec3(d, 0.0, 0.0)))
  {
  }

  /** A positive angle turns right by it, any other turns left by its size;
      either way the heading moves by exactly the angle, modulo 360. */
  lemma RotateByAngle(r: Robot, angle: real, ctx: Context)
    requires PhysicsValid(r) && !r.isAnimating && !UsesPhysics(r)
    ensures Execute(r, Rotate(angle), ctx).Ok?
    ensures var m := Execute(r, Rotate(angle), ctx).value;
      m.commandCount == r.commandCount + 1 && 0.0 <= m.rotation < 360.0
      && exists k: int :: r.rotation + angle - m.rotation == Numeric.Turns(k)
  {
    if angle <= 0.0 {
      assert -Numeric.Abs(angle) == angle;
    }
  }

  /** A move that would leave the area is counted but leaves the robot
      where it was. */
  lemma RefusedMoveStays(r: Robot, direction: string, distance: Option<real>, ctx: Context)
    requires PhysicsValid(r) && !r.isAnimating && !UsesPhysics(r)
    requires direction in {"forward", "backward", "left", "right"}
    requires var d := StepDistance(distance);
      OutOfArea(RobotPhysics.Add(r.body, if direction == "forward" then RobotPhysics.Vec3(0.0, 0.0, d)
                                         else if direction == "backward" then RobotPhysics.Vec3(0.0, 0.0, -d)
                                         else if direction == "left" then RobotPhysics.Vec3(-d, 0.0, 0.0)
                                         else RobotPhysics.Vec3(d, 0.0, 0.0)))
    ensures Execute(r, Move(direction, distance), ctx) == Ok(r.(commandCount := r.commandCount + 1))
  {
  }

  /** The trail never holds more than 50 points, however many frames pass. */
  lemma {:induction false} TrailStaysBounded(trail: seq<Vec3>, points: seq<Vec3>)
    requires |trail| <= TrailLength
    ensures |Trail(trail, points)| <= TrailLength
    ensures |trail| + |points| <= TrailLength ==> Trail(trail, points) == trail + points
    decreases |points|
  {
    if points != [] {
      TrailStaysBounded(UpdateTrail(trail, points[0]), points[1..]);
      if |trail| + |points| <= TrailLength {
        assert UpdateTrail(trail, points[0]) == trail + [points[0]];
        assert points == [points[0]] + points[1..];
        Seqs.ConcatAssoc(trail, [points[0]], points[1..]);
      }
    }
  }

  /** The trail after a run of frames at the given positions. */
  function Trail(trail: seq<Vec3>, points: seq<Vec3>): seq<Vec3>
    requires |trail| <= TrailLength
    decreases |points|
  {
    if points == [] then trail else Trail(UpdateTrail(trail, points[0]), points[1..])
  }
}

=== FILE: robot_physics.dfy ===
/** The robot's optional physics module: enabling and disabling, gravity,
    landing, the square boundary with its half-speed bounce, jumps and
    forces, friction, the tunable parameters, the obstacle list, and the
    rotation bookkeeping it shares with the robot. */
module RobotPhysics {
  import opened Wrappers
  import Numeric

  datatype Vec3 = Vec3(x: real, y: real, z: real)

  const Zero := Vec3(0.0, 0.0, 0.0)

  function Add(a: Vec3, b: Vec3): Vec3 { Vec3(a.x + b.x, a.y + b.y, a.z + b.z) }

  function Scale(a: Vec3, k: real): Vec3 { Vec3(a.x * k, a.y * k, a.z * k) }

  datatype Obstacle = Obstacle(id: string, kind: string, position: Vec3, size: Vec3, material: string)

  /** The physics state; the robot's position lives with the robot and is
      passed in and out of the operations that move it. */
  datatype Physics = Physics(
    enabled: bool,
    gravity: real,
    friction: real,
    mass: real,
    velocity: Vec3,
    isGrounded: bool,
    groundY: real,
    obstacles: seq<Obstacle>,
    boundarySize: real)

  const Initial := Physics(false, -9.81, 0.8, 1.0, Zero, true, 0.0, [], 15.0)

  /** What the setters keep: friction in [0,1] and mass at least 0.1. */
  predicate Valid(p: Physics)
  {
    0.0 <= p.friction <= 1.0 && p.mass >= 0.1
  }

  // ---------------------------------------------------------------------------
  // Rotation bookkeeping
  // ---------------------------------------------------------------------------

  /** `(r + degrees) % 360`, plus 360 when negative: the tracked rotation. */
  function WrapRotation(a: real): (r: real)
    ensures 0.0 <= r < 360.0
    ensures exists k: int :: a - r == Numeric.Turns(k)
    ensures 0.0 <= a < 360.0 ==> r == a
  {
    var m := Numeric.JsRem360(a);
    var k := Numeric.Trunc(a / 360.0);
    if m < 0.0 then
      assert a - (m + 360.0) == Numeric.Turns(k - 1);
      m + 360.0
    else
      assert a - m == Numeric.Turns(k);
      m
  }

  lemma WrapRotationIdempotent(a: real)
    ensures WrapRotation(WrapRotation(a)) == WrapRotation(a)
  {
  }

  // ---------------------------------------------------------------------------
  // Enabling and disabling
  // ---------------------------------------------------------------------------

  /** `enablePhysics`: a second enable changes nothing. */
  function Enable(p: Physics): (r: Physics)
    ensures r.enabled
    ensures p.enabled ==> r == p
    ensures r == p.(enabled := true)
  {
    if p.enabled then p else p.(enabled := true)
  }

  /** `disablePhysics`: stops the robot and puts it on the ground. */
  function Disable(p: Physics, position: Vec3): (r: (Physics, Vec3))
    ensures !r.0.enabled
    ensures !p.enabled ==> r == (p, position)
    ensures p.enabled ==> r.0.velocity == Zero && r.0.isGrounded && r.1 == position.(y := p.groundY)
  {
    if !p.enabled then (p, position)
    else (p.(enabled := false, velocity := Zero, isGrounded := true), position.(y := p.groundY))
  }

  // ---------------------------------------------------------------------------
  // One step of the physics loop
  // ---------------------------------------------------------------------------

  /** Gravity accelerates only an airborne robot. */
  function ApplyGravity(p: Physics, dt: real): (r: Physics)
    ensures p.isGrounded ==> r == p
    ensures !p.isGrounded ==> r == p.(velocity := p.velocity.(y := p.velocity.y + p.gravity * dt))
  {
    if p.isGrounded then p else p.(velocity := p.velocity.(y := p.velocity.y + p.gravity * dt))
  }

  /** `handleGroundCollision`: an airborne robot falling through the ground
      lands on it; a robot above the ground is airborne. */
  function HandleGround(p: Physics, position: Vec3): (r: (Physics, Vec3))
    ensures position.y > p.groundY ==> r == (p.(isGrounded := false), position)
    ensures position.y <= p.groundY && !p.isGrounded && p.velocity.y < 0.0 ==>
      r.0.isGrounded && r.0.velocity.y == 0.0 && r.1.y == p.groundY
      && r.0 == p.(isGrounded := true, velocity := r.0.velocity) && r.1 == position.(y := p.groundY)
    ensures position.y <= p.groundY && (p.isGrounded || p.velocity.y >= 0.0) ==> r == (p, position)
    ensures r.1.x == position.x && r.1.z == position.z
    ensures r.0.velocity.x == p.velocity.x && r.0.velocity.z == p.velocity.z
  {
    if position.y <= p.groundY then
      if !p.isGrounded && p.velocity.y < 0.0 then
        (p.(isGrounded := true, velocity := p.velocity.(y := 0.0)), position.(y := p.groundY))
      else (p, position)
    else (p.(isGrounded := false), position)
  }

  /** One axis of `enforceBoundaries`: the coordinate is pinned to the wall
      and the velocity turned inward at half speed. */
  function BounceAxis(c: real, v: real, b: real): (r: (real, real))
    ensures c > b ==> r == (b, -Numeric.Abs(v) * 0.5)
    ensures c < -b && !(c > b) ==> r == (-b, Numeric.Abs(v) * 0.5)
    ensures -b <= c <= b ==> r == (c, v)
  {
    if c > b then (b, -Numeric.Abs(v) * 0.5)
    else if c < -b then (-b, Numeric.Abs(v) * 0.5)
    else (c, v)
  }

  /** `enforceBoundaries`. */
  function EnforceBoundaries(p: Physics, position: Vec3): (r: (Physics, Vec3))
    ensures p.boundarySize >= 0.0 ==>
      -p.boundarySize <= r.1.x <= p.boundarySize && -p.boundarySize <= r.1.z <= p.boundarySize
    ensures r.1.y == position.y && r.0.velocity.y == p.velocity.y
    ensures r.0 == p.(velocity := r.0.velocity)
  {
    var (x, vx) := BounceAxis(position.x, p.velocity.x, p.boundarySize);
    var (z, vz) := BounceAxis(position.z, p.velocity.z, p.boundarySize);
    (p.(velocity := Vec3(vx, p.velocity.y, vz)), Vec3(x, position.y, z))
  }

  /** A bounced velocity component points back inside at half its speed. */
  lemma BounceHalvesInward(c: real, v: real, b: real)
    requires b >= 0.0 && (c > b || c < -b)
    ensures Numeric.Abs(BounceAxis(c, v, b).1) == Numeric.Abs(v) * 0.5
    ensures c > b ==> BounceAxis(c, v, b).1 <= 0.0
    ensures c < -b ==> BounceAxis(c, v, b).1 >= 0.0
  {
  }

  /** `applyFriction`, with `groundFactor` = friction^(60 dt) and
      `airFactor` = 0.98^(60 dt) supplied by the caller. */
  function ApplyFriction(p: Physics, groundFactor: real, airFactor: real): (r: Physics)
    ensures r == p.(velocity := r.velocity)
  {
    var v := if p.isGrounded then p.velocity.(x := p.velocity.x * groundFactor, z := p.velocity.z * groundFactor)
             else p.velocity;
    p.(velocity := Scale(v, airFactor))
  }

  /** Friction factors in [0,1] never speed the robot up along any axis. */
  lemma FrictionSlows(p: Physics, groundFactor: real, airFactor: real)
    requires 0.0 <= groundFactor <= 1.0 && 0.0 <= airFactor <= 1.0
    ensures Numeric.Abs(ApplyFriction(p, groundFactor, airFactor).velocity.x) <= Numeric.Abs(p.velocity.x)
    ensures Numeric.Abs(ApplyFriction(p, groundFactor, airFactor).velocity.y) <= Numeric.Abs(p.velocity.y)
    ensures Numeric.Abs(ApplyFriction(p, groundFactor, airFactor).velocity.z) <= Numeric.Abs(p.velocity.z)
  {
    var g := if p.isGrounded then groundFactor else 1.0;
    var r := ApplyFriction(p, groundFactor, airFactor).velocity;
    assert r == Vec3(p.velocity.x * g * airFactor, p.velocity.y * airFactor, p.velocity.z * g * airFactor);
    ScaleTwiceShrinks(p.velocity.x, g, airFactor);
    ScaleShrinks(p.velocity.y, airFactor);
    ScaleTwiceShrinks(p.velocity.z, g, airFactor);
  }

  lemma ScaleTwiceShrinks(a: real, k1: real, k2: real)
    requires 0.0 <= k1 <= 1.0 && 0.0 <= k2 <= 1.0
    ensures Numeric.Abs(a * k1 * k2) <= Numeric.Abs(a)
  {
    ScaleShrinks(a, k1);
    ScaleShrinks(a * k1, k2);
  }

  lemma ScaleShrinks(a: real, k: real)
    requires 0.0 <= k <= 1.0
    ensures Numeric.Abs(a * k) <= Numeric.Abs(a)
  {
    if a >= 0.0 {
      Numeric.MulLeftMonotone(a, k, 1.0);
    } else {
      Numeric.MulLeftMonotone(-a, k, 1.0);
    }
  }

  /** The tracked grid position: `Math.round` of each coordinate. */
  datatype Tracked = Tracked(x: int, z: int)

  function TrackPosition(position: Vec3): (t: Tracked)
    ensures position.x - 0.5 < t.x as real <= position.x + 0.5
    ensures position.z - 0.5 < t.z as real <= position.z + 0.5
  {
    Tracked(Numeric.Round(position.x), Numeric.Round(position.z))
  }

  /** `update(dt)` without obstacle collisions: gravity, motion, ground,
      boundaries, friction, then the tracked grid position. */
  function Update(p: Physics, position: Vec3, tracked: Tracked, dt: real, groundFactor: real, airFactor: real)
    : (r: (Physics, Vec3, Tracked))
    ensures !p.enabled ==> r == (p, position, tracked)
    ensures p.enabled && p.boundarySize >= 0.0 ==>
      -p.boundarySize <= r.1.x <= p.boundarySize && -p.boundarySize <= r.1.z <= p.boundarySize
    ensures p.enabled ==> r.2 == TrackPosition(r.1)
    ensures r.0.enabled == p.enabled && r.0.obstacles == p.obstacles && r.0.mass == p.mass
  {
    if !p.enabled then (p, position, tracked)
    else
      var p1 := ApplyGravity(p, dt);
      var moved := Add(position, Scale(p1.velocity, dt));
      var (p2, pos2) := HandleGround(p1, moved);
      var (p3, pos3) := EnforceBoundaries(p2, pos2);
      var p4 := ApplyFriction(p3, groundFactor, airFactor);
      (p4, pos3, TrackPosition(pos3))
  }

  /** A grounded robot standing on the ground stays grounded through a step. */
  lemma GroundedStaysGrounded(p: Physics, position: Vec3, tracked: Tracked, dt: real, gf: real, af: real)
    requires p.enabled && p.isGrounded && p.velocity.y == 0.0 && position.y == p.groundY
    ensures Update(p, position, tracked, dt, gf, af).0.isGrounded
    ensures Update(p, position, tracked, dt, gf, af).1.y == p.groundY
  {
  }

  // ---------------------------------------------------------------------------
  // Actions
  // ---------------------------------------------------------------------------

  /** `jump(force)`: refused when disabled or airborne. */
  function Jump(p: Physics, force: real): (r: (Physics, bool))
    ensures !r.1 <==> !p.enabled || !p.isGrounded
    ensures !r.1 ==> r.0 == p
    ensures r.1 ==> r.0 == p.(velocity := p.velocity.(y := force * 0.15), isGrounded := false)
  {
    if !p.enabled || !p.isGrounded then (p, false)
    else (p.(velocity := p.velocity.(y := force * 0.15), isGrounded := false), true)
  }

  /** A successful jump cannot be repeated until the robot lands. */
  lemma NoDoubleJump(p: Physics, f1: real, f2: real)
    requires Jump(p, f1).1
    ensures Jump(Jump(p, f1).0, f2) == (Jump(p, f1).0, false)
  {
  }

  /** `applyForce(f)`: the velocity changes by f / mass. */
  function ApplyForce(p: Physics, f: Vec3): (r: Physics)
    requires Valid(p)
    ensures !p.enabled ==> r == p
    ensures p.enabled ==> r == p.(velocity := r.velocity)
    ensures p.enabled ==> Scale(Vec3(r.velocity.x - p.velocity.x, r.velocity.y - p.velocity.y,
                                     r.velocity.z - p.velocity.z), p.mass) == f
  {
    if !p.enabled then p
    else p.(velocity := Add(p.velocity, Vec3(f.x / p.mass, f.y / p.mass, f.z / p.mass)))
  }

  /** `moveForwardPhysics(d)`: a push of 15 d along the robot's facing
      direction, given as the unit vector `forward`. */
  function MoveForward(p: Physics, distance: real, forward: Vec3): (r: (Physics, bool))
    requires Valid(p)
    ensures r.1 == p.enabled
    ensures r.0 == ApplyForce(p, Scale(Scale(forward, distance), 15.0))
  {
    if !p.enabled then (p, false)
    else (ApplyForce(p, Scale(Scale(forward, distance), 15.0)), true)
  }

  /** `rotatePhysics(degrees)`: the new tracked rotation, or None when
      physics is off. */
  function RotatePhysics(p: Physics, tracked: real, degrees: real): (r: Option<real>)
    ensures r.None? <==> !p.enabled
    ensures r.Some? ==> 0.0 <= r.value < 360.0 && r.value == WrapRotation(tracked + degrees)
  {
    if !p.enabled then None else Some(WrapRotation(tracked + degrees))
  }

  // ---------------------------------------------------------------------------
  // Parameters
  // ---------------------------------------------------------------------------

  function SetGravity(p: Physics, g: real): (r: Physics)
    ensures r.gravity == g && r == p.(gravity := g)
  {
    p.(gravity := g)
  }

  /** `setFriction`: clamped to [0,1]. */
  function SetFriction(p: Physics, f: real): (r: Physics)
    ensures 0.0 <= r.friction <= 1.0
    ensures 0.0 <= f <= 1.0 ==> r.friction == f
    ensures f < 0.0 ==> r.friction == 0.0
    ensures f > 1.0 ==> r.friction == 1.0
    ensures r == p.(friction := r.friction)
  {
    p.(friction := Numeric.Max(0.0, Numeric.Min(1.0, f)))
  }

  /** `setMass`: at least 0.1. */
  function SetMass(p: Physics, m: real): (r: Physics)
    ensures r.mass >= 0.1
    ensures m >= 0.1 ==> r.mass == m
    ensures r == p.(mass := r.mass)
  {
    p.(mass := Numeric.Max(0.1, m))
  }

  function SetBoundarySize(p: Physics, size: real): (r: Physics)
    ensures r == p.(boundarySize := size)
  {
    p.(boundarySize := size)
  }

  // ---------------------------------------------------------------------------
  // Obstacles
  // ---------------------------------------------------------------------------

  /** `addObstacle`: `id` is the random identifier the call draws. */
  function AddObstacle(p: Physics, id: string, kind: string, position: Vec3, size: Option<Vec3>, material: Option<string>)
    : (r: Physics)
    ensures r.obstacles == p.obstacles + [Obstacle(id, kind, position, size.GetOr(Vec3(1.0, 1.0, 1.0)), material.GetOr("default"))]
    ensures r == p.(obstacles := r.obstacles)
  {
    p.(obstacles := p.obstacles + [Obstacle(id, kind, position, size.GetOr(Vec3(1.0, 1.0, 1.0)), material.GetOr("default"))])
  }

  /** `findIndex` on the identifier. */
  function FindObstacle(obstacles: seq<Obstacle>, id: string): (r: Option<nat>)
    ensures r.Some? ==> r.value < |obstacles| && obstacles[r.value].id == id
                        && forall j :: 0 <= j < r.value ==> obstacles[j].id != id
    ensures r.None? ==> forall j :: 0 <= j < |obstacles| ==> obstacles[j].id != id
  {
    if obstacles == [] then None
    else if obstacles[0].id == id then Some(0)
    else
      var rest := FindObstacle(obstacles[1..], id);
      if rest.Some? then Some(rest.value + 1) else None
  }

  /** `removeObstacle`: deletes the first obstacle with the identifier. */
  function RemoveObstacle(p: Physics, id: string): (r: (Physics, bool))
    ensures r.1 <==> exists j :: 0 <= j < |p.obstacles| && p.obstacles[j].id == id
    ensures !r.1 ==> r.0 == p
    ensures r.1 ==> |r.0.obstacles| == |p.obstacles| - 1
    ensures r.1 ==>
      && FindObstacle(p.obstacles, id).Some?
      && r.0.obstacles == p.obstacles[..FindObstacle(p.obstacles, id).value]
                          + p.obstacles[FindObstacle(p.obstacles, id).value + 1..]
    ensures r.0 == p.(obstacles := r.0.obstacles)
  {
    match FindObstacle(p.obstacles, id)
    case None => (p, false)
    case Some(i) => (p.(obstacles := p.obstacles[..i] + p.obstacles[i + 1..]), true)
  }

  /** Removing an obstacle just added (with a fresh identifier) restores the
      list. */
  lemma AddThenRemove(p: Physics, id: string, kind: string, position: Vec3, size: Option<Vec3>, material: Option<string>)
    requires forall j :: 0 <= j < |p.obstacles| ==> p.obstacles[j].id != id
    ensures RemoveObstacle(AddObstacle(p, id, kind, position, size, material), id) == (p, true)
  {
    var q := AddObstacle(p, id, kind, position, size, material);
    var n := |p.obstacles|;
    assert forall j :: 0 <= j < n ==> q.obstacles[j].id != id;
    FindFirstObstacle(q.obstacles, id, n);
    assert q.obstacles[..n] == p.obstacles;
    assert q.obstacles[n + 1..] == [];
    assert q.obstacles[..n] + q.obstacles[n + 1..] == p.obstacles;
    assert q.(obstacles := p.obstacles) == p;
  }

  /** The first obstacle with the identifier is the one the search finds. */
  lemma {:induction false} FindFirstObstacle(obstacles: seq<Obstacle>, id: string, i: nat)
    requires i < |obstacles| && obstacles[i].id == id
    requires forall j :: 0 <= j < i ==> obstacles[j].id != id
    ensures FindObstacle(obstacles, id) == Some(i)
  {
    if i > 0 {
      FindFirstObstacle(obstacles[1..], id, i - 1);
    }
  }

  function ClearObstacles(p: Physics): (r: Physics)
    ensures r.obstacles == [] && r == p.(obstacles := [])
  {
    p.(obstacles := [])
  }

  // ---------------------------------------------------------------------------
  // Reset and disposal
  // ---------------------------------------------------------------------------

  /** `reset`: at rest on the ground at the origin; the robot's tracked
      position and rotation go back to zero. */
  function Reset(p: Physics): (r: (Physics, Vec3, Tracked, real))
    ensures r.0.velocity == Zero && r.0.isGrounded
    ensures r.0 == p.(velocity := r.0.velocity, isGrounded := r.0.isGrounded)
    ensures r.1 == Vec3(0.0, p.groundY, 0.0) && r.2 == Tracked(0, 0) && r.3 == 0.0
  {
    (p.(velocity := Zero, isGrounded := true), Vec3(0.0, p.groundY, 0.0), Tracked(0, 0), 0.0)
  }

  /** `dispose`: disabled and without obstacles. */
  function Dispose(p: Physics, position: Vec3): (r: (Physics, Vec3))
    ensures !r.0.enabled && r.0.obstacles == []
    ensures !p.enabled ==> r == (p.(obstacles := []), position)
    ensures p.enabled ==>
      r == (p.(enabled := false, velocity := Zero, isGrounded := true, obstacles := []), position.(y := p.groundY))
  {
    var (q, pos) := Disable(p, position);
    (ClearObstacles(q), pos)
  }

  /** Every operation keeps friction and mass in range. */
  lemma OperationsKeepValid(p: Physics, position: Vec3, tracked: Tracked, x: real, f: Vec3, id: string)
    requires Valid(p)
    ensures Valid(Enable(p)) && Valid(Disable(p, position).0)
    ensures Valid(Update(p, position, tracked, x, x, x).0)
    ensures Valid(Jump(p, x).0) && Valid(ApplyForce(p, f)) && Valid(SetGravity(p, x))
    ensures Valid(SetFriction(p, x)) && Valid(SetMass(p, x)) && Valid(SetBoundarySize(p, x))
    ensures Valid(RemoveObstacle(p, id).0) && Valid(ClearObstacles(p)) && Valid(Reset(p).0)
  {
  }
}

=== FILE: role_api.dfy ===
/** The visitor-role poll (`/api/role`): one vote per browser, identified by
    the `site_uid` cookie, over the store's five sets — everyone who voted
    and one set per role. */
module RoleApi {
  import opened Wrappers
  import Text

  // ---------------------------------------------------------------------------
  // The site_uid cookie
  // ---------------------------------------------------------------------------

  const UidKey := "site_uid="

  /** The end of the run of whitespace starting at `k`. */
  function SkipSpaces(c: string, k: nat): (e: nat)
    requires k <= |c|
    ensures k <= e <= |c|
    ensures forall i :: k <= i < e ==> Text.IsSpace(c[i])
    ensures e == |c| || !Text.IsSpace(c[e])
    decreases |c| - k
  {
    if k < |c| && Text.IsSpace(c[k]) then SkipSpaces(c, k + 1) else k
  }

  /** The end of the run of characters other than `;` starting at `k`. */
  function ValueEnd(c: string, k: nat): (e: nat)
    requires k <= |c|
    ensures k <= e <= |c|
    ensures forall i :: k <= i < e ==> c[i] != ';'
    ensures e == |c| || c[e] == ';'
    decreases |c| - k
  {
    if k < |c| && c[k] != ';' then ValueEnd(c, k + 1) else k
  }

  /** The `([^;]+)` group read from `k`: at least one character. */
  function Capture(c: string, k: nat): (r: Option<string>)
    requires k <= |c|
    ensures r.Some? ==> |r.value| >= 1 && ';' !in r.value
  {
    var e := ValueEnd(c, k);
    if e > k then Some(c[k..e]) else None
  }

  /** The pattern `(?:^|;\s*)site_uid=([^;]+)` tried at position `j`. */
  function MatchAt(c: string, j: nat): (r: Option<string>)
    requires j <= |c|
    ensures r.Some? ==> |r.value| >= 1 && ';' !in r.value
  {
    var atStart := if j == 0 && Text.OccursAt(UidKey, c, 0) then Capture(c, |UidKey|) else None;
    if atStart.Some? then atStart
    else if j < |c| && c[j] == ';' then
      var k := SkipSpaces(c, j + 1);
      if Text.OccursAt(UidKey, c, k) then Capture(c, k + |UidKey|) else None
    else None
  }

  /** The leftmost match at or after `j`. */
  function FirstMatch(c: string, j: nat): (r: Option<string>)
    requires j <= |c| + 1
    ensures r.Some? ==> |r.value| >= 1 && ';' !in r.value
    decreases |c| + 1 - j
  {
    if j > |c| then None
    else
      var here := MatchAt(c, j);
      if here.Some? then here else FirstMatch(c, j + 1)
  }

  /** `getUIDFromCookie`: a missing header reads as the empty string. */
  function UidFromCookie(header: Option<string>): (r: Option<string>)
    ensures r.Some? ==> |r.value| >= 1 && ';' !in r.value
  {
    FirstMatch(header.GetOr(""), 0)
  }

  /** The pattern matches at no position from `j` up to `i`. */
  predicate NoMatchBetween(c: string, j: nat, i: nat)
    requires j <= i <= |c| + 1
  {
    forall h :: j <= h < i ==> MatchAt(c, h).None?
  }

  /** A position without a match extends a match-free stretch to its left. */
  lemma NoMatchExtends(c: string, j: nat, i: nat)
    requires j < i <= |c| + 1
    requires MatchAt(c, j).None? && NoMatchBetween(c, j + 1, i)
    ensures NoMatchBetween(c, j, i)
  {
  }

  /** The search reports the pattern's leftmost match, and finds nothing
      only when the pattern matches nowhere. */
  lemma {:induction false} FirstMatchIsLeftmost(c: string, j: nat)
    requires j <= |c| + 1
    ensures FirstMatch(c, j).Some? ==>
      exists i :: j <= i <= |c| && MatchAt(c, i) == FirstMatch(c, j) && NoMatchBetween(c, j, i)
    ensures FirstMatch(c, j).None? <==> NoMatchBetween(c, j, |c| + 1)
    decreases |c| + 1 - j
  {
    if j > |c| {
    } else if MatchAt(c, j).Some? {
      assert NoMatchBetween(c, j, j);
      assert !NoMatchBetween(c, j, |c| + 1);
    } else {
      FirstMatchIsLeftmost(c, j + 1);
      if FirstMatch(c, j + 1).Some? {
        var i :| j + 1 <= i <= |c| && MatchAt(c, i) == FirstMatch(c, j + 1) && NoMatchBetween(c, j + 1, i);
        NoMatchExtends(c, j, i);
        assert !NoMatchBetween(c, j, |c| + 1);
      } else {
        NoMatchExtends(c, j, |c| + 1);
      }
    }
  }

  /** A cookie header that starts with the identifier yields it. */
  lemma UidAtStart(v: string, rest: string)
    requires |v| >= 1 && ';' !in v && (rest == [] || rest[0] == ';')
    ensures UidFromCookie(Some(UidKey + v + rest)) == Some(v)
  {
    var c := UidKey + v + rest;
    assert c[..|UidKey|] == UidKey;
    var e := ValueEnd(c, |UidKey|);
    if rest != [] {
      assert c[|UidKey| + |v|] == ';';
    }
    assert e == |UidKey| + |v|;
    assert c[|UidKey|..e] == v;
  }

  /** The whitespace run from `k` ends at the first other character. */
  lemma SpacesEndAt(c: string, k: nat, e: nat)
    requires k <= e < |c| && !Text.IsSpace(c[e])
    requires forall i :: k <= i < e ==> Text.IsSpace(c[i])
    ensures SkipSpaces(c, k) == e
  {
  }

  /** The value run from `k` ends at the next `;` or at the end. */
  lemma ValueEndsAt(c: string, k: nat, e: nat)
    requires k <= e <= |c| && (e == |c| || c[e] == ';')
    requires forall i :: k <= i < e ==> c[i] != ';'
    ensures ValueEnd(c, k) == e
  {
  }

  /** A value without `;` that runs to a `;` or the end is captured whole. */
  lemma CaptureOf(c: string, k: nat, v: string)
    requires k + |v| <= |c| && c[k..k + |v|] == v
    requires |v| >= 1 && ';' !in v && (k + |v| == |c| || c[k + |v|] == ';')
    ensures Capture(c, k) == Some(v)
  {
    forall i | k <= i < k + |v|
      ensures c[i] != ';'
    {
      assert c[i] == c[k..k + |v|][i - k];
    }
    ValueEndsAt(c, k, k + |v|);
  }

  /** A header that does not start with the key, whose first `;` is at `n`,
      has no match before `n`. */
  lemma NoMatchBeforeSeparator(c: string, n: nat)
    requires n < |c| && c[n] == ';' && !Text.OccursAt(UidKey, c, 0)
    requires forall j :: 0 <= j < n ==> c[j] != ';'
    ensures NoMatchBetween(c, 0, n)
  {
  }

  /** A first cookie without a `;` that does not start with the key leaves
      the whole header not starting with the key either. */
  lemma FirstCookieNotKey(c: string, a: string)
    requires |a| < |c| && c[..|a|] == a && c[|a|] == ';'
    requires ';' !in a && !Text.OccursAt(UidKey, a, 0)
    ensures !Text.OccursAt(UidKey, c, 0)
  {
    assert ';' !in UidKey;
    if |a| >= |UidKey| {
      assert c[0..|UidKey|] == a[0..|UidKey|];
    } else if |UidKey| <= |c| {
      assert c[0..|UidKey|][|a|] == ';';
    }
  }

  /** The positions of a header `a;<spaces>site_uid=v<rest>`. */
  lemma OtherCookieLayout(c: string, a: string, spaces: string, v: string, rest: string)
    requires c == a + ";" + spaces + UidKey + v + rest
    ensures |c| == |a| + 1 + |spaces| + |UidKey| + |v| + |rest|
    ensures c[..|a|] == a && c[|a|] == ';'
    ensures forall i :: |a| < i <= |a| + |spaces| ==> c[i] == spaces[i - |a| - 1]
    ensures Text.OccursAt(UidKey, c, |a| + 1 + |spaces|)
    ensures c[|a| + 1 + |spaces| + |UidKey|..|a| + 1 + |spaces| + |UidKey| + |v|] == v
    ensures rest != [] ==> c[|a| + 1 + |spaces| + |UidKey| + |v|] == rest[0]
  {
    var k := |a| + 1 + |spaces|;
    assert c == (a + ";" + spaces) + (UidKey + v + rest);
    assert c[k..k + |UidKey|] == UidKey;
    assert c[k + |UidKey|..k + |UidKey| + |v|] == v;
  }

  /** An identifier behind another cookie (`other; site_uid=…`) is found
      after the separator and its spaces. */
  lemma UidAfterOtherCookie(a: string, spaces: string, v: string, rest: string)
    requires ';' !in a && !Text.OccursAt(UidKey, a, 0)
    requires forall i :: 0 <= i < |spaces| ==> Text.IsSpace(spaces[i])
    requires |v| >= 1 && ';' !in v && (rest == [] || rest[0] == ';')
    ensures UidFromCookie(Some(a + ";" + spaces + UidKey + v + rest)) == Some(v)
  {
    var c := a + ";" + spaces + UidKey + v + rest;
    OtherCookieLayout(c, a, spaces, v, rest);
    FirstCookieNotKey(c, a);
    assert forall j :: 0 <= j < |a| ==> c[j] == c[..|a|][j];
    UidBehindSeparator(c, |a|, |a| + 1 + |spaces|, v);
  }

  /** A header whose first `;` is at `n`, followed by whitespace up to `k`
      and then by `site_uid=v` up to a `;` or the end, yields v. */
  lemma UidBehindSeparator(c: string, n: nat, k: nat, v: string)
    requires n < k && k + |UidKey| + |v| <= |c| && c[n] == ';'
    requires forall j :: 0 <= j < n ==> c[j] != ';'
    requires !Text.OccursAt(UidKey, c, 0)
    requires forall i :: n < i < k ==> Text.IsSpace(c[i])
    requires Text.OccursAt(UidKey, c, k)
    requires |v| >= 1 && ';' !in v && c[k + |UidKey|..k + |UidKey| + |v|] == v
    requires k + |UidKey| + |v| == |c| || c[k + |UidKey| + |v|] == ';'
    ensures FirstMatch(c, 0) == Some(v)
  {
    var e := k + |UidKey| + |v|;
    NoMatchBeforeSeparator(c, n);
    assert c[k] == c[k..k + |UidKey|][0];
    SpacesEndAt(c, n + 1, k);
    CaptureOf(c, k + |UidKey|, v);
    MatchAfterSeparator(c, n, k);
    FirstMatchSkips(c, 0, n);
  }

  /** At a `;` (not the header's start when that starts with the key),
      the pattern captures what follows the key after the whitespace. */
  lemma MatchAfterSeparator(c: string, n: nat, k: nat)
    requires n < |c| && c[n] == ';' && !Text.OccursAt(UidKey, c, 0)
    requires n + 1 <= k <= |c| && SkipSpaces(c, n + 1) == k && Text.OccursAt(UidKey, c, k)
    ensures MatchAt(c, n) == Capture(c, k + |UidKey|)
  {
  }

  /** No match before `j` means the search reports the one at `j`. */
  lemma {:induction false} FirstMatchSkips(c: string, from: nat, j: nat)
    requires from <= j <= |c|
    requires forall i :: from <= i < j ==> MatchAt(c, i).None?
    ensures MatchAt(c, j).Some? ==> FirstMatch(c, from) == MatchAt(c, j)
    decreases j - from
  {
    if from < j {
      assert FirstMatch(c, from) == FirstMatch(c, from + 1) by {
        assert MatchAt(c, from).None?;
      }
      FirstMatchSkips(c, from + 1, j);
    }
  }

  // ---------------------------------------------------------------------------
  // The poll
  // ---------------------------------------------------------------------------

  const Roles: seq<string> := ["estudiantes", "maestros", "padres", "otros"]

  /** The five sets: `role:set:voted` and `role:set:<role>` for each role. */
  datatype Poll = Poll(voted: set<string>, estudiantes: set<string>, maestros: set<string>,
                       padres: set<string>, otros: set<string>)

  const EmptyPoll := Poll({}, {}, {}, {}, {})

  /** The set of one role (only the four valid roles have one). */
  function Members(p: Poll, role: string): set<string>
  {
    if role == "estudiantes" then p.estudiantes
    else if role == "maestros" then p.maestros
    else if role == "padres" then p.padres
    else if role == "otros" then p.otros
    else {}
  }

  /** Every voter sits in exactly one role set, and only voters do. */
  predicate Sound(p: Poll)
  {
    p.estudiantes * p.maestros == {} && p.estudiantes * p.padres == {} && p.estudiantes * p.otros == {}
    && p.maestros * p.padres == {} && p.maestros * p.otros == {} && p.padres * p.otros == {}
    && p.estudiantes + p.maestros + p.padres + p.otros == p.voted
  }

  datatype Counts = Counts(estudiantes: nat, maestros: nat, padres: nat, otros: nat)

  function CountsOf(p: Poll): Counts
  {
    Counts(|p.estudiantes|, |p.maestros|, |p.padres|, |p.otros|)
  }

  /** In a sound poll the role counts add up to the number of voters. */
  lemma CountsSumToVoters(p: Poll)
    requires Sound(p)
    ensures var n := CountsOf(p); n.estudiantes + n.maestros + n.padres + n.otros == |p.voted|
  {
    var a := p.estudiantes + p.maestros;
    var b := a + p.padres;
    DisjointCard(p.estudiantes, p.maestros);
    DisjointCard(a, p.padres);
    DisjointCard(b, p.otros);
  }

  /** Disjoint sets: the union's size is the sum of the sizes. */
  lemma {:induction false} DisjointCard<T>(a: set<T>, b: set<T>)
    requires a * b == {}
    ensures |a + b| == |a| + |b|
    decreases |a|
  {
    if a != {} {
      var x :| x in a;
      DisjointCard(a - {x}, b);
      assert (a - {x}) + b == (a + b) - {x};
    }
  }

  /** Whether the browser voted; false without an identifier. */
  predicate HasVoted(p: Poll, uid: Option<string>)
  {
    uid.Some? && uid.value in p.voted
  }

  /** An HTTP request: its method, cookie header and body's `role`. */
  datatype Request = Request(verb: string, cookie: Option<string>, role: Option<string>)

  datatype Reply =
    | Tally(counts: Counts, voted: bool)   // GET
    | Voted(counts: Counts)                // POST accepted
    | Cleared                              // DELETE
    | Failure(error: string)

  datatype Response = Response(status: nat, reply: Reply)

  /** POST: vote once with a valid role. */
  function Vote(p: Poll, uid: Option<string>, role: Option<string>): (r: (Poll, Response))
    ensures uid.None? ==> r == (p, Response(400, Failure("NO_UID")))
    ensures uid.Some? && (role.None? || role.value !in Roles) ==> r == (p, Response(400, Failure("INVALID_ROLE")))
    ensures uid.Some? && role.Some? && role.value in Roles && uid.value in p.voted ==>
      r == (p, Response(409, Failure("ALREADY_VOTED")))
    ensures r.1.status == 200 <==> uid.Some? && role.Some? && role.value in Roles && uid.value !in p.voted
    ensures r.1.status == 200 ==>
      r.0.voted == p.voted + {uid.value}
      && Members(r.0, role.value) == Members(p, role.value) + {uid.value}
      && (forall other :: other in Roles && other != role.value ==> Members(r.0, other) == Members(p, other))
      && r.1.reply == Voted(CountsOf(r.0))
  {
    if uid.None? then (p, Response(400, Failure("NO_UID")))
    else if role.None? || role.value !in Roles then (p, Response(400, Failure("INVALID_ROLE")))
    else if uid.value in p.voted then (p, Response(409, Failure("ALREADY_VOTED")))
    else
      var q := AddVote(p, role.value, uid.value);
      (q, Response(200, Voted(CountsOf(q))))
  }

  /** `sadd` into the voters and into the role's set. */
  function AddVote(p: Poll, role: string, u: string): (q: Poll)
    requires role in Roles
    ensures q.voted == p.voted + {u}
    ensures Members(q, role) == Members(p, role) + {u}
    ensures forall other :: other in Roles && other != role ==> Members(q, other) == Members(p, other)
  {
    if role == "estudiantes" then p.(voted := p.voted + {u}, estudiantes := p.estudiantes + {u})
    else if role == "maestros" then p.(voted := p.voted + {u}, maestros := p.maestros + {u})
    else if role == "padres" then p.(voted := p.voted + {u}, padres := p.padres + {u})
    else p.(voted := p.voted + {u}, otros := p.otros + {u})
  }

  /** A new voter added to one role keeps the poll sound. */
  lemma AddVoteSound(p: Poll, role: string, u: string)
    requires Sound(p) && role in Roles && u !in p.voted
    ensures Sound(AddVote(p, role, u))
  {
    assert u !in p.estudiantes && u !in p.maestros && u !in p.padres && u !in p.otros;
  }

  /** The handler: GET reads, POST votes, DELETE clears, anything else is
      refused. */
  function Handle(p: Poll, req: Request): (r: (Poll, Response))
    ensures req.verb == "GET" ==>
      r.0 == p && r.1 == Response(200, Tally(CountsOf(p), HasVoted(p, UidFromCookie(req.cookie))))
    ensures req.verb == "POST" ==> r == Vote(p, UidFromCookie(req.cookie), req.role)
    ensures req.verb == "DELETE" ==> r == (EmptyPoll, Response(200, Cleared))
    ensures req.verb !in {"GET", "POST", "DELETE"} ==> r == (p, Response(405, Failure("Method not allowed")))
  {
    if req.verb == "GET" then
      (p, Response(200, Tally(CountsOf(p), HasVoted(p, UidFromCookie(req.cookie)))))
    else if req.verb == "POST" then Vote(p, UidFromCookie(req.cookie), req.role)
    else if req.verb == "DELETE" then (EmptyPoll, Response(200, Cleared))
    else (p, Response(405, Failure("Method not allowed")))
  }

  /** Every request keeps the poll sound. */
  lemma HandleKeepsSound(p: Poll, req: Request)
    requires Sound(p)
    ensures Sound(Handle(p, req).0)
  {
    if req.verb == "POST" {
      var uid, role := UidFromCookie(req.cookie), req.role;
      if uid.Some? && role.Some? && role.value in Roles && uid.value !in p.voted {
        AddVoteSound(p, role.value, uid.value);
      }
    }
  }

  /** The poll after a sequence of requests. */
  function HandleAll(p: Poll, reqs: seq<Request>): Poll
    decreases |reqs|
  {
    if reqs == [] then p else HandleAll(Handle(p, reqs[0]).0, reqs[1..])
  }

  /** From an empty store, any sequence of requests keeps the poll sound,
      so the counts always add up to the voters. */
  lemma {:induction false} PollStaysSound(p: Poll, reqs: seq<Request>)
    requires Sound(p)
    ensures Sound(HandleAll(p, reqs))
    ensures var q := HandleAll(p, reqs);
      |q.estudiantes| + |q.maestros| + |q.padres| + |q.otros| == |q.voted|
    decreases |reqs|
  {
    if reqs == [] {
      CountsSumToVoters(p);
    } else {
      HandleKeepsSound(p, reqs[0]);
      PollStaysSound(Handle(p, reqs[0]).0, reqs[1..]);
    }
  }

  /** The same browser can never vote twice. */
  lemma OneVotePerUid(p: Poll, uid: string, r1: Option<string>, r2: Option<string>)
    requires Vote(p, Some(uid), r1).1.status == 200
    ensures Vote(Vote(p, Some(uid), r1).0, Some(uid), r2).1.status != 200
  {
  }
}

=== FILE: seqs.dfy ===
/** Order-preserving selection over sequences and sums of reals: the list
    comprehensions `[f(x) for x in xs if ...]` and `filter` calls the modelled
    code is built from. */
module Seqs {
  import opened Wrappers

  /** Concatenation is associative; stated once for any element type so that
      proofs about sequences of strings need not compare the strings. */
  lemma ConcatAssoc<T>(x: seq<T>, y: seq<T>, z: seq<T>)
    ensures x + (y + z) == (x + y) + z
  {
  }

  /** Appending two elements one at a time appends the pair. */
  lemma AppendPair<T>(xs: seq<T>, a: T, b: T)
    ensures xs + [a] + [b] == xs + [a, b]
  {
  }

  lemma AppendEmpty<T>(xs: seq<T>)
    ensures xs + [] == xs
  {
  }

  /** A non-empty sequence is its head followed by its tail. */
  lemma HeadTail<T>(xs: seq<T>)
    requires xs != []
    ensures [xs[0]] + xs[1..] == xs
  {
  }

  /** The head and the tail of an element put in front. */
  lemma ConsParts<T>(a: T, rest: seq<T>)
    ensures ([a] + rest)[0] == a && ([a] + rest)[1..] == rest
  {
  }

  /** The same element put in front of two sequences keeps what one holds
      beyond the other. */
  lemma ConsMultiset<T>(x: T, a: seq<T>, b: seq<T>, y: T)
    requires multiset(a) == multiset(b) + multiset{y}
    ensures multiset([x] + a) == multiset([x] + b) + multiset{y}
  {
  }

  /** Applies `f` to each element in order and keeps the defined results. */
  function FilterMap<A, B(==,!new)>(xs: seq<A>, f: A -> Option<B>): (r: seq<B>)
    ensures |r| <= |xs|
    ensures forall y :: y in r <==> exists i :: 0 <= i < |xs| && f(xs[i]) == Some(y)
  {
    if xs == [] then []
    else
      var rest := FilterMap(xs[1..], f);
      assert forall i :: 0 <= i < |xs[1..]| ==> xs[1..][i] == xs[i + 1];
      (if f(xs[0]).Some? then [f(xs[0]).value] else []) + rest
  }

  /** Selection distributes over concatenation, so the relative order of the
      kept results is the order of the input. */
  lemma {:induction false} FilterMapAppend<A, B(!new)>(xs: seq<A>, ys: seq<A>, f: A -> Option<B>)
    ensures FilterMap(xs + ys, f) == FilterMap(xs, f) + FilterMap(ys, f)
  {
    if xs != [] {
      assert (xs + ys)[0] == xs[0];
      assert (xs + ys)[1..] == xs[1..] + ys;
      FilterMapAppend(xs[1..], ys, f);
    } else {
      assert xs + ys == ys;
    }
  }

  /** Every result is defined: nothing is dropped exactly when `f` is defined
      everywhere. */
  lemma {:induction false} FilterMapKeepsAll<A, B(!new)>(xs: seq<A>, f: A -> Option<B>)
    ensures |FilterMap(xs, f)| == |xs| <==> forall i :: 0 <= i < |xs| ==> f(xs[i]).Some?
  {
    if xs != [] {
      FilterMapKeepsAll(xs[1..], f);
      assert forall i :: 1 <= i < |xs| ==> xs[1..][i - 1] == xs[i];
    }
  }

  /** Something is kept exactly when `f` is defined somewhere. */
  lemma FilterMapNonEmpty<A, B(!new)>(xs: seq<A>, f: A -> Option<B>)
    ensures FilterMap(xs, f) != [] <==> exists i :: 0 <= i < |xs| && f(xs[i]).Some?
  {
    var r := FilterMap(xs, f);
    if r != [] {
      assert r[0] in r;
    }
    if exists i :: 0 <= i < |xs| && f(xs[i]).Some? {
      var i :| 0 <= i < |xs| && f(xs[i]).Some?;
      assert f(xs[i]).value in r;
    }
  }

  /** Every kept result comes from some input element. */
  lemma FilterMapSource<A, B(!new)>(xs: seq<A>, f: A -> Option<B>, k: nat)
    requires k < |FilterMap(xs, f)|
    ensures exists i :: 0 <= i < |xs| && f(xs[i]) == Some(FilterMap(xs, f)[k])
  {
    assert FilterMap(xs, f)[k] in FilterMap(xs, f);
  }

  /** Keeps the elements whose position is marked true; positions beyond the
      mask are dropped. */
  function FilterByMask<T(==,!new)>(xs: seq<T>, mask: seq<bool>): (r: seq<T>)
    ensures |r| <= |xs|
    ensures forall y :: y in r ==> exists i :: 0 <= i < |xs| && i < |mask| && mask[i] && xs[i] == y
    ensures |r| == CountTrue(mask[..Min(|xs|, |mask|)])
  {
    if xs == [] || mask == [] then []
    else
      var rest := FilterByMask(xs[1..], mask[1..]);
      assert mask[..Min(|xs|, |mask|)] == [mask[0]] + mask[1..][..Min(|xs| - 1, |mask| - 1)];
      (if mask[0] then [xs[0]] else []) + rest
  }

  function Min(a: nat, b: nat): nat { if a <= b then a else b }

  function CountTrue(mask: seq<bool>): (n: nat)
    ensures n <= |mask|
  {
    if mask == [] then 0 else (if mask[0] then 1 else 0) + CountTrue(mask[1..])
  }

  /** A mask with a true entry counts at least one. */
  lemma {:induction false} CountTruePositive(mask: seq<bool>, i: nat)
    requires i < |mask| && mask[i]
    ensures CountTrue(mask) >= 1
  {
    if i > 0 {
      CountTruePositive(mask[1..], i - 1);
    }
  }

  /** A marked element lands in the filtered sequence after the elements
      marked before it: position `i` goes to the number of marks before `i`. */
  lemma {:induction false} FilterByMaskAt<T(!new)>(xs: seq<T>, mask: seq<bool>, i: nat)
    requires i < |xs| && i < |mask| && mask[i]
    ensures CountTrue(mask[..i]) < |FilterByMask(xs, mask)|
    ensures FilterByMask(xs, mask)[CountTrue(mask[..i])] == xs[i]
    decreases i
  {
    var head: seq<T> := if mask[0] then [xs[0]] else [];
    var rest := FilterByMask(xs[1..], mask[1..]);
    assert FilterByMask(xs, mask) == head + rest;
    if i == 0 {
      assert mask[..0] == [];
    } else {
      FilterByMaskAt(xs[1..], mask[1..], i - 1);
      var c := CountTrue(mask[1..][..i - 1]);
      assert mask[..i] == [mask[0]] + mask[1..][..i - 1];
      assert CountTrue(mask[..i]) == |head| + c;
      assert (head + rest)[|head| + c] == rest[c] == xs[1..][i - 1];
    }
  }

  /** `FilterByMaskAt` for every marked position at once. */
  lemma FilterByMaskAll<T(!new)>(xs: seq<T>, mask: seq<bool>)
    ensures forall i :: 0 <= i < |xs| && i < |mask| && mask[i] ==>
      CountTrue(mask[..i]) < |FilterByMask(xs, mask)| && FilterByMask(xs, mask)[CountTrue(mask[..i])] == xs[i]
  {
    forall i | 0 <= i < |xs| && i < |mask| && mask[i]
      ensures CountTrue(mask[..i]) < |FilterByMask(xs, mask)| && FilterByMask(xs, mask)[CountTrue(mask[..i])] == xs[i]
    {
      FilterByMaskAt(xs, mask, i);
    }
  }

  function Sum(xs: seq<real>): real
  {
    if xs == [] then 0.0 else xs[0] + Sum(xs[1..])
  }

  /** Some element is at least the average: n · x >= the total. */
  lemma {:induction false} SomeAtLeastAverage(xs: seq<real>) returns (i: nat)
    requires |xs| > 0
    ensures i < |xs| && |xs| as real * xs[i] >= Sum(xs)
  {
    if |xs| == 1 {
      i := 0;
    } else {
      var j := SomeAtLeastAverage(xs[1..]);
      var m := (|xs| - 1) as real;
      if xs[0] >= xs[j + 1] {
        i := 0;
        assert m * xs[0] >= m * xs[j + 1] by {
          assert m * xs[0] - m * xs[j + 1] == m * (xs[0] - xs[j + 1]);
        }
      } else {
        i := j + 1;
      }
      assert |xs| as real * xs[i] == xs[i] + m * xs[i];
    }
  }
}

=== FILE: stats_api.dfy ===
/** Site statistics (`/api/stats`): the summary every successful request
    returns, the role vote, and the visitor counters. */
module StatsApi {
  import opened Wrappers
  import opened OlympiadStore

  // ---------------------------------------------------------------------------
  // The summary
  // ---------------------------------------------------------------------------

  datatype RoleVotes = RoleVotes(estudiantes: int, maestros: int, padres: int, otros: int)

  datatype Summary = Summary(
    visitantes: int,
    visitantesHoy: int,
    visitantesSemana: int,
    estudiantes: int,
    maestros: int,
    padres: int,
    otros: int,
    participantesOlimpiadas: int,
    registrosHoy: int,
    roleVotes: RoleVotes)

  /** Today's date key and the keys of the seven days ending today, newest
      first, as the clock gives them. */
  datatype Clock = Clock(today: string, week: seq<string>)

  /** The sum of the daily visitor counters over the given days. */
  function WeeklyVisitors(daily: map<string, int>, days: seq<string>): int
  {
    if days == [] then 0 else Get(daily, days[0]) + WeeklyVisitors(daily, days[1..])
  }

  /** The vote counter a summary reports for a role name. */
  function VotesFor(v: RoleVotes, role: string): int
  {
    if role == "estudiantes" then v.estudiantes
    else if role == "maestros" then v.maestros
    else if role == "padres" then v.padres
    else if role == "otros" then v.otros
    else 0
  }

  function CountersOf(m: map<string, int>): (v: RoleVotes)
    ensures forall role :: role in RoleCounters ==> VotesFor(v, role) == Get(m, role)
  {
    RoleVotes(Get(m, "estudiantes"), Get(m, "maestros"), Get(m, "padres"), Get(m, "otros"))
  }

  /** `getCompleteStatistics`. */
  function Summarize(s: Store, clock: Clock): (r: Summary)
    ensures r.participantesOlimpiadas == |s.participantIds|
    ensures r.visitantes == s.visitorsTotal
    ensures r.visitantesHoy == Get(s.visitorsDaily, clock.today)
    ensures r.registrosHoy == Get(s.registrationsDaily, clock.today)
    ensures r.visitantesSemana == WeeklyVisitors(s.visitorsDaily, clock.week)
    ensures r.estudiantes == Get(s.statistics, "estudiantes") && r.maestros == Get(s.statistics, "maestros")
    ensures r.padres == Get(s.statistics, "padres") && r.otros == Get(s.statistics, "otros")
    ensures forall role :: role in RoleCounters ==>
      VotesFor(r.roleVotes, role) == Get(s.roleVotes, role)
  {
    var site := CountersOf(s.statistics);
    Summary(s.visitorsTotal, Get(s.visitorsDaily, clock.today),
            WeeklyVisitors(s.visitorsDaily, clock.week),
            site.estudiantes, site.maestros, site.padres, site.otros,
            |s.participantIds|, Get(s.registrationsDaily, clock.today),
            CountersOf(s.roleVotes))
  }

  /** `getDefaultStatistics`: every counter 0. */
  const Default := Summary(0, 0, 0, 0, 0, 0, 0, 0, 0, RoleVotes(0, 0, 0, 0))

  lemma {:induction false} WeeklyOfNothing(days: seq<string>)
    ensures WeeklyVisitors(map[], days) == 0
  {
    if days != [] {
      WeeklyOfNothing(days[1..]);
    }
  }

  /** The fallback summary is exactly the summary of a store nothing was ever
      written to. */
  lemma DefaultIsEmptySummary(clock: Clock)
    ensures Summarize(Empty, clock) == Default
  {
    WeeklyOfNothing(clock.week);
  }

  // ---------------------------------------------------------------------------
  // Writes
  // ---------------------------------------------------------------------------

  /** `handleRoleVote`: a vote for one of the four roles adds one to its vote
      counter and to its `site:statistics` counter; any other role is an
      error and nothing is written. */
  function Vote(s: Store, role: string): (r: Result<Store, string>)
    ensures r.Err? <==> role !in RoleCounters
    ensures r.Err? ==> r.error == "Rol no válido"
    ensures r.Ok? ==>
      && Get(r.value.roleVotes, role) == Get(s.roleVotes, role) + 1
      && Get(r.value.statistics, role) == Get(s.statistics, role) + 1
      && (forall k :: k != role ==> Get(r.value.roleVotes, k) == Get(s.roleVotes, k))
      && (forall k :: k != role ==> Get(r.value.statistics, k) == Get(s.statistics, k))
      && r.value.(roleVotes := s.roleVotes, statistics := s.statistics) == s
  {
    if role !in RoleCounters then Err("Rol no válido")
    else Ok(s.(roleVotes := Bump(s.roleVotes, role), statistics := Bump(s.statistics, role)))
  }

  /** `incrementVisitors`: the total and today's counter go up by one. */
  function IncrementVisitors(s: Store, today: string): (r: Store)
    ensures r.visitorsTotal == s.visitorsTotal + 1
    ensures Get(r.visitorsDaily, today) == Get(s.visitorsDaily, today) + 1
    ensures forall d :: d != today ==> Get(r.visitorsDaily, d) == Get(s.visitorsDaily, d)
    ensures r.(visitorsTotal := s.visitorsTotal, visitorsDaily := s.visitorsDaily) == s
  {
    s.(visitorsTotal := s.visitorsTotal + 1, visitorsDaily := Bump(s.visitorsDaily, today))
  }

  /** A visit adds to the weekly sum once for every time today appears in the
      week. */
  lemma {:induction false} VisitAddsToWeek(daily: map<string, int>, today: string, days: seq<string>)
    ensures WeeklyVisitors(Bump(daily, today), days) == WeeklyVisitors(daily, days) + Occurrences(days, today)
  {
    if days != [] {
      VisitAddsToWeek(daily, today, days[1..]);
    }
  }

  /** A visit counts once in today's figure, once in the total, and once in
      the week when the week lists today once. */
  lemma VisitCountsOnce(s: Store, clock: Clock)
    requires Occurrences(clock.week, clock.today) == 1
    ensures var before := Summarize(s, clock);
            var after := Summarize(IncrementVisitors(s, clock.today), clock);
            && after.visitantes == before.visitantes + 1
            && after.visitantesHoy == before.visitantesHoy + 1
            && after.visitantesSemana == before.visitantesSemana + 1
            && after.(visitantes := 0, visitantesHoy := 0, visitantesSemana := 0)
               == before.(visitantes := 0, visitantesHoy := 0, visitantesSemana := 0)
  {
    VisitAddsToWeek(s.visitorsDaily, clock.today, clock.week);
  }

  /** A valid vote shows up in the next summary: one more vote for that role
      and no change for the others. */
  lemma VoteShowsInSummary(s: Store, role: string, clock: Clock)
    requires role in RoleCounters
    ensures Vote(s, role).Ok?
    ensures forall other :: other in RoleCounters ==>
      VotesFor(Summarize(Vote(s, role).value, clock).roleVotes, other)
      == VotesFor(Summarize(s, clock).roleVotes, other) + (if other == role then 1 else 0)
  {
  }

  /** The visitor counters after `n` visits on the same day. */
  function Visits(s: Store, today: string, n: nat): Store
  {
    if n == 0 then s else IncrementVisitors(Visits(s, today, n - 1), today)
  }

  /** Every visit counts: after `n` visits the total and today's counter are
      `n` higher, from whatever they held, a counter never written included. */
  lemma {:induction false} VisitsCount(s: Store, today: string, n: nat)
    ensures Visits(s, today, n).visitorsTotal == s.visitorsTotal + n
    ensures Get(Visits(s, today, n).visitorsDaily, today) == Get(s.visitorsDaily, today) + n
  {
    if n > 0 {
      VisitsCount(s, today, n - 1);
    }
  }

  // ---------------------------------------------------------------------------
  // The reads as written
  // ---------------------------------------------------------------------------

  // Several reads apply their default to the promise `kv.get` returns rather
  // than to the value (`kv.get(k) || 0` inside `Promise.all`). A promise is
  // never falsy, so the default never applies, and a key never written reads
  // as null. The members below follow those reads; the ones above are the
  // intended reading, where a missing counter is 0, and are the ones the
  // handler uses.

  /** The reply as written: the counters, with the role-vote counters named
      in `nullVotes` sent as null. */
  datatype Reply = Reply(summary: Summary, nullVotes: set<string>)

  /** `getCompleteStatistics` as written. A `site:statistics` object never
      written reads as null, reading its counters throws, and the catch
      answers with the all-zero summary. A role-vote counter never written
      is `parseInt(null)`, NaN, which the JSON reply shows as null. The
      visitor and registration figures coerce NaN to 0 further on, as
      intended. Both writers of `site:statistics` add counters to it, so the
      object is missing exactly when its map is empty. */
  function SummarizeAsWritten(s: Store, clock: Clock): (r: Reply)
    ensures s.statistics == map[] ==> r == Reply(Default, {})
    ensures s.statistics != map[] ==> r.summary == Summarize(s, clock)
    ensures s.statistics != map[] ==>
      forall role :: role in r.nullVotes <==> role in RoleCounters && role !in s.roleVotes
  {
    if s.statistics == map[] then Reply(Default, {})
    else Reply(Summarize(s, clock), set role | role in RoleCounters && role !in s.roleVotes)
  }

  /** Once `site:statistics` exists and every role has a vote, the reply as
      written is the intended summary. */
  lemma AsWrittenAgreesOnceWritten(s: Store, clock: Clock)
    requires s.statistics != map[]
    requires forall role :: role in RoleCounters ==> role in s.roleVotes
    ensures SummarizeAsWritten(s, clock) == Reply(Summarize(s, clock), {})
  {
    var r := SummarizeAsWritten(s, clock);
    assert forall role :: role !in r.nullVotes;
  }

  /** Before the first vote or registration the reply as written is all
      zeros, whatever the visitor counters hold; the intended summary shows
      them. */
  lemma VisitorsHiddenBeforeFirstWrite(s: Store, clock: Clock)
    requires s.statistics == map[] && s.visitorsTotal > 0
    ensures SummarizeAsWritten(s, clock).summary.visitantes == 0
    ensures Summarize(s, clock).visitantes == s.visitorsTotal > 0
  {
  }

  /** A role nobody voted for is sent as null, where the intended summary
      shows 0. */
  lemma UnvotedRoleShowsNull(s: Store, clock: Clock, role: string)
    requires s.statistics != map[] && role in RoleCounters && role !in s.roleVotes
    ensures role in SummarizeAsWritten(s, clock).nullVotes
    ensures VotesFor(Summarize(s, clock).roleVotes, role) == 0
  {
  }

  /** One counter of `incrementVisitors` as written, None standing for null:
      `parseInt(v) + 1` of a number counts; of null it is NaN, which the
      store keeps as null again. */
  function IncrementCounterAsWritten(slot: Option<int>): (r: Option<int>)
    ensures r.Some? <==> slot.Some?
    ensures slot.Some? ==> r.value == slot.value + 1
  {
    match slot
    case None => None
    case Some(v) => Some(v + 1)
  }

  /** A counter after `n` visits, as written. */
  function CounterAfterVisitsAsWritten(slot: Option<int>, n: nat): Option<int>
  {
    if n == 0 then slot else IncrementCounterAsWritten(CounterAfterVisitsAsWritten(slot, n - 1))
  }

  /** `visitorStats.total || 0`: a null counter, NaN after `parseInt`, shows
      as 0. */
  function ShownCount(slot: Option<int>): (r: int)
    ensures slot.None? ==> r == 0
    ensures slot.Some? && slot.value != 0 ==> r == slot.value
  {
    if slot.Some? then slot.value else 0
  }

  /** As written, a visitor counter that was never written never starts: it
      stays null and shows 0 after any number of visits. Every day's counter
      starts unwritten, so today's figure and the week's stay 0. */
  lemma {:induction false} CounterNeverStarts(n: nat)
    ensures CounterAfterVisitsAsWritten(None, n) == None
    ensures ShownCount(CounterAfterVisitsAsWritten(None, n)) == 0
  {
    if n > 0 {
      CounterNeverStarts(n - 1);
    }
  }

  /** A counter holding a number counts every visit, as written too. */
  lemma {:induction false} WrittenCounterCounts(v: int, n: nat)
    ensures CounterAfterVisitsAsWritten(Some(v), n) == Some(v + n)
  {
    if n > 0 {
      WrittenCounterCounts(v, n - 1);
    }
  }

  // ---------------------------------------------------------------------------
  // The handler
  // ---------------------------------------------------------------------------

  datatype Request = Request(verb: string, action: Option<string>, role: Option<string>)

  datatype Body = NoBody | Stats(summary: Summary) | Problem(message: string)

  datatype Response = Response(status: nat, body: Body)

  function Handle(s: Store, req: Request, clock: Clock): (r: (Store, Response))
    ensures req.verb == "OPTIONS" ==> r == (s, Response(200, NoBody))
    ensures req.verb == "GET" ==> r == (s, Response(200, Stats(Summarize(s, clock))))
    ensures req.verb !in {"OPTIONS", "GET", "POST"} ==>
      r == (s, Response(405, Problem("Método no permitido")))
    ensures r.1.status == 200 ==> r.1.body == Stats(Summarize(r.0, clock)) || req.verb == "OPTIONS"
    ensures r.1.status != 200 ==> r.0 == s
    ensures req.verb == "POST" && req.action == Some("vote") && Present(req.role) ==>
      (r.1.status == 500 <==> req.role.value !in RoleCounters)
    ensures req.verb == "POST" && r.1.status == 400 <==>
      req.verb == "POST" && !(req.action == Some("vote") && Present(req.role))
      && req.action != Some("increment_visitors")
    ensures req.verb == "POST" && req.action == Some("vote") && Present(req.role) && req.role.value in RoleCounters ==>
      r.0 == Vote(s, req.role.value).value
    ensures req.verb == "POST" && req.action == Some("increment_visitors") ==>
      r.0 == IncrementVisitors(s, clock.today)
  {
    if req.verb == "OPTIONS" then (s, Response(200, NoBody))
    else if req.verb == "GET" then (s, Response(200, Stats(Summarize(s, clock))))
    else if req.verb == "POST" then
      if req.action == Some("vote") && Present(req.role) then
        match Vote(s, req.role.value)
        case Err(_) => (s, Response(500, Problem("Error interno del servidor")))
        case Ok(s') => (s', Response(200, Stats(Summarize(s', clock))))
      else if req.action == Some("increment_visitors") then
        var s' := IncrementVisitors(s, clock.today);
        (s', Response(200, Stats(Summarize(s', clock))))
      else (s, Response(400, Problem("Acción no válida")))
    else (s, Response(405, Problem("Método no permitido")))
  }

  /** No stats request touches the participant list or its total, so the
      two participant counts stay equal. */
  lemma HandleKeepsTotal(s: Store, req: Request, clock: Clock)
    requires TotalMatchesList(s)
    ensures TotalMatchesList(Handle(s, req, clock).0)
  {
    if req.verb == "POST" && req.action == Some("vote") && Present(req.role) && req.role.value in RoleCounters {
      assert req.role.value != TotalKey;
    }
  }
}

=== FILE: text.dfy ===
/** Strings as sequences of characters: whitespace trimming, splitting on a
    separator, substring search, case mapping for the Spanish alphabet, and
    decimal number literals. Shared by the Python and JavaScript models. */
module Text {
  import opened Wrappers
  import Numeric
  import Seqs

  // ---------------------------------------------------------------------------
  // Whitespace
  // ---------------------------------------------------------------------------

  /** The whitespace characters both Python's `str.strip` and JavaScript's `\s`
      and `trim` treat as blank (the ASCII ones plus the no-break space). */
  predicate IsSpace(c: char)
  {
    c == ' ' || c == '\t' || c == '\n' || c == '\r' || c == '\U{000B}' || c == '\U{000C}' || c == '\U{00A0}'
  }

  predicate IsBlank(s: string)
  {
    forall i :: 0 <= i < |s| ==> IsSpace(s[i])
  }

  /** Drops leading whitespace. */
  function TrimStart(s: string): (r: string)
    ensures |r| <= |s| && r == s[|s| - |r|..]
    ensures IsBlank(s[..|s| - |r|])
    ensures r == [] || !IsSpace(r[0])
  {
    if |s| > 0 && IsSpace(s[0]) then
      var r := TrimStart(s[1..]);
      PrefixAfterFirst(s, |s| - |r|);
      r
    else s
  }

  /** A prefix is the first character followed by a prefix of the rest. */
  lemma PrefixAfterFirst(s: string, n: nat)
    requires 0 < n <= |s|
    ensures s[..n] == [s[0]] + s[1..][..n - 1]
  {
  }

  /** Drops trailing whitespace. */
  function TrimEnd(s: string): (r: string)
    ensures |r| <= |s| && r == s[..|r|]
    ensures IsBlank(s[|r|..])
    ensures r == [] || !IsSpace(r[|r| - 1])
  {
    if |s| > 0 && IsSpace(s[|s| - 1]) then
      var r := TrimEnd(s[..|s| - 1]);
      assert s[|r|..] == s[..|s| - 1][|r|..] + [s[|s| - 1]];
      r
    else s
  }

  /** Python's `str.strip()` and JavaScript's `String.prototype.trim()`. */
  function Trim(s: string): (r: string)
    ensures r == [] || (!IsSpace(r[0]) && !IsSpace(r[|r| - 1]))
  {
    TrimEnd(TrimStart(s))
  }

  /** The trimmed text is a contiguous piece of the input and only whitespace
      was removed on either side. */
  lemma TrimIsInfix(s: string)
    ensures exists i, j :: 0 <= i <= j <= |s| && Trim(s) == s[i..j]
                           && IsBlank(s[..i]) && IsBlank(s[j..])
  {
    var t := TrimStart(s);
    var i := |s| - |t|;
    var k := |TrimEnd(t)|;
    SuffixSlices(s, i, k);
    assert Trim(s) == s[i..i + k];
    assert IsBlank(s[i + k..]);
  }

  /** Slicing a suffix is slicing the whole text further along. */
  lemma SuffixSlices(s: string, i: nat, k: nat)
    requires i + k <= |s|
    ensures s[i..][..k] == s[i..i + k] && s[i..][k..] == s[i + k..]
  {
  }

  /** The text trims to nothing exactly when it is all whitespace. */
  lemma {:induction false} TrimEmptyIffBlank(s: string)
    ensures Trim(s) == [] <==> IsBlank(s)
  {
    if IsBlank(s) {
      BlankTrimsAway(s);
    } else {
      var k :| 0 <= k < |s| && !IsSpace(s[k]);
      KeptCharacter(s, k);
    }
  }

  lemma BlankTrimsAway(s: string)
    requires IsBlank(s)
    ensures Trim(s) == []
  {
  }

  lemma KeptCharacter(s: string, k: nat)
    requires k < |s| && !IsSpace(s[k])
    ensures Trim(s) != []
  {
    var t := TrimStart(s);
    assert forall i :: 0 <= i < |s| - |t| ==> s[..|s| - |t|][i] == s[i];
    assert t != [] && !IsSpace(t[0]);
    assert t[0..] == t;
  }

  /** Trimming twice changes nothing more. */
  lemma TrimIdempotent(s: string)
    ensures Trim(Trim(s)) == Trim(s)
  {
    var r := Trim(s);
    if r != [] {
      assert !IsSpace(r[0]) && !IsSpace(r[|r| - 1]);
    }
  }

  /** Removes every whitespace character (JavaScript's `replace(/\s/g, '')`). */
  function RemoveSpaces(s: string): (r: string)
    ensures |r| <= |s|
    ensures forall i :: 0 <= i < |r| ==> !IsSpace(r[i])
    ensures forall c :: c in s && !IsSpace(c) ==> c in r
    ensures forall c :: c in r ==> c in s
  {
    if s == [] then []
    else (if IsSpace(s[0]) then [] else [s[0]]) + RemoveSpaces(s[1..])
  }

  // ---------------------------------------------------------------------------
  // Splitting and joining on a single separator character
  // ---------------------------------------------------------------------------

  /** Position of the first occurrence of `c`. */
  function IndexOf(s: string, c: char): (i: nat)
    requires c in s
    ensures i < |s| && s[i] == c && c !in s[..i]
  {
    if s[0] == c then 0 else 1 + IndexOf(s[1..], c)
  }

  /** Concatenation with the separator between consecutive pieces. */
  function Join(parts: seq<string>, sep: char): string
  {
    if |parts| == 0 then []
    else if |parts| == 1 then parts[0]
    else parts[0] + [sep] + Join(parts[1..], sep)
  }

  /** Python's `str.split(sep)` and JavaScript's `String.prototype.split(sep)`
      for a one-character separator: always at least one piece, empty pieces
      kept, and no piece contains the separator. */
  function Split(s: string, sep: char): (r: seq<string>)
    ensures |r| >= 1
    ensures forall k :: 0 <= k < |r| ==> sep !in r[k]
    ensures sep !in s <==> |r| == 1
    decreases |s|
  {
    if sep !in s then [s]
    else
      var i := IndexOf(s, sep);
      [s[..i]] + Split(s[i + 1..], sep)
  }

  /** Joining the pieces with the separator restores the text. */
  lemma {:induction false} JoinSplit(s: string, sep: char)
    ensures Join(Split(s, sep), sep) == s
    decreases |s|
  {
    if sep in s {
      JoinSplit(s[IndexOf(s, sep) + 1..], sep);
      SplitUnfold(s, sep);
      JoinStep(s, s[..IndexOf(s, sep)], Split(s[IndexOf(s, sep) + 1..], sep), s[IndexOf(s, sep) + 1..], sep);
    }
  }

  /** One more piece in front: joining it back restores the text around the
      separator. */
  lemma JoinStep(s: string, head: string, parts: seq<string>, rest: string, sep: char)
    requires |parts| >= 1 && Join(parts, sep) == rest
    requires |head| < |s| && s[|head|] == sep && s[..|head|] == head && s[|head| + 1..] == rest
    ensures Join([head] + parts, sep) == s
  {
    JoinCons(head, parts, sep);
    assert s == head + [sep] + rest;
  }

  lemma JoinCons(x: string, parts: seq<string>, sep: char)
    requires |parts| >= 1
    ensures Join([x] + parts, sep) == x + [sep] + Join(parts, sep)
  {
    assert ([x] + parts)[1..] == parts;
  }

  /** Splitting undoes joining pieces that do not contain the separator. */
  lemma {:induction false} SplitJoin(parts: seq<string>, sep: char)
    requires |parts| >= 1
    requires forall k :: 0 <= k < |parts| ==> sep !in parts[k]
    ensures Split(Join(parts, sep), sep) == parts
  {
    if |parts| == 1 {
    } else {
      var rest := Join(parts[1..], sep);
      assert Join(parts, sep) == parts[0] + [sep] + rest;
      SplitAtFirst(parts[0], sep, rest);
      SplitJoin(parts[1..], sep);
      assert parts == [parts[0]] + parts[1..];
    }
  }

  lemma {:induction false} IndexOfAfterFree(a: string, c: char, b: string)
    requires c !in a
    ensures c in a + [c] + b && IndexOf(a + [c] + b, c) == |a|
  {
    var s := a + [c] + b;
    assert s[|a|] == c;
    if a != [] {
      assert s[1..] == a[1..] + [c] + b;
      IndexOfAfterFree(a[1..], c, b);
    }
  }

  /** Splitting text that has a separator at a known place splits each side
      independently: the pieces of `a` followed by the pieces of `b`. */
  lemma {:induction false} SplitConcat(a: string, c: char, b: string)
    ensures Split(a + [c] + b, c) == Split(a, c) + Split(b, c)
    decreases |a|
  {
    if c !in a {
      SplitAtFirst(a, c, b);
      assert Split(a, c) == [a];
    } else {
      SplitInsidePrefix(a, c, b);
      SplitConcat(a[IndexOf(a, c) + 1..], c, b);
      Seqs.ConcatAssoc([a[..IndexOf(a, c)]], Split(a[IndexOf(a, c) + 1..], c), Split(b, c));
    }
  }

  lemma SplitAtFirst(a: string, c: char, b: string)
    requires c !in a
    ensures Split(a + [c] + b, c) == [a] + Split(b, c)
  {
    var s := a + [c] + b;
    IndexOfAfterFree(a, c, b);
    assert s[..|a|] == a;
    assert s[|a| + 1..] == b;
  }

  lemma SplitInsidePrefix(a: string, c: char, b: string)
    requires c in a
    ensures Split(a + [c] + b, c) == [a[..IndexOf(a, c)]] + Split(a[IndexOf(a, c) + 1..] + [c] + b, c)
    ensures Split(a, c) == [a[..IndexOf(a, c)]] + Split(a[IndexOf(a, c) + 1..], c)
  {
    SplitInsideJoined(a, c, b);
    SplitUnfoldAt(a, c, IndexOf(a, c));
  }

  /** A separator inside `a` splits `a + [c] + b` there. */
  lemma SplitInsideJoined(a: string, c: char, b: string)
    requires c in a
    ensures Split(a + [c] + b, c) == [a[..IndexOf(a, c)]] + Split(a[IndexOf(a, c) + 1..] + [c] + b, c)
  {
    SplitInsideLonger(a, [c] + b, c);
    Seqs.ConcatAssoc(a, [c], b);
    Seqs.ConcatAssoc(a[IndexOf(a, c) + 1..], [c], b);
  }

  /** A separator inside `a` splits `a + x` there. */
  lemma SplitInsideLonger(a: string, x: string, c: char)
    requires c in a
    ensures Split(a + x, c) == [a[..IndexOf(a, c)]] + Split(a[IndexOf(a, c) + 1..] + x, c)
  {
    var s := a + x;
    var i := IndexOf(a, c);
    IndexOfPrefix(a, x, c);
    SplitUnfoldAt(s, c, i);
    SliceAfterPrefix(a, x, i);
    assert Split(s[i + 1..], c) == Split(a[i + 1..] + x, c);
  }

  /** `SplitUnfold` with the separator's position named. */
  lemma SplitUnfoldAt(s: string, c: char, i: nat)
    requires c in s && i == IndexOf(s, c)
    ensures Split(s, c) == [s[..i]] + Split(s[i + 1..], c)
  {
    SplitUnfold(s, c);
    assert s[..i] == s[..IndexOf(s, c)];
    assert s[i + 1..] == s[IndexOf(s, c) + 1..];
  }

  /** One step of the split: the piece before the first separator, then
      the pieces of the rest. */
  lemma SplitUnfold(s: string, c: char)
    requires c in s
    ensures Split(s, c) == [s[..IndexOf(s, c)]] + Split(s[IndexOf(s, c) + 1..], c)
  {
  }

  /** Slicing a concatenation inside its first part. */
  lemma SliceAfterPrefix(a: string, x: string, i: nat)
    requires i < |a|
    ensures (a + x)[..i] == a[..i] && (a + x)[i + 1..] == a[i + 1..] + x
  {
  }

  lemma {:induction false} IndexOfPrefix(a: string, x: string, c: char)
    requires c in a
    ensures c in a + x && IndexOf(a + x, c) == IndexOf(a, c)
  {
    assert (a + x)[IndexOf(a, c)] == c;
    if a[0] != c {
      assert (a + x)[1..] == a[1..] + x;
      IndexOfPrefix(a[1..], x, c);
    }
  }

  // ---------------------------------------------------------------------------
  // Substrings
  // ---------------------------------------------------------------------------

  /** `sub` occurs in `s` at position `i`. */
  predicate OccursAt(sub: string, s: string, i: int)
  {
    0 <= i && i + |sub| <= |s| && s[i..i + |sub|] == sub
  }

  /** Python's `sub in s` and JavaScript's `s.includes(sub)`. */
  predicate Contains(s: string, sub: string)
  {
    exists i :: 0 <= i <= |s| && OccursAt(sub, s, i)
  }

  /** Some word of the list occurs in `s`. */
  predicate ContainsAny(s: string, words: seq<string>)
  {
    exists k :: 0 <= k < |words| && Contains(s, words[k])
  }

  /** A computable search for `sub` starting at `from`: the first position at
      or after `from` where it occurs. */
  function Find(s: string, sub: string, from: nat): (r: Option<nat>)
    ensures r.Some? ==> from <= r.value && OccursAt(sub, s, r.value)
                        && forall i :: from <= i < r.value ==> !OccursAt(sub, s, i)
    ensures r.None? ==> forall i :: from <= i ==> !OccursAt(sub, s, i)
    decreases |s| - from
  {
    if from + |sub| > |s| then None
    else if s[from..from + |sub|] == sub then Some(from)
    else Find(s, sub, from + 1)
  }

  /** The search agrees with the specification of containment. */
  lemma FindContains(s: string, sub: string)
    ensures Find(s, sub, 0).Some? <==> Contains(s, sub)
  {
  }

  /** JavaScript's `s.replace(sub, '')` with a string pattern: only the first
      occurrence is removed. */
  function RemoveFirst(s: string, sub: string): (r: string)
    ensures Find(s, sub, 0).None? ==> r == s
    ensures Find(s, sub, 0).Some? ==> |r| == |s| - |sub|
  {
    match Find(s, sub, 0)
    case None => s
    case Some(i) => s[..i] + s[i + |sub|..]
  }

  /** A position where `sub` occurs, with no occurrence before it, is what
      the search finds. */
  lemma FindFirstOccurrence(s: string, sub: string, k: nat)
    requires OccursAt(sub, s, k)
    requires forall i :: 0 <= i < k ==> !OccursAt(sub, s, i)
    ensures Find(s, sub, 0) == Some(k)
  {
  }

  // ---------------------------------------------------------------------------
  // Letters
  // ---------------------------------------------------------------------------

  predicate IsAsciiUpper(c: char) { 'A' <= c <= 'Z' }
  predicate IsAsciiLower(c: char) { 'a' <= c <= 'z' }

  /** The upper-case letters of the Spanish alphabet: A-Z and ÁÉÍÓÚÑ. */
  predicate IsSpanishUpper(c: char)
  {
    IsAsciiUpper(c) || c == 'Á' || c == 'É' || c == 'Í' || c == 'Ó' || c == 'Ú' || c == 'Ñ'
  }

  /** The lower-case letters of the Spanish alphabet: a-z and áéíóúñ. */
  predicate IsSpanishLower(c: char)
  {
    IsAsciiLower(c) || c == 'á' || c == 'é' || c == 'í' || c == 'ó' || c == 'ú' || c == 'ñ'
  }

  /** `toLowerCase` restricted to the Spanish alphabet; other characters are
      left alone. */
  function LowerChar(c: char): (r: char)
    ensures IsSpanishUpper(c) ==> IsSpanishLower(r)
    ensures !IsSpanishUpper(c) ==> r == c
  {
    if IsAsciiUpper(c) then (c as int + 32) as char
    else if c == 'Á' then 'á'
    else if c == 'É' then 'é'
    else if c == 'Í' then 'í'
    else if c == 'Ó' then 'ó'
    else if c == 'Ú' then 'ú'
    else if c == 'Ñ' then 'ñ'
    else c
  }

  /** `toUpperCase` restricted to the Spanish alphabet. */
  function UpperChar(c: char): (r: char)
    ensures IsSpanishLower(c) ==> IsSpanishUpper(r)
    ensures !IsSpanishLower(c) ==> r == c
  {
    if IsAsciiLower(c) then (c as int - 32) as char
    else if c == 'á' then 'Á'
    else if c == 'é' then 'É'
    else if c == 'í' then 'Í'
    else if c == 'ó' then 'Ó'
    else if c == 'ú' then 'Ú'
    else if c == 'ñ' then 'Ñ'
    else c
  }

  /** Upper-casing undoes lower-casing on upper-case letters, and conversely. */
  lemma CaseRoundTrip(c: char)
    ensures IsSpanishUpper(c) ==> UpperChar(LowerChar(c)) == c
    ensures IsSpanishLower(c) ==> LowerChar(UpperChar(c)) == c
  {
  }

  function ToLower(s: string): (r: string)
    ensures |r| == |s|
    ensures forall i :: 0 <= i < |s| ==> r[i] == LowerChar(s[i])
  {
    if s == [] then [] else [LowerChar(s[0])] + ToLower(s[1..])
  }

  function ToUpper(s: string): (r: string)
    ensures |r| == |s|
    ensures forall i :: 0 <= i < |s| ==> r[i] == UpperChar(s[i])
  {
    if s == [] then [] else [UpperChar(s[0])] + ToUpper(s[1..])
  }

  /** Upper-case text survives a trip through lower case. */
  lemma UpperTextRoundTrip(s: string)
    requires forall i :: 0 <= i < |s| ==> IsSpanishUpper(s[i])
    ensures ToUpper(ToLower(s)) == s
  {
    forall i | 0 <= i < |s|
      ensures ToUpper(ToLower(s))[i] == s[i]
    {
      CaseRoundTrip(s[i]);
    }
  }

  /** Lower-casing is idempotent. */
  lemma ToLowerIdempotent(s: string)
    ensures ToLower(ToLower(s)) == ToLower(s)
  {
  }

  // ---------------------------------------------------------------------------
  // Decimal numerals
  // ---------------------------------------------------------------------------

  predicate IsDigit(c: char) { '0' <= c <= '9' }

  predicate AllDigits(s: string)
  {
    forall i :: 0 <= i < |s| ==> IsDigit(s[i])
  }

  function DigitValue(c: char): (d: nat)
    requires IsDigit(c)
    ensures d < 10
  {
    (c as int - '0' as int)
  }

  function DigitChar(d: nat): (c: char)
    requires d < 10
    ensures IsDigit(c) && DigitValue(c) == d
  {
    ('0' as int + d) as char
  }

  /** The value of a string of digits read as a natural number. */
  function DigitsValue(ds: string): nat
    requires AllDigits(ds)
  {
    if ds == [] then 0 else 10 * DigitsValue(ds[..|ds| - 1]) + DigitValue(ds[|ds| - 1])
  }

  /** The value of the digits after a decimal point: 0.d1 d2 d3... */
  function FractionValue(ds: string): (v: real)
    requires AllDigits(ds)
    ensures 0.0 <= v <= 1.0
  {
    if ds == [] then 0.0 else (DigitValue(ds[0]) as real + FractionValue(ds[1..])) / 10.0
  }

  /** Length of the longest run of digits at the start of `s`. */
  function LeadingDigits(s: string): (k: nat)
    ensures k <= |s| && AllDigits(s[..k])
    ensures k < |s| ==> !IsDigit(s[k])
  {
    if s != [] && IsDigit(s[0]) then
      assert s[..1 + LeadingDigits(s[1..])] == [s[0]] + s[1..][..LeadingDigits(s[1..])];
      1 + LeadingDigits(s[1..])
    else 0
  }

  /** The sign and the unsigned rest of a numeral. */
  function SignOf(s: string): (r: (real, string))
    ensures r.0 == 1.0 || r.0 == -1.0
    ensures |r.1| <= |s|
  {
    if |s| > 0 && s[0] == '-' then (-1.0, s[1..])
    else if |s| > 0 && s[0] == '+' then (1.0, s[1..])
    else (1.0, s)
  }

  /** Some character of the text is a decimal digit. */
  predicate HasDigit(s: string)
  {
    exists i :: 0 <= i < |s| && IsDigit(s[i])
  }

  /** What follows the sign is the rest of the text. */
  lemma SignOfSuffix(s: string)
    ensures SignOf(s).1 == s[|s| - |SignOf(s).1|..]
  {
  }

  /** `sign * v` for the sign `SignOf` gives, written without a product. */
  function Signed(sign: real, v: real): real
  {
    if sign < 0.0 then -v else v
  }

  /** Decimal literal syntax: an optional sign, then digits with an optional
      fractional part, with at least one digit in total ("5", "-2.5", "3.",
      ".5"). Exponents, "inf" and "nan" are not part of this model. */
  predicate IsDecimalLiteral(s: string)
  {
    var body := SignOf(s).1;
    var k := LeadingDigits(body);
    (k == |body| && k > 0)
    || (k < |body| && body[k] == '.' && AllDigits(body[k + 1..]) && (k > 0 || k + 1 < |body|))
  }

  /** Python's `float(s)` on an already-stripped token, restricted to decimal
      literals: the value of the literal, or None where `float` raises. */
  function ParseDecimal(s: string): (r: Option<real>)
    ensures r.Some? <==> IsDecimalLiteral(s)
  {
    var (sign, body) := SignOf(s);
    var k := LeadingDigits(body);
    if k == |body| && k > 0 then Some(Signed(sign, DigitsValue(body) as real))
    else if k < |body| && body[k] == '.' && AllDigits(body[k + 1..]) && (k > 0 || k + 1 < |body|) then
      Some(Signed(sign, DigitsValue(body[..k]) as real + FractionValue(body[k + 1..])))
    else None
  }

  /** Ten to the power `e`, for any integer exponent. */
  function TenPow(e: int): (r: real)
    ensures r > 0.0
    decreases if e < 0 then -e else e
  {
    if e == 0 then 1.0
    else if e > 0 then 10.0 * TenPow(e - 1)
    else TenPow(e + 1) / 10.0
  }

  /** The exponent part at the start of `t`: `e` or `E`, an optional sign
      and at least one digit. None when `t` does not start with one, and
      `parseFloat` then stops before the letter. */
  function ExponentOf(t: string): (r: Option<int>)
  {
    if t == [] || (t[0] != 'e' && t[0] != 'E') then None
    else
      var (sign, digits) := SignOf(t[1..]);
      var d := LeadingDigits(digits);
      var v: int := DigitsValue(digits[..d]);
      if d == 0 then None else Some(if sign < 0.0 then -v else v)
  }

  /** The decimal digits at the start of an unsigned numeral: digits with an
      optional fraction, at least one digit in all. Their value and where
      they end, or None when there is no digit. */
  function Mantissa(body: string): (r: Option<(real, nat)>)
    ensures r.Some? ==> r.value.1 <= |body|
  {
    var k := LeadingDigits(body);
    var pointed := k < |body| && body[k] == '.';
    var m := if pointed then LeadingDigits(body[k + 1..]) else 0;
    var whole := DigitsValue(body[..k]) as real;
    if k == 0 && m == 0 then None
    else if m == 0 then Some((whole, if pointed then k + 1 else k))
    else Some((whole + FractionValue(body[k + 1..][..m]), k + 1 + m))
  }

  /** `v` with its decimal point moved `e` places to the right (to the left
      for a negative `e`), one place at a time. */
  function ShiftPoint(v: real, e: int): real
    decreases if e < 0 then -e else e
  {
    if e == 0 then v
    else if e > 0 then 10.0 * ShiftPoint(v, e - 1)
    else ShiftPoint(v, e + 1) / 10.0
  }

  /** Moving the point `e` places multiplies by ten to the `e`. */
  lemma {:induction false} ShiftPointIsProduct(v: real, e: int)
    ensures ShiftPoint(v, e) == v * TenPow(e)
    decreases if e < 0 then -e else e
  {
    if e > 0 {
      ShiftPointIsProduct(v, e - 1);
      var t := TenPow(e - 1);
      assert TenPow(e) == 10.0 * t && ShiftPoint(v, e) == 10.0 * (v * t);
      assert v * (10.0 * t) == 10.0 * (v * t);
    } else if e < 0 {
      ShiftPointIsProduct(v, e + 1);
      var t := TenPow(e + 1);
      assert TenPow(e) == t / 10.0 && ShiftPoint(v, e) == (v * t) / 10.0;
      assert v * (t / 10.0) == (v * t) / 10.0;
    }
  }

  /** A value scaled by an optional exponent part. */
  function Scaled(v: real, exponent: Option<int>): (r: real)
    ensures exponent.None? ==> r == v
  {
    if exponent.Some? then ShiftPoint(v, exponent.value) else v
  }

  /** JavaScript's `parseFloat(s)`: skips leading whitespace, then reads the
      longest prefix that is a decimal literal (an optional sign, digits with
      an optional fraction, at least one digit, then an optional exponent
      part); None stands for NaN. */
  function ParseFloat(s: string): (r: Option<real>)
  {
    var (sign, body) := SignOf(TrimStart(s));
    match Mantissa(body)
    case None => None
    case Some((v, end)) => Some(Signed(sign, Scaled(v, ExponentOf(body[end..]))))
  }

  /** Digits followed by something that cannot continue a numeral are read
      as a whole number ending there. */
  lemma MantissaOfDigits(digits: string, tail: string)
    requires AllDigits(digits) && digits != []
    requires tail == [] || (!IsDigit(tail[0]) && tail[0] != '.')
    ensures Mantissa(digits + tail) == Some((DigitsValue(digits) as real, |digits|))
  {
    ReadDigitsBefore(digits, tail);
  }

  /** On a whole decimal literal `parseFloat` and `float` agree. */
  lemma ParseFloatAgreesOnLiterals(s: string)
    requires IsDecimalLiteral(s) && (s == [] || !IsSpace(s[0]))
    ensures ParseFloat(s) == ParseDecimal(s)
  {
    assert TrimStart(s) == s;
    var body := SignOf(s).1;
    var k := LeadingDigits(body);
    assert body[..k] == body[..k];
    if k == |body| {
      assert body[..k] == body;
      assert body[k..] == [];
    } else {
      var frac := body[k + 1..];
      if frac != [] {
        assert LeadingDigits(frac) == |frac|;
        assert frac[..LeadingDigits(frac)] == frac;
      }
      assert body[k + 1 + LeadingDigits(frac)..] == [];
    }
  }

  /** `parseFloat` reads scientific notation: `<m>e<e>` is m times ten to
      the e. */
  lemma ParseFloatScientific(m: nat, e: int)
    ensures ParseFloat(ShowNat(m) + "e" + ShowInt(e)) == Some(m as real * TenPow(e))
  {
    ParseFloatShowsShift(m, e);
    ShiftPointIsProduct(m as real, e);
  }

  lemma ParseFloatShowsShift(m: nat, e: int)
    ensures ParseFloat(ShowNat(m) + "e" + ShowInt(e)) == Some(ShiftPoint(m as real, e))
  {
    ExponentOfShowInt(e);
    ScientificValue(ShowNat(m), "e" + ShowInt(e), m, e);
    Seqs.ConcatAssoc(ShowNat(m), "e", ShowInt(e));
  }

  /** Digits worth `m` followed by an exponent part worth `e`. */
  lemma ScientificValue(digits: string, tail: string, m: nat, e: int)
    requires AllDigits(digits) && digits != [] && tail != [] && tail[0] == 'e'
    requires DigitsValue(digits) == m && ExponentOf(tail) == Some(e)
    ensures ParseFloat(digits + tail) == Some(ShiftPoint(m as real, e))
  {
    ScientificParts(digits, tail);
  }

  /** Digits followed by an exponent part scale the digits' value. */
  lemma ScientificParts(digits: string, tail: string)
    requires AllDigits(digits) && digits != [] && tail != [] && tail[0] == 'e'
    ensures ParseFloat(digits + tail) == Some(Scaled(DigitsValue(digits) as real, ExponentOf(tail)))
  {
    var s := digits + tail;
    assert "" + s == s;
    SignedBody(false, s);
    MantissaOfDigits(digits, tail);
    assert s[|digits|..] == tail;
  }

  lemma ExponentOfShowInt(e: int)
    ensures ExponentOf("e" + ShowInt(e)) == Some(e)
  {
    var n: nat := if e < 0 then -e else e;
    var digits := ShowNat(n);
    assert ShowInt(e) == (if e < 0 then "-" else "") + digits;
    ExponentOfParts("e" + ShowInt(e), e < 0, digits);
  }

  /** An `e` followed by a signed run of digits is an exponent part worth
      the signed value of the digits. */
  lemma ExponentOfParts(t: string, negative: bool, digits: string)
    requires AllDigits(digits) && digits != []
    requires t == "e" + ((if negative then "-" else "") + digits)
    ensures var v: int := DigitsValue(digits);
      ExponentOf(t) == Some(if negative then -v else v)
  {
    assert t[1..] == (if negative then "-" else "") + digits;
    SignedBody(negative, digits);
    AllLeading(digits);
  }

  /** A run of digits is all leading digits. */
  lemma AllLeading(digits: string)
    requires AllDigits(digits)
    ensures LeadingDigits(digits) == |digits| && digits[..|digits|] == digits
  {
    assert digits + [] == digits;
    ReadDigitsBefore(digits, []);
  }

  /** Decimal representation of a natural number, without leading zeros. */
  function ShowNat(n: nat): (s: string)
    ensures |s| >= 1 && AllDigits(s)
    ensures DigitsValue(s) == n
    ensures n >= 10 ==> s[0] != '0'
  {
    if n < 10 then [DigitChar(n)]
    else
      var s := ShowNat(n / 10) + [DigitChar(n % 10)];
      assert s[..|s| - 1] == ShowNat(n / 10);
      s
  }

  /** `String(n)` on an integer. */
  function ShowInt(n: int): (s: string)
    ensures |s| >= 1
  {
    if n < 0 then "-" + ShowNat(-n) else ShowNat(n)
  }

  /** Reading back a printed integer gives the integer. */
  lemma ParseShowInt(n: int)
    ensures ParseDecimal(ShowInt(n)) == Some(n as real)
  {
    var s := ShowInt(n);
    var digits := ShowNat(if n < 0 then -n else n);
    assert SignOf(s).1 == digits;
    assert LeadingDigits(digits) == |digits|;
  }

  /** `parseFloat` reads a printed natural number back exactly. */
  lemma ParseFloatShowNat(n: nat)
    ensures ParseFloat(ShowNat(n)) == Some(n as real)
  {
    ParseShowInt(n);
    assert ShowInt(n) == ShowNat(n);
    ParseFloatAgreesOnLiterals(ShowNat(n));
  }

  /** JavaScript's `parseInt(s)` without a radix: skips leading whitespace and
      reads an optional sign. After `0x` or `0X` it reads the longest run of
      hexadecimal digits, and otherwise the longest run of decimal digits.
      None stands for NaN (no digit at all). */
  function ParseInt(s: string): (r: Option<int>)
    ensures r.Some? ==> HasDigit(s)
  {
    SignOfSuffix(TrimStart(s));
    var signed := SignOf(TrimStart(s));
    var body := signed.1;
    if HexPrefixed(body) then
      var k := LeadingHex(body[2..]);
      var v: int := HexValue(body[2..][..k]);
      if k == 0 then None else Some(if signed.0 < 0.0 then -v else v)
    else
      var k := LeadingDigits(body);
      var v: int := DigitsValue(body[..k]);
      if k == 0 then None else Some(if signed.0 < 0.0 then -v else v)
  }

  /** `0x` or `0X`: the prefix that makes `parseInt` read hexadecimal. */
  predicate HexPrefixed(body: string)
  {
    |body| >= 2 && body[0] == '0' && (body[1] == 'x' || body[1] == 'X')
  }

  /** `parseInt` reads a `0x` numeral in hexadecimal. */
  lemma ParseIntHex(n: nat, width: nat)
    requires 0 < width && n < Numeric.PowTwo(4 * width)
    ensures ParseInt("0x" + ShowHex(n, width)) == Some(n)
  {
    var h := ShowHex(n, width);
    var s := "0x" + h;
    TrimStartNoSpace(s);
    assert SignOf(s) == (1.0, s);
    assert s[2..] == h;
    assert h[..LeadingHex(h)] == h;
    HexRoundTrip(n, width);
  }

  /** `parseInt` reads a printed integer back exactly, and stops at the
      first character that is not a digit. */
  lemma ParseIntShowInt(n: int, rest: string)
    requires rest == [] || (!IsDigit(rest[0]) && (n != 0 || (rest[0] != 'x' && rest[0] != 'X')))
    ensures ParseInt(ShowInt(n) + rest) == Some(n)
  {
    if n < 0 {
      ParseIntNegative(n, rest);
    } else {
      ParseIntNonNegative(n, rest);
    }
  }

  lemma ParseIntNegative(n: int, rest: string)
    requires n < 0 && (rest == [] || !IsDigit(rest[0]))
    ensures ParseInt(ShowInt(n) + rest) == Some(n)
  {
    assert ShowNat(-n) != "0";
    Seqs.ConcatAssoc("-", ShowNat(-n), rest);
    ParseIntSigned(true, ShowNat(-n), rest, ShowInt(n) + rest);
  }

  lemma ParseIntNonNegative(n: nat, rest: string)
    requires rest == [] || (!IsDigit(rest[0]) && (n != 0 || (rest[0] != 'x' && rest[0] != 'X')))
    ensures ParseInt(ShowInt(n) + rest) == Some(n)
  {
    var s := ShowNat(n) + rest;
    assert "" + s == s;
    ParseIntSigned(false, ShowNat(n), rest, s);
  }

  lemma ParseIntSigned(negative: bool, digits: string, rest: string, s: string)
    requires AllDigits(digits) && digits != [] && (rest == [] || !IsDigit(rest[0]))
    requires digits == "0" && rest != [] ==> rest[0] != 'x' && rest[0] != 'X'
    requires s == (if negative then "-" else "") + (digits + rest)
    ensures var v: int := DigitsValue(digits);
      ParseInt(s) == Some(if negative then -v else v)
  {
    var body := digits + rest;
    assert !HexPrefixed(body) by {
      if |digits| == 1 {
        assert digits[0] == '0' ==> digits == "0";
      }
    }
    SignedBody(negative, body);
    ReadDigitsBefore(digits, rest);
    ParseIntOf(s, body, |digits|);
  }

  lemma SignedBody(negative: bool, body: string)
    requires body != [] && IsDigit(body[0])
    ensures var s := (if negative then "-" else "") + body;
      TrimStart(s) == s && SignOf(s) == (if negative then -1.0 else 1.0, body)
  {
    var s := (if negative then "-" else "") + body;
    assert s[0] == (if negative then '-' else body[0]);
    TrimStartNoSpace(s);
    if negative {
      assert s[1..] == body;
    }
  }

  /** `parseInt` on a text without leading blanks: the sign and the leading digits. */
  lemma ParseIntOf(s: string, body: string, k: nat)
    requires TrimStart(s) == s && SignOf(s).1 == body && !HexPrefixed(body) && LeadingDigits(body) == k > 0
    ensures var v: int := DigitsValue(body[..k]);
      ParseInt(s) == Some(if SignOf(s).0 < 0.0 then -v else v)
  {
  }

  /** A string with no blank at either end is its own trim. */
  lemma TrimUnpadded(s: string)
    requires s == [] || (!IsSpace(s[0]) && !IsSpace(s[|s| - 1]))
    ensures Trim(s) == s
  {
    TrimStartNoSpace(s);
  }

  lemma TrimStartNoSpace(s: string)
    requires s == [] || !IsSpace(s[0])
    ensures TrimStart(s) == s
  {
  }

  /** The leading digits of digits followed by a non-digit are those digits. */
  lemma ReadDigitsBefore(digits: string, rest: string)
    requires AllDigits(digits) && (rest == [] || !IsDigit(rest[0]))
    ensures LeadingDigits(digits + rest) == |digits|
    ensures (digits + rest)[..|digits|] == digits
  {
    if rest == [] {
      assert digits + rest == digits;
      assert LeadingDigits(digits) == |digits|;
    } else {
      LeadingDigitsBefore(digits, rest);
    }
  }

  // ---------------------------------------------------------------------------
  // Hexadecimal
  // ---------------------------------------------------------------------------

  predicate IsHexDigit(c: char)
  {
    IsDigit(c) || 'a' <= c <= 'f' || 'A' <= c <= 'F'
  }

  function HexDigitValue(c: char): (d: nat)
    requires IsHexDigit(c)
    ensures d < 16
  {
    if IsDigit(c) then DigitValue(c)
    else if 'a' <= c <= 'f' then c as int - 'a' as int + 10
    else c as int - 'A' as int + 10
  }

  /** The lower-case hexadecimal digit of `toString(16)`. */
  function HexDigitChar(d: nat): (c: char)
    requires d < 16
    ensures IsHexDigit(c) && HexDigitValue(c) == d
    ensures !('A' <= c <= 'F')
  {
    if d < 10 then DigitChar(d) else ('a' as int + d - 10) as char
  }

  predicate AllHex(s: string)
  {
    forall i :: 0 <= i < |s| ==> IsHexDigit(s[i])
  }

  /** Length of the longest run of hexadecimal digits at the start of `s`. */
  function LeadingHex(s: string): (k: nat)
    ensures k <= |s| && AllHex(s[..k])
    ensures k < |s| ==> !IsHexDigit(s[k])
  {
    if s != [] && IsHexDigit(s[0]) then
      assert s[..1 + LeadingHex(s[1..])] == [s[0]] + s[1..][..LeadingHex(s[1..])];
      1 + LeadingHex(s[1..])
    else 0
  }

  /** `parseInt(s, 16)` on a string of hex digits. */
  function HexValue(s: string): nat
    requires AllHex(s)
  {
    if s == [] then 0 else 16 * HexValue(s[..|s| - 1]) + HexDigitValue(s[|s| - 1])
  }

  /** `n.toString(16)` padded with zeros to `width` digits; all digits lower-case. */
  function ShowHex(n: nat, width: nat): (s: string)
    ensures |s| == width && AllHex(s)
    ensures forall i :: 0 <= i < |s| ==> !('A' <= s[i] <= 'F')
  {
    if width == 0 then []
    else
      var s := ShowHex(n / 16, width - 1) + [HexDigitChar(n % 16)];
      s
  }

  /** Printing then reading back in hex returns the number, when it fits. */
  lemma {:induction false} HexRoundTrip(n: nat, width: nat)
    requires n < Numeric.PowTwo(4 * width)
    ensures HexValue(ShowHex(n, width)) == n
  {
    if width > 0 {
      var s := ShowHex(n, width);
      assert s[..|s| - 1] == ShowHex(n / 16, width - 1);
      PowTwoStep(width - 1);
      HexRoundTrip(n / 16, width - 1);
    }
  }

  lemma PowTwoStep(k: nat)
    ensures Numeric.PowTwo(4 * (k + 1)) == 16 * Numeric.PowTwo(4 * k)
  {
    var m := 4 * k;
    assert 4 * (k + 1) == m + 4;
    assert Numeric.PowTwo(m + 4) == 2 * Numeric.PowTwo(m + 3);
    assert Numeric.PowTwo(m + 3) == 2 * Numeric.PowTwo(m + 2);
    assert Numeric.PowTwo(m + 2) == 2 * Numeric.PowTwo(m + 1);
    assert Numeric.PowTwo(m + 1) == 2 * Numeric.PowTwo(m);
  }

  // ---------------------------------------------------------------------------
  // Fixed-point printing
  // ---------------------------------------------------------------------------

  /** `num % 1 === 0`. */
  predicate IsInteger(v: real)
  {
    v == v.Floor as real
  }

  /** `toFixed(2)`: the sign, then |v| rounded to hundredths with halves
      rounded up, printed with exactly two decimals. JavaScript switches to
      exponent form from 10^21 on; the model keeps the decimal form. */
  function ShowFixed2(v: real): (s: string)
    ensures |s| >= 4 && (s[0] == '-' || IsDigit(s[0]))
  {
    (if v < 0.0 then "-" else "") + Fixed2Body(Hundredths(v))
  }

  /** |v| in hundredths, rounded half up. */
  function Hundredths(v: real): (n: nat)
    ensures Numeric.Abs(v) * 100.0 - 0.5 < n as real <= Numeric.Abs(v) * 100.0 + 0.5
  {
    var r := Numeric.Round(Numeric.Abs(v) * 100.0);
    assert r >= 0;
    r
  }

  /** The digits before a non-digit are the leading digits. */
  lemma {:induction false} LeadingDigitsBefore(ds: string, rest: string)
    requires AllDigits(ds) && rest != [] && !IsDigit(rest[0])
    ensures LeadingDigits(ds + rest) == |ds|
  {
    if ds != [] {
      assert (ds + rest)[1..] == ds[1..] + rest;
      LeadingDigitsBefore(ds[1..], rest);
    } else {
      assert ds + rest == rest;
    }
  }

  /** The unsigned part of `toFixed(2)`. */
  function Fixed2Body(n: nat): string
  {
    ShowNat(n / 100) + "." + [DigitChar((n % 100) / 10), DigitChar(n % 10)]
  }

  /** The unsigned part reads back as n hundredths. */
  lemma ReadFixed2Body(n: nat)
    ensures ParseDecimal(Fixed2Body(n)) == Some(n as real / 100.0)
  {
    var a := DigitChar((n % 100) / 10);
    var b := DigitChar(n % 10);
    ReadPointedParts(Fixed2Body(n), ShowNat(n / 100), [a, b]);
    TwoPlaces(a, b);
    HundredthsSum(n);
  }

  /** Whole digits, a point and fraction digits. */
  lemma ReadPointedParts(s: string, digits: string, frac: string)
    requires digits != [] && AllDigits(digits) && AllDigits(frac) && s == digits + ['.'] + frac
    ensures ParseDecimal(s) == Some(DigitsValue(digits) as real + FractionValue(frac))
  {
    PointedFacts(s, digits, frac);
    ReadPointed(s, |digits|);
  }

  lemma PointedFacts(s: string, digits: string, frac: string)
    requires digits != [] && AllDigits(digits) && AllDigits(frac) && s == digits + ['.'] + frac
    ensures LeadingDigits(s) == |digits| < |s| && IsDigit(s[0]) && s[|digits|] == '.'
    ensures s[..|digits|] == digits && s[|digits| + 1..] == frac
  {
    LeadingDigitsBefore(digits, ['.'] + frac);
    assert digits + (['.'] + frac) == s;
    assert s[0] == digits[0];
  }

  /** An unsigned numeral with digits before the point at `k`. */
  lemma ReadPointed(s: string, k: nat)
    requires 0 < k == LeadingDigits(s) && k < |s| && IsDigit(s[0]) && s[k] == '.'
    requires AllDigits(s[k + 1..])
    ensures ParseDecimal(s) == Some(DigitsValue(s[..k]) as real + FractionValue(s[k + 1..]))
  {
  }

  lemma TwoPlaces(a: char, b: char)
    requires IsDigit(a) && IsDigit(b)
    ensures FractionValue([a, b]) == (DigitValue(a) as real + DigitValue(b) as real / 10.0) / 10.0
  {
    assert [a, b][1..] == [b];
    assert FractionValue([b]) == DigitValue(b) as real / 10.0;
  }

  lemma HundredthsSum(n: nat)
    ensures (n / 100) as real + (((n % 100) / 10) as real + (n % 10) as real / 10.0) / 10.0 == n as real / 100.0
  {
    assert n == 100 * (n / 100) + 10 * ((n % 100) / 10) + n % 10;
  }

  /** `toFixed(2)` prints a number that reads back within half a hundredth
      of the value. */
  lemma ReadFixed2(v: real)
    ensures ParseDecimal(ShowFixed2(v)).Some?
    ensures Numeric.Abs(ParseDecimal(ShowFixed2(v)).value - v) <= 0.005
  {
    var n := Hundredths(v);
    var body := Fixed2Body(n);
    ReadFixed2Body(n);
    assert ShowFixed2(v) == (if v < 0.0 then "-" else "") + body;
    if v < 0.0 {
      assert body[0] == ShowNat(n / 100)[0];
      NegatedDecimal(body);
    } else {
      assert ShowFixed2(v) == body;
    }
  }

  /** `toFixed(2)` carries a minus sign exactly for a negative value and ends
      with a point and two digits. */
  lemma ShowFixed2Shape(v: real)
    ensures ShowFixed2(v)[0] == '-' <==> v < 0.0
    ensures var s := ShowFixed2(v); s[|s| - 3] == '.' && IsDigit(s[|s| - 2]) && IsDigit(s[|s| - 1])
  {
    var n := Hundredths(v);
    var digits := ShowNat(n / 100);
    assert ShowFixed2(v) == (if v < 0.0 then "-" else "") + digits + "." + [DigitChar((n % 100) / 10), DigitChar(n % 10)];
    assert IsDigit(digits[0]);
  }

  /** A minus sign in front of an unsigned numeral negates its value. */
  lemma NegatedDecimal(body: string)
    requires body != [] && IsDigit(body[0])
    ensures ParseDecimal("-" + body) ==
      if ParseDecimal(body).Some? then Some(-ParseDecimal(body).value) else None
  {
    assert ("-" + body)[1..] == body;
    assert SignOf("-" + body) == (-1.0, body);
    assert SignOf(body) == (1.0, body);
  }

  /** A printed number is made of digits, a minus sign and a decimal point only. */
  predicate NumeralChars(s: string)
  {
    forall i :: 0 <= i < |s| ==> IsDigit(s[i]) || s[i] == '-' || s[i] == '.'
  }

  lemma ShowIntChars(n: int)
    ensures NumeralChars(ShowInt(n))
  {
  }

  lemma ShowFixed2Chars(v: real)
    ensures NumeralChars(ShowFixed2(v))
  {
    var n := Hundredths(v);
    assert ShowFixed2(v) == (if v < 0.0 then "-" else "") + ShowNat(n / 100) + "." + [DigitChar((n % 100) / 10), DigitChar(n % 10)];
  }
}

=== FILE: trig_explorer.dfy ===
/** The unit-circle explorer: the current angle and its normalisation, the
    input clamps, arrow keys, the animation step and speed, the quadrant
    colours, the special-angle lookup and the inverse-function domain checks.
    Sines, cosines and drawing are not part of this model. */
module TrigExplorer {
  import opened Wrappers
  import Numeric

  // ---------------------------------------------------------------------------
  // Angles
  // ---------------------------------------------------------------------------

  /** `((degrees % 360) + 360) % 360` with JavaScript's sign-of-dividend `%`. */
  function Normalize(degrees: real): (r: real)
    ensures 0.0 <= r < 360.0
    ensures exists k: int :: degrees - r == Numeric.Turns(k)
  {
    var inner := Numeric.JsRem360(degrees);
    var r := Numeric.JsRem360(inner + 360.0);
    var k1 := Numeric.Trunc(degrees / 360.0);
    var k2 := Numeric.Trunc((inner + 360.0) / 360.0);
    assert degrees - r == Numeric.Turns(k1 + k2 - 1);
    r
  }

  /** An angle already in [0, 360) is its own normal form. */
  lemma NormalizeInRange(d: real)
    requires 0.0 <= d < 360.0
    ensures Normalize(d) == d
  {
    var inner := Numeric.JsRem360(d);
    var k := Numeric.Trunc(d / 360.0);
    assert k == 0;
    var k2 := Numeric.Trunc((d + 360.0) / 360.0);
    assert k2 == 1;
  }

  /** Normalising twice is normalising once. */
  lemma NormalizeIdempotent(d: real)
    ensures Normalize(Normalize(d)) == Normalize(d)
  {
    NormalizeInRange(Normalize(d));
  }

  /** Two angles a whole number of turns apart have the same normal form. */
  lemma NormalizeTurns(d: real, k: int)
    ensures Normalize(d + 360.0 * k as real) == Normalize(d)
  {
    var a := Normalize(d);
    var b := Normalize(d + 360.0 * k as real);
    var i: int :| d - a == Numeric.Turns(i);
    var j: int :| d + 360.0 * k as real - b == Numeric.Turns(j);
    assert a - b == 360.0 * (j - k - i) as real;
  }

  // ---------------------------------------------------------------------------
  // Quadrant colours
  // ---------------------------------------------------------------------------

  const Colors: seq<string> := ["#4ecdc4", "#ff6b6b", "#ffa726", "#667eea"]

  /** `Math.floor(degrees / 90) % 4`, with JavaScript's `%`. */
  function QuadrantIndex(degrees: real): (q: int)
    ensures -3 <= q <= 3
    ensures degrees >= 0.0 ==> 0 <= q <= 3
  {
    Numeric.JsIntRem((degrees / 90.0).Floor, 4)
  }

  /** `colors[quadrant]`: undefined (None) for an index outside the table. */
  function QuadrantColor(degrees: real): (c: Option<string>)
    ensures c.Some? <==> QuadrantIndex(degrees) >= 0
  {
    var q := QuadrantIndex(degrees);
    if 0 <= q < |Colors| then Some(Colors[q]) else None
  }

  /** On [0, 360] the index is the quarter the angle lies in, and 360 falls
      back into the first quarter. */
  lemma QuadrantOfRange(d: real)
    requires 0.0 <= d <= 360.0
    ensures 0 <= QuadrantIndex(d) <= 3
    ensures d < 360.0 ==> 90.0 * QuadrantIndex(d) as real <= d < 90.0 * (QuadrantIndex(d) + 1) as real
    ensures d == 360.0 ==> QuadrantIndex(d) == 0
  {
    var f := (d / 90.0).Floor;
    assert 0 <= f <= 4;
  }

  /** A negative angle down to -90 degrees gives index -1, which has no colour. */
  lemma QuadrantOfSmallNegative(d: real)
    requires -90.0 <= d < 0.0
    ensures QuadrantIndex(d) == -1 && QuadrantColor(d).None?
  {
    assert (d / 90.0).Floor == -1;
  }

  // ---------------------------------------------------------------------------
  // Special angles
  // ---------------------------------------------------------------------------

  const SpecialAngles: seq<int> := [0, 30, 45, 60, 90, 120, 135, 150, 180, 210, 225, 240, 270, 300, 315, 330, 360]

  /** Each listed angle is at least 15 degrees above the one before it. */
  lemma SpecialAnglesSpaced(i: nat, j: nat)
    requires i < j < |SpecialAngles|
    ensures SpecialAngles[j] - SpecialAngles[i] >= 15
  {
    if j > i + 1 {
      SpecialAnglesSpaced(i, j - 1);
    }
  }

  predicate Near(degrees: real, angle: int)
  {
    Numeric.Abs(degrees - angle as real) < 0.5
  }

  /** `specialAngles.find(...)`: the first listed angle within 0.5 degrees. */
  function FindSpecial(degrees: real, from: nat): (r: Option<int>)
    requires from <= |SpecialAngles|
    ensures r.Some? ==> r.value in SpecialAngles[from..] && Near(degrees, r.value)
    ensures r.None? ==> forall k :: from <= k < |SpecialAngles| ==> !Near(degrees, SpecialAngles[k])
    decreases |SpecialAngles| - from
  {
    if from == |SpecialAngles| then None
    else if Near(degrees, SpecialAngles[from]) then Some(SpecialAngles[from])
    else FindSpecial(degrees, from + 1)
  }

  function SpecialAngle(degrees: real): Option<int>
  {
    FindSpecial(degrees, 0)
  }

  /** No angle is within 0.5 degrees of two listed angles, so the first match
      is the only one. */
  lemma SpecialAngleUnique(degrees: real, i: nat, j: nat)
    requires i < |SpecialAngles| && j < |SpecialAngles|
    requires Near(degrees, SpecialAngles[i]) && Near(degrees, SpecialAngles[j])
    ensures i == j
  {
    if i < j {
      SpecialAnglesSpaced(i, j);
    } else if j < i {
      SpecialAnglesSpaced(j, i);
    }
  }

  /** A listed angle, looked up exactly, is found as itself. */
  lemma SpecialAngleFindsItself(k: nat)
    requires k < |SpecialAngles|
    ensures SpecialAngle(SpecialAngles[k] as real) == Some(SpecialAngles[k])
  {
    var a := SpecialAngles[k];
    var r := SpecialAngle(a as real);
    assert Near(a as real, a);
    assert r.Some?;
    var i :| 0 <= i < |SpecialAngles| && SpecialAngles[i] == r.value;
    SpecialAngleUnique(a as real, i, k);
  }

  datatype ExactValues = ExactValues(radians: string, sin: string, cos: string, tan: string)

  const NoValues := ExactValues("", "", "", "")

  /** `getSpecialAngleValues`: the exact values of a listed angle, and empty
      texts for anything else. */
  function SpecialValues(angle: int): ExactValues
  {
    match angle
    case 0 => ExactValues("0", "0", "1", "0")
    case 30 => ExactValues("π/6", "1/2", "√3/2", "√3/3")
    case 45 => ExactValues("π/4", "√2/2", "√2/2", "1")
    case 60 => ExactValues("π/3", "√3/2", "1/2", "√3")
    case 90 => ExactValues("π/2", "1", "0", "∞")
    case 120 => ExactValues("2π/3", "√3/2", "-1/2", "-√3")
    case 135 => ExactValues("3π/4", "√2/2", "-√2/2", "-1")
    case 150 => ExactValues("5π/6", "1/2", "-√3/2", "-√3/3")
    case 180 => ExactValues("π", "0", "-1", "0")
    case 210 => ExactValues("7π/6", "-1/2", "-√3/2", "√3/3")
    case 225 => ExactValues("5π/4", "-√2/2", "-√2/2", "1")
    case 240 => ExactValues("4π/3", "-√3/2", "-1/2", "√3")
    case 270 => ExactValues("3π/2", "-1", "0", "∞")
    case 300 => ExactValues("5π/3", "-√3/2", "1/2", "-√3")
    case 315 => ExactValues("7π/4", "-√2/2", "√2/2", "-1")
    case 330 => ExactValues("11π/6", "-1/2", "√3/2", "-√3/3")
    case 360 => ExactValues("2π", "0", "1", "0")
    case _ => NoValues
  }

  /** Exactly the listed angles have a table entry. */
  lemma SpecialValuesListed(angle: int)
    ensures SpecialValues(angle) != NoValues <==> angle in SpecialAngles
  {
  }

  /** The table agrees with the symmetries of the circle: sin(180 - a) = sin a
      and cos(360 - a) = cos a for every listed a up to 180. */
  lemma SpecialValuesSymmetric(k: nat)
    requires k < |SpecialAngles| && SpecialAngles[k] <= 180
    ensures 180 - SpecialAngles[k] in SpecialAngles && 360 - SpecialAngles[k] in SpecialAngles
    ensures SpecialValues(180 - SpecialAngles[k]).sin == SpecialValues(SpecialAngles[k]).sin
    ensures SpecialValues(360 - SpecialAngles[k]).cos == SpecialValues(SpecialAngles[k]).cos
  {
  }

  // ---------------------------------------------------------------------------
  // The explorer state
  // ---------------------------------------------------------------------------

  /** What `updateAngle` shows besides the trigonometric values: the degrees as
      given, the colours of the radius line, arc and point, and the special
      angle panel. */
  datatype View = View(shownDegrees: real, lineColor: Option<string>, arcColor: Option<string>,
                       pointColor: Option<string>, special: Option<int>)

  /** `animationAngle` is the angle a running animation advances. The source
      keeps it in a variable of the interval callback, copied from the current
      angle when the animation starts; a frame writes it into the current
      angle, so an angle set by other means while the animation runs is
      overwritten at the next frame. */
  datatype Explorer = Explorer(currentAngle: real, isAnimating: bool, animationSpeed: real,
                               animationAngle: real, view: View)

  /** `updateAngle` as written: the line and the arc take their colour from
      the degrees as passed in, the point from the normalised angle. */
  function UpdateAngleAsWritten(s: Explorer, degrees: real): (r: Explorer)
    ensures r.currentAngle == Normalize(degrees)
    ensures r.view.lineColor == QuadrantColor(degrees) && r.view.arcColor == QuadrantColor(degrees)
  {
    var angle := Normalize(degrees);
    s.(currentAngle := angle,
       view := View(degrees, QuadrantColor(degrees), QuadrantColor(degrees), QuadrantColor(angle), SpecialAngle(degrees)))
  }

  /** `updateAngle` with every colour taken from the normalised angle. */
  function UpdateAngle(s: Explorer, degrees: real): (r: Explorer)
    ensures r.currentAngle == Normalize(degrees)
    ensures r.view.lineColor.Some? && r.view.lineColor == r.view.arcColor == r.view.pointColor
    ensures r.isAnimating == s.isAnimating && r.animationSpeed == s.animationSpeed
    ensures r.animationAngle == s.animationAngle
  {
    var angle := Normalize(degrees);
    s.(currentAngle := angle,
       view := View(degrees, QuadrantColor(angle), QuadrantColor(angle), QuadrantColor(angle), SpecialAngle(degrees)))
  }

  /** Both versions agree whenever the degrees passed in are not negative. */
  lemma UpdateAngleAgrees(s: Explorer, degrees: real)
    requires 0.0 <= degrees < 360.0
    ensures UpdateAngleAsWritten(s, degrees) == UpdateAngle(s, degrees)
  {
    NormalizeInRange(degrees);
  }

  /** An inverse sine of a negative value passes a negative angle; as written
      the radius line then gets colour index -1, which is undefined. */
  lemma NegativeAngleLosesColour(s: Explorer, degrees: real)
    requires -90.0 <= degrees < 0.0
    ensures UpdateAngleAsWritten(s, degrees).view.lineColor.None?
    ensures UpdateAngle(s, degrees).view.lineColor.Some?
  {
    QuadrantOfSmallNegative(degrees);
  }

  /** The constructor's state, after its `updateAngle(0)`. */
  const InitialExplorer := UpdateAngle(Explorer(0.0, false, 2.0, 0.0, View(0.0, None, None, None, None)), 0.0)

  /** The typed value: `Math.max(0, Math.min(360, value || 0))`, NaN (None)
      and 0 both giving 0. */
  function ClampTyped(value: Option<real>): (r: real)
    ensures 0.0 <= r <= 360.0
    ensures value.Some? && 0.0 <= value.value <= 360.0 ==> r == value.value
  {
    var v := if value.Some? && value.value != 0.0 then value.value else 0.0;
    Numeric.Clamp(v, 0.0, 360.0)
  }

  /** Typing in the angle box (ignored while animating). */
  function TypeAngle(s: Explorer, value: Option<real>): (r: Explorer)
    ensures s.isAnimating ==> r == s
    ensures !s.isAnimating ==> r.view.shownDegrees == ClampTyped(value)
  {
    if s.isAnimating then s else UpdateAngle(s, ClampTyped(value))
  }

  /** Pressing Enter in the angle box applies the typed value even while animating. */
  function EnterAngle(s: Explorer, value: Option<real>): (r: Explorer)
    ensures r.view.shownDegrees == ClampTyped(value)
  {
    UpdateAngle(s, ClampTyped(value))
  }

  datatype Key = ArrowLeft | ArrowRight | ArrowUp | ArrowDown | Space | OtherKey

  /** The degrees an arrow key passes on: one or five steps, kept in [0, 360]. */
  function ArrowTarget(current: real, key: Key): (r: real)
    requires key in {ArrowLeft, ArrowRight, ArrowUp, ArrowDown}
    ensures 0.0 <= current <= 360.0 ==> 0.0 <= r <= 360.0
    ensures key == ArrowLeft ==> r == Numeric.Max(0.0, current - 1.0)
    ensures key == ArrowDown ==> r == Numeric.Max(0.0, current - 5.0)
    ensures key == ArrowRight ==> r == Numeric.Min(360.0, current + 1.0)
    ensures key == ArrowUp ==> r == Numeric.Min(360.0, current + 5.0)
  {
    match key
    case ArrowLeft => Numeric.Max(0.0, current - 1.0)
    case ArrowRight => Numeric.Min(360.0, current + 1.0)
    case ArrowUp => Numeric.Min(360.0, current + 5.0)
    case ArrowDown => Numeric.Max(0.0, current - 5.0)
  }

  /** The keyboard handler: only while the modal is open and nothing is animating. */
  function PressKey(s: Explorer, modalOpen: bool, key: Key): (r: Explorer)
    ensures !modalOpen || s.isAnimating || key == OtherKey ==> r == s
    ensures modalOpen && !s.isAnimating && key == Space ==> r.isAnimating
  {
    if !modalOpen || s.isAnimating then s
    else match key
      case Space => ToggleAnimation(s)
      case OtherKey => s
      case _ => UpdateAngle(s, ArrowTarget(s.currentAngle, key))
  }

  /** Arrow keys keep the current angle in [0, 360). */
  lemma ArrowKeepsRange(s: Explorer, modalOpen: bool, key: Key)
    requires 0.0 <= s.currentAngle < 360.0
    ensures 0.0 <= PressKey(s, modalOpen, key).currentAngle < 360.0
  {
  }

  /** `toggleAnimation`: starting copies the current angle into the
      animation's own angle; stopping only clears the flag. */
  function ToggleAnimation(s: Explorer): (r: Explorer)
    ensures r.isAnimating == !s.isAnimating
    ensures r.currentAngle == s.currentAngle && r.animationSpeed == s.animationSpeed && r.view == s.view
    ensures !s.isAnimating ==> r.animationAngle == s.currentAngle
  {
    if s.isAnimating then s.(isAnimating := false)
    else s.(isAnimating := true, animationAngle := s.currentAngle)
  }

  /** `setAnimationSpeed`: kept in [0.5, 10]. */
  function SetAnimationSpeed(s: Explorer, speed: real): (r: Explorer)
    ensures 0.5 <= r.animationSpeed <= 10.0
    ensures 0.5 <= speed <= 10.0 ==> r.animationSpeed == speed
    ensures r.currentAngle == s.currentAngle && r.isAnimating == s.isAnimating
  {
    s.(animationSpeed := Numeric.Clamp(speed, 0.5, 10.0))
  }

  /** The next angle of the animation: one speed step, back to 0 at a full turn. */
  function NextFrameAngle(angle: real, speed: real): (r: real)
    ensures angle + speed >= 360.0 ==> r == 0.0
    ensures angle + speed < 360.0 ==> r == angle + speed
  {
    var next := angle + speed;
    if next >= 360.0 then 0.0 else next
  }

  /** One animation frame: the animation's own angle advances, and the
      explorer shows it. */
  function AnimationFrame(s: Explorer): (r: Explorer)
    requires s.isAnimating && 0.0 <= s.animationAngle && s.animationSpeed > 0.0
    ensures 0.0 <= r.currentAngle < 360.0 && r.animationAngle == r.currentAngle
    ensures s.animationAngle + s.animationSpeed >= 360.0 ==> r.currentAngle == 0.0
    ensures s.animationAngle + s.animationSpeed < 360.0 ==> r.currentAngle == s.animationAngle + s.animationSpeed
    ensures r.isAnimating && r.animationSpeed == s.animationSpeed
  {
    var next := NextFrameAngle(s.animationAngle, s.animationSpeed);
    NormalizeInRange(next);
    UpdateAngle(s, next).(animationAngle := next)
  }

  /** The first frame after starting continues from the angle shown. */
  lemma StartContinuesFromShownAngle(s: Explorer)
    requires !s.isAnimating && 0.0 <= s.currentAngle && s.animationSpeed > 0.0
    ensures AnimationFrame(ToggleAnimation(s)).currentAngle == NextFrameAngle(s.currentAngle, s.animationSpeed)
  {
  }

  /** `goToSpecialAngle` and the marker clicks: ignored while animating. */
  function GoToAngle(s: Explorer, angle: int): (r: Explorer)
    ensures s.isAnimating ==> r == s
    ensures !s.isAnimating && 0 <= angle < 360 ==> r.currentAngle == angle as real
  {
    if s.isAnimating then s
    else
      if 0 <= angle < 360 then
        NormalizeInRange(angle as real);
        UpdateAngle(s, angle as real)
      else UpdateAngle(s, angle as real)
  }

  // ---------------------------------------------------------------------------
  // Inverse functions
  // ---------------------------------------------------------------------------

  datatype InverseFunction = Arcsin | Arccos | Arctan

  /** The function names `calculateInverseTrig` knows. */
  function InverseByName(name: string): Option<InverseFunction>
  {
    if name == "arcsin" then Some(Arcsin)
    else if name == "arccos" then Some(Arccos)
    else if name == "arctan" then Some(Arctan)
    else None
  }

  /** `calculateInverseTrig`: a value outside [-1, 1] for arcsin or arccos, or
      an unknown name, gives null and changes nothing; otherwise the angle
      `degreesOf` computes (the library's inverse function converted to
      degrees) is shown and returned. */
  function CalculateInverseTrig(s: Explorer, value: real, name: string,
                                degreesOf: (InverseFunction, real) -> real): (r: (Explorer, Option<real>))
    ensures InverseByName(name).None? ==> r == (s, None)
    ensures InverseByName(name) in {Some(Arcsin), Some(Arccos)} && (value < -1.0 || value > 1.0) ==> r == (s, None)
    ensures r.1.Some? ==> r.0 == UpdateAngle(s, r.1.value)
    ensures InverseByName(name) == Some(Arctan) ==> r.1.Some?
  {
    match InverseByName(name)
    case None => (s, None)
    case Some(f) =>
      if f != Arctan && (value < -1.0 || value > 1.0) then (s, None)
      else
        var result := degreesOf(f, value);
        (UpdateAngle(s, result), Some(result))
  }

  /** An angle entered, or shown by an inverse function, while the animation
      runs is shown until the next frame, which continues from the
      animation's own angle as if nothing had been entered. */
  lemma FrameOverwritesEnteredAngle(s: Explorer, value: Option<real>, x: real, name: string,
                                    degreesOf: (InverseFunction, real) -> real)
    requires s.isAnimating && 0.0 <= s.animationAngle && s.animationSpeed > 0.0
    ensures EnterAngle(s, value).view.shownDegrees == ClampTyped(value)
    ensures AnimationFrame(EnterAngle(s, value)).currentAngle == AnimationFrame(s).currentAngle
    ensures AnimationFrame(CalculateInverseTrig(s, x, name, degreesOf).0).currentAngle == AnimationFrame(s).currentAngle
  {
  }
}

=== FILE: visual_data.dfy ===
/** The chart-data script: turning the text typed in the browser into number
    series, the per-chart size rules, the bin counts, the pie-chart filter and
    the dispatch from a chart-type name to its renderer. Plotting itself is
    represented only by whether it completes. */
module VisualData {
  import opened Wrappers
  import opened Text
  import opened Seqs
  import Numeric

  /** The parsed data: `x,y;x,y` pairs, or one comma-separated series. */
  datatype DataResult = Pairs(xs: seq<real>, ys: seq<real>) | Single(values: seq<real>)

  // ---------------------------------------------------------------------------
  // Parsing
  // ---------------------------------------------------------------------------

  /** One `;`-separated piece: its first two comma fields, stripped and parsed;
      further fields are ignored. */
  function PairOf(piece: string): Option<(real, real)>
  {
    var fields := Split(piece, ',');
    if |fields| < 2 then None
    else match (ParseDecimal(Trim(fields[0])), ParseDecimal(Trim(fields[1])))
      case (Some(x), Some(y)) => Some((x, y))
      case _ => None
  }

  /** One comma token of a single series: blank tokens and tokens that do not
      parse are skipped. */
  function TokenValue(token: string): Option<real>
  {
    if Trim(token) == [] then None else ParseDecimal(Trim(token))
  }

  function Firsts(ps: seq<(real, real)>): (r: seq<real>)
    ensures |r| == |ps| && forall i :: 0 <= i < |ps| ==> r[i] == ps[i].0
  {
    if ps == [] then [] else [ps[0].0] + Firsts(ps[1..])
  }

  function Seconds(ps: seq<(real, real)>): (r: seq<real>)
    ensures |r| == |ps| && forall i :: 0 <= i < |ps| ==> r[i] == ps[i].1
  {
    if ps == [] then [] else [ps[0].1] + Seconds(ps[1..])
  }

  /** The values of a single series, in input order. */
  function SeriesValues(text: string): seq<real>
  {
    FilterMap(Split(text, ','), TokenValue)
  }

  /** The pairs of a pair-mode text, in input order. */
  function PairValues(text: string): seq<(real, real)>
  {
    FilterMap(Split(text, ';'), PairOf)
  }

  /** `DataProcessor.process_data`: None for blank text or when nothing
      parses; pair mode exactly when the text contains `;`. */
  function ProcessData(text: string): (r: Option<DataResult>)
    ensures IsBlank(text) ==> r.None?
    ensures r.Some? ==> (r.value.Pairs? <==> ';' in text)
    ensures r.Some? && r.value.Pairs? ==> |r.value.xs| == |r.value.ys| >= 1
    ensures r.Some? && r.value.Single? ==> |r.value.values| >= 1
  {
    TrimEmptyIffBlank(text);
    if Trim(text) == [] then None
    else if ';' in text then
      var ps := PairValues(text);
      if |ps| == 0 then None else Some(Pairs(Firsts(ps), Seconds(ps)))
    else
      var vs := SeriesValues(text);
      if |vs| == 0 then None else Some(Single(vs))
  }

  /** In single mode the result holds exactly the values of the tokens that
      parse, and fails exactly when no token parses. */
  lemma ProcessDataSeries(text: string)
    requires !IsBlank(text) && ';' !in text
    ensures ProcessData(text).Some? <==> SomeTokenReads(Split(text, ','))
    ensures ProcessData(text).Some? ==> ProcessData(text).value == Single(SeriesValues(text))
    ensures ProcessData(text).Some? ==> forall v :: v in ProcessData(text).value.values <==>
              TokenYields(Split(text, ','), v)
  {
    SeriesModeResult(text);
    SomeTokenIff(Split(text, ','));
    SeriesMembers(Split(text, ','));
  }

  /** Some comma token parses. */
  predicate SomeTokenReads(tokens: seq<string>)
  {
    exists i :: 0 <= i < |tokens| && TokenValue(tokens[i]).Some?
  }

  /** Some comma token parses to `v`. */
  predicate TokenYields(tokens: seq<string>, v: real)
  {
    exists i :: 0 <= i < |tokens| && TokenValue(tokens[i]) == Some(v)
  }

  lemma SeriesModeResult(text: string)
    requires !IsBlank(text) && ';' !in text
    ensures ProcessData(text) == if SeriesValues(text) == [] then None else Some(Single(SeriesValues(text)))
  {
    TrimEmptyIffBlank(text);
  }

  lemma SomeTokenIff(tokens: seq<string>)
    ensures FilterMap(tokens, TokenValue) != [] <==> SomeTokenReads(tokens)
  {
    FilterMapNonEmpty(tokens, TokenValue);
    if SomeTokenReads(tokens) {
      var i :| 0 <= i < |tokens| && TokenValue(tokens[i]).Some?;
      assert (TokenValue)(tokens[i]).Some?;
    }
  }

  lemma SeriesMembers(tokens: seq<string>)
    ensures forall v :: v in FilterMap(tokens, TokenValue) <==> TokenYields(tokens, v)
  {
    forall v
      ensures v in FilterMap(tokens, TokenValue) <==> TokenYields(tokens, v)
    {
      if TokenYields(tokens, v) {
        var i :| 0 <= i < |tokens| && TokenValue(tokens[i]) == Some(v);
        assert (TokenValue)(tokens[i]) == Some(v);
      }
    }
  }

  /** In pair mode x and y come from the same piece at every index, and the
      result fails exactly when no piece yields a pair. */
  lemma ProcessDataPairs(text: string)
    requires !IsBlank(text) && ';' in text
    ensures ProcessData(text).Some? <==> SomePieceReads(Split(text, ';'))
    ensures ProcessData(text).Some? ==>
              var d := ProcessData(text).value;
              forall k :: 0 <= k < |d.xs| ==>
                exists i :: 0 <= i < |Split(text, ';')| && PairOf(Split(text, ';')[i]) == Some((d.xs[k], d.ys[k]))
  {
    PairModeResult(text);
    SomePiecePairs(Split(text, ';'));
    PairsFromPieces(Split(text, ';'));
  }

  /** Some `;`-separated piece yields a pair. */
  predicate SomePieceReads(pieces: seq<string>)
  {
    exists i :: 0 <= i < |pieces| && PairOf(pieces[i]).Some?
  }

  lemma SomePiecePairs(pieces: seq<string>)
    ensures FilterMap(pieces, PairOf) != [] <==> SomePieceReads(pieces)
  {
    FilterMapNonEmpty(pieces, PairOf);
    if exists i :: 0 <= i < |pieces| && PairOf(pieces[i]).Some? {
      var i :| 0 <= i < |pieces| && PairOf(pieces[i]).Some?;
      assert (PairOf)(pieces[i]).Some?;
    }
  }

  lemma PairModeResult(text: string)
    requires !IsBlank(text) && ';' in text
    ensures ProcessData(text) ==
      if PairValues(text) == [] then None
      else Some(Pairs(Firsts(PairValues(text)), Seconds(PairValues(text))))
  {
    TrimEmptyIffBlank(text);
  }

  /** Each kept pair comes whole from one piece. */
  lemma PairsFromPieces(pieces: seq<string>)
    ensures var ps := FilterMap(pieces, PairOf);
      forall k :: 0 <= k < |ps| ==>
        exists i :: 0 <= i < |pieces| && PairOf(pieces[i]) == Some((Firsts(ps)[k], Seconds(ps)[k]))
  {
    var ps := FilterMap(pieces, PairOf);
    forall k | 0 <= k < |ps|
      ensures exists i :: 0 <= i < |pieces| && PairOf(pieces[i]) == Some((Firsts(ps)[k], Seconds(ps)[k]))
    {
      assert (Firsts(ps)[k], Seconds(ps)[k]) == ps[k];
      FilterMapSource(pieces, PairOf, k);
    }
  }

  /** Concatenating two comma lists concatenates their series: nothing is
      reordered and each token is judged on its own. */
  lemma SeriesValuesConcat(a: string, b: string)
    ensures SeriesValues(a + "," + b) == SeriesValues(a) + SeriesValues(b)
  {
    assert a + "," + b == a + [','] + b;
    SplitConcat(a, ',', b);
    FilterMapAppend(Split(a, ','), Split(b, ','), TokenValue);
  }

  /** Nothing is dropped from a list whose every token parses. */
  lemma SeriesKeepsAllParsable(text: string)
    requires forall i :: 0 <= i < |Split(text, ',')| ==> TokenValue(Split(text, ',')[i]).Some?
    ensures |SeriesValues(text)| == |Split(text, ',')|
  {
    FilterMapKeepsAll(Split(text, ','), TokenValue);
  }

  /** `process_labels`: None for blank text or when every token is blank,
      otherwise the stripped non-blank tokens in order. */
  function ProcessLabels(text: string): (r: Option<seq<string>>)
    ensures IsBlank(text) ==> r.None?
    ensures r.Some? ==> r.value == FilterMap(Split(text, ','), LabelOf) && |r.value| >= 1
  {
    TrimEmptyIffBlank(text);
    if Trim(text) == [] then None
    else
      var labels := FilterMap(Split(text, ','), LabelOf);
      if labels == [] then None else Some(labels)
  }

  /** Every label is non-empty and already stripped, and each is the
      stripped form of a token of the input. */
  lemma LabelsStrippedNonEmpty(text: string, k: nat)
    requires ProcessLabels(text).Some? && k < |ProcessLabels(text).value|
    ensures ProcessLabels(text).value[k] != []
    ensures Trim(ProcessLabels(text).value[k]) == ProcessLabels(text).value[k]
    ensures exists i :: 0 <= i < |Split(text, ',')| && Trim(Split(text, ',')[i]) == ProcessLabels(text).value[k]
  {
    FilterMapSource(Split(text, ','), LabelOf, k);
  }

  function LabelOf(token: string): (r: Option<string>)
    ensures r.Some? ==> r.value != [] && r.value == Trim(token) && Trim(r.value) == r.value
  {
    TrimIdempotent(token);
    if Trim(token) == [] then None else Some(Trim(token))
  }

  // ---------------------------------------------------------------------------
  // Validation
  // ---------------------------------------------------------------------------

  /** The fewest values a one-series chart of the given type needs; types not
      listed accept any series. */
  function MinSeriesLength(chartType: string): nat
  {
    if chartType == "line" || chartType == "scatter" then 2
    else if chartType == "bar" || chartType == "pie" then 1
    else if chartType == "histogram" || chartType == "box" then 3
    else 0
  }

  /** `validate_data_for_chart_type`: missing data fails, pair data passes,
      and a single series passes when it is long enough for the chart type. */
  function ValidateData(data: Option<DataResult>, chartType: string): (ok: bool)
    ensures data.None? ==> !ok
    ensures data.Some? && data.value.Pairs? ==> ok
    ensures data.Some? && data.value.Single? ==> (ok <==> |data.value.values| >= MinSeriesLength(chartType))
  {
    match data
    case None => false
    case Some(Pairs(_, _)) => true
    case Some(Single(vs)) =>
      if chartType in {"line", "scatter"} then |vs| >= 2
      else if chartType in {"bar", "pie"} then |vs| >= 1
      else if chartType in {"histogram", "box"} then |vs| >= 3
      else true
  }

  /** Whatever `process_data` returns passes the validator for bar and pie
      charts and for types without a rule. */
  lemma ParsedDataValidForBarAndPie(text: string, chartType: string)
    requires ProcessData(text).Some?
    requires MinSeriesLength(chartType) <= 1
    ensures ValidateData(ProcessData(text), chartType)
  {
  }

  /** A longer series never fails where a shorter one passes. */
  lemma ValidateMonotone(vs: seq<real>, ws: seq<real>, chartType: string)
    requires |vs| <= |ws|
    requires ValidateData(Some(Single(vs)), chartType)
    ensures ValidateData(Some(Single(ws)), chartType)
  {
  }

  // ---------------------------------------------------------------------------
  // Bin counts
  // ---------------------------------------------------------------------------

  /** The histogram's Sturges bin count `max(5, min(20, ceil(log2 n + 1)))`
      for n values (n >= 1, since parsing never yields an empty series). */
  function SturgesBins(n: nat): (b: nat)
    requires n >= 1
    ensures 5 <= b <= 20
  {
    var k := Numeric.CeilLog2(n) + 1;
    if k < 5 then 5 else if k > 20 then 20 else k
  }

  /** The count is 5 for up to 16 values and 20 from 2^18 + 1 values on. */
  lemma SturgesBinsEnds(n: nat)
    requires n >= 1
    ensures SturgesBins(n) == 5 <==> n <= 16
    ensures SturgesBins(n) == 20 <==> n > Numeric.PowTwo(18)
  {
    var k := Numeric.CeilLog2(n);
    assert Numeric.PowTwo(4) == 16;
    if n <= 16 {
      Numeric.CeilLog2Least(n, 4);
    } else if k <= 4 {
      Numeric.PowTwoMonotone(k, 4);
    }
    if n > Numeric.PowTwo(18) {
      if k < 19 {
        Numeric.PowTwoMonotone(k, 18);
      }
    } else {
      Numeric.CeilLog2Least(n, 18);
    }
  }

  /** More data never means fewer bins. */
  lemma SturgesBinsMonotone(n: nat, m: nat)
    requires 1 <= n <= m
    ensures SturgesBins(n) <= SturgesBins(m)
  {
    Numeric.CeilLog2Monotone(n, m);
  }

  /** The box plot's side histogram: `max(5, min(20, n // 3))`. */
  function BoxBins(n: nat): (b: nat)
    ensures 5 <= b <= 20
    ensures b == 5 <==> n < 18
    ensures b == 20 <==> n >= 60
    ensures 5 < b < 20 ==> b == n / 3
  {
    var k := n / 3;
    if k < 5 then 5 else if k > 20 then 20 else k
  }

  // ---------------------------------------------------------------------------
  // The pie chart's 1% filter
  // ---------------------------------------------------------------------------

  function AbsAll(vs: seq<real>): (r: seq<real>)
    ensures |r| == |vs| && forall i :: 0 <= i < |vs| ==> r[i] == Numeric.Abs(vs[i])
  {
    if vs == [] then [] else [Numeric.Abs(vs[0])] + AbsAll(vs[1..])
  }

  /** The magnitudes the pie is drawn from: the y column of pairs, or the series. */
  function PieValues(d: DataResult): seq<real>
  {
    match d
    case Pairs(_, ys) => AbsAll(ys)
    case Single(vs) => AbsAll(vs)
  }

  /** Which slices are significant: at least 1% of the total. */
  function SignificantMask(values: seq<real>): (mask: seq<bool>)
    ensures |mask| == |values|
    ensures forall i :: 0 <= i < |values| ==> (mask[i] <==> values[i] >= Sum(values) * 0.01)
  {
    seq(|values|, i requires 0 <= i < |values| => values[i] >= Sum(values) * 0.01)
  }

  /** The slices kept by the filter, in order: one per significant value,
      the value at position `i` landing after those significant before it. */
  function PieSlices(values: seq<real>): (r: seq<real>)
    ensures |r| <= |values|
    ensures |r| == Seqs.CountTrue(SignificantMask(values))
    ensures forall v :: v in r ==> v >= Sum(values) * 0.01 && v in values
    ensures forall i :: 0 <= i < |values| && values[i] >= Sum(values) * 0.01 ==>
      Seqs.CountTrue(SignificantMask(values)[..i]) < |r| && r[Seqs.CountTrue(SignificantMask(values)[..i])] == values[i]
  {
    var mask := SignificantMask(values);
    assert mask[..Seqs.Min(|values|, |mask|)] == mask;
    Seqs.FilterByMaskAll(values, mask);
    FilterByMask(values, mask)
  }

  /** A slice label: one the user typed, or the generated "Categoría n". */
  datatype SliceLabel = Given(text: string) | Category(number: nat)

  /** Labels for the kept slices: the typed labels at significant positions
      (typed labels beyond the values are dropped), or "Categoría 1..k" when no
      labels were typed. */
  function PieLabels(labels: Option<seq<string>>, values: seq<real>): (r: seq<SliceLabel>)
    ensures labels.None? ==> |r| == |PieSlices(values)|
    ensures labels.None? ==> forall i :: 0 <= i < |r| ==> r[i] == Category(i + 1)
    ensures labels.Some? ==> |r| <= |values| && forall l :: l in r ==> l.Given?
    ensures labels.Some? && |labels.value| >= |values| ==> |r| == |PieSlices(values)|
    ensures labels.Some? ==> forall i :: 0 <= i < |labels.value| && i < |values| && values[i] >= Sum(values) * 0.01 ==>
      Seqs.CountTrue(SignificantMask(values)[..i]) < |r|
      && r[Seqs.CountTrue(SignificantMask(values)[..i])] == Given(labels.value[i])
  {
    match labels
    case None => seq(|PieSlices(values)|, i requires 0 <= i => Category(i + 1))
    case Some(ls) =>
      var mask := SignificantMask(values);
      assert |ls| >= |values| ==> mask[..Seqs.Min(|ls|, |mask|)] == mask;
      Seqs.FilterByMaskAll(ls, mask);
      GivenLabels(FilterByMask(ls, mask))
  }

  function GivenLabels(ls: seq<string>): (r: seq<SliceLabel>)
    ensures |r| == |ls| && forall i :: 0 <= i < |ls| ==> r[i] == Given(ls[i])
  {
    seq(|ls|, i requires 0 <= i < |ls| => Given(ls[i]))
  }

  /** With at most 100 values the pie is never empty: the largest magnitude is
      at least the average and so at least 1% of the total. */
  lemma {:induction false} PieNeverEmpty(values: seq<real>)
    requires 1 <= |values| <= 100
    requires forall i :: 0 <= i < |values| ==> values[i] >= 0.0
    ensures |PieSlices(values)| >= 1
  {
    var i := SomeAtLeastAverage(values);
    var n := |values| as real;
    OnePercentOfAverage(values[i], n, Sum(values));
    var mask := SignificantMask(values);
    assert mask[i];
    assert mask[..Seqs.Min(|values|, |mask|)] == mask;
    CountTruePositive(mask, i);
  }

  lemma OnePercentOfAverage(v: real, n: real, total: real)
    requires v >= 0.0 && n <= 100.0 && n * v >= total
    ensures v >= total * 0.01
  {
    Numeric.MulLeftMonotone(v, n, 100.0);
    assert v * n == n * v;
  }

  // ---------------------------------------------------------------------------
  // Dispatch
  // ---------------------------------------------------------------------------

  datatype ChartKind = Line | Bar | Histogram | Scatter | Pie | Box

  /** The six-entry table from type name to renderer. */
  function ChartKindOf(name: string): Option<ChartKind>
  {
    if name == "line" then Some(Line)
    else if name == "bar" then Some(Bar)
    else if name == "histogram" then Some(Histogram)
    else if name == "scatter" then Some(Scatter)
    else if name == "pie" then Some(Pie)
    else if name == "box" then Some(Box)
    else None
  }

  function ChartName(k: ChartKind): string
  {
    match k
    case Line => "line"
    case Bar => "bar"
    case Histogram => "histogram"
    case Scatter => "scatter"
    case Pie => "pie"
    case Box => "box"
  }

  /** The table holds exactly the six names, each naming its own renderer. */
  lemma ChartTableExact(name: string)
    ensures ChartKindOf(name).Some? <==> exists k: ChartKind :: ChartName(k) == name
    ensures ChartKindOf(name).Some? ==> ChartName(ChartKindOf(name).value) == name
  {
    if ChartKindOf(name).None? {
      forall k: ChartKind ensures ChartName(k) != name {
      }
    } else {
      var k := ChartKindOf(name).value;
      assert ChartName(k) == name;
    }
  }

  /** What `generate_visualization` did: its result and which renderer, if
      any, it called. */
  datatype Outcome = Outcome(success: bool, rendered: Option<ChartKind>)

  /** A renderer: it fails when the data does not parse; otherwise it succeeds
      when plotting completes (`plotCompletes` stands for the plotting library). */
  function Render(kind: ChartKind, data: string, plotCompletes: bool): bool
  {
    ProcessData(data).Some? && plotCompletes
  }

  /** `generate_visualization`: the type is lower-cased and stripped and the
      data stripped; an empty type or empty data fails; an unknown type fails
      without calling any renderer; otherwise the renderer's result. */
  function GenerateVisualization(chartType: string, chartData: string, plotCompletes: bool): (o: Outcome)
    ensures o.rendered.Some? ==> o.rendered == ChartKindOf(Trim(ToLower(chartType)))
    ensures o.rendered.None? ==> !o.success
    ensures o.rendered.Some? <==> ChartKindOf(Trim(ToLower(chartType))).Some? && Trim(chartData) != []
  {
    var t := Trim(ToLower(chartType));
    var d := Trim(chartData);
    if t == [] then Outcome(false, None)
    else if d == [] then Outcome(false, None)
    else match ChartKindOf(t)
      case None => Outcome(false, None)
      case Some(k) => Outcome(Render(k, d, plotCompletes), Some(k))
  }

  /** The visualisation succeeds exactly when the type is one of the six, the
      stripped data parses and plotting completes. */
  lemma GenerateSucceedsIff(chartType: string, chartData: string, plotCompletes: bool)
    ensures GenerateVisualization(chartType, chartData, plotCompletes).success <==>
              ChartKindOf(Trim(ToLower(chartType))).Some? && ProcessData(Trim(chartData)).Some? && plotCompletes
  {
    var d := Trim(chartData);
    if d == [] {
      assert IsBlank(d);
    }
  }
}

=== FILE: wrappers.dfy ===
/** Failure-carrying result types shared by every module of the model. */
module Wrappers {

  /** A value that may be absent: JavaScript's `null`/`undefined`/`NaN`, Python's `None`. */
  datatype Option<+T> = None | Some(value: T) {
    function GetOr(default: T): T {
      match this
      case Some(v) => v
      case None => default
    }
  }

  /** The outcome of an operation that can throw or be rejected with a message. */
  datatype Result<+T, +E> = Ok(value: T) | Err(error: E)
}
